=== FILE: README.md ===
# r4s, modelled in Dafny

r4s is a blog engine: posts written in markdown are read into a
PostgreSQL database by an importer, a web server renders the posts, their
tags, comments and Atom feeds in English or Swedish, a command-line tool
moderates the comments readers post, and two browser scripts add an image
lightbox and a theme switch with a "share on fediverse" dialog to every
page.  This project models the logic of that system that does not depend on
the database, the network or the DOM, and proves what it promises.

The modules follow the source files:

- `Slug`, `MyLang`, `DateTime`, `Post`, `Comment`, `Teaser`, `SafeMarkdown`
  and `Fluent` are the models (`src/models/`): slugs, the two languages,
  dates and the age rule for comments, post and comment links, teasers, and
  the rendering of comment markdown.  `OldModels` is the older snapshot of
  the same, where slugs and languages were plain strings.
- `ReadFiles`, `Html`, `CodeBlocks`, `Summary` and `ContentMarkdown` are the
  importer (`src/readfiles/`): the header of a post file, link extensions,
  the teaser cut, the serialisation of markdown events into the site's HTML,
  the plain-text summary, and the newer content loader.  `ImgCli` is the
  markup for images on the image server; `ReadComments` imports comments
  from a dump; `ModComments` is the moderation command.
- `ServerError`, `ServerLanguage`, `Csrf`, `TagCloud`, `Feeds`,
  `ServerComment` and `Server` are the web server's own decisions
  (`src/server/`).
- `Kratsbox` and `Site` are the two browser scripts (`res/js/`).
- `Wrappers`, `Strings`, `Ints`, `Seqs`, `Escape`, `CmarkOld` and `CmarkNew`
  are shared: `Option`/`Result`, string helpers (with UTF-8 byte lengths
  where the source counts bytes), the fixed-width integers and their
  truncating casts, HTML escaping, and the two shapes of the markdown
  library's event stream (end events carrying the whole tag in the older
  version, only the element kind in the newer one).

Calls into code outside the model (the markdown parser, the syntax
highlighter, the date parser, the message catalogue, the cipher behind the
CSRF tokens, the URL parser) are parameters of the operations that use
them; "now" is a parameter wherever the source reads the clock.

Three behaviours of the browser scripts are easy to misread and are stated
as the code has them:

- Tab on the lightbox's close button moves to the "prev" button, then
  "next", then back to close (`Kratsbox.Tab`, res/js/kratsbox.js:81-84).
- Closing the lightbox gives the focus to the link of the image shown
  last, not to the one first clicked (`Kratsbox.CloseFocusesShown`,
  res/js/kratsbox.js:145-149).
- A tag's hashtag in the share text has only its first run of white space
  turned into a dash, since the pattern has no `g` flag (`Site.DashFirstOnly`,
  res/js/site.js:70).

## Model

| member | source | states |
|---|---|---|
| Slug.RestOk | src/models/slug.rs:52 | true exactly when every char is an ASCII letter or digit or a `-` |
| Slug.Verify | src/models/slug.rs:49-53 | a slug is nonempty, starts with an ASCII letter or digit, and has only ASCII letters, digits and `-` after that (both directions) |
| Slug.VerifiedIsPathSafe | src/models/slug.rs:49-53 | a valid slug holds no `.`, `/`, `#`, `?`, quote or white space, so it can sit in a path before `.lang` |
| Slug.Parse | src/models/slug.rs:38-47 | parsing succeeds exactly for valid slugs and keeps the string as given |
| Slug.FromSql | src/models/slug.rs:15-26 | a database value becomes a slug exactly when it is valid; otherwise the error is `Bad slug` and the quoted value |
| Slug.ParseDisplay | src/models/slug.rs:27-47 | the displayed text of a slug parses back to the same slug |
| MyLang.Code | src/models/mylang.rs:36-48 | each language's code, the same for `as_ref` and `Display`, is two lowercase ASCII letters |
| MyLang.Parse | src/models/mylang.rs:16-25 | exactly `en` and `sv` parse, to the language with that code; anything else is `BadLang` holding the input |
| MyLang.Message | src/models/mylang.rs:27-34 | the error text is `Bad language ` and the input quoted as `{:?}` writes it for printable chars, ending in a quote; the quoted part reads back to the input |
| Strings.UnquoteDebug | src/models/mylang.rs:27-34 | a string quoted as `{:?}` writes it for printable chars reads back to the same string |
| MyLang.FromSql | src/models/mylang.rs:50-56 | a database value is read by the same parse, and a refusal is reported by its message |
| MyLang.ParseCode | src/models/mylang.rs:16-43 | parsing a language's code gives the language back |
| MyLang.CodeInjective | src/models/mylang.rs:36-43 | two languages with the same code are the same language |
| DateTime.OldAge | src/models/datetime.rs:32-40 | the age is present exactly when at least 3653 whole days have passed; it is then at least 10 and is the days times 1000 divided by 365240, rounded down |
| DateTime.OldAgeStaysOld | src/models/datetime.rs:32-40 | a post that is too old stays too old, and its age never shrinks, as the clock moves on |
| DateTime.ToCivil | src/models/datetime.rs:25-27 | the calendar breakdown of an instant is a valid date and time of day; `DateTime.ToCivilInverse` ties it back to the instant |
| DateTime.ToCivilInverse | src/models/datetime.rs:25-27 | the day number of the breakdown, its hour and minute give back the instant to the minute |
| DateTime.YearAndDayNumber | src/models/datetime.rs:25-27 | finding the year of a day count keeps the day number: days before the year found plus the day within it |
| DateTime.MonthAndDayNumber | src/models/datetime.rs:25-27 | finding the month of a day of the year keeps the day number: days before the month plus the day within it |
| DateTime.WrapI16 | src/models/datetime.rs:25-27 | `as i16` keeps years in range and otherwise gives the value congruent modulo 65536 within the signed 16-bit range |
| DateTime.Year | src/models/datetime.rs:25-27 | the year of an instant, equal to its calendar year whenever that fits in 16 bits |
| DateTime.Pad | src/models/datetime.rs:43-47 | zero padding gives digits whose decimal value is the number, at least the width asked for, exactly that width when the number fits |
| DateTime.YearText | src/models/datetime.rs:43-47 | `%Y` of a year from 0 to 9999 is four digits worth the year; a negative year is `-` and the digits of its magnitude; a year past 9999 is `+` and its digits |
| DateTime.ClockText | src/models/datetime.rs:43-47 | `%H:%M` is five chars, the colon in the middle, the first two digits worth the hour and the last two the minute |
| DateTime.Display | src/models/datetime.rs:43-47 | in years 0 to 9999 the display is sixteen chars `YYYY-MM-DD HH:MM` whose five digit groups are worth the year, month, day, hour and minute of the instant |
| DateTime.EpochIsNewYear1970 | src/models/datetime.rs:43-47 | instant zero displays as 1970-01-01 00:00 |
| Comment.HtmlId | src/models/comment.rs:23-25 | the fragment id is `c` and then lowercase hex digits whose value is the id's 32-bit pattern, with no leading zero unless the pattern is zero, and holds no `#` |
| Comment.HtmlIdInjective | src/models/comment.rs:23-25 | distinct comment ids give distinct fragment ids |
| Comment.LinkName | src/models/comment.rs:54-65 | without a url the name is written escaped; with one, the escaped name sits inside an author link whose href is the escaped url, and neither value can leave its place |
| Comment.Url | src/models/comment.rs:90-92 | a comment's URL is its post's URL, then a `#` that is the last one, then the comment's fragment id |
| Comment.Excerpt | src/models/comment.rs:104-108 | the cut is a prefix of at most the byte limit on a char boundary, moved back to just before the last space in it when there is one |
| Comment.TextStart | src/models/comment.rs:96-111 | content under 200 bytes is shown as it is; longer content is its 120-byte excerpt, escaped, followed by ` …` |
| Comment.ExcerptIsShortPrefix | src/models/comment.rs:104-109 | the text shown before ` …` is a prefix of the content of at most 120 bytes |
| Post.PagePath | src/models/post.rs:17-22 | a post's path is `/`, the year and `/`, then exactly the slug, then `.` and the language |
| Post.PagePathInjective | src/models/post.rs:17-22 | posts of the same year and language have the same path only when they have the same slug |
| Post.SlugsAndNames | src/models/post.rs:35-43 | the slug and name of every tag, in the tags' order |
| Post.TagLinks | src/models/post.rs:35-43 | one tag link per tag, in the tags' order |
| Post.RestLinksJoin | src/models/post.rs:44-51 | the first link followed by a comma and a link for each later tag is the comma join of all links |
| Post.TaggedLoopJoin | src/models/post.rs:44-53 | the tag loop writes a space, the tagged message, the comma-separated links, and a full stop |
| Post.Publine | src/models/post.rs:23-55 | the publication line is the posted message, the updated message only when the post changed after publication, and the tagged part only when there are tags |
| ContentMarkdown.UncutPageHasNoMore | src/readfiles/markdown.rs:268-316 | a page loaded without a cut has a teaser that is its whole body, so the teaser row built from it shows no "read more" |
| Teaser.WithTags | src/models/teaser.rs:142-162 | one teaser per pair of post row and tag group, in order, with the post's own flag and its comment count cast to 32 bits |
| Teaser.Publine | src/models/teaser.rs:165-167 | a teaser's publication line starts with the posted-at message of its post, holds the `rel='tag'` link of every tag of the teaser, and ends with `.` when there are tags |
| Teaser.ReadmoreMessage | src/models/teaser.rs:168-183 | one of the four messages; the title argument is present exactly when there is more text and the count exactly when there are comments |
| Teaser.Readmore | src/models/teaser.rs:168-183 | the link text is `read-more-comments` with title and count, `read-more` with the title, `read-comments` with the count or `comment-first`, as there is more text and as there are comments, looked up in the post's language |
| Teaser.ReadmoreKeyDecides | src/models/teaser.rs:168-183 | the message chosen tells both whether there is more text and whether there are comments |
| OldModels.LangFilter | src/models.rs:132-138 | a row's post is kept exactly when it is in the requested language or the post has no version in that language, and nothing else is kept |
| OldModels.LangFilterAppend | src/models.rs:132-138 | the filter decides row by row, so filtering two runs of rows is filtering each |
| OldModels.SameLangListed | src/models.rs:133 | a post in the requested language is never filtered out |
| OldModels.Recent | src/models.rs:109-144 | the first `limit` posts the filter keeps, in order, each with its own tags |
| OldModels.Tagged | src/models.rs:145-181 | every post the filter keeps, in order, each with its own tags |
| OldModels.WithTags | src/models.rs:140-143 | each post paired with the tags of its id, in order |
| OldModels.UrlOfLink | src/models.rs:91-93 | a post and a link to it have the same URL |
| OldModels.SlugsAndNames | src/models.rs:198-217 | the slug and name of every tag, in order |
| OldModels.Publine | src/models.rs:185-221 | a language that does not load gives no line; otherwise the posted message, the updated message only for a post changed after publication, and, only with tags, the tagged message and comma-separated links without `rel` and a full stop |
| OldModels.CommentUrl | src/models.rs:358-360 | the post URL, a last `#`, and the comment's fragment id |
| OldModels.TextStart | src/models.rs:373-385 | text under 100 bytes as it is; longer text is its 90-byte excerpt, unescaped, followed by ` …` |
| ReadComments.Parse | src/readcomments.rs:115-128 | a reference parses exactly when it matches `/` four digits `/` slug `.` language; the year is the digits' value; anything else is the error `Bad post` |
| ReadComments.NoOtherDot | src/readcomments.rs:118 | when the split at the first dot after the year fails the pattern, so does every split at a later dot |
| ReadComments.ParseSerialize | src/readcomments.rs:115-139 | serialising a reference with a four-digit year and admissible slug and language, then parsing, gives it back |
| ReadComments.SerializeMatches | src/readcomments.rs:134-139 | the serialised form matches the pattern and its year digits are the year's decimal text |
| ReadComments.SlugLangUnique | src/readcomments.rs:118 | slug and language joined with a dot split back in only one way |
| ReadComments.SerializeParse | src/readcomments.rs:115-139 | a parsed reference serialises back to the text, unless its year had a leading zero |
| ReadComments.Html | src/readcomments.rs:99-103 | a comment's HTML is the rendering of its parsed markdown with raw HTML rewritten away, so it comes from an event stream with no raw HTML event in it |
| ReadComments.ImportRow | src/readcomments.rs:40-52 | the inserted row is public, belongs to the post found, keeps the markdown and the commenter's fields, and holds the rendering of the comment's rewritten markdown, which has no raw HTML |
| ReadComments.ImportStep | src/readcomments.rs:31-53 | a first inserted row followed by the rows of the rest are the rows of the whole dump |
| ReadComments.Import | src/readcomments.rs:27-55 | the comments are inserted in order; the first one whose post is missing stops the import, and the rows before it stay |
| CodeBlocks.PreOpen | src/readfiles/codeblocks.rs:83-93 | a block without language opens with `<pre>`; with one, the language is an escaped `data-lang` attribute |
| CodeBlocks.ForKind | src/readfiles/codeblocks.rs:16-29 | `!leaflet` gives a map block, any other `!` language an error, and every other block a code block that is highlighted exactly when the highlighter knows its language |
| CodeBlocks.Push | src/readfiles/codeblocks.rs:67-110 | map code is copied as it is, highlighted code is held for the highlighter, and other code is escaped into the output |
| CodeBlocks.End | src/readfiles/codeblocks.rs:73-116 | a map ends with the script end; a code block ends with `</pre>` and a newline after any highlighted markup |
| CodeBlocks.PushAll | src/readfiles/codeblocks.rs:101-110 | pushing several pieces keeps the handler's kind and language, and escapes or copies their concatenation |
| CodeBlocks.PushStep | src/readfiles/codeblocks.rs:101-110 | pushing a first piece and then the rest writes the whole |
| CodeBlocks.PlainBlock | src/readfiles/codeblocks.rs:83-116 | a block no highlighter knows is the start tag, the escaped code and the end tag, and unescaping gives the code back |
| CodeBlocks.LeafletBlock | src/readfiles/codeblocks.rs:21-22 | a map block is the script start, the code as it is, and the script end |
| SafeMarkdown.Hl | src/models/markdown.rs:45-54 | any number up to 1 is level 1, any from 6 up is level 6, and 2 to 5 are their own level |
| SafeMarkdown.HlOfLevel | src/models/markdown.rs:35-54 | turning a heading level into its number and back gives the same level |
| SafeMarkdown.Rewrite | src/models/markdown.rs:7-29 | one event out per event in; raw HTML, block or inline, comes out as text of the same content; every heading starts at level 3 or deeper, keeping its id, classes and attributes; other events pass unchanged |
| SafeMarkdown.SafeMd2Html | src/models/markdown.rs:4-33 | the HTML is written from a stream as long as the parsed one in which no raw HTML event is left |
| SafeMarkdown.RewriteAt | src/models/markdown.rs:7-29 | each output event is the rewrite of its input event under the shift the earlier events left |
| SafeMarkdown.ShiftGrows | src/models/markdown.rs:17 | the shift never decreases |
| SafeMarkdown.ShiftBounded | src/models/markdown.rs:5-17 | starting from no shift, the shift stays between 0 and 2 |
| SafeMarkdown.ShiftUnchanged | src/models/markdown.rs:10-17 | only heading starts change the shift |
| SafeMarkdown.EndLevelMatchesStart | src/models/markdown.rs:16-27 | a heading's end tag gets the same level as its start tag |
| SafeMarkdown.DeeperStaysDeeper | src/models/markdown.rs:16-19 | a heading at least as deep as an earlier one is still rendered at least as deep |
| SafeMarkdown.TopHeadingsPushedDown | src/models/markdown.rs:72-86 | a level-1 and a level-2 heading become levels 3 and 4 |
| SafeMarkdown.DeepHeadingsKept | src/models/markdown.rs:87-101 | headings at levels 3 and 4 stay there |
| SafeMarkdown.RawHtmlBecomesText | src/models/markdown.rs:56-70 | inline tags and a script block come out as text events |
| Summary.Collapse | src/readfiles/summary.rs:75 | collapsing keeps text nonempty and leaves a first char that is not white space in place |
| Summary.Squeeze | src/readfiles/summary.rs:75 | the scan never lengthens the text and writes one space for a run of white space |
| Summary.SqueezeIsCollapsed | src/readfiles/summary.rs:75 | what the scan writes has no two white space chars in a row and no white space other than a space |
| Summary.CollapseIsCollapsed | src/readfiles/summary.rs:75 | the result of the collapse is collapsed |
| Summary.CollapseChars | src/readfiles/summary.rs:75 | every char of the result other than a space comes from the input |
| Summary.CollapseLast | src/readfiles/summary.rs:75 | text that ends in a non-space still ends in a non-space after the collapse |
| Summary.SqueezeKeepsText | src/readfiles/summary.rs:75 | the scan keeps every char that is not white space, in order |
| Summary.CollapseKeepsText | src/readfiles/summary.rs:75 | the collapse keeps every char that is not white space, in order |
| Summary.CollapseCollapsed | src/readfiles/summary.rs:75 | collapsed text is left as it is |
| Summary.CollapseIdempotent | src/readfiles/summary.rs:75 | collapsing twice is collapsing once |
| Summary.CodeText | src/readfiles/summary.rs:21-29 | a code block adds its escaped text up to its end; any other event in it is an error |
| Summary.SkipImage | src/readfiles/summary.rs:33-39 | an image is skipped up to and including its end, or to the end of the stream |
| Summary.Piece | src/readfiles/summary.rs:14-72 | what each event adds: escaped text and code, nothing for a heading start, `: ` after a heading, a space for raw HTML, a box for a task marker, an error for a footnote reference, and a panic for a stray code block end |
| Summary.Gather | src/readfiles/summary.rs:12-74 | text gathered from markup-free text stays free of markup |
| Summary.Collect | src/readfiles/summary.rs:7-76 | the summary succeeds exactly when gathering the events does, and is then the gathered text trimmed and collapsed: the same non-space chars in the same order, plain text with no markup, no white space at either end |
| Summary.ImageDropped | src/readfiles/summary.rs:33-39 | an image and its alt text add nothing |
| Summary.HtmlDropped | src/readfiles/summary.rs:65 | raw HTML alone gives an empty summary |
| Summary.HeadingThenParagraph | src/readfiles/summary.rs:17-19 | a heading and a paragraph read `heading: text` |
| Escape.EscapeHtml | src/readfiles/html.rs:19-21 | escaped text holds no `<`, `>` or `"` and is at least as long as the text |
| Escape.UnescapeEscapeHtml | src/readfiles/html.rs:19-21 | unescaping escaped text gives the text back |
| Escape.EscapeTemplate | src/models/comment.rs:56-63 | a value written into a template holds no `<`, `>`, `"` or `'` |
| Escape.UnescapeEscapeTemplate | src/models/comment.rs:56-63 | unescaping a template-escaped value gives the value back |
| Escape.EscapeHtmlAppend | src/readfiles/html.rs:19-21 | escaping two texts one after the other is escaping their concatenation |
| Escape.EscapeHtmlPlain | src/readfiles/html.rs:19-21 | text without `&`, `<`, `>` or `"` is written unchanged |
| CmarkOld.LevelNumber | src/readfiles/html.rs:24 | a heading level's number is 1 to 6 |
| CmarkNew.LevelNumber | src/models/markdown.rs:35-44 | a heading level's number is 1 to 6 |
| Html.HName | src/readfiles/html.rs:48 | a heading's element name is `h` and its level's digit |
| Html.RemoveEnd | src/readfiles/html.rs:223-230 | the tail is removed exactly when the text ends with it, and the text is unchanged otherwise |
| Html.TagName | src/readfiles/html.rs:232-248 | exactly the ten simple tags have an element name, a list being `ol` with a start number and `ul` without; any other tag panics |
| Html.CloseSections | src/readfiles/html.rs:25-28 | sections are closed down to below the heading's level, one `</section>` per level closed |
| Html.OpenSections | src/readfiles/html.rs:30-33 | plain sections are opened, one `<section>` per skipped level, up to just below the heading's level |
| Html.SectionAttrs | src/readfiles/html.rs:35-46 | a section's attributes start with the escaped ` id` when there is one, end with the escaped space-joined ` class` when there are classes, are empty with neither, and hold no angle bracket |
| Html.OpenHeading | src/readfiles/html.rs:22-49 | a heading start closes the sections at its level or deeper, opens plain sections for the levels skipped, then its own section and heading element; afterwards the depth is its level |
| Html.CloseHeading | src/readfiles/html.rs:50-54 | an empty heading loses its start tag; any other gets its end tag and a newline |
| Html.BlockLang | src/readfiles/html.rs:56-61 | a code block has a language exactly when it is fenced with a nonempty info string, which is then the language |
| Html.PushCode | src/readfiles/html.rs:63-69 | the block succeeds exactly when its text events run to the end event, and then writes exactly what pushing those texts in order writes, keeping the handler's kind and language |
| Html.OlderCode | src/readfiles.rs:607-623 | the older code-block body appends the escaped or highlighted pieces of the block's text events and stops after its end; a non-text event in the block panics |
| Html.OlderPiecesPlain | src/readfiles.rs:607-623 | without a language the older body is the escaped concatenation of the block's texts |
| Html.CodeBlockAt | src/readfiles/html.rs:55-71 | a code block without its end fails; otherwise it writes the code-block markup of its texts in the block's language, in the current handler or in the older `<pre>` form |
| Html.OlderPlainBlock | src/readfiles.rs:607-623 | an older block without a language is `<pre>`, the escaped text and `</pre>` |
| Html.StripP | src/readfiles/html.rs:76-78 | before a figure, the first of `<p>`, the no-p marker, or the marker and a newline that ends the output is removed, and nothing else |
| Html.ImageText | src/readfiles/html.rs:79-87 | the alt text gains the pieces of the events up to the first image end, and the scan stops just past that end, or at the end of the stream |
| Html.AltOfTexts | src/readfiles/html.rs:79-87 | for plain text events the alt text is their concatenation |
| Html.ImageAt | src/readfiles/html.rs:75-139 | an image becomes the paragraph-stripped output, its figure, a newline and the no-p marker, and fails exactly when its figure fails |
| Html.Simple | src/readfiles/html.rs:140-214 | text is escaped, inline code is escaped inside `<code>`, raw HTML is copied, a task marker is a checkbox, a paragraph end after the no-p marker removes the marker and otherwise writes `</p>`, and a rule or footnote reference aborts |
| Html.Step | src/readfiles/html.rs:17-216 | each event keeps the section bookkeeping consistent; only heading starts change the depth, and only a level-1 heading can close a section never opened |
| Html.Run | src/readfiles/html.rs:17-216 | the loop keeps the section bookkeeping consistent, and without level-1 headings no section is closed before it was opened |
| Html.CloseAll | src/readfiles/html.rs:217-219 | after the loop every section still open is closed |
| Html.CollectState | src/readfiles/html.rs:11-221 | every section opened is closed, and without a level-1 heading none is closed that was not opened |
| Html.CollectText | src/readfiles/html.rs:19-21 | text alone is written escaped, and unescaping gives it back |
| Html.HeadingSection | src/readfiles/html.rs:22-54 | a level-2 heading with text is a section holding its `h2` element |
| Html.EmptyHeading | src/readfiles/html.rs:50-54 | an empty level-3 heading leaves its sections, the skipped level-2 one included, and no heading element |
| Html.TitleClosesUnopened | src/readfiles/html.rs:25-28 | a level-1 heading closes the outermost section, which was never opened |
| Html.FigureOutsideParagraph | src/readfiles/html.rs:75-144 | an image alone in a paragraph becomes a figure outside any paragraph |
| Html.TaskMarker | src/readfiles/html.rs:151-157 | a task marker is a disabled checkbox, checked when the item is done |
| Html.PlainCodeBlock | src/readfiles/html.rs:55-71 | an indented code block is its escaped code inside `<pre>` |
| Html.StrayBlockEnd | src/readfiles.rs:626-628 | a code block end with no block open is unreachable in the current serialiser and writes `</code></pre>` in the older one |
| ImgCli.Markup | src/readfiles/imgcli.rs:22-31 | the small image's markup is a link to the medium rendition, closed by `</a>` |
| ImgCli.MarkupLarge | src/readfiles/imgcli.rs:33-38 | the large markup is an image tag for the medium rendition |
| ImgCli.RelativeLink | src/readfiles/imgcli.rs:115-120 | rebasing keeps the size and puts the base in front of the URL |
| ImgCli.Relative | src/readfiles/imgcli.rs:39-45 | rebasing both renditions keeps the public flag and the orientation |
| ImgCli.RelativeTwice | src/readfiles/imgcli.rs:39-45 | rebasing twice is rebasing once on the two bases joined |
| ImgCli.ImgPartsSplit | src/readfiles/imgcli.rs:33-38 | with no quote in the URL and the text, the image tag splits at its quotes into its fields |
| ImgCli.ReadMarkupLarge | src/readfiles/imgcli.rs:33-38 | with no quote in the URL and the text, the large markup reads back as the medium rendition's URL and size and the text |
| ImgCli.ReadMarkupSmall | src/readfiles/imgcli.rs:22-31 | with no quote in the URLs and the text, the markup reads back as a link to the medium rendition around the small one |
| ImgCli.ReadImgPartsOf | src/readfiles/imgcli.rs:33-38 | the fields of an image tag read back as the rendition |
| ImgCli.MarkupSplit | src/readfiles/imgcli.rs:22-31 | with no quote in the URLs and the text, the link markup splits at its quotes into the link's and the image's fields |
| ModComments.CountsPartition | src/modcomments.rs:39-47 | public, spam and pending counts add up to all comments |
| ModComments.Tally | src/modcomments.rs:35-49 | the loop's sums are the counts of public groups, of non-public spam groups, and of the rest |
| ModComments.NoPending | src/modcomments.rs:39-47 | nothing is pending exactly when every pending group is empty |
| ModComments.StatusLine | src/modcomments.rs:51-56 | the status line is left out exactly when asked to be silent and nothing is pending |
| ModComments.Ago | src/modcomments.rs:99-113 | `Now` exactly at zero minutes; the minute count below 45 minutes, negative for the future; the clock time below 18 hours; the full date after that |
| ModComments.AgoCoarsens | src/modcomments.rs:104-112 | as time passes the display only gets coarser |
| ModComments.ShowLine | src/modcomments.rs:117-125 | a shown line is ` > ` and at most 72 chars of the line, with ` …` exactly when the line was longer |
| ModComments.ShowLimited | src/modcomments.rs:115-131 | at most six lines of the trimmed comment are shown, each limited |
| ModComments.ShowLines | src/modcomments.rs:116-130 | the loop shows each line limited, and stops after the sixth |
| ModComments.FirstPrefixed | src/modcomments.rs:151-155 | the first alternative that starts with the answer, and none when no alternative does |
| ModComments.AnswerOf | src/modcomments.rs:149-156 | a line selects one of the alternatives, if any |
| ModComments.Prompt | src/modcomments.rs:141-158 | the prompt answers with an alternative and the lines not read yet, or fails with `Expected some input` |
| ModComments.PromptSelects | src/modcomments.rs:141-158 | the answer is the first line that selects something, and nothing after it is read; with no such line the prompt fails |
| ModComments.AnswerOfWord | src/modcomments.rs:149-155 | a word on a line of its own picks the first alternative it begins |
| ModComments.ChoiceOfS | src/modcomments.rs:75 | `s` selects `spam` |
| ModComments.ChoiceOfO | src/modcomments.rs:75 | `o` selects `ok` |
| ModComments.ChoiceOfQuit | src/modcomments.rs:75 | `quit` selects `quit` |
| ModComments.NoChoiceOf | src/modcomments.rs:151-155 | `okay` and `x` select nothing |
| ModComments.PromptAbbreviation | src/modcomments.rs:149-155 | a line holding only `s` selects `spam`, and the lines after it are left unread |
| ModComments.BlankLine | src/modcomments.rs:149-150 | an empty line selects nothing |
| ModComments.PromptEmptyLine | src/modcomments.rs:144-157 | an empty line is skipped and the prompt reads on, whatever the alternatives |
| ModComments.PromptTooLong | src/modcomments.rs:151-155 | a word longer than an alternative does not select it: `okay` is skipped and the prompt reads on |
| ModComments.PromptEndOfInput | src/modcomments.rs:148 | running out of input is the error `Expected some input` |
| ModComments.DoModerate | src/modcomments.rs:133-139 | a decision makes a comment public exactly when it is not spam |
| ModComments.Moderate | src/modcomments.rs:58-94 | the queue is decided in order until an answer gives up or the input runs out; undecided comments keep their flags, and listing changes nothing |
| ModComments.ModerateFollowsAnswers | src/modcomments.rs:58-94 | each decided comment gets the flags of its own answer, read in queue order: the run stops at the first answer that is neither ok nor spam, or with the prompt's error when the answers run out |
| ModComments.AllowAll | src/modcomments.rs:72-80 | answering `ok` to each comment makes all of them public |
| ReadFiles.ParseUpdate | src/readfiles/mod.rs:269-280 | an `update` line splits at its first space into a trimmed date and trimmed info (no info without a space); a date that does not parse is the error `Bad date:` with the untrimmed date part quoted |
| ReadFiles.MetaLine | src/readfiles/mod.rs:600-603 | the next header line is the text up to the first newline when it holds a colon: key before the first colon, value after it, and the rest; no line when there is no newline or the line has no colon (both directions) |
| ReadFiles.Header | src/readfiles/mod.rs:597-609 | the header lines and the text after them put back together give the whole file |
| ReadFiles.HeaderStops | src/readfiles/mod.rs:600-607 | the loop stops only where the next line is not a header line |
| ReadFiles.Entries | src/readfiles/mod.rs:605 | each header key and value is stored trimmed, one entry per line, in order |
| ReadFiles.ExtractMetadata | src/readfiles/mod.rs:597-609 | the metadata map holds, for every key, the value of its last header line, and the rest is the trimmed text after the header |
| ReadFiles.RepeatedKey | src/readfiles/mod.rs:605 | two header lines with the same key are both read as lines, so the later insert replaces the earlier value |
| ReadFiles.ItemsUntil | src/readfiles/mod.rs:474-483 | no split exactly when the delimiter is absent; otherwise the items are the part before the delimiter, the delimiter and the part after, with no delimiter in the first part |
| ReadFiles.Position | src/readfiles/mod.rs:478 | the position found holds the item and no earlier position does; none exactly when the item is absent |
| ReadFiles.ItemsUntilFirst | src/readfiles/mod.rs:474-483 | any decomposition around a first occurrence of the delimiter is the one returned |
| ReadFiles.IssueNumber | src/readfiles/mod.rs:495 | the issue part is one or two digits, not starting with zero, worth 1 to 99 |
| ReadFiles.RangeEnd | src/readfiles/mod.rs:495 | the optional range end stays within the text after the issue |
| ReadFiles.MatchAt | src/readfiles/mod.rs:494-497 | a reference matched at a position has an issue from 1 to 99 and a year from 1900 to 2099 |
| ReadFiles.ParseFa | src/readfiles/mod.rs:491-504 | a text names an issue exactly when the reference pattern matches somewhere in it, and the issue and year are in range |
| ReadFiles.FaLink | src/readfiles/mod.rs:520-525 | no index link exactly when no position matches the reference pattern; a link is under the Phantom index's base URL |
| ReadFiles.FaRoundTrip | src/readfiles/mod.rs:491-504 | an issue and year written as `Fa issue/year` or `Fa issue year`, with or without a range end, read back as that issue and year |
| ReadFiles.FaLinkHello | src/readfiles/mod.rs:526-529 | `Hello` has no index link |
| ReadFiles.FaLinkSlash | src/readfiles/mod.rs:530-536 | `Fa 17/1984` links to the index page of 1984, issue 17 |
| ReadFiles.FaLinkRange | src/readfiles/mod.rs:537-543 | `Fa 1-2/2021` links to the page of the first issue of the range |
| ReadFiles.RangeUrl | src/readfiles/mod.rs:505-511 | the index URL of an issue is the base, the year, a slash and the issue |
| ReadFiles.FaLinkOf | src/readfiles/mod.rs:523-525 | the link of a text is the index URL of the reference parsed from it |
| ReadFiles.LinkTail | src/readfiles/mod.rs:550-553 | the tail of a link extension is a nonempty run of word chars (the kind), an optional word-char attribute and the rest after commas and white space, which ends the tail and, without the `s` flag, holds no newline |
| ReadFiles.TextEnd | src/readfiles/mod.rs:551 | the greedy link text ends at the last `][` at or before the bound after which the rest matches the tail, with no newline in it unless the pattern spans lines; with no such place there is no link |
| ReadFiles.ParseLinkRef | src/readfiles/mod.rs:550-553 | a link in extension form is bracketed and at least five chars long |
| ReadFiles.LinkTailRoundTrip | src/readfiles/mod.rs:550-553 | a written kind, attribute and rest read back as themselves |
| ReadFiles.ParseLinkSource | src/readfiles/mod.rs:550-553 | a link written as `[text][kind:attr, rest]` parses back to its text, kind, attribute and rest |
| ReadFiles.Wikilink | src/readfiles/mod.rs:581-595 | the target is the Wikipedia page, in the given language, named by `ReadFiles.PageName` of the text with the attributes in parentheses after it when there are any; that name holds no space and no soft hyphen; the title is `Se … på wikipedia` with the same text |
| ReadFiles.PageName | src/readfiles/mod.rs:588-591 | a page name has no space and no soft hyphen; for a text without soft hyphens it is as long as the text and each space is `_`, every other char kept |
| ReadFiles.PageNameAppend | src/readfiles/mod.rs:588-591 | the page name of two texts one after the other is their page names one after the other |
| ReadFiles.PageNameChar | src/readfiles/mod.rs:588-591 | a soft hyphen is dropped, a space becomes `_`, and any other char is kept |
| ReadFiles.WikilinkPlain | src/readfiles/mod.rs:581-595 | a one-word text without soft hyphens is its own page name |
| ReadFiles.LinkExt | src/readfiles/mod.rs:545-579 | an extension resolves exactly when the link has the extension form and one of the six known kinds; a Wikipedia kind uses the link's attribute as language, else the page's |
| ReadFiles.WikipediaLink | src/readfiles/mod.rs:555-558 | `[text][wp:lang]` goes to that language's Wikipedia page of the text |
| ReadFiles.RfcLink | src/readfiles/mod.rs:573-576 | `[text][rfc:n]` goes to RFC n, titled `RFC n`, whatever the text |
| ReadFiles.UnknownKind | src/readfiles/mod.rs:577 | any other kind leaves the link unresolved |
| ReadFiles.TeaserEnd | src/readfiles/mod.rs:363-381 | the teaser ends at the more marker when there is one; a text under 900 bytes has no cut; otherwise the cut is at a `\n## ` or a blank line, or within the first 52 bytes; the cut fails only when the first 700 bytes hold no blank line |
| ReadFiles.MarkerEndsTeaser | src/readfiles/mod.rs:363 | the cut is at the first more marker, however long the text |
| ReadFiles.FrontAt | src/readfiles/mod.rs:387-390 | a front image matched at a position starts with `![` and ends with `]` within the text |
| ReadFiles.FirstFront | src/readfiles/mod.rs:387-390 | the image found is a match at its start |
| ReadFiles.FirstFrontLeftmost | src/readfiles/mod.rs:387-390 | no match starts before the one found, and none at all when none is found |
| ReadFiles.FrontImage | src/readfiles/mod.rs:384-391 | the front image is a piece of the post starting with `![` and ending with `]` |
| ReadFiles.FrontAlone | src/readfiles/mod.rs:387-390 | `![alt][file{front}]` is a front image |
| ReadFiles.WithFrontImage | src/readfiles/mod.rs:384-403 | a teaser with an image of its own, or a post without a front image, is unchanged; otherwise the front image, with `gallery` made `sidebar`, is inserted on its own line at the start or after the first blank line's first newline, and nothing else changes |
| ReadFiles.WithUpdate | src/readfiles/mod.rs:405-417 | without update info the teaser is unchanged; with it the teaser is followed by a blank line, the localised `update-at` date in bold and the info |
| ReadFiles.AnchorsNone | src/readfiles/mod.rs:418-422 | a teaser without `](#` is not changed by the anchor rewrite |
| ReadFiles.AnchorRewritten | src/readfiles/mod.rs:418-422 | a local link whose target is made of class chars is pointed into the post's own page, and the rewrite continues after it |
| ReadFiles.AsWrittenSkipsDigits | src/readfiles/mod.rs:419 | with the class as written, a link to `#h1` is left pointing into the page that shows the teaser |
| ReadFiles.IntendedRewritesDigits | src/readfiles/mod.rs:419 | with `a-z0-9_`, the link to `#h1` goes to the post's own page |
| ReadFiles.FixLink | src/readfiles/mod.rs:434-447 | an undefined link reference goes to the Phantom index when it names an issue, else to its link extension, else to the reference text itself, with an empty title |
| ReadFiles.FaBeforeExtension | src/readfiles/mod.rs:435-436 | an issue reference wins over a link extension in the same link |
| ReadFiles.UnresolvedLink | src/readfiles/mod.rs:440-445 | a link that is neither an issue reference nor a known extension points at its reference text |
| ReadFiles.MdToHtml | src/readfiles/mod.rs:433-472 | a post must start with its level-1 heading: no heading start, a prefix before it and no heading end are the three errors; on success the title is the heading's content and the body everything after it, both serialised |
| ReadFiles.MdToHtmlParts | src/readfiles/mod.rs:455-471 | a heading, title events and body convert to the serialised title and body |
| ReadFiles.ExtractParts | src/readfiles/mod.rs:354-428 | the title and body are those of the whole post; without a cut the teaser is the body; with a cut the teaser is the body markup of the cut text with front image, update note and anchor rewrite; a failed cut is a panic |
| ReadFiles.TeaserSource | src/readfiles/mod.rs:382-422 | without local links the teaser source is the cut text with the front image and the update note |
| ReadFiles.TeaserSourceKeepsDigitLink | src/readfiles/mod.rs:418-422 | the program's teaser source keeps a first local link to `#h1` as it is and rewrites only what follows |
| ReadFiles.CoverFigure | src/readfiles/html.rs:95-105 | an image with reference `cover` needs an issue reference as its text, and becomes a figure linking to that issue's cover image, captioned with the text, caption and title |
| ReadFiles.CoverOfIssue | src/readfiles/html.rs:96 | the cover figure of `Fa issue year` links to the index's cover of that issue |
| ContentMarkdown.MetaEntry | src/readfiles/markdown.rs:188-192 | a front-matter key is the line before its first colon and holds no colon; a line without a colon is all key with an empty value |
| ContentMarkdown.MetaEntrySplit | src/readfiles/markdown.rs:188-189 | a line with a colon is the key, the colon and a raw value whose trim is the entry's value |
| ContentMarkdown.KeyOf | src/readfiles/markdown.rs:193-205 | the five known keys are recognised exactly by their names |
| ContentMarkdown.MetaLine | src/readfiles/markdown.rs:193-206 | one line is accepted exactly when its key is known and its date or update parses; an unknown key is a panic; only the field the key names changes, and `meta` marks a meta page |
| ContentMarkdown.MetaLines | src/readfiles/markdown.rs:187-207 | the lines are accepted exactly when every line is |
| ContentMarkdown.MetaLinesIsMeta | src/readfiles/markdown.rs:204 | a page is a meta page exactly when some line has the key `meta` (or it was before) |
| ContentMarkdown.MetaLinesTags | src/readfiles/markdown.rs:197-199 | the tags are the value of the last `tags` line |
| ContentMarkdown.MetaLinesRes | src/readfiles/markdown.rs:200-202 | the asset list is the value of the last `res` line |
| ContentMarkdown.MetaLinesPubdate | src/readfiles/markdown.rs:194-196 | the publication date is parsed from the last `pubdate` line |
| ContentMarkdown.MetaLinesUpdate | src/readfiles/markdown.rs:203 | the update note is parsed from the last `update` line |
| ContentMarkdown.ParseMeta | src/readfiles/markdown.rs:182-210 | the front matter parses exactly when every line is accepted, and the tags and assets are the last lines' values |
| ContentMarkdown.LaterTagsWin | src/readfiles/markdown.rs:197-199 | of two `tags` lines the later wins |
| ContentMarkdown.LoadMeta | src/readfiles/markdown.rs:163-180 | the stream must open with a metadata block start, one text that parses as front matter, and the block end; what follows is the rest of the stream |
| ContentMarkdown.FilingYear | src/readfiles/markdown.rs:42-48 | a meta page is filed under year 0; another page under the year of its publication date, else of today; a year outside 16 bits is an error |
| ContentMarkdown.Files | src/readfiles/markdown.rs:212-221 | the asset names are the comma-separated parts of the list, trimmed, with empty ones dropped; no list gives no names |
| ContentMarkdown.FilesOfList | src/readfiles/markdown.rs:212-221 | names without commas or surrounding space joined with commas read back as the same names |
| ContentMarkdown.SetFiles | src/readfiles/markdown.rs:57-61 | the asset list of a page can be set only once; the first set keeps the list; a second set is refused with a message naming the new list twice |
| ContentMarkdown.SetFilesMessageIgnoresFirst | src/readfiles/markdown.rs:57-61 | the refusal does not depend on the list already set |
| ContentMarkdown.SetFilesTwice | src/readfiles/markdown.rs:57-61 | setting the asset list a second time is an error |
| ContentMarkdown.AssetUrl | src/readfiles/markdown.rs:71 | an asset url is found exactly when some asset has the name, and it is the url of the first such asset |
| ContentMarkdown.LinkExt | src/readfiles/markdown.rs:497-508 | a link extension with the `s` flag hands the kind, the text with its whitespace runs collapsed, the attribute and the rest to the link-data table |
| ContentMarkdown.ResolveLink | src/readfiles/markdown.rs:64-85 | an undefined reference, without backquotes, names a page asset first, then a Phantom issue, then a link extension, and is otherwise its own target; only an extension gives a title |
| ContentMarkdown.AssetFirst | src/readfiles/markdown.rs:70-73 | an asset of the page wins over any other reading of the same name |
| ContentMarkdown.BackquotedAsset | src/readfiles/markdown.rs:69 | backquotes around a reference are not part of the asset name |
| ContentMarkdown.LoadTitle | src/readfiles/markdown.rs:118-138 | the stream must go on with a heading start; the title is the markup of the events up to the first heading end, with a pen added for an undated page that is not a meta page; the rest follows that end |
| ContentMarkdown.LoadAssets | src/readfiles/markdown.rs:99-116 | the assets load exactly when every listed asset loads and the list was not set yet; the page's list is then one name and url per listed asset, in order |
| ContentMarkdown.HandleAll | src/readfiles/markdown.rs:104-113 | collecting the loads succeeds exactly when each one does, one result per name |
| ContentMarkdown.InlineUntil | src/readfiles/markdown.rs:451-495 | the inline walk stops at the end it was given, never lowering the weight; any other structure is a panic |
| ContentMarkdown.InlineImages | src/readfiles/markdown.rs:471-474 | the image flag is set exactly when an image starts among the events walked |
| ContentMarkdown.PlainParagraph | src/readfiles/markdown.rs:468-470 | a paragraph of plain text weighs its byte length |
| ContentMarkdown.Cut | src/readfiles/markdown.rs:371 | stepping back from the stop index is an unsigned subtraction that panics below zero |
| ContentMarkdown.SizeCut | src/readfiles/markdown.rs:368-448 | a cut by weight falls at the stop index or after the end of a root-level block |
| ContentMarkdown.HtmlRun | src/readfiles/markdown.rs:408-424 | the weight of an html block's markup cuts at the block's start or after a block end |
| ContentMarkdown.SizeCutShift | src/readfiles/markdown.rs:361-449 | the walk as written cuts every teaser one event earlier than stepping back nothing would, or panics where that is below the first event |
| ContentMarkdown.TeaserCut | src/readfiles/markdown.rs:348-359 | a cut lies within the stream; failures are panics |
| ContentMarkdown.FindTeaser | src/readfiles/markdown.rs:348-359 | the teaser is a prefix of the events without the more marker; one cut by weight is empty or ends where a block ends; no teaser only without a marker |
| ContentMarkdown.FindTeaserAsWritten | src/readfiles/markdown.rs:348-449 | the teaser as written is a prefix of the events |
| ContentMarkdown.TeaserAtMarker | src/readfiles/markdown.rs:349-353 | with a marker, the teaser is everything before the html block that holds it |
| ContentMarkdown.AsWrittenSteps | src/readfiles/markdown.rs:354 | without a marker the as-written teaser is the corrected one shifted one event back |
| ContentMarkdown.HeadingFirst | src/readfiles/markdown.rs:443 | a text opening with a heading panics as written; the corrected teaser is empty |
| ContentMarkdown.HeavyFirstParagraph | src/readfiles/markdown.rs:375-384 | a first paragraph past the high limit panics as written; the corrected teaser is empty |
| ContentMarkdown.DropsParagraphEnd | src/readfiles/markdown.rs:368-372 | a first paragraph past the low limit ends the teaser; as written the teaser loses the paragraph's end event, corrected it keeps it |
| ContentMarkdown.FigureUrlStart | src/readfiles/markdown.rs:325 | the figure pattern's url starts after `<figure`, its attributes and a link or image tag's opening quote |
| ContentMarkdown.FigureAt | src/readfiles/markdown.rs:324-327 | a captured url is nonempty and holds no quote |
| ContentMarkdown.FirstFigure | src/readfiles/markdown.rs:324-327 | the match found is a match |
| ContentMarkdown.FirstFigureLeftmost | src/readfiles/markdown.rs:324-327 | no match starts before the one found |
| ContentMarkdown.FirstFigureNone | src/readfiles/markdown.rs:324-327 | when none is found there is no match anywhere |
| ContentMarkdown.FigureUrl | src/readfiles/markdown.rs:320-329 | the url of the first figure is a quote-free capture of some match |
| ContentMarkdown.FigureLink | src/readfiles/markdown.rs:325 | a figure whose content starts with a link gives the link's target |
| ContentMarkdown.FirstFrontImage | src/readfiles/markdown.rs:243-251 | the front image found is the first image whose title or url says `front`, and none is found exactly when there is none |
| ContentMarkdown.FrontMarkup | src/readfiles/markdown.rs:242-264 | no front markup exactly when no image is a front image; otherwise it is the image writer's markup of the first one with the events after it |
| ContentMarkdown.WithFront | src/readfiles/markdown.rs:304-313 | the front image is put before a teaser that does not already contain it, and the teaser stays at the end |
| ContentMarkdown.UpdateNote | src/readfiles/markdown.rs:271-293 | without update text nothing is added to the teaser |
| ContentMarkdown.TeaserAndSummary | src/readfiles/markdown.rs:268-318 | without a teaser the body is the teaser and the summary is of all events; with one, the teaser markup ends with the markup of the teaser events and update note, contains the front image, and the summary is of those same events |
| ContentMarkdown.LoadBody | src/readfiles/markdown.rs:232-342 | the body is the markup of all events after the title; leaflet is used exactly when the body holds `function initmap()`; success needs the front image and the cut as written; without a cut the teaser is the body and the summary that of all events; with one the teaser ends with the markup of the events before the cut and the update note, holds the front image, and the summary is of those same events; the front image url is the first figure url of the front markup, or of the body when there is none |
| ContentMarkdown.LoadBodyHeadingFirst | src/readfiles/markdown.rs:348-449 | a page opening with a heading and without a more marker fails with the underflow of `0 - 1` |
| ContentMarkdown.MarkerTeaserAsWritten | src/readfiles/markdown.rs:348-353 | with a more marker after an HTML start, the teaser as written is the events before that start |
| ServerError.IntoResponse | src/server/error.rs:38-67 | not found answers 404, a bad request 400, an exhausted server 503 and an internal error 500, each exactly; the client errors are exactly the 4xx ones; a bad request or internal error shows its own message as the headline |
| ServerError.IntoResponseInjective | src/server/error.rs:38-67 | two errors that make the same response are the same error |
| ServerError.Ise | src/server/error.rs:26-36 | a success passes through unchanged; a failure becomes an internal error answered with status 500 |
| ServerError.IseHidesCause | src/server/error.rs:31-34 | every failure turned into an internal error gives the same error, whatever its cause |
| ServerError.FromDiesel | src/server/error.rs:77-82 | a database failure is answered 500 with the headline `Database error` |
| ServerError.FromPool | src/server/error.rs:84-97 | a pool failure is answered 503 exactly when it is a timeout; any other pool failure is a database error |
| ServerError.FromInteract | src/server/error.rs:99-112 | a failed interaction is an internal error saying `Internal panic` for a panic and `Interaction aborted` otherwise |
| ServerError.ForRejection | src/server/error.rs:114-124 | a rejection becomes the 404 page exactly when it is a not-found rejection; every other rejection is passed on unchanged |
| ServerLanguage.Primary | src/server/language.rs:85-88 | the primary subtag is the part of a range before its first `-`, and holds no `-` |
| ServerLanguage.AcceptLang | src/server/language.rs:78-93 | when no range has a site language as primary subtag, the default language is used |
| ServerLanguage.AcceptLangFirst | src/server/language.rs:81-90 | otherwise the language is that of the first range, in the order given, whose primary subtag is a site language |
| ServerLanguage.AcceptSwedishFirst | src/server/language.rs:95-104 | `sv,en;q=0.7,en-US;q=0.3` is Swedish |
| ServerLanguage.AcceptFinnishFirst | src/server/language.rs:105-114 | `fi,en;q=0.7,en-US;q=0.3` is English |
| ServerLanguage.AcceptRegions | src/server/language.rs:115-128 | `sv-SE` is Swedish and `en-GB` is English |
| ServerLanguage.AcceptUnknownRegion | src/server/language.rs:129-135 | `fi-FI` is the default, English |
| ServerLanguage.OtherLangs | src/server/language.rs:58-60 | the other languages are every site language but the current one |
| ServerLanguage.Other | src/server/language.rs:54-67 | one rendered link per other language, in the site's order |
| ServerLanguage.OtherCompletes | src/server/language.rs:17 | a language and its others are all the site languages, each exactly once |
| ServerLanguage.Load | src/server/language.rs:19-39 | a language loads exactly when it is a well-formed tag with translations; a malformed tag is `Bad language` and a missing translation `Unknown language`, both bad requests |
| Csrf.BadLengthMessage | src/server/csrf.rs:22-24 | the bad-length message names the number of bytes given, in decimal, between its fixed start and end |
| Csrf.SecretFromStr | src/server/csrf.rs:10-20 | a secret is accepted exactly when its UTF-8 encoding is 32 bytes long, and those bytes are the key; otherwise the error carries the byte length |
| Csrf.AsciiSecret | src/server/csrf.rs:10-20 | an ASCII secret is accepted exactly when it is 32 chars long, each char one key byte |
| Csrf.WideCharsSecret | src/server/csrf.rs:14-17 | the length is counted in bytes: 16 two-byte chars make a key |
| Csrf.Cause | src/server/csrf.rs:36-46 | the logged cause is that of the first step to fail, in the order token decoding, cookie decoding, token parsing, cookie parsing, pair check; none exactly when all pass |
| Csrf.Verify | src/server/csrf.rs:36-46 | a token and cookie are accepted exactly when every step passes; otherwise the request is the bad request `CSRF Verification Failed` |
| Csrf.UndecodableToken | src/server/csrf.rs:41 | a token that does not decode is refused whatever the cookie |
| Csrf.GeneratePair | src/server/csrf.rs:47-50 | a pair is generated with a lifetime of four hours; a failure to generate is an internal error |
| ServerLanguage.RequestLang | src/server/mod.rs:79-81 | a request without an Accept-Language header gets the default language; with one, the language the header chooses |
| TagCloud.Bin | src/server/tag.rs:42 | a bin is at least one count wide, and five bins hold all the distinct counts with room for two more |
| TagCloud.DivCeil | src/server/tag.rs:44 | the quotient rounded up: the least `q` with `q * b` at least the dividend |
| TagCloud.DivCeilMonotone | src/server/tag.rs:44 | rounding up keeps the order of the dividends |
| TagCloud.Insert | src/server/tag.rs:39 | inserting a count into the ordered map keeps the keys ascending and adds exactly that count |
| TagCloud.Keys | src/server/tag.rs:37-40 | after the first loop the map's keys are exactly the counts that occur, ascending |
| TagCloud.KeysCount | src/server/tag.rs:37-42 | the map has one key per distinct count |
| TagCloud.RankOfPosition | src/server/tag.rs:43 | the key at position `i` in iteration order has exactly `i` smaller distinct counts |
| TagCloud.IndexOf | src/server/tag.rs:43 | a key's position holds that key |
| TagCloud.ClassMap | src/server/tag.rs:43-45 | after the second loop each distinct count maps to its rank among the distinct counts, divided by the bin width rounded up |
| TagCloud.RankBelowCard | src/server/tag.rs:43 | a rank is below the number of distinct counts |
| TagCloud.RankMonotone | src/server/tag.rs:43 | a larger count has at least as many smaller counts |
| TagCloud.ClassBelowSix | src/server/tag.rs:35-45 | every rank is binned into one of the six classes |
| TagCloud.WeightOfCount | src/server/tag.rs:48-51 | the class of a tag's count is its binned rank, below six |
| TagCloud.WeightMonotone | src/server/tag.rs:43-51 | classes follow the order of the counts |
| TagCloud.WeightOfSmallest | src/server/tag.rs:43-45 | the smallest count is in class 0 |
| TagCloud.Weights | src/server/tag.rs:48-51 | each tag, in order, gets the class of its count |
| TagCloud.WeightsBounded | src/server/tag.rs:35 | every class is one of the six `.wN` classes |
| TagCloud.WeightsOrdered | src/server/tag.rs:43-51 | tags with as many posts share a class, and a tag with more posts never gets a lower class |
| TagCloud.WeightsSmallestZero | src/server/tag.rs:43-51 | the tags with the fewest posts are in class 0 |
| TagCloud.FewCountsRankOnly | src/server/tag.rs:42-44 | with at most three distinct counts the class is the number of smaller distinct counts |
| TagCloud.RankOfLargest | src/server/tag.rs:43 | the largest count has every other distinct count below it |
| TagCloud.WeightsLargest | src/server/tag.rs:43-51 | the tags with the most posts get the binned rank of the last distinct count |
| TagCloud.TopClassUse | src/server/tag.rs:42-44 | with 18 distinct counts the largest count is in class 5, with 24 only in class 4 |
| TagCloud.CloudLink | src/server/tag.rs:54-57 | the cloud in another language is linked at `/tag/` and that language's code, with the language's name as text |
| TagCloud.TagPageLink | src/server/tag.rs:75-79 | a tag page in another language is linked at `/tag/`, the slug, a dot and the language code, with the language's name as text |
| TagCloud.TagFeedName | src/server/tag.rs:81 | the tag feed's name is `atom-`, the language code, a dash, the slug and `.xml` |
| TagCloud.TagFeed | src/server/tag.rs:81 | the tag feed is that name under the site base |
| Feeds.TagCapture | src/server/feeds.rs:121 | the tag group is empty exactly when the name has no tag part |
| Feeds.ParseFeedArgs | src/server/feeds.rs:117-134 | a feed name parses exactly when it matches the pattern, its language code is a site language and its tag, if any, is a valid slug; it gives back that language and tag |
| Feeds.FeedName | src/server/feeds.rs:121 | a feed name is eleven chars plus the dash and tag |
| Feeds.ParseFeedName | src/server/feeds.rs:117-134 | a feed name made from a language and an optional valid tag parses back to them |
| Feeds.ParsedMiddle | src/server/feeds.rs:121 | between the language and the separator stands the dash and the tag, or nothing |
| Feeds.FeedNameOfParse | src/server/feeds.rs:117-134 | every name that parses is the feed name of what it parsed to |
| Feeds.TagFeedParses | src/server/feeds.rs:117-134 | the feed a tag page links to parses as that tag's feed in that language |
| Feeds.AnySeparator | src/server/feeds.rs:121 | the unescaped dot lets any char stand before `xml`: `atom-enxxml` is the English feed |
| Feeds.RefusedNames | src/server/feeds.rs:121-128 | an unknown language, a tag that is no slug, and a dash without a tag are refused |
| Feeds.FeedId | src/server/feeds.rs:46-50 | the feed id is the base and `/` for the site feed, and the base, `/tag/`, the tag's slug, `.` and the language code for a tag feed |
| Feeds.FeedIdIsTagPage | src/server/feeds.rs:46-50 | a tag feed's id is the base followed by the href the site's tag page link writes for that tag and language |
| Feeds.FeedIdInjective | src/server/feeds.rs:46-50 | different feeds have different ids |
| Feeds.Updated | src/server/feeds.rs:51-57 | the feed's update time is the latest update among its posts; a feed without posts is not found |
| Feeds.Summary | src/server/feeds.rs:90-95 | an entry's summary is the teaser followed by a read-more paragraph linking to the post |
| Feeds.MakeEntry | src/server/feeds.rs:60-100 | an entry has the post's url (under the base) as id and link, its title, times and tags as categories, the fixed author, and the read-more summary |
| Feeds.BuildFeed | src/server/feeds.rs:17-103 | a feed is built exactly when the tag asked for exists and there are posts; it has the feed id, one entry per post in order, and an update time no entry exceeds |
| ServerComment.Tally | src/server/comment.rs:74-82 | the spam total is the count of every spam group, public or not; the public total counts only public groups that are not spam |
| ServerComment.CountWhereZero | src/server/comment.rs:83 | a total is zero exactly when every group it counts is empty |
| ServerComment.UrlField | src/server/comment.rs:56-66 | an absent or blank url is no url; any other must parse, else the bad request `Bad url`; a stored url is the parsed one |
| ServerComment.BlankUrl | src/server/comment.rs:59 | a url of spaces only is no url, however long |
| ServerComment.Accept | src/server/comment.rs:33-106 | a comment is refused by the CSRF check, then `This post is too old to comment.`, then a bad url, then `This seems like spam` when an earlier comment of the commenter is spam; it is accepted exactly when none applies, and is public at once exactly when the commenter has an earlier public comment |
| ServerComment.MyFound | src/server/comment.rs:108-115 | the commenter lands on the post's url followed by the comment's hex anchor when it is public, else by `?c=` the decimal id and `#cxmod` |
| ServerComment.MyFoundPublic | src/server/comment.rs:108-115 | a public comment's landing place is the comment's own url |
| ServerComment.MyFoundDistinct | src/server/comment.rs:110-114 | a public comment's landing place never equals a held comment's |
| Server.Status | src/server/mod.rs:541-545 | `found` answers 302 and `see_other` 303 |
| Server.ParseSlugAndLang | src/server/mod.rs:296-305 | a segment without a dot is refused; a parsed segment is a valid slug, a dot and a site language code |
| Server.ParseSlugAndLangDisplay | src/server/mod.rs:296-305 | a valid slug, a dot and a language code parse back to that slug and language |
| Server.RefusedSegments | src/server/mod.rs:299-302 | `post`, `post.en.sv` and `-post.en` are refused |
| Server.RootRedirect | src/server/mod.rs:86-95 | the site root sends, with 303, to `/` and the visitor's language code |
| Server.YearRedirect | src/server/mod.rs:97-107 | a bare year sends, with 303, to that year's page in the visitor's language |
| Server.YearPage | src/server/mod.rs:308-313 | a year without posts in the language is not found |
| Server.BadComment | src/server/mod.rs:388-395 | a comment id among the post's public comments redirects to its anchor on the post's page; any other id shows the page with the not-public note; no id shows the page as is |
| Server.BadCommentIsCommentUrl | src/server/mod.rs:388-392 | that redirect is the comment's own url |
| Server.Prefer | src/server/mod.rs:529-535 | the version picked is the preferred language when it exists, else the first listed; none exactly when there is none |
| Server.PreferExists | src/server/mod.rs:532-535 | the version picked is one that exists |
| Server.PageFallback | src/server/mod.rs:451-471 | a post without a language goes, with 302, to its version in the preferred language when there is one, else to some existing version; without any version it is not found |
| Server.MetaFallback | src/server/mod.rs:512-539 | `about` and `RasmusKaj` have fixed places; any other meta page goes to its preferred-language version, else the first existing one, and without any version it is not found |
| Server.MetaFallbackParses | src/server/mod.rs:512-539 | the fallback for a valid slug lands on a segment that parses back to that slug |
| Kratsbox.Configure | res/js/kratsbox.js:9-17 | each option given replaces its default; every other setting keeps the default (500, `next →`, `← prev`, `close ×`) |
| Kratsbox.ConfigureOverrides | res/js/kratsbox.js:15-17 | no options leave the defaults, and an option given is the one used |
| Kratsbox.DisabledBySmallerSide | res/js/kratsbox.js:19-23 | the lightbox is off exactly when the smaller side of the window is below the limit, and growing the window never turns it off |
| Kratsbox.DefaultLimit | res/js/kratsbox.js:10 | with the defaults a 500 by 500 window gets the lightbox and one 499 wide does not |
| Kratsbox.IndexAttributes | res/js/kratsbox.js:151-156 | each link gets one index attribute, a run of decimal digits |
| Kratsbox.IndexAttributeParses | res/js/kratsbox.js:132 | parsing a link's index attribute gives its position back |
| Kratsbox.Next | res/js/kratsbox.js:122-124 | the next image is the following one, and after the last the first |
| Kratsbox.Prev | res/js/kratsbox.js:125-127 | the previous image is the one before, and before the first the last |
| Kratsbox.PrevNext | res/js/kratsbox.js:122-127 | next then previous, or previous then next, returns to the same image |
| Kratsbox.Tab | res/js/kratsbox.js:68-89 | with one image Tab keeps the focus on close; with several, the focus stays among the three buttons |
| Kratsbox.TabRing | res/js/kratsbox.js:81-86 | with several images the buttons form a ring close, prev, next: Shift+Tab undoes Tab, three Tabs come back, and Tab always moves |
| Kratsbox.KeyAction | res/js/kratsbox.js:90-116 | Tab focuses close, Escape closes, left, up, page up and `p` go back, space, right, down, page down and `n` go on, each exactly; every other key passes |
| Kratsbox.Caption | res/js/kratsbox.js:135-142 | the caption is the link's title when it has one; else it is empty without figure captions, the one caption, or two captions joined by `<br>`, and it contains every caption |
| Kratsbox.Load | res/js/kratsbox.js:128-144 | loading a link shows its image and caption, makes it current and marks the box as loading, keeping the focus |
| Kratsbox.Loaded | res/js/kratsbox.js:37-40 | an arrived image clears the loading mark and nothing else |
| Kratsbox.Open | res/js/kratsbox.js:117-120 | opening on a link shows its image, leaves only the `showing` class and focuses the close button |
| Kratsbox.Close | res/js/kratsbox.js:145-149 | closing hides the box and focuses the current image's link |
| Kratsbox.OnKey | res/js/kratsbox.js:90-116 | a key reaches the page exactly when the box does not handle it, and then nothing changes; handled keys focus close, close, or load the previous or next image |
| Kratsbox.RightThenLeft | res/js/kratsbox.js:98-110 | right arrow then left arrow shows the same image again |
| Kratsbox.CloseFocusesShown | res/js/kratsbox.js:95-149 | closing after moving on focuses the link of the image last shown |
| Site.LoadTheme | res/js/site.js:1-5 | a stored, non-empty theme adds its class to the page; nothing else does |
| Site.Toggle | res/js/site.js:28-44 | the switch moves the page from dark to light, light to default, and default to dark; the stored value follows the new theme; a page with one theme class keeps one; other classes do not change |
| Site.ThreeToggles | res/js/site.js:31-41 | three presses bring the theme back |
| Site.ThemeSurvivesReload | res/js/site.js:1-5 | the stored value brings the chosen theme back on the next page |
| Site.LabelsFor | res/js/site.js:7-21 | a page gets the Swedish labels exactly when its language is `sv`, else the English ones |
| Site.InstanceMatch | res/js/site.js:53 | the instance pattern matches exactly the names made of word chars and dots whose last dot is neither first nor last |
| Site.InstanceExamples | res/js/site.js:53 | `mastodon.nu` is accepted; `localhost`, `.nu`, `mastodon.` and a URL are not |
| Site.RunEnd | res/js/site.js:70 | a run of white space ends at the first char that is not white space |
| Site.DashFirstSpaces | res/js/site.js:70 | a tag without white space is unchanged |
| Site.DashFirstSpacesOf | res/js/site.js:70 | the first run of white space, and only that, becomes one dash |
| Site.DashFirstOnly | res/js/site.js:70 | `New York` becomes `New-York`, and `a  b c` becomes `a-b c` |
| Site.Hashtag | res/js/site.js:70 | a hashtag is `#` and the tag, unchanged when it has no white space |
| Site.Hashtags | res/js/site.js:69-70 | no tags give an empty line |
| Site.HashtagsSplit | res/js/site.js:69-70 | the line splits at spaces into one hashtag per one-word tag, in order |
| Site.ShareText | res/js/site.js:74 | the shared text is the heading, a comma, the author line, a blank line, then the hashtags and a newline |
| Site.Share | res/js/site.js:64-82 | the share window opens exactly when the instance matches the pattern, with that instance, the text and the page's location; otherwise the field is marked with the invalid-instance message |
| Site.SwedishShare | res/js/site.js:7-14 | a Swedish page shares with the Swedish author line |

`src/readfiles.rs` is the older single-file importer.  Its helpers
(`extract_metadata`, `items_until`, `fa_link`, `wikilink`, `link_ext`,
`collect_html`, `remove_end`, `tag_name` and the teaser's anchor rewrite)
are line for line those of `src/readfiles/mod.rs` and
`src/readfiles/html.rs`, so the members cited above for those lines model
both; only the older code-block handling differs and has its own rows.

## Left out

- Database access: the diesel queries, the SQL functions, `src/schema.rs`, `src/dbopt.rs`, `src/models/fullpost.rs`, `src/models/tag.rs`, `src/models/mod.rs` and `src/listposts.rs` are queries or re-exports; the rows they return are inputs of the operations.
- `src/models/postlink.rs`: its only logic is the post URL format, modelled once as `Post.PagePath`.
- Network I/O: `src/imgcli.rs`, the `ImgClient` login and fetch in `src/readfiles/imgcli.rs`, the image-fetch branch of `html::collect` (the image data is an input) and `window.open` in the page script.
- Server plumbing: the warp routes and filters, `run`, `quit_sig`, `common_headers`, `src/server/assets.rs`, `src/main.rs` and the templates; only the decisions the handlers make are modelled.
- Libraries outside the repository: the markdown parser (its event stream is an input), syntax highlighting (`src/syntax_hl.rs` and syntect, a parameter of the code blocks), `build.rs`, and `fb_share_url`, which relies on a URL library.
- Dates: parsing and `strftime` formatting are parameters or written out for the one format used; the clock is a parameter ("now").
- Localisation: the message catalogue and its lookup are a parameter; message ids and arguments are modelled, their translations are not.
- Cryptography: the AES-GCM CSRF token scheme and base64 decoding are fallible parameters of `Csrf.Protection`.
- File I/O and the terminal: reading post files and directories, stdin and stdout of the moderation command; file contents and typed lines are inputs.
- The browser environment: the DOM, the `limitSize` resize polling, `localStorage`, the event wiring and the image's load event; the scripts are modelled as state transitions on explicit state.
- Regular expressions: each pattern the source uses is a hand-written recogniser for that pattern, with `\w` and `\b` taken as ASCII word characters; no general regex engine is modelled.
- `src/readfiles/markdown.rs` calls `link_data`, `PageRef`, `Loader` and a three-argument `html::collect` that belong to another snapshot of the importer; they are parameters of `ContentMarkdown`.
- Accept-Language parsing: splitting the header into ranges and ordering them by quality is done by a library; its result is the input of `ServerLanguage.AcceptLang`.
- Server.PageFallback: which existing version is chosen when the preferred language is missing depends on the order the database returns rows in, so the contract promises only some existing version there.
- Csrf.GeneratePair: `or_ise` is taken to map a failure as `ise` does, to the generic internal error.
- Feeds.FeedName: states the length and the prefix of the name; the round trip with `Feeds.ParseFeedArgs` carries the rest.
- Site.Hashtags: states the empty case only; `Site.HashtagsSplit` gives the contents for tags without white space, and tags with white space go through `Site.DashFirstSpacesOf`.
- Site.Share: the URL's host setter and the percent-encoding of `URLSearchParams` are not modelled; the request keeps the raw instance, text and page URL.
- ContentMarkdown.UpdateNote: states only that no update text adds nothing; the note's markup comes from the markdown writer, a parameter.
- ReadFiles.TeaserSource: states the source of a teaser without local links; the anchor rewrite is stated separately, by `ReadFiles.AnchorRewritten` and the findings' lemmas.
- ReadFiles.ExtractParts: `language::load(lang).unwrap()` (src/readfiles/mod.rs:404) is taken to succeed exactly for the codes `en` and `sv`, as `MyLang.Parse` reads them; src/server/language.rs:19-39 loads any well-formed language tag that has translations (`ServerLanguage.Load`), so a tag the tag parser normalises to a site language, such as `EN`, panics in the model where the program goes on.
- OldModels.Publine: `language::load(&self.lang).unwrap()` (src/models.rs:187) is taken to succeed exactly for `en` and `sv`, as for `ReadFiles.ExtractParts`; a post whose language is another well-formed tag with translations gets no line in the model, where the program writes one.
- Strings.DebugString: every error text that quotes a value with `{:?}` uses it, with the narrowing described for `MyLang.Message` (no `\u{..}` for non-printable or grapheme-extending chars): `Slug.FromSql` (`Bad slug`), `ReadFiles.ParseUpdate` (`Bad date:`), `CodeBlocks.ForKind` (`Magic for !…`), `ContentMarkdown.SetFiles` through `ContentMarkdown.DebugPairs`, the `pubdate` and unknown-key errors of `ContentMarkdown.MetaLine`, and the asset error of `ContentMarkdown.LoadAssets`.
- MyLang.Message: `{:?}` is modelled by `Strings.DebugString`, which escapes `"`, `\`, `\t`, `\r`, `\n`, `\0` and the other control chars but writes every other char as it is; Rust's `escape_debug` also writes non-printable and grapheme-extending chars (U+00A0, U+00AD, U+200B, U+0301 and others) as `\u{..}`, a Unicode table the model does not carry, so for such input the message text differs.
- Strings.UnquoteDebug: the round trip is proved for `Strings.DebugString`, with the same narrowing of `{:?}` as `MyLang.Message`: the `\u{..}` form for non-printable and grapheme-extending chars is neither written nor read back.
- ReadFiles.ParseFa: `\d` in the issue pattern (src/readfiles/mod.rs:495) is taken as an ASCII digit; Rust's `regex` reads `\d` as any Unicode decimal digit, so a reference with, say, an Arabic-Indic digit matches there and then panics in `parse().unwrap()`, which the model does not show.

## Findings

| source | as written | input that shows it | evidently intended | confidence | as-written member | corrected member |
|---|---|---|---|---|---|---|
| src/readfiles/mod.rs:419 | the anchor class of the teaser rewrite is `[a-z0-0_]`, so the only digit it takes is `0` (`src/readfiles.rs` line 373 has the same class) | a teaser linking to `](#h1)` keeps the page-local link, which points nowhere on the front page | `[a-z0-9_]`, every heading id of letters, digits and `_` rewritten to the post's page | medium; not executed | ReadFiles.AsWrittenSkipsDigits | ReadFiles.IntendedRewritesDigits |
| src/readfiles/markdown.rs:361-449 | every cut by weight returns `i - 1`, and the teaser is the events before that index | a text opening with a heading underflows `0 - 1`; a first paragraph of 641 to 1020 bytes (a weight of its length plus 80, past 720) ends the teaser without the paragraph's end event | return `i`, the events before the block that does not fit, so the teaser ends with a complete block | medium; not executed | ContentMarkdown.HeadingFirst | ContentMarkdown.FindTeaser |


=== FILE: cmark_new.dfy ===
/** The event stream of the markdown library in the version the content loader
    and the comment renderer use: an element opens with `Start(tag)` and closes
    with `End(tag_end)`, where the end carries only what identifies the element
    kind; front matter arrives as a metadata block. */
module CmarkNew {
  import opened Wrappers

  datatype HeadingLevel = H1 | H2 | H3 | H4 | H5 | H6

  datatype CodeBlockKind = Indented | Fenced(info: string)

  datatype BlockQuoteKind = Note | Tip | Important | Warning | Caution

  datatype MetadataBlockKind = YamlStyle | PlusesStyle

  datatype LinkType =
    | Inline | Reference | ReferenceUnknown | Collapsed | CollapsedUnknown
    | Shortcut | ShortcutUnknown | Autolink | Email | WikiLink

  datatype Tag =
    | Paragraph
    | Heading(level: HeadingLevel, id: Option<string>, classes: seq<string>,
              attrs: seq<(string, Option<string>)>)
    | BlockQuote(quoteKind: Option<BlockQuoteKind>)
    | CodeBlock(kind: CodeBlockKind)
    | HtmlBlock
    | List(start: Option<nat>)
    | Item
    | FootnoteDefinition(footnote: string)
    | Table(columns: nat)
    | TableHead
    | TableRow
    | TableCell
    | Emphasis
    | Strong
    | Strikethrough
    | Link(linkType: LinkType, dest: string, title: string, linkId: string)
    | Image(linkType: LinkType, dest: string, title: string, imageId: string)
    | MetadataBlock(metaKind: MetadataBlockKind)

  /** What an `End` event carries. */
  datatype TagEnd =
    | ParagraphEnd
    | HeadingEnd(endLevel: HeadingLevel)
    | BlockQuoteEnd(endQuoteKind: Option<BlockQuoteKind>)
    | CodeBlockEnd
    | HtmlBlockEnd
    | ListEnd(ordered: bool)
    | ItemEnd
    | FootnoteDefinitionEnd
    | TableEnd
    | TableHeadEnd
    | TableRowEnd
    | TableCellEnd
    | EmphasisEnd
    | StrongEnd
    | StrikethroughEnd
    | LinkEnd
    | ImageEnd
    | MetadataBlockEnd(endMetaKind: MetadataBlockKind)

  datatype Event =
    | Start(tag: Tag)
    | End(tagEnd: TagEnd)
    | Text(text: string)
    | Code(code: string)
    | Html(html: string)
    | InlineHtml(inlineHtml: string)
    | FootnoteReference(footnoteRef: string)
    | SoftBreak
    | HardBreak
    | Rule
    | TaskListMarker(checked: bool)

  /** The numeric level of a heading (1 to 6). */
  function LevelNumber(l: HeadingLevel): (n: nat)
    ensures 1 <= n <= 6
  {
    match l
    case H1 => 1
    case H2 => 2
    case H3 => 3
    case H4 => 4
    case H5 => 5
    case H6 => 6
  }
}

=== FILE: cmark_old.dfy ===
/** The event stream of the markdown library in the version the HTML serialiser,
    the summary writer and the title/body splitter were written against: a
    block or inline element is a `Start(tag)` ... `End(tag)` pair carrying the
    same tag, with leaf events in between. */
module CmarkOld {
  import opened Wrappers

  datatype HeadingLevel = H1 | H2 | H3 | H4 | H5 | H6

  /** The numeric level (`level as u32`). */
  function LevelNumber(l: HeadingLevel): (n: nat)
    ensures 1 <= n <= 6
  {
    match l
    case H1 => 1
    case H2 => 2
    case H3 => 3
    case H4 => 4
    case H5 => 5
    case H6 => 6
  }

  datatype CodeBlockKind = Indented | Fenced(info: string)

  datatype Alignment = NoAlignment | Left | Center | Right

  datatype LinkType =
    | Inline | Reference | ReferenceUnknown | Collapsed | CollapsedUnknown
    | Shortcut | ShortcutUnknown | Autolink | Email

  datatype Tag =
    | Paragraph
    | Heading(level: HeadingLevel, id: Option<string>, classes: seq<string>)
    | BlockQuote
    | CodeBlock(kind: CodeBlockKind)
    | List(start: Option<nat>)
    | Item
    | FootnoteDefinition(footnote: string)
    | Table(alignments: seq<Alignment>)
    | TableHead
    | TableRow
    | TableCell
    | Emphasis
    | Strong
    | Strikethrough
    | Link(linkType: LinkType, dest: string, title: string)
    | Image(linkType: LinkType, dest: string, title: string)

  datatype Event =
    | Start(tag: Tag)
    | End(tag: Tag)
    | Text(text: string)
    | Code(code: string)
    | Html(html: string)
    | FootnoteReference(footnoteRef: string)
    | SoftBreak
    | HardBreak
    | Rule
    | TaskListMarker(checked: bool)

  /** The `{:?}` rendering of a link type. */
  function LinkTypeDebug(t: LinkType): string {
    match t
    case Inline => "Inline"
    case Reference => "Reference"
    case ReferenceUnknown => "ReferenceUnknown"
    case Collapsed => "Collapsed"
    case CollapsedUnknown => "CollapsedUnknown"
    case Shortcut => "Shortcut"
    case ShortcutUnknown => "ShortcutUnknown"
    case Autolink => "Autolink"
    case Email => "Email"
  }

  function AlignmentDebug(a: Alignment): string {
    match a
    case NoAlignment => "None"
    case Left => "Left"
    case Center => "Center"
    case Right => "Right"
  }

  function AlignmentsDebug(aligns: seq<Alignment>): string {
    if aligns == [] then ""
    else if |aligns| == 1 then AlignmentDebug(aligns[0])
    else AlignmentDebug(aligns[0]) + ", " + AlignmentsDebug(aligns[1..])
  }
}

=== FILE: code_blocks.dfy ===
/** Fenced and indented code blocks: a "magic" language `!leaflet` turns the
    block into a map script, any other `!name` is refused, and everything else
    becomes a `<pre>` element, highlighted when the syntax highlighter knows
    the language and HTML-escaped otherwise.  The highlighter is a parameter. */
module CodeBlocks {
  import opened Wrappers
  import opened Strings
  import opened Escape

  /** The syntax highlighter: whether it has a syntax for a language, and the
      markup it produces for all the code of a block in that language. */
  datatype Syntax = Syntax(knows: string -> bool, markup: (string, string) -> string)

  /** An open block: a map script, or a `<pre>` element, with the code pushed
      so far when it is being highlighted. */
  datatype Handler =
    | Leaflet
    | Code(lang: Option<string>, highlighted: bool, pushed: string)

  /** The start of the map script. */
  const LeafletOpen: string :=
    "\n<div id=\"llmap\">\n<p>There should be a map here.</p>\n</div>\n"
    + "<script type=\"text/javascript\">\n  function initmap() {\n"
    + "  var map = L.map('llmap', {scrollWheelZoom: false})\n"
    + "  .addLayer(L.tileLayer('//{s}.tile.openstreetmap.org/{z}/{x}/{y}.png', {\n"
    + "  attribution: '&#xA9; <a href=\"http://osm.org/copyright\">OpenStreetMaps bidragsgivare</a>',\n"
    + "  }));\n"

  const LeafletClose: string := "}\n</script>\n"

  /** The start tag of a code block, with the language as an escaped
      `data-lang` attribute when there is one. */
  function PreOpen(lang: Option<string>): (r: string)
    ensures lang.None? ==> r == "<pre>"
    ensures lang.Some? ==> exists v :: r == "<pre data-lang=\"" + v + "\">" && '"' !in v && Unescape(v) == lang.value
  {
    match lang
    case None => "<pre>"
    case Some(l) =>
      UnescapeEscapeHtml(l);
      assert '"' !in EscapeHtml(l);
      "<pre data-lang=\"" + EscapeHtml(l) + "\">"
  }

  /** `DynBlock::for_kind`: the handler for a block of language `lang`, and
      the output with the block's opening appended. */
  function ForKind(out: string, lang: Option<string>, syn: Syntax): (r: Result<(string, Handler), string>)
    ensures r.Ok? && r.value.1.Leaflet? <==> lang == Some("!leaflet")
    ensures r.Err? <==> lang.Some? && StartsWith(lang.value, "!") && lang.value != "!leaflet"
    ensures r.Ok? && r.value.1.Leaflet? ==> r.value.0 == out + LeafletOpen
    ensures r.Ok? && r.value.1.Code? ==>
              r.value.0 == out + PreOpen(lang) && r.value.1.lang == lang && r.value.1.pushed == ""
              && (r.value.1.highlighted <==> lang.Some? && syn.knows(lang.value))
  {
    match lang
    case Some(l) =>
      if StartsWith(l, "!") then
        if l[1..] == "leaflet" then
          assert l == "!leaflet" by { assert l[..1] == "!"; assert l == l[..1] + l[1..]; }
          Ok((out + LeafletOpen, Leaflet))
        else
          Err("Magic for !" + DebugString(l[1..]) + " not implemented")
      else
        Ok((out + PreOpen(lang), Code(lang, syn.knows(l), "")))
    case None => Ok((out + PreOpen(lang), Code(None, false, "")))
  }

  /** `push`: map code is copied as it is, highlighted code is held for the
      highlighter, other code is escaped into the output. */
  function Push(out: string, h: Handler, content: string): (r: (string, Handler))
    ensures h.Leaflet? ==> r == (out + content, h)
    ensures h.Code? && h.highlighted ==> r.0 == out && r.1 == h.(pushed := h.pushed + content)
    ensures h.Code? && !h.highlighted ==> r.0 == out + EscapeHtml(content) && r.1 == h
  {
    match h
    case Leaflet => (out + content, h)
    case Code(_, highlighted, pushed) =>
      if highlighted then (out, h.(pushed := pushed + content))
      else (out + EscapeHtml(content), h)
  }

  /** `end`: the end of the map script, or the highlighted markup (if any)
      and the end tag of the `<pre>`. */
  function End(out: string, h: Handler, syn: Syntax): (r: string)
    requires h.Code? && h.highlighted ==> h.lang.Some?
    ensures h.Leaflet? ==> r == out + LeafletClose
    ensures h.Code? ==> EndsWith(r, "</pre>\n") && StartsWith(r, out)
    ensures h.Code? && !h.highlighted ==> r == out + "</pre>\n"
  {
    match h
    case Leaflet => out + LeafletClose
    case Code(lang, highlighted, pushed) =>
      var body := if highlighted then syn.markup(lang.value, pushed) else "";
      var r := out + body + "</pre>\n";
      assert r[..|out|] == out;
      assert r[|r| - |"</pre>\n"|..] == "</pre>\n";
      r
  }

  /** A whole block: opened, each text of the block pushed, and ended. */
  function Block(out: string, lang: Option<string>, texts: seq<string>, syn: Syntax): Result<string, string> {
    var (o, h) :- ForKind(out, lang, syn);
    var (o', h') := PushAll(o, h, texts);
    Ok(End(o', h', syn))
  }

  function PushAll(out: string, h: Handler, texts: seq<string>): (r: (string, Handler))
    ensures h.Leaflet? ==> r.1.Leaflet? && r.0 == out + Concat(texts)
    ensures h.Code? ==> r.1.Code? && r.1.lang == h.lang && r.1.highlighted == h.highlighted
    ensures h.Code? && !h.highlighted ==> r.0 == out + EscapeHtml(Concat(texts))
    decreases |texts|
  {
    if texts == [] then (out, h)
    else
      var p := Push(out, h, texts[0]);
      var r := PushAll(p.0, p.1, texts[1..]);
      PushStep(out, h, texts, p.0, r.0);
      r
  }

  lemma PushStep(out: string, h: Handler, texts: seq<string>, o: string, o': string)
    requires texts != [] && o == Push(out, h, texts[0]).0
    requires h.Leaflet? ==> o' == o + Concat(texts[1..])
    requires h.Code? && !h.highlighted ==> o' == o + EscapeHtml(Concat(texts[1..]))
    ensures h.Leaflet? ==> o' == out + Concat(texts)
    ensures h.Code? && !h.highlighted ==> o' == out + EscapeHtml(Concat(texts))
  {
    if h.Leaflet? {
      AppendAssoc(out, texts[0], Concat(texts[1..]));
    } else if !h.highlighted {
      EscapeHtmlAppend(texts[0], Concat(texts[1..]));
      AppendAssoc(out, EscapeHtml(texts[0]), EscapeHtml(Concat(texts[1..])));
    }
  }

  lemma AppendAssoc(a: string, b: string, c: string)
    ensures a + b + c == a + (b + c)
  {
  }

  function Concat(texts: seq<string>): string {
    if texts == [] then "" else texts[0] + Concat(texts[1..])
  }

  /** Without a highlighter for its language, a code block is the `<pre>` start
      tag, the escaped code, and the end tag: unescaping its content gives the
      code back. */
  lemma {:induction false} PlainBlock(out: string, lang: Option<string>, texts: seq<string>, syn: Syntax)
    requires lang.None? || (!StartsWith(lang.value, "!") && !syn.knows(lang.value))
    ensures Block(out, lang, texts, syn) == Ok(out + PreOpen(lang) + EscapeHtml(Concat(texts)) + "</pre>\n")
    ensures Unescape(EscapeHtml(Concat(texts))) == Concat(texts)
  {
    UnescapeEscapeHtml(Concat(texts));
  }

  /** A map block is the script start, the code as it is, and the script end. */
  lemma LeafletBlock(out: string, texts: seq<string>, syn: Syntax)
    ensures Block(out, Some("!leaflet"), texts, syn) == Ok(out + LeafletOpen + Concat(texts) + LeafletClose)
  {
  }
}

=== FILE: comment.dfy ===
/** Comments on posts: their fragment ids, the author link, and the short
    excerpt shown in the list of recent comments. */
module Comment {
  import opened Wrappers
  import opened Strings
  import opened Ints
  import opened Escape
  import DateTime
  import Post

  datatype Comment = Comment(id: I32, postId: I32, postedAt: DateTime.DateTime,
                             content: string, name: string, email: string,
                             url: Option<string>)

  /** A comment together with the post it belongs to. */
  datatype PostComment = PostComment(comment: Comment, post: Post.PostLink)

  /** `html_id`: "c" and the id in lower-case hex (`{:x}` of an `i32` writes the
      two's-complement bits, so negative ids get eight digits). */
  function HtmlId(id: I32): (r: string)
    ensures |r| >= 2 && r[0] == 'c' && AllChars(r[1..], IsHexDigit)
    ensures HexValue(r[1..]) == BitsU32(id)
    ensures r[1] == '0' <==> BitsU32(id) == 0
    ensures '#' !in r
  {
    HexValueOfHex(BitsU32(id));
    var r := "c" + Hex(BitsU32(id));
    assert r[1..] == Hex(BitsU32(id));
    r
  }

  /** Distinct comments get distinct fragment ids. */
  lemma HtmlIdInjective(a: I32, b: I32)
    requires HtmlId(a) == HtmlId(b)
    ensures a == b
  {
    BitsU32Injective(a, b);
  }

  /** `LinkName::to_html`: the escaped name, inside a link to the escaped url
      when the commenter gave one.  Neither value can break out of its place:
      the href holds no `'`, the name no `<`, and unescaping gives back the
      values themselves. */
  function LinkName(c: Comment): (r: string)
    ensures c.url.None? ==> Unescape(r) == c.name && '<' !in r
    ensures c.url.Some? ==>
              exists h: string, n: string ::
                r == "<a href='" + h + "' rel='author noopener nofollow'>" + n + "</a>"
                && '\'' !in h && '<' !in n && Unescape(h) == c.url.value && Unescape(n) == c.name
  {
    UnescapeEscapeTemplate(c.name);
    match c.url
    case None => EscapeTemplate(c.name)
    case Some(u) =>
      UnescapeEscapeTemplate(u);
      var h := EscapeTemplate(u);
      var n := EscapeTemplate(c.name);
      assert '\'' !in h && '<' !in n;
      "<a href='" + h + "' rel='author noopener nofollow'>" + n + "</a>"
  }

  /** `PostComment::url`: the post's URL with the comment's id as fragment. */
  function Url(pc: PostComment): (r: string)
    ensures var u := Post.LinkUrl(pc.post);
            LastIndexOf(r, '#') == Some(|u|) && r[..|u|] == u
            && r[|u| + 1..] == HtmlId(pc.comment.id)
  {
    FragmentAt(Post.LinkUrl(pc.post), HtmlId(pc.comment.id));
    Post.LinkUrl(pc.post) + "#" + HtmlId(pc.comment.id)
  }

  lemma FragmentAt(u: string, id: string)
    requires '#' !in id
    ensures var r := u + "#" + id;
            LastIndexOf(r, '#') == Some(|u|) && r[..|u|] == u && r[|u| + 1..] == id
  {
    var r := u + "#" + id;
    assert r[|u|] == '#' && r[|u| + 1..] == id;
    LastIndexOfAt(r, '#', |u|);
  }

  lemma LastIndexOfAt(s: string, c: char, i: nat)
    requires i < |s| && s[i] == c && c !in s[i + 1..]
    ensures LastIndexOf(s, c) == Some(i)
  {
    assert s[i] in s;
  }

  /** The excerpt of `text` kept by `text_start`: the longest prefix of at most
      `limit` bytes that ends on a char boundary, cut further back to just
      before its last space when it has one. */
  function Excerpt(text: string, limit: nat): (e: string)
    ensures |e| <= |text| && e == text[..|e|] && Utf8Len(e) <= limit
    ensures var k := PrefixWithin(text, limit);
            if ' ' in text[..k]
            then |e| < k && text[|e|] == ' ' && ' ' !in text[|e| + 1..k]
            else |e| == k
  {
    var k := PrefixWithin(text, limit);
    match LastIndexOf(text[..k], ' ')
    case Some(j) =>
      Utf8LenPrefix(text, j, k);
      assert text[..k][..j] == text[..j];
      assert text[..k][j + 1..] == text[j + 1..k];
      text[..j]
    case None => text[..k]
  }

  /** `text_start` of a comment of the current model: short markdown (under
      200 bytes) is shown as it is, as raw HTML; longer markdown is cut to its
      120-byte excerpt, escaped, and marked with " …". */
  function TextStart(text: string): (r: string)
    ensures Utf8Len(text) < 200 ==> r == text
    ensures Utf8Len(text) >= 200 ==>
              EndsWith(r, " …") && Unescape(r[..|r| - 2]) == Excerpt(text, 120)
              && '<' !in r[..|r| - 2]
  {
    if Utf8Len(text) < 200 then text
    else
      var e := EscapeTemplate(Excerpt(text, 120));
      UnescapeEscapeTemplate(Excerpt(text, 120));
      var r := e + " …";
      assert r[..|r| - 2] == e;
      r
  }

  /** The excerpt of a long comment is a prefix of it of at most 120 bytes. */
  lemma ExcerptIsShortPrefix(text: string)
    requires Utf8Len(text) >= 200
    ensures var e := Unescape(TextStart(text)[..|TextStart(text)| - 2]);
            StartsWith(text, e) && Utf8Len(e) <= 120
  {
  }
}

=== FILE: content_markdown.dfy ===
/** The content loader of the newer importer: the front matter of a post
    (a metadata block of `key: value` lines), its asset list, the resolution
    of links without a definition, the title, the teaser cut by marker or by
    weight, and the assembly of title, teaser, body, summary and front image.
    The markdown parser, the markup and summary writers of this snapshot and
    the image writer are parameters; events are in the newer shape. */
module ContentMarkdown {
  import opened Wrappers
  import opened Strings
  import opened Ints
  import opened CmarkNew
  import DateTime
  import MyLang
  import Html
  import Summary
  import ReadFiles
  import Fluent
  import Teaser

  // ---------------------------------------------------------------------------
  // Front matter

  /** What the front matter says: a `meta` page (not a dated post), its tags,
      publication date, update note and asset list. */
  datatype ContentMeta = ContentMeta(isMeta: bool, tags: Option<string>, pubdate: Option<DateTime.DateTime>,
                                     update: Option<ReadFiles.UpdateInfo>, res: Option<string>)

  const NoMeta: ContentMeta := ContentMeta(false, None, None, None, None)

  /** A front-matter line split at its first colon: the key exactly as
      written and the value trimmed; a line without a colon is all key. */
  function MetaEntry(line: string): (r: (string, string))
    ensures ':' !in r.0
    ensures ':' !in line ==> r == (line, "")
  {
    match SplitOnce(line, ':')
    case Some((key, value)) => (key, Trim(value))
    case None => (line, "")
  }

  /** A line with a colon is the key, the colon and a value whose trim is
      the entry's value. */
  lemma MetaEntrySplit(line: string)
    requires ':' in line
    ensures exists v :: line == MetaEntry(line).0 + ":" + v && MetaEntry(line).1 == Trim(v)
  {
    var parts := SplitOnce(line, ':').value;
    assert MetaEntry(line) == (parts.0, Trim(parts.1));
    assert line == parts.0 + ":" + parts.1;
  }

  /** The keys the front matter knows, and every other key. */
  datatype Key = PubdateKey | TagsKey | ResKey | UpdateKey | MetaKey | OtherKey

  function KeyOf(key: string): (r: Key)
    ensures r == PubdateKey <==> key == "pubdate"
    ensures r == TagsKey <==> key == "tags"
    ensures r == ResKey <==> key == "res"
    ensures r == UpdateKey <==> key == "update"
    ensures r == MetaKey <==> key == "meta"
  {
    if key == "pubdate" then PubdateKey
    else if key == "tags" then TagsKey
    else if key == "res" then ResKey
    else if key == "update" then UpdateKey
    else if key == "meta" then MetaKey
    else OtherKey
  }

  /** The date parser of the importer. */
  datatype Parsers = Parsers(date: string -> Option<DateTime.DateTime>)

  /** One line of front matter applied to what the lines before it said:
      accepted exactly when `LineOk`, and then only the field its key names
      changes; an unknown key is a panic. */
  function MetaLine(m: ContentMeta, line: string, p: Parsers): (r: Result<ContentMeta, Html.Failure>)
    ensures r.Ok? <==> LineOk(line, p)
    ensures KeyOf(MetaEntry(line).0) == OtherKey ==> r.Err? && r.error.Panic?
    ensures r.Ok? ==> r.value.isMeta == (m.isMeta || KeyOf(MetaEntry(line).0) == MetaKey)
    ensures r.Ok? ==> r.value.tags == (if KeyOf(MetaEntry(line).0) == TagsKey then Some(MetaEntry(line).1) else m.tags)
    ensures r.Ok? ==> r.value.res == (if KeyOf(MetaEntry(line).0) == ResKey then Some(MetaEntry(line).1) else m.res)
    ensures r.Ok? ==> r.value.pubdate == (if KeyOf(MetaEntry(line).0) == PubdateKey then p.date(MetaEntry(line).1) else m.pubdate)
    ensures r.Ok? ==> r.value.update == (if KeyOf(MetaEntry(line).0) == UpdateKey
                                         then UpdateOf(MetaEntry(line).1, p) else m.update)
  {
    var entry := MetaEntry(line);
    var value := entry.1;
    match KeyOf(entry.0)
    case PubdateKey =>
      (match p.date(value)
       case Some(d) => Ok(m.(pubdate := Some(d)))
       case None => Err(Html.Bail("pubdate " + DebugString(value) + " is not a date")))
    case TagsKey => Ok(m.(tags := Some(value)))
    case ResKey => Ok(m.(res := Some(value)))
    case UpdateKey =>
      (match ReadFiles.ParseUpdate(value, p.date)
       case Ok(u) => Ok(m.(update := Some(u)))
       case Err(msg) => Err(Html.Bail(msg)))
    case MetaKey => Ok(m.(isMeta := true))
    case OtherKey => Err(Html.Panic("not yet implemented: Handle metadata " + DebugString(entry.0) + "; " + DebugString(value)))
  }

  /** A front-matter line the reader accepts: a known key, and for a date or
      an update a value that parses. */
  predicate LineOk(line: string, p: Parsers) {
    var key := KeyOf(MetaEntry(line).0);
    key != OtherKey
    && (key == PubdateKey ==> p.date(MetaEntry(line).1).Some?)
    && (key == UpdateKey ==> UpdateOf(MetaEntry(line).1, p).Some?)
  }

  /** The update note an `update` value reads as, if it reads as one. */
  function UpdateOf(value: string, p: Parsers): Option<ReadFiles.UpdateInfo> {
    match ReadFiles.ParseUpdate(value, p.date)
    case Ok(u) => Some(u)
    case Err(_) => None
  }

  /** Every line is accepted. */
  predicate AllOk(lines: seq<string>, p: Parsers)
    decreases |lines|
  {
    lines == [] || (LineOk(lines[0], p) && AllOk(lines[1..], p))
  }

  /** The value of the last line with key `key`, if any: the reference
      reading of "later lines overwrite earlier ones". */
  function LastValue(lines: seq<string>, key: Key): Option<string>
    decreases |lines|
  {
    if lines == [] then None
    else if LastValue(lines[1..], key).Some? then LastValue(lines[1..], key)
    else if KeyOf(MetaEntry(lines[0]).0) == key then Some(MetaEntry(lines[0]).1)
    else None
  }

  /** The lines applied in order, from `m`; accepted exactly when every line
      is. */
  function MetaLines(m: ContentMeta, lines: seq<string>, p: Parsers): (r: Result<ContentMeta, Html.Failure>)
    ensures r.Ok? <==> AllOk(lines, p)
    decreases |lines|
  {
    if lines == [] then Ok(m)
    else
      match MetaLine(m, lines[0], p)
      case Err(e) => Err(e)
      case Ok(m') => MetaLines(m', lines[1..], p)
  }

  /** A page read from the lines is a meta page when it was before or when
      some line has the key `meta`. */
  lemma {:induction false} MetaLinesIsMeta(m: ContentMeta, lines: seq<string>, p: Parsers)
    ensures MetaLines(m, lines, p).Ok? ==>
              MetaLines(m, lines, p).value.isMeta == (m.isMeta || HasKey(lines, MetaKey))
    decreases |lines|
  {
    if lines != [] && MetaLine(m, lines[0], p).Ok? {
      MetaLinesIsMeta(MetaLine(m, lines[0], p).value, lines[1..], p);
    }
  }

  /** Some line has key `key`. */
  predicate HasKey(lines: seq<string>, key: Key)
    decreases |lines|
  {
    lines != [] && (KeyOf(MetaEntry(lines[0]).0) == key || HasKey(lines[1..], key))
  }

  lemma {:induction false} HasKeyExists(lines: seq<string>, key: Key)
    ensures HasKey(lines, key) <==> exists i :: 0 <= i < |lines| && KeyOf(MetaEntry(lines[i]).0) == key
    decreases |lines|
  {
    if lines != [] {
      HasKeyExists(lines[1..], key);
      if HasKey(lines[1..], key) {
        var i :| 0 <= i < |lines[1..]| && KeyOf(MetaEntry(lines[1..][i]).0) == key;
        assert KeyOf(MetaEntry(lines[i + 1]).0) == key;
      }
      if exists i :: 0 <= i < |lines| && KeyOf(MetaEntry(lines[i]).0) == key {
        var i :| 0 <= i < |lines| && KeyOf(MetaEntry(lines[i]).0) == key;
        if i > 0 { assert KeyOf(MetaEntry(lines[1..][i - 1]).0) == key; }
      }
    }
  }

  /** The tags read from the lines are the value of the last `tags` line, or
      what they were before when there is none. */
  lemma {:induction false} MetaLinesTags(m: ContentMeta, lines: seq<string>, p: Parsers)
    ensures MetaLines(m, lines, p).Ok? ==>
              MetaLines(m, lines, p).value.tags == (if LastValue(lines, TagsKey).Some? then LastValue(lines, TagsKey) else m.tags)
    decreases |lines|
  {
    if lines != [] && MetaLine(m, lines[0], p).Ok? {
      MetaLinesTags(MetaLine(m, lines[0], p).value, lines[1..], p);
    }
  }

  /** Likewise the asset list and the last `res` line. */
  lemma {:induction false} MetaLinesRes(m: ContentMeta, lines: seq<string>, p: Parsers)
    ensures MetaLines(m, lines, p).Ok? ==>
              MetaLines(m, lines, p).value.res == (if LastValue(lines, ResKey).Some? then LastValue(lines, ResKey) else m.res)
    decreases |lines|
  {
    if lines != [] && MetaLine(m, lines[0], p).Ok? {
      MetaLinesRes(MetaLine(m, lines[0], p).value, lines[1..], p);
    }
  }

  /** Likewise the publication date, parsed from the last `pubdate` line. */
  lemma {:induction false} MetaLinesPubdate(m: ContentMeta, lines: seq<string>, p: Parsers)
    ensures MetaLines(m, lines, p).Ok? ==>
              MetaLines(m, lines, p).value.pubdate
              == (if LastValue(lines, PubdateKey).Some? then p.date(LastValue(lines, PubdateKey).value) else m.pubdate)
    decreases |lines|
  {
    if lines != [] && MetaLine(m, lines[0], p).Ok? {
      MetaLinesPubdate(MetaLine(m, lines[0], p).value, lines[1..], p);
    }
  }

  /** Likewise the update note, parsed from the last `update` line. */
  lemma {:induction false} MetaLinesUpdate(m: ContentMeta, lines: seq<string>, p: Parsers)
    ensures MetaLines(m, lines, p).Ok? ==>
              MetaLines(m, lines, p).value.update
              == (if LastValue(lines, UpdateKey).Some?
                  then UpdateOf(LastValue(lines, UpdateKey).value, p) else m.update)
    decreases |lines|
  {
    if lines != [] && MetaLine(m, lines[0], p).Ok? {
      MetaLinesUpdate(MetaLine(m, lines[0], p).value, lines[1..], p);
    }
  }

  /** `ContentMeta::from_str`: the front matter line by line, from nothing. */
  function ParseMeta(data: string, p: Parsers): (r: Result<ContentMeta, Html.Failure>)
    ensures r.Ok? <==> AllOk(Lines(data), p)
    ensures r.Ok? ==> r.value.tags == LastValue(Lines(data), TagsKey) && r.value.res == LastValue(Lines(data), ResKey)
  {
    var lines := Lines(data);
    var r := MetaLines(NoMeta, lines, p);
    assert r.Ok? ==> r.value.tags == LastValue(lines, TagsKey) && r.value.res == LastValue(lines, ResKey) by {
      if r.Ok? { MetaLinesTags(NoMeta, lines, p); MetaLinesRes(NoMeta, lines, p); }
    }
    r
  }

  /** A repeated key: the later line wins. */
  lemma LaterTagsWin(a: string, b: string, p: Parsers)
    requires ':' !in a && ':' !in b && '\n' !in a && '\n' !in b && '\r' !in a
    ensures ParseMeta(("tags:" + a) + "\n" + ("tags:" + b), p) == Ok(NoMeta.(tags := Some(Trim(b))))
  {
    TwoLines("tags:" + a, "tags:" + b);
    TwoTagLines(a, b, p);
  }

  lemma TwoTagLines(a: string, b: string, p: Parsers)
    requires ':' !in a && ':' !in b
    ensures MetaLines(NoMeta, ["tags:" + a, "tags:" + b], p) == Ok(NoMeta.(tags := Some(Trim(b))))
  {
    var lines := ["tags:" + a, "tags:" + b];
    TagLine(a);
    TagLine(b);
    assert AllOk(lines, p) by { assert lines[1..] == [lines[1]] && [lines[1]][1..] == []; }
    var r := MetaLines(NoMeta, lines, p).value;
    assert r.tags == Some(Trim(b)) by { MetaLinesTags(NoMeta, lines, p); TwoEntries(lines, TagsKey); }
    assert r.res == None by { MetaLinesRes(NoMeta, lines, p); TwoEntries(lines, ResKey); }
    assert r.pubdate == None by { MetaLinesPubdate(NoMeta, lines, p); TwoEntries(lines, PubdateKey); }
    assert r.update == None by { MetaLinesUpdate(NoMeta, lines, p); TwoEntries(lines, UpdateKey); }
    assert !r.isMeta by { MetaLinesIsMeta(NoMeta, lines, p); TwoEntries(lines, MetaKey); }
    assert r == NoMeta.(tags := Some(Trim(b)));
  }

  lemma TwoEntries(lines: seq<string>, key: Key)
    requires |lines| == 2
    ensures var k0 := KeyOf(MetaEntry(lines[0]).0);
            var k1 := KeyOf(MetaEntry(lines[1]).0);
            LastValue(lines, key) == (if k1 == key then Some(MetaEntry(lines[1]).1)
                                      else if k0 == key then Some(MetaEntry(lines[0]).1) else None)
            && HasKey(lines, key) == (k0 == key || k1 == key)
  {
    var tail := lines[1..];
    assert tail[1..] == [];
    assert tail[0] == lines[1];
    assert LastValue(tail[1..], key).None? && !HasKey(tail[1..], key);
    var k1 := KeyOf(MetaEntry(lines[1]).0);
    assert LastValue(tail, key) == (if k1 == key then Some(MetaEntry(lines[1]).1) else None);
    assert HasKey(tail, key) == (k1 == key);
  }

  /** Two lines joined by a line feed read back as two lines. */
  lemma TwoLines(x: string, y: string)
    requires x != [] && y != [] && '\n' !in x && '\n' !in y && '\r' !in x
    ensures Lines(x + "\n" + y) == [x, y]
  {
    var data := x + "\n" + y;
    assert IndexOf(data, '\n') == Some(|x|) by {
      assert data[|x|] == '\n' && data[..|x|] == x;
    }
    assert data[..|x|] == x;
    assert StripCr(x) == x by { assert x[|x| - 1] in x; }
    assert data[|x| + 1..] == y;
    assert Lines(y) == [y];
  }

  lemma TagLine(a: string)
    requires ':' !in a
    ensures MetaEntry("tags:" + a) == ("tags", Trim(a))
  {
    var line := "tags:" + a;
    assert line[4] == ':' && line[..4] == "tags" && line[5..] == a;
    assert IndexOf(line, ':') == Some(4);
  }

  /** `ContentMeta::load`: the event stream opens with a metadata block that
      holds exactly one text, the front matter. */
  function LoadMeta(evs: seq<Event>, p: Parsers, debug: Event -> string): (r: Result<(ContentMeta, seq<Event>), Html.Failure>)
    ensures r.Ok? <==> (|evs| >= 3 && evs[0] == Start(MetadataBlock(YamlStyle)) && evs[1].Text?
                        && ParseMeta(evs[1].text, p).Ok? && evs[2] == End(MetadataBlockEnd(YamlStyle)))
    ensures r.Ok? ==> r.value == (ParseMeta(evs[1].text, p).value, evs[3..])
  {
    if |evs| < 1 || evs[0] != Start(MetadataBlock(YamlStyle)) then
      Err(Html.Bail("Expteded start of metadata, got " + DebugNext(evs, 0, debug)))
    else if |evs| < 2 || !evs[1].Text? then
      Err(Html.Bail("Expteded metadata, got " + DebugNext(evs, 1, debug)))
    else
      var meta :- ParseMeta(evs[1].text, p);
      if |evs| < 3 || evs[2] != End(MetadataBlockEnd(YamlStyle)) then
        Err(Html.Bail("Expteded end of metadata, got " + DebugNext(evs, 2, debug)))
      else Ok((meta, evs[3..]))
  }

  /** The `{:?}` text of the next event, or of its absence. */
  function DebugNext(evs: seq<Event>, i: nat, debug: Event -> string): string {
    if i < |evs| then "Some(" + debug(evs[i]) + ")" else "None"
  }

  /** The year a post is filed under: none (0) for a meta page, else the year
      of its publication date, or of today when it has none; a year that does
      not fit 16 bits is an error. */
  function FilingYear(meta: ContentMeta, nowYear: int, yearOf: DateTime.DateTime -> int): (r: Result<I16, Html.Failure>)
    ensures meta.isMeta ==> r == Ok(0)
    ensures !meta.isMeta && meta.pubdate.Some? && -0x8000 <= yearOf(meta.pubdate.value) < 0x8000 ==>
              r == Ok(yearOf(meta.pubdate.value))
    ensures !meta.isMeta && meta.pubdate.None? && -0x8000 <= nowYear < 0x8000 ==> r == Ok(nowYear)
    ensures r.Err? ==> !meta.isMeta
  {
    if meta.isMeta then Ok(0)
    else
      var y := match meta.pubdate case Some(d) => yearOf(d) case None => nowYear;
      var r: Result<I16, Html.Failure> :=
        if -0x8000 <= y < 0x8000 then Ok(y as I16) else Err(Html.Bail("out of range integral type conversion attempted"));
      r
  }

  // ---------------------------------------------------------------------------
  // Assets

  /** An asset name as the list yields it: not empty, without a comma, and
      without white space at either end. */
  predicate CleanName(s: string) {
    s != [] && ',' !in s && !IsWhitespace(s[0]) && !IsWhitespace(s[|s| - 1])
  }

  /** `ContentMeta::files`: the comma-separated asset list, each name
      trimmed, empty names dropped; nothing when there is no list. */
  function Files(meta: ContentMeta): (r: seq<string>)
    ensures meta.res.None? ==> r == []
    ensures forall i :: 0 <= i < |r| ==> CleanName(r[i])
  {
    match meta.res
    case None => []
    case Some(res) => NonEmptyTrimmed(Split(res, ','))
  }

  function NonEmptyTrimmed(parts: seq<string>): (r: seq<string>)
    requires forall i :: 0 <= i < |parts| ==> ',' !in parts[i]
    ensures forall i :: 0 <= i < |r| ==> CleanName(r[i])
    decreases |parts|
  {
    if parts == [] then []
    else
      var t := Trim(parts[0]);
      InfixNotIn(parts[0], t, ',');
      var rest := NonEmptyTrimmed(parts[1..]);
      if t == [] then rest
      else
        CleanCons(t, rest);
        [t] + rest
  }

  lemma CleanCons(t: string, rest: seq<string>)
    requires CleanName(t) && forall i :: 0 <= i < |rest| ==> CleanName(rest[i])
    ensures forall i :: 0 <= i < |rest| + 1 ==> CleanName(([t] + rest)[i])
  {
    assert forall i :: 0 < i < |rest| + 1 ==> ([t] + rest)[i] == rest[i - 1];
  }

  lemma InfixNotIn(s: string, t: string, c: char)
    requires c !in s && exists k :: InfixAt(s, t, k)
    ensures c !in t
  {
    var k :| InfixAt(s, t, k);
    assert forall j :: 0 <= j < |t| ==> t[j] == s[k + j];
  }

  /** A name without surrounding whitespace is its own trim. */
  lemma TrimNoop(s: string)
    requires s == [] || (!IsWhitespace(s[0]) && !IsWhitespace(s[|s| - 1]))
    ensures Trim(s) == s
  {
    var t := TrimStart(s);
    assert t == s;
    var u := TrimEnd(t);
    assert u == t;
  }

  lemma {:induction false} CleanNames(names: seq<string>)
    requires forall i :: 0 <= i < |names| ==> CleanName(names[i])
    ensures (forall i :: 0 <= i < |names| ==> ',' !in names[i]) && NonEmptyTrimmed(names) == names
    decreases |names|
  {
    CleanNoComma(names);
    if names != [] {
      TrimNoop(names[0]);
      CleanTail(names);
      CleanNames(names[1..]);
      assert names == [names[0]] + names[1..];
    }
  }

  lemma CleanNoComma(names: seq<string>)
    requires forall i :: 0 <= i < |names| ==> CleanName(names[i])
    ensures forall i :: 0 <= i < |names| ==> ',' !in names[i]
  {
    forall i | 0 <= i < |names| ensures ',' !in names[i] {
      assert CleanName(names[i]);
    }
  }

  lemma CleanTail(names: seq<string>)
    requires names != [] && forall i :: 0 <= i < |names| ==> CleanName(names[i])
    ensures forall i :: 0 <= i < |names[1..]| ==> CleanName(names[1..][i])
  {
    forall i | 0 <= i < |names[1..]| ensures CleanName(names[1..][i]) {
      assert names[1..][i] == names[i + 1];
    }
  }

  /** Asset names listed with commas read back as they were listed. */
  lemma FilesOfList(names: seq<string>)
    requires forall i :: 0 <= i < |names| ==> CleanName(names[i])
    ensures Files(NoMeta.(res := Some(Join(names, ",")))) == names
  {
    if names == [] {
      FilesOfEmpty();
    } else {
      CleanNames(names);
      assert "," == [','];
      SplitJoin(names, ',');
    }
  }

  lemma FilesOfEmpty()
    ensures Files(NoMeta.(res := Some(Join([], ",")))) == []
  {
    assert Split("", ',') == [""];
    assert Trim("") == "" by { TrimNoop(""); }
    assert NonEmptyTrimmed([""]) == NonEmptyTrimmed([""][1..]);
  }

  /** `set_files`: the asset list of a page is set once; setting it again is
      an error and leaves the first list.  The cell hands back the value it
      refused, so the message shows the new list in both places. */
  function SetFiles(cell: Option<seq<(string, string)>>, files: seq<(string, string)>): (r: Result<Option<seq<(string, string)>>, string>)
    ensures r.Ok? <==> cell.None?
    ensures r.Ok? ==> r.value == Some(files)
    ensures r.Err? ==> r.error == "Set files " + DebugPairs(files) + " but was already " + DebugPairs(files)
  {
    match cell
    case None => Ok(Some(files))
    case Some(_) => var refused := files; Err("Set files " + DebugPairs(files) + " but was already " + DebugPairs(refused))
  }

  lemma SetFilesTwice(a: seq<(string, string)>, b: seq<(string, string)>)
    ensures SetFiles(None, a) == Ok(Some(a))
    ensures SetFiles(SetFiles(None, a).value, b).Err?
  {
  }

  /** The second call's message never names the list already set: two
      different first lists give the same error. */
  lemma SetFilesMessageIgnoresFirst(a: seq<(string, string)>, b: seq<(string, string)>, f: seq<(string, string)>)
    ensures SetFiles(Some(a), f) == SetFiles(Some(b), f)
  {
  }

  /** The `{:?}` text of a list of name and url pairs. */
  function DebugPairs(ps: seq<(string, string)>): string {
    "[" + DebugPairItems(ps) + "]"
  }

  function DebugPairItems(ps: seq<(string, string)>): string
    decreases |ps|
  {
    if ps == [] then ""
    else
      var item := "(" + DebugString(ps[0].0) + ", " + DebugString(ps[0].1) + ")";
      if |ps| == 1 then item else item + ", " + DebugPairItems(ps[1..])
  }

  // ---------------------------------------------------------------------------
  // Links without a definition

  /** The url of the first asset named `name`. */
  function AssetUrl(files: seq<(string, string)>, name: string): (r: Option<string>)
    ensures r.Some? <==> exists i :: 0 <= i < |files| && files[i].0 == name
    ensures r.Some? ==> exists i :: 0 <= i < |files| && files[i] == (name, r.value)
                                    && forall j :: 0 <= j < i ==> files[j].0 != name
    decreases |files|
  {
    if files == [] then None
    else if files[0].0 == name then Some(files[0].1)
    else
      var r := AssetUrl(files[1..], name);
      assert forall i :: 1 <= i < |files| ==> files[i] == files[1..][i - 1];
      r
  }

  /** The link data of a link extension: the site's table of kinds, given
      the kind, the text, the attribute, the rest and the language. */
  type LinkData = (string, string, string, string, MyLang.Lang) -> Option<(string, string)>

  /** `link_ext` of this snapshot: the `s`-flagged pattern (the text may span
      lines), the text's whitespace runs collapsed to single spaces, then
      the link-data table. */
  function LinkExt(span: string, lang: MyLang.Lang, linkData: LinkData): (r: Option<(string, string)>)
    ensures ReadFiles.ParseLinkRef(span, true).None? ==> r.None?
    ensures ReadFiles.ParseLinkRef(span, true).Some? ==>
              var l := ReadFiles.ParseLinkRef(span, true).value;
              r == linkData(l.kind, Summary.Collapse(l.text), l.attr, l.attrs, lang)
  {
    match ReadFiles.ParseLinkRef(span, true)
    case None => None
    case Some(l) => linkData(l.kind, Summary.Collapse(l.text), l.attr, l.attrs, lang)
  }

  /** `handle_broken_link`: the reference without surrounding backquotes
      names an asset of the page, else an issue of the Phantom, else a link
      extension; failing all three the link points at its reference as
      written.  It always resolves. */
  function ResolveLink(reference: string, span: string, files: Option<seq<(string, string)>>,
                       lang: MyLang.Lang, linkData: LinkData): (r: (string, string))
    ensures var name := TrimChar(reference, '`');
            (files.Some? && AssetUrl(files.value, name).Some? ==> r == (AssetUrl(files.value, name).value, ""))
            && (!(files.Some? && AssetUrl(files.value, name).Some?) && ReadFiles.FaLink(name).Some? ==>
                  r == (ReadFiles.FaLink(name).value, ""))
    ensures r.1 != "" ==> LinkExt(span, lang, linkData) == Some(r)
    ensures var name := TrimChar(reference, '`');
            !(files.Some? && AssetUrl(files.value, name).Some?) && ReadFiles.FaLink(name).None? ==>
              (LinkExt(span, lang, linkData).Some? ==> r == LinkExt(span, lang, linkData).value)
              && (LinkExt(span, lang, linkData).None? ==> r == (reference, ""))
  {
    var name := TrimChar(reference, '`');
    var asset := if files.Some? then AssetUrl(files.value, name) else None;
    match asset
    case Some(url) => (url, "")
    case None =>
      match ReadFiles.FaLink(name)
      case Some(url) => (url, "")
      case None =>
        match LinkExt(span, lang, linkData)
        case Some(target) => target
        case None => (reference, "")
  }

  /** An asset of the page wins over an issue reference or an extension
      of the same name. */
  lemma AssetFirst(name: string, url: string, span: string, lang: MyLang.Lang, linkData: LinkData)
    requires name == [] || (name[0] != '`' && name[|name| - 1] != '`')
    ensures ResolveLink(name, span, Some([(name, url)]), lang, linkData) == (url, "")
  {
    assert TrimChar(name, '`') == name;
    assert AssetUrl([(name, url)], name) == Some(url);
  }

  /** Backquotes around a reference are not part of the asset name. */
  lemma BackquotedAsset(name: string, url: string, span: string, lang: MyLang.Lang, linkData: LinkData)
    requires name != [] && name[0] != '`' && name[|name| - 1] != '`'
    ensures ResolveLink("`" + name + "`", span, Some([(name, url)]), lang, linkData) == (url, "")
  {
    Unquoted(name);
    assert AssetUrl([(name, url)], name) == Some(url);
  }

  lemma Unquoted(name: string)
    requires name != [] && name[0] != '`' && name[|name| - 1] != '`'
    ensures TrimChar("`" + name + "`", '`') == name && TrimChar(name, '`') == name
  {
    var u := name + ['`'];
    var q := ['`'] + u;
    assert q == "`" + name + "`";
    assert q[1..] == u;
    assert u[0] == name[0] && u[..|u| - 1] == name;
    assert TrimChar(name, '`') == name;
    assert TrimChar(u, '`') == TrimChar(name, '`');
    assert TrimChar(q, '`') == TrimChar(u, '`');
  }

  // ---------------------------------------------------------------------------
  // The title

  /** The pen after the title of an undated post. */
  const Pen: string := " \U{1f58b}"

  /** `load_title`: the stream goes on with a heading, whose content up to the
      first heading end is the title; an undated post that is not a meta page
      gets a pen after it.  The rest follows the heading end. */
  function LoadTitle(evs: seq<Event>, meta: ContentMeta, collect: seq<Event> -> Result<string, string>,
                     debug: Event -> string): (r: Result<(string, seq<Event>), Html.Failure>)
    ensures r.Ok? ==> evs != [] && evs[0].Start? && evs[0].tag.Heading?
    ensures r.Ok? ==> exists n :: 1 <= n <= |evs| && collect(evs[1..n]).Ok?
                                  && (forall j :: 1 <= j < n ==> !(evs[j].End? && evs[j].tagEnd.HeadingEnd?))
                                  && (n < |evs| ==> evs[n].End? && evs[n].tagEnd.HeadingEnd? && r.value.1 == evs[n + 1..])
                                  && (n == |evs| ==> r.value.1 == [])
                                  && r.value.0 == collect(evs[1..n]).value + (if meta.pubdate.None? && !meta.isMeta then Pen else "")
  {
    if evs == [] || !(evs[0].Start? && evs[0].tag.Heading?) then
      Err(Html.Bail("Expteded h1, got " + DebugNext(evs, 0, debug)))
    else
      var n := HeadingEndFrom(evs, 1);
      var rest := if n < |evs| then evs[n + 1..] else [];
      match collect(evs[1..n])
      case Err(msg) => Err(Html.Bail(msg))
      case Ok(title) => Ok((title + (if meta.pubdate.None? && !meta.isMeta then Pen else ""), rest))
  }

  /** The index of the first heading end at or after `i`, or `|evs|`. */
  function HeadingEndFrom(evs: seq<Event>, i: nat): (n: nat)
    requires i <= |evs|
    ensures i <= n <= |evs| && (n < |evs| ==> evs[n].End? && evs[n].tagEnd.HeadingEnd?)
    ensures forall j :: i <= j < n ==> !(evs[j].End? && evs[j].tagEnd.HeadingEnd?)
    decreases |evs| - i
  {
    if i == |evs| || (evs[i].End? && evs[i].tagEnd.HeadingEnd?) then i else HeadingEndFrom(evs, i + 1)
  }

  // ---------------------------------------------------------------------------
  // Assets of a page

  /** `load_assets`: each listed asset handed to the loader, which yields its
      name and url; the first failure stops the load, and the list is then
      set once on the page. */
  function LoadAssets(meta: ContentMeta, cell: Option<seq<(string, string)>>,
                      handle: string -> Result<(string, string), string>): (r: Result<Option<seq<(string, string)>>, Html.Failure>)
    ensures r.Ok? <==> cell.None? && forall i :: 0 <= i < |Files(meta)| ==> handle(Files(meta)[i]).Ok?
    ensures r.Ok? ==> r.value.Some? && |r.value.value| == |Files(meta)|
                      && forall i :: 0 <= i < |Files(meta)| ==> r.value.value[i] == handle(Files(meta)[i]).value
  {
    var files :- HandleAll(Files(meta), handle);
    match SetFiles(cell, files)
    case Ok(c) => Ok(c)
    case Err(msg) => Err(Html.Bail(msg))
  }

  function HandleAll(names: seq<string>, handle: string -> Result<(string, string), string>): (r: Result<seq<(string, string)>, Html.Failure>)
    ensures r.Ok? <==> forall i :: 0 <= i < |names| ==> handle(names[i]).Ok?
    ensures r.Ok? ==> |r.value| == |names| && forall i :: 0 <= i < |names| ==> r.value[i] == handle(names[i]).value
    decreases |names|
  {
    if names == [] then Ok([])
    else
      match handle(names[0])
      case Err(_) => Err(Html.Bail("Asset " + DebugString(names[0])))
      case Ok(f) =>
        var rest := HandleAll(names[1..], handle);
        assert forall i :: 1 <= i < |names| ==> names[i] == names[1..][i - 1];
        match rest
        case Err(e) => Err(e)
        case Ok(fs) => Ok([f] + fs)
  }

  // ---------------------------------------------------------------------------
  // The teaser by weight

  /** Below the low limit more blocks join the teaser; a block that takes the
      weight past the high limit is left out. */
  const LowLimit: nat := 720
  const HighLimit: nat := 1100

  /** The panic of an unsigned subtraction below zero. */
  const Underflow: string := "attempt to subtract with overflow"

  /** The panic of a `todo!` with its message. */
  function Todo(what: string): Html.Failure {
    Html.Panic("not yet implemented: " + what)
  }

  /** `img_is_front`: an image whose title or url mentions `front`. */
  predicate ImgIsFront(title: string, dest: string) {
    Contains(title, "front") || Contains(dest, "front")
  }

  predicate IsImage(e: Event) {
    e.Start? && e.tag.Image?
  }

  /** An event running text may hold (other than a nested paragraph). */
  predicate Inline(e: Event) {
    match e
    case Start(t) => t.Image? || t.Emphasis? || t.Strong? || t.Link?
    case End(t) => t.EmphasisEnd? || t.StrongEnd? || t.LinkEnd? || t.ImageEnd?
    case Text(_) => true
    case InlineHtml(_) => true
    case Code(_) => true
    case SoftBreak => true
    case _ => false
  }

  /** The weight of one event of running text: text by its byte length,
      inline markup by an eighth of it, code by one more than it, a soft
      break as one, an image as 200 unless it is a front image, and markup
      tags as nothing. */
  function InlineWeight(e: Event): nat {
    match e
    case Start(t) => if t.Image? && !ImgIsFront(t.title, t.dest) then 200 else 0
    case Text(x) => Utf8Len(x)
    case InlineHtml(x) => Utf8Len(x) / 8
    case Code(x) => Utf8Len(x) + 1
    case SoftBreak => 1
    case _ => 0
  }

  /** `inline_until`: the events from `j` up to the first `end` at this
      level, nested paragraphs skipped whole; their weight is added to `w`
      (a nested paragraph weighs 60 more than its content), and `img` is set
      when an image is among them.  Running out of events, or an event that
      has no place in running text, is a panic. */
  function InlineUntil(evs: seq<Event>, j: nat, end: TagEnd, w: nat, img: bool, debug: Event -> string): (r: Result<(nat, nat, bool), Html.Failure>)
    requires j <= |evs|
    ensures r.Ok? ==> j <= r.value.0 < |evs| && evs[r.value.0] == End(end) && r.value.1 >= w && (img ==> r.value.2)
    ensures r.Err? ==> r.error.Panic?
    decreases |evs| - j
  {
    if j == |evs| then Err(Html.Panic("internal error: entered unreachable code: Inline ended before file"))
    else if evs[j] == End(end) then Ok((j, w, img))
    else if evs[j] == Start(Paragraph) then
      match InlineUntil(evs, j + 1, ParagraphEnd, 0, false, debug)
      case Err(e) => Err(e)
      case Ok((k, w', h)) => InlineUntil(evs, k + 1, end, w + w' + 60, img || h, debug)
    else if Inline(evs[j]) then InlineUntil(evs, j + 1, end, w + InlineWeight(evs[j]), img || IsImage(evs[j]), debug)
    else Err(NotInline(evs[j], debug))
  }

  function NotInline(e: Event, debug: Event -> string): (f: Html.Failure)
    ensures f.Panic?
  {
    Todo("Handle " + debug(e) + " in inline")
  }

  /** Some image starts among the events from `j` up to `e`. */
  predicate ImageIn(evs: seq<Event>, j: nat, e: nat)
    requires j <= e <= |evs|
    decreases e - j
  {
    j < e && (IsImage(evs[j]) || ImageIn(evs, j + 1, e))
  }

  /** `ImageIn` is the plain "there is an image in the range". */
  lemma {:induction false} ImageInExists(evs: seq<Event>, j: nat, e: nat)
    requires j <= e <= |evs|
    ensures ImageIn(evs, j, e) <==> exists k :: j <= k < e && IsImage(evs[k])
    decreases e - j
  {
    if j < e {
      ImageInExists(evs, j + 1, e);
      if !IsImage(evs[j]) {
        assert (exists k :: j <= k < e && IsImage(evs[k])) ==> exists k :: j + 1 <= k < e && IsImage(evs[k]);
      }
    }
  }

  /** The image flag of `inline_until` says exactly whether an image starts
      among the events it went through. */
  lemma {:induction false} InlineImages(evs: seq<Event>, j: nat, end: TagEnd, w: nat, img: bool, debug: Event -> string,
                                        k: nat, total: nat, flag: bool)
    requires j <= |evs| && InlineUntil(evs, j, end, w, img, debug) == Ok((k, total, flag))
    ensures flag <==> img || ImageIn(evs, j, k)
    decreases |evs| - j, 1
  {
    if evs[j] == End(end) {
      assert k == j;
    } else if evs[j] == Start(Paragraph) {
      NestedImages(evs, j, end, w, img, debug, k, total, flag);
    } else {
      InlineStep(evs, j, end, w, img, debug, k, total, flag);
      InlineImages(evs, j + 1, end, w + InlineWeight(evs[j]), img || IsImage(evs[j]), debug, k, total, flag);
    }
  }

  /** The image flag over a nested paragraph: the paragraph's own, and then
      that of the rest. */
  lemma {:induction false} NestedImages(evs: seq<Event>, j: nat, end: TagEnd, w: nat, img: bool, debug: Event -> string,
                                        k: nat, total: nat, flag: bool)
    requires j < |evs| && evs[j] == Start(Paragraph) && evs[j] != End(end)
    requires InlineUntil(evs, j, end, w, img, debug) == Ok((k, total, flag))
    ensures flag <==> img || ImageIn(evs, j, k)
    decreases |evs| - j, 0
  {
    var k', w', h := NestedStep(evs, j, end, w, img, debug, k, total, flag);
    InlineImages(evs, j + 1, ParagraphEnd, 0, false, debug, k', w', h);
    InlineImages(evs, k' + 1, end, w + w' + 60, img || h, debug, k, total, flag);
    ImagesSplit(evs, j, k', k);
  }

  /** `inline_until` over a nested paragraph: the paragraph is walked to its
      end `k'`, and the walk goes on after it. */
  lemma NestedStep(evs: seq<Event>, j: nat, end: TagEnd, w: nat, img: bool, debug: Event -> string,
                   k: nat, total: nat, flag: bool)
    returns (k': nat, w': nat, h: bool)
    requires j < |evs| && evs[j] == Start(Paragraph) && evs[j] != End(end)
    requires InlineUntil(evs, j, end, w, img, debug) == Ok((k, total, flag))
    ensures InlineUntil(evs, j + 1, ParagraphEnd, 0, false, debug) == Ok((k', w', h))
    ensures j < k' < k < |evs| && evs[k'] == End(ParagraphEnd)
    ensures InlineUntil(evs, k' + 1, end, w + w' + 60, img || h, debug) == Ok((k, total, flag))
  {
    var p := InlineUntil(evs, j + 1, ParagraphEnd, 0, false, debug).value;
    k', w', h := p.0, p.1, p.2;
  }

  /** `inline_until` over one event of running text: it goes on after it. */
  lemma InlineStep(evs: seq<Event>, j: nat, end: TagEnd, w: nat, img: bool, debug: Event -> string,
                   k: nat, total: nat, flag: bool)
    requires j < |evs| && evs[j] != Start(Paragraph) && evs[j] != End(end)
    requires InlineUntil(evs, j, end, w, img, debug) == Ok((k, total, flag))
    ensures j < k < |evs|
    ensures InlineUntil(evs, j + 1, end, w + InlineWeight(evs[j]), img || IsImage(evs[j]), debug) == Ok((k, total, flag))
  {
  }

  /** The images of a range are those before, inside and after a nested part. */
  lemma {:induction false} ImagesSplit(evs: seq<Event>, j: nat, k: nat, e: nat)
    requires j < k < e <= |evs| && !IsImage(evs[j]) && !IsImage(evs[k])
    ensures ImageIn(evs, j, e) <==> ImageIn(evs, j + 1, k) || ImageIn(evs, k + 1, e)
  {
    ImagesAround(evs, j + 1, k, e);
  }

  /** A range splits at an event that is no image. */
  lemma {:induction false} ImagesAround(evs: seq<Event>, j: nat, k: nat, e: nat)
    requires j <= k < e <= |evs| && !IsImage(evs[k])
    ensures ImageIn(evs, j, e) <==> ImageIn(evs, j, k) || ImageIn(evs, k + 1, e)
    decreases k - j
  {
    if j < k {
      ImagesAround(evs, j + 1, k, e);
    }
  }

  /** A paragraph of plain text weighs its length in bytes. */
  lemma PlainParagraph(x: string, debug: Event -> string)
    ensures InlineUntil([Text(x), End(ParagraphEnd)], 0, ParagraphEnd, 0, false, debug) == Ok((1, Utf8Len(x), false))
  {
    var evs := [Text(x), End(ParagraphEnd)];
    assert InlineUntil(evs, 1, ParagraphEnd, Utf8Len(x), false, debug) == Ok((1, Utf8Len(x), false));
  }

  /** Where a cut at index `i` ends the teaser: `back` events before it.  The
      importer as written steps back one event (`back == 1`), which at the
      first event is an unsigned underflow. */
  function Cut(i: nat, back: nat): (r: Result<Option<nat>, Html.Failure>)
    ensures i >= back ==> r == Ok(Some(i - back))
    ensures i < back ==> r == Err(Html.Panic(Underflow))
  {
    if i < back then Err(Html.Panic(Underflow)) else Ok(Some(i - back))
  }

  /** The event before `i` closes a block, or opens a list: the places where
      the walk over the root-level blocks can stand. */
  predicate AfterBlock(evs: seq<Event>, i: nat) {
    0 < i <= |evs| && (evs[i - 1].End? || (evs[i - 1].Start? && evs[i - 1].tag.List?))
  }

  /** The walk over the root-level blocks from `i`, with a weight of
      `weight` so far: the cut where the teaser ends (`back` events before
      the first block left out), none when the events run out first, or a
      panic. */
  function SizeCut(evs: seq<Event>, i: nat, weight: nat, back: nat, debug: Event -> string): (r: Result<Option<nat>, Html.Failure>)
    requires i <= |evs|
    ensures r.Ok? && r.value.Some? ==>
              i <= r.value.value + back < |evs| && (r.value.value + back == i || AfterBlock(evs, r.value.value + back))
    ensures r.Err? ==> r.error.Panic?
    decreases |evs| - i, 1
  {
    if i == |evs| then Ok(None)
    else if weight > LowLimit then Cut(i, back)
    else
      match evs[i]
      case Start(t) => SizeCutStart(evs, i, weight, back, debug)
      case End(e) =>
        if e.ListEnd? then SizeCut(evs, i + 1, weight, back, debug)
        else Err(RootLevel(i, evs[i], debug))
      case _ => Err(RootLevel(i, evs[i], debug))
  }

  /** `SizeCut` at the start of a block. */
  function SizeCutStart(evs: seq<Event>, i: nat, weight: nat, back: nat, debug: Event -> string): (r: Result<Option<nat>, Html.Failure>)
    requires i < |evs| && evs[i].Start?
    ensures r.Ok? && r.value.Some? ==>
              i <= r.value.value + back < |evs| && (r.value.value + back == i || AfterBlock(evs, r.value.value + back))
    ensures r.Err? ==> r.error.Panic?
    decreases |evs| - i, 0
  {
    var t := evs[i].tag;
    if t.Paragraph? || t.BlockQuote? || t.CodeBlock? || t.Item? then
      var (end, extra, bonus) := BlockWeights(evs, i);
      match InlineUntil(evs, i + 1, end, 0, false, debug)
      case Err(e) => Err(e)
      case Ok((k, w, img)) =>
        AfterInline(evs, i, k, weight, w, if t.Paragraph? && i > 0 && img then extra else 0, bonus, back, debug)
    else if t.HtmlBlock? then HtmlRun(evs, i + 1, weight, i, back, debug)
    else if t.List? then
      if weight + 200 > LowLimit then Cut(i, back) else SizeCut(evs, i + 1, weight, back, debug)
    else if t.Heading? then Cut(i, back)
    else Err(RootLevel(i, evs[i], debug))
  }

  /** A block at `i` whose running text ends at `k` and weighs `w`: the
      teaser is cut before it when the weight with its `bonus` (and an
      `extra` that only counts for this test) passes the high limit;
      otherwise the walk goes on after it. */
  function AfterInline(evs: seq<Event>, i: nat, k: nat, weight: nat, w: nat, extra: nat, bonus: nat, back: nat,
                       debug: Event -> string): (r: Result<Option<nat>, Html.Failure>)
    requires i < k < |evs| && evs[k].End?
    ensures r.Ok? && r.value.Some? ==>
              i <= r.value.value + back < |evs| && (r.value.value + back == i || AfterBlock(evs, r.value.value + back))
    ensures r.Err? ==> r.error.Panic?
    decreases |evs| - k, 2
  {
    if weight + w + bonus + extra > HighLimit then Cut(i, back)
    else SizeCut(evs, k + 1, weight + w + bonus, back, debug)
  }

  /** The panic for an event the walk does not expect at the root level. */
  function RootLevel(i: nat, e: Event, debug: Event -> string): (f: Html.Failure)
    ensures f.Panic?
  {
    Todo("Unexpected root-level at " + NatToString(i) + ": " + debug(e))
  }

  /** The raw markup of an html block starting at `start`, from `j`: a quarter
      of its byte length each, the block cut when the weight passes the high
      limit; after the block's end the walk goes on. */
  function HtmlRun(evs: seq<Event>, j: nat, weight: nat, start: nat, back: nat, debug: Event -> string): (r: Result<Option<nat>, Html.Failure>)
    requires start < j <= |evs| && evs[start] == Start(HtmlBlock)
    ensures r.Ok? && r.value.Some? ==>
              start <= r.value.value + back < |evs| && (r.value.value + back == start || AfterBlock(evs, r.value.value + back))
    ensures r.Err? ==> r.error.Panic?
    decreases |evs| - j, 0
  {
    if j == |evs| then Ok(None)
    else
      match evs[j]
      case End(e) =>
        if e.HtmlBlockEnd? then SizeCut(evs, j + 1, weight, back, debug)
        else Err(Todo("Handle " + debug(evs[j]) + " in html block"))
      case Html(x) =>
        if weight + Utf8Len(x) / 4 > HighLimit then Cut(start, back)
        else HtmlRun(evs, j + 1, weight + Utf8Len(x) / 4, start, back, debug)
      case _ => Err(Todo("Handle " + debug(evs[j]) + " in html block"))
  }

  /** A cut as the importer as written reports it, from the cut at the first
      block left out. */
  function Shifted(r: Result<Option<nat>, Html.Failure>): Result<Option<nat>, Html.Failure> {
    if r.Ok? && r.value.Some? then Cut(r.value.value, 1) else r
  }

  /** The walk as written ends each teaser one event before the one that
      ends it when stepping back nothing, and panics where that one is the
      first event; everything else is the same. */
  lemma {:induction false} SizeCutShift(evs: seq<Event>, i: nat, weight: nat, debug: Event -> string)
    requires i <= |evs|
    ensures SizeCut(evs, i, weight, 1, debug) == Shifted(SizeCut(evs, i, weight, 0, debug))
    decreases |evs| - i, 1
  {
    if i < |evs| && weight <= LowLimit {
      match evs[i]
      case Start(t) =>
        if t.Paragraph? || t.BlockQuote? || t.CodeBlock? || t.Item? {
          BlockShift(evs, i, weight, debug);
        } else if t.HtmlBlock? {
          HtmlRunShift(evs, i + 1, weight, i, debug);
        } else if t.List? {
          SizeCutShift(evs, i + 1, weight, debug);
        }
      case End(e) =>
        if e.ListEnd? {
          SizeCutShift(evs, i + 1, weight, debug);
        }
      case _ =>
    }
  }

  /** The same for a block with running text at `i`. */
  lemma {:induction false} BlockShift(evs: seq<Event>, i: nat, weight: nat, debug: Event -> string)
    requires i < |evs| && weight <= LowLimit && evs[i].Start?
    requires var t := evs[i].tag; t.Paragraph? || t.BlockQuote? || t.CodeBlock? || t.Item?
    ensures SizeCut(evs, i, weight, 1, debug) == Shifted(SizeCut(evs, i, weight, 0, debug))
    decreases |evs| - i, 0
  {
    var t := evs[i].tag;
    var (end, extra, bonus) := BlockWeights(evs, i);
    var inner := InlineUntil(evs, i + 1, end, 0, false, debug);
    if inner.Ok? {
      var (k, w, img) := inner.value;
      var x := if t.Paragraph? && i > 0 && img then extra else 0;
      SizeCutBlock(evs, i, weight, 0, debug, k, w, img);
      SizeCutBlock(evs, i, weight, 1, debug, k, w, img);
      SizeCutShift(evs, k + 1, weight + w + bonus, debug);
      AfterInlineShift(evs, i, k, weight, w, x, bonus, debug);
    } else {
      SizeCutBlockErr(evs, i, weight, 0, debug);
      SizeCutBlockErr(evs, i, weight, 1, debug);
    }
  }

  /** The end tag of a block with running text at `i`, the extra weight an
      image in a paragraph counts for the test, and the weight the block
      adds. */
  function BlockWeights(evs: seq<Event>, i: nat): (r: (TagEnd, nat, nat))
    requires i < |evs| && evs[i].Start?
    requires var t := evs[i].tag; t.Paragraph? || t.BlockQuote? || t.CodeBlock? || t.Item?
    ensures evs[i].tag.Paragraph? ==> r == (ParagraphEnd, 400, 80)
    ensures evs[i].tag.BlockQuote? ==> r == (BlockQuoteEnd(evs[i].tag.quoteKind), 0, 150)
    ensures evs[i].tag.CodeBlock? ==> r == (CodeBlockEnd, 0, 100)
    ensures evs[i].tag.Item? ==> r == (ItemEnd, 0, 30)
  {
    var t := evs[i].tag;
    if t.Paragraph? then (ParagraphEnd, 400, 80)
    else if t.BlockQuote? then (BlockQuoteEnd(t.quoteKind), 0, 150)
    else if t.CodeBlock? then (CodeBlockEnd, 0, 100)
    else (ItemEnd, 0, 30)
  }

  /** The walk at a block with running text goes on as `AfterInline` says. */
  lemma SizeCutBlock(evs: seq<Event>, i: nat, weight: nat, back: nat, debug: Event -> string, k: nat, w: nat, img: bool)
    requires i < |evs| && weight <= LowLimit && evs[i].Start?
    requires var t := evs[i].tag; t.Paragraph? || t.BlockQuote? || t.CodeBlock? || t.Item?
    requires InlineUntil(evs, i + 1, BlockWeights(evs, i).0, 0, false, debug) == Ok((k, w, img))
    ensures i < k < |evs| && evs[k].End?
    ensures SizeCut(evs, i, weight, back, debug)
            == AfterInline(evs, i, k, weight, w, if evs[i].tag.Paragraph? && i > 0 && img then BlockWeights(evs, i).1 else 0,
                           BlockWeights(evs, i).2, back, debug)
  {
  }

  /** The walk at a block with running text fails as its text does. */
  lemma SizeCutBlockErr(evs: seq<Event>, i: nat, weight: nat, back: nat, debug: Event -> string)
    requires i < |evs| && weight <= LowLimit && evs[i].Start?
    requires var t := evs[i].tag; t.Paragraph? || t.BlockQuote? || t.CodeBlock? || t.Item?
    requires InlineUntil(evs, i + 1, BlockWeights(evs, i).0, 0, false, debug).Err?
    ensures SizeCut(evs, i, weight, back, debug) == Err(InlineUntil(evs, i + 1, BlockWeights(evs, i).0, 0, false, debug).error)
  {
  }

  lemma AfterInlineShift(evs: seq<Event>, i: nat, k: nat, weight: nat, w: nat, extra: nat, bonus: nat,
                         debug: Event -> string)
    requires i < k < |evs| && evs[k].End?
    requires SizeCut(evs, k + 1, weight + w + bonus, 1, debug) == Shifted(SizeCut(evs, k + 1, weight + w + bonus, 0, debug))
    ensures AfterInline(evs, i, k, weight, w, extra, bonus, 1, debug)
            == Shifted(AfterInline(evs, i, k, weight, w, extra, bonus, 0, debug))
  {
  }

  lemma {:induction false} HtmlRunShift(evs: seq<Event>, j: nat, weight: nat, start: nat, debug: Event -> string)
    requires start < j <= |evs| && evs[start] == Start(HtmlBlock)
    ensures HtmlRun(evs, j, weight, start, 1, debug) == Shifted(HtmlRun(evs, j, weight, start, 0, debug))
    decreases |evs| - j, 0
  {
    if j < |evs| {
      match evs[j]
      case End(e) =>
        if e.HtmlBlockEnd? {
          SizeCutShift(evs, j + 1, weight, debug);
        }
      case Html(x) =>
        if weight + Utf8Len(x) / 4 <= HighLimit {
          HtmlRunShift(evs, j + 1, weight + Utf8Len(x) / 4, start, debug);
        }
      case _ =>
    }
  }

  // ---------------------------------------------------------------------------
  // The teaser

  /** The marker that ends a teaser by hand: an html block of its own. */
  const MoreMarker: Event := Html("<!-- more -->\n")

  /** `find_teaser`, with the weight walk stepping back `back` events: at the
      first marker the teaser ends before the html block holding it, else
      where the weight says; `None` when the whole text is its own teaser. */
  function TeaserCut(evs: seq<Event>, back: nat, debug: Event -> string): (r: Result<Option<nat>, Html.Failure>)
    ensures r.Ok? && r.value.Some? ==> r.value.value < |evs|
    ensures r.Err? ==> r.error.Panic?
  {
    match ReadFiles.Position(evs, MoreMarker)
    case Some(pos) => Cut(pos, 1)
    case None => SizeCut(evs, 0, 0, back, debug)
  }

  /** The teaser: the events before the cut.  It never holds the marker, and
      one cut by weight is empty or ends with the end of a block (or the
      start of a list). */
  function FindTeaser(evs: seq<Event>, debug: Event -> string): (r: Result<Option<seq<Event>>, Html.Failure>)
    ensures r.Ok? && r.value.Some? ==> r.value.value <= evs && MoreMarker !in r.value.value
    ensures r.Ok? && r.value.Some? && MoreMarker !in evs ==>
              r.value.value == [] || AfterBlock(evs, |r.value.value|)
    ensures r.Ok? && r.value.None? ==> MoreMarker !in evs
    ensures r.Err? ==> r.error.Panic?
  {
    match TeaserCut(evs, 0, debug)
    case Ok(Some(c)) =>
      assert MoreMarker !in evs[..c] by {
        if MoreMarker in evs { assert c < ReadFiles.Position(evs, MoreMarker).value; }
      }
      Ok(Some(evs[..c]))
    case Ok(None) => Ok(None)
    case Err(e) => Err(e)
  }

  /** `find_teaser` as written: a cut by weight also steps back one event. */
  function FindTeaserAsWritten(evs: seq<Event>, debug: Event -> string): (r: Result<Option<seq<Event>>, Html.Failure>)
    ensures r.Ok? && r.value.Some? ==> r.value.value <= evs
    ensures r.Err? ==> r.error.Panic?
  {
    match TeaserCut(evs, 1, debug)
    case Ok(Some(c)) => Ok(Some(evs[..c]))
    case Ok(None) => Ok(None)
    case Err(e) => Err(e)
  }

  /** With a marker, the teaser is what comes before its html block. */
  lemma TeaserAtMarker(before: seq<Event>, after: seq<Event>, debug: Event -> string)
    requires MoreMarker !in before
    ensures FindTeaser(before + [Start(HtmlBlock), MoreMarker] + after, debug) == Ok(Some(before))
  {
    var evs := before + [Start(HtmlBlock), MoreMarker] + after;
    var pos := |before| + 1;
    assert evs[pos] == MoreMarker;
    assert evs[..pos] == before + [Start(HtmlBlock)];
    assert ReadFiles.Position(evs, MoreMarker) == Some(pos);
    assert evs[..pos - 1] == before;
  }

  /** Without a marker the whole text is walked by weight; as written the
      walk drops the event before each cut. */
  lemma AsWrittenSteps(evs: seq<Event>, debug: Event -> string)
    requires MoreMarker !in evs
    ensures TeaserCut(evs, 1, debug) == Shifted(TeaserCut(evs, 0, debug))
  {
    SizeCutShift(evs, 0, 0, debug);
  }

  /** A text that opens with a section heading: as written, stepping back
      from the first event underflows; stepping back nothing, the teaser is
      empty. */
  lemma HeadingFirst(h: Tag, rest: seq<Event>, debug: Event -> string)
    requires h.Heading? && MoreMarker !in rest
    ensures FindTeaserAsWritten([Start(h)] + rest, debug) == Err(Html.Panic(Underflow))
    ensures FindTeaser([Start(h)] + rest, debug) == Ok(Some([]))
  {
    var evs := [Start(h)] + rest;
    assert MoreMarker !in evs;
    assert evs[0] == Start(h);
    assert SizeCutStart(evs, 0, 0, 1, debug) == Err(Html.Panic(Underflow));
    assert SizeCutStart(evs, 0, 0, 0, debug) == Ok(Some(0));
  }

  /** A first paragraph too heavy for the teaser: as written, the same
      underflow. */
  lemma HeavyFirstParagraph(x: string, rest: seq<Event>, debug: Event -> string)
    requires Utf8Len(x) + 80 > HighLimit && MoreMarker !in rest
    ensures FindTeaserAsWritten([Start(Paragraph), Text(x), End(ParagraphEnd)] + rest, debug) == Err(Html.Panic(Underflow))
    ensures FindTeaser([Start(Paragraph), Text(x), End(ParagraphEnd)] + rest, debug) == Ok(Some([]))
  {
    var evs := [Start(Paragraph), Text(x), End(ParagraphEnd)] + rest;
    assert MoreMarker !in evs;
    FirstParagraphCut(evs, x, 0, debug);
    FirstParagraphCut(evs, x, 1, debug);
  }

  /** The walk from a first paragraph of plain text goes on after it. */
  lemma FirstParagraphCut(evs: seq<Event>, x: string, back: nat, debug: Event -> string)
    requires |evs| >= 3 && evs[0] == Start(Paragraph) && evs[1] == Text(x) && evs[2] == End(ParagraphEnd)
    ensures SizeCut(evs, 0, 0, back, debug) == AfterInline(evs, 0, 2, 0, Utf8Len(x), 0, 80, back, debug)
  {
    FirstParagraph(evs, x, debug);
    SizeCutBlock(evs, 0, 0, back, debug, 2, Utf8Len(x), false);
  }

  lemma FirstParagraph(evs: seq<Event>, x: string, debug: Event -> string)
    requires |evs| >= 3 && evs[0] == Start(Paragraph) && evs[1] == Text(x) && evs[2] == End(ParagraphEnd)
    ensures InlineUntil(evs, 1, ParagraphEnd, 0, false, debug) == Ok((2, Utf8Len(x), false))
  {
    assert InlineUntil(evs, 2, ParagraphEnd, Utf8Len(x), false, debug) == Ok((2, Utf8Len(x), false));
  }

  /** A first paragraph past the low limit (but not the high one) ends the
      teaser.  As written the teaser loses the paragraph's end; stepping
      back nothing keeps the whole paragraph. */
  lemma DropsParagraphEnd(x: string, rest: seq<Event>, debug: Event -> string)
    requires LowLimit < Utf8Len(x) + 80 <= HighLimit && rest != [] && MoreMarker !in rest
    ensures FindTeaserAsWritten([Start(Paragraph), Text(x), End(ParagraphEnd)] + rest, debug)
            == Ok(Some([Start(Paragraph), Text(x)]))
    ensures FindTeaser([Start(Paragraph), Text(x), End(ParagraphEnd)] + rest, debug)
            == Ok(Some([Start(Paragraph), Text(x), End(ParagraphEnd)]))
  {
    var evs := [Start(Paragraph), Text(x), End(ParagraphEnd)] + rest;
    assert MoreMarker !in evs;
    FirstParagraphCut(evs, x, 0, debug);
    FirstParagraphCut(evs, x, 1, debug);
    assert SizeCut(evs, 3, Utf8Len(x) + 80, 0, debug) == Ok(Some(3));
    assert SizeCut(evs, 3, Utf8Len(x) + 80, 1, debug) == Ok(Some(2));
    assert evs[..2] == [Start(Paragraph), Text(x)];
    assert evs[..3] == [Start(Paragraph), Text(x), End(ParagraphEnd)];
  }

  // ---------------------------------------------------------------------------
  // The front image url

  predicate IsQuote(c: char) {
    c == '\'' || c == '"'
  }

  /** No stop character lies between `i` and the next stop. */
  lemma {:induction false} NextStopClear(s: string, i: nat, c: char, d: char)
    requires i <= |s|
    ensures forall x :: i <= x < ReadFiles.NextStop(s, i, c, d) ==> s[x] != c && s[x] != d
    decreases |s| - i
  {
    if i < |s| && s[i] != c && s[i] != d {
      NextStopClear(s, i + 1, c, d);
    }
  }

  /** Where the url of the figure pattern starts, when the pattern matches
      at `p` up to the opening quote: `<figure`, attributes up to the first
      `>`, then `<a href=` or `<img` and any one character but `>` and `src=`. */
  function FigureUrlStart(h: string, p: nat): (t: nat)
    ensures t > 0 ==> p + 7 < t <= |h| && IsQuote(h[t - 1])
  {
    if !OccursAt(h, "<figure", p) then 0
    else
      var q := ReadFiles.NextStop(h, p + 7, '>', '>');
      if q + 1 >= |h| || h[q + 1] != '<' then 0
      else
        var a := q + 2;
        var e := if OccursAt(h, "a href", a) then a + 6
                 else if OccursAt(h, "img", a) && a + 3 < |h| && h[a + 3] != '>' && OccursAt(h, "src", a + 4) then a + 7
                 else 0;
        if e == 0 || e + 1 >= |h| || h[e] != '=' || !IsQuote(h[e + 1]) then 0 else e + 2
  }

  /** The url the figure pattern captures in a match at `p`: the longest
      run of non-quote characters after the opening quote, which must be
      non-empty and followed by a quote. */
  function FigureAt(h: string, p: nat): (r: Option<string>)
    ensures r.Some? ==> r.value != [] && forall x :: 0 <= x < |r.value| ==> !IsQuote(r.value[x])
  {
    var t := FigureUrlStart(h, p);
    if t == 0 then None
    else
      var u := ReadFiles.NextStop(h, t, '\'', '"');
      if u == t || u == |h| then None
      else
        NextStopClear(h, t, '\'', '"');
        Some(h[t..u])
  }

  /** Where the first match at or after `p` starts. */
  function FirstFigure(h: string, p: nat): (r: Option<nat>)
    requires p <= |h|
    ensures r.Some? ==> p <= r.value <= |h| && FigureAt(h, r.value).Some?
    decreases |h| - p
  {
    if FigureAt(h, p).Some? then Some(p)
    else if p == |h| then None
    else FirstFigure(h, p + 1)
  }

  /** The match found is the leftmost one. */
  lemma {:induction false} FirstFigureLeftmost(h: string, p: nat)
    requires p <= |h| && FirstFigure(h, p).Some?
    ensures forall q :: p <= q < FirstFigure(h, p).value ==> FigureAt(h, q).None?
    decreases |h| - p
  {
    if FigureAt(h, p).None? && p < |h| {
      var e := FirstFigure(h, p + 1).value;
      assert FirstFigure(h, p).value == e;
      FirstFigureLeftmost(h, p + 1);
      NoFigureBefore(h, p, e);
    }
  }

  /** No match at `p` and none in `p + 1..e` is none in `p..e`. */
  lemma NoFigureBefore(h: string, p: nat, e: nat)
    requires FigureAt(h, p).None? && forall q :: p + 1 <= q < e ==> FigureAt(h, q).None?
    ensures forall q :: p <= q < e ==> FigureAt(h, q).None?
  {
  }

  /** When none is found there is no match at all. */
  lemma {:induction false} FirstFigureNone(h: string, p: nat)
    requires p <= |h| && FirstFigure(h, p).None?
    ensures forall q :: p <= q <= |h| ==> FigureAt(h, q).None?
    decreases |h| - p
  {
    if p < |h| {
      FirstFigureNone(h, p + 1);
      NoFigureBefore(h, p, |h| + 1);
    }
  }

  /** The url of the first figure in some markup: the link or image source
      right after the figure's start tag. */
  function FigureUrl(h: string): (r: Option<string>)
    ensures r.Some? ==> r.value != [] && forall x :: 0 <= x < |r.value| ==> !IsQuote(r.value[x])
    ensures r.Some? ==> exists q :: 0 <= q <= |h| && FigureAt(h, q) == r
  {
    match FirstFigure(h, 0)
    case Some(q) => FigureAt(h, q)
    case None => None
  }

  /** A figure whose content starts with a link gives the link's target. */
  lemma FigureLink(attrs: string, url: string, rest: string)
    requires '>' !in attrs && url != [] && forall x :: 0 <= x < |url| ==> !IsQuote(url[x])
    ensures FigureUrl("<figure" + attrs + "><a href=\"" + url + "\"" + rest) == Some(url)
  {
    var head := "<figure" + attrs + "><a href=\"";
    var h := head + url + "\"" + rest;
    FigureLinkStart(attrs, url, rest);
    ReadFiles.SeqAssoc(head + url, "\"", rest);
    QuotedUrlEnd(h, head, url, "\"" + rest);
    assert FigureAt(h, 0) == Some(url);
  }

  /** The url of a figure whose content starts with a link starts after the
      link's opening quote. */
  lemma FigureLinkStart(attrs: string, url: string, rest: string)
    requires '>' !in attrs
    ensures FigureUrlStart("<figure" + attrs + "><a href=\"" + url + "\"" + rest, 0) == |attrs| + 17
  {
    var h := "<figure" + attrs + "><a href=\"" + url + "\"" + rest;
    var q := 7 + |attrs|;
    assert h[..7] == "<figure" && h[q] == '>' && h[q + 1] == '<';
    assert forall x :: 7 <= x < q ==> h[x] == attrs[x - 7];
    ReadFiles.NextStopAt(h, 7, q, '>', '>');
    assert h[q + 2..q + 8] == "a href";
    assert h[q + 8] == '=' && h[q + 9] == '"';
  }

  /** A run without quotes between `head` and a quote is what the url
      capture takes. */
  lemma QuotedUrlEnd(h: string, head: string, url: string, tail: string)
    requires h == head + url + tail && tail != [] && tail[0] == '"'
    requires forall x :: 0 <= x < |url| ==> !IsQuote(url[x])
    ensures |head| + |url| < |h| && h[|head|..|head| + |url|] == url
    ensures ReadFiles.NextStop(h, |head|, '\'', '"') == |head| + |url|
  {
    var t, u := |head|, |head| + |url|;
    assert h[u] == tail[0];
    forall x | t <= x < u ensures h[x] != '\'' && h[x] != '"' {
      assert h[x] == url[x - t];
      assert !IsQuote(url[x - t]);
    }
    ReadFiles.NextStopAt(h, t, u, '\'', '"');
    assert (head + url + tail)[t..u] == url;
  }

  // ---------------------------------------------------------------------------
  // The body

  /** What the loader hands events to: the page's markup writer, the summary
      writer, the image writer (given the url, the title and the events after
      the image's start), the markdown parser, and the translations. */
  datatype Renderers = Renderers(collect: seq<Event> -> Result<string, string>,
                                 summary: seq<Event> -> Result<string, string>,
                                 writeImage: (string, string, seq<Event>) -> Result<string, string>,
                                 parse: string -> seq<Event>,
                                 fl: Fluent.Lookup)

  /** A loaded page: its title, teaser, whole markup and summary, the url of
      its front image, and whether it draws a map. */
  datatype Body = Body(title: string, teaser: string, body: string, summary: string,
                       frontImage: Option<string>, useLeaflet: bool)

  predicate IsFrontImage(e: Event) {
    IsImage(e) && ImgIsFront(e.tag.title, e.tag.dest)
  }

  /** The first front image at or after `k`. */
  function FirstFrontImage(evs: seq<Event>, k: nat): (r: Option<nat>)
    requires k <= |evs|
    ensures r.Some? ==> k <= r.value < |evs| && IsFrontImage(evs[r.value])
                        && forall i :: k <= i < r.value ==> !IsFrontImage(evs[i])
    ensures r.None? ==> forall i :: k <= i < |evs| ==> !IsFrontImage(evs[i])
    decreases |evs| - k
  {
    if k == |evs| then None
    else if IsFrontImage(evs[k]) then Some(k)
    else FirstFrontImage(evs, k + 1)
  }

  /** An error of a writer, as the loader passes it on. */
  function Lift<T>(x: Result<T, string>): (r: Result<T, Html.Failure>)
    ensures r.Ok? <==> x.Ok?
    ensures r.Ok? ==> r.value == x.value
  {
    match x
    case Ok(v) => Ok(v)
    case Err(msg) => Err(Html.Bail(msg))
  }

  /** The markup of the first front image, written with the events after it. */
  function FrontMarkup(items: seq<Event>, rd: Renderers): (r: Result<Option<string>, Html.Failure>)
    ensures r.Ok? && r.value.None? <==> forall i :: 0 <= i < |items| ==> !IsFrontImage(items[i])
    ensures r.Ok? && r.value.Some? ==>
              exists k :: 0 <= k < |items| && IsFrontImage(items[k]) && (forall i :: 0 <= i < k ==> !IsFrontImage(items[i]))
                          && rd.writeImage(items[k].tag.dest, items[k].tag.title, items[k + 1..]) == Ok(r.value.value)
  {
    match FirstFrontImage(items, 0)
    case None => Ok(None)
    case Some(k) =>
      var html :- Lift(rd.writeImage(items[k].tag.dest, items[k].tag.title, items[k + 1..]));
      Ok(Some(html))
  }

  /** The front image goes before a teaser that does not show it already. */
  function WithFront(teaser: string, front: Option<string>): (r: string)
    ensures front.None? ==> r == teaser
    ensures front.Some? ==> Contains(r, front.value) && EndsWith(r, teaser)
    ensures front.Some? && Contains(teaser, front.value) ==> r == teaser
  {
    match front
    case None => teaser
    case Some(img) =>
      if Contains(teaser, img) then
        assert EndsWith(teaser, teaser) by { assert teaser[|teaser| - |teaser|..] == teaser; }
        teaser
      else
        var r := img + "\n" + teaser;
        assert OccursAt(r, img, 0) by { assert r[..|img|] == img; }
        assert r[|r| - |teaser|..] == teaser;
        r
  }

  /** The events of the update note a teaser ends with: the note's date and
      text, when the note has text. */
  function UpdateNote(meta: ContentMeta, lang: MyLang.Lang, rd: Renderers): (r: seq<Event>)
    ensures meta.update.None? || meta.update.value.info == "" ==> r == []
  {
    if meta.update.Some? && meta.update.value.info != "" then rd.parse(ReadFiles.WithUpdate("", meta.update, rd.fl, lang))
    else []
  }

  /** The teaser's markup and the summary: of the teaser's events and the
      update note when there is a teaser (the front image put first), of all
      the events otherwise. */
  function TeaserAndSummary(items: seq<Event>, cut: Option<seq<Event>>, front: Option<string>, body: string,
                            meta: ContentMeta, lang: MyLang.Lang, rd: Renderers): (r: Result<(string, string), Html.Failure>)
    ensures cut.None? ==> (r.Ok? <==> rd.summary(items).Ok?) && (r.Ok? ==> r.value == (body, rd.summary(items).value))
    ensures cut.Some? && r.Ok? ==>
              var evs := cut.value + UpdateNote(meta, lang, rd);
              rd.collect(evs).Ok? && EndsWith(r.value.0, rd.collect(evs).value)
              && (front.Some? ==> Contains(r.value.0, front.value))
              && rd.summary(evs) == Ok(r.value.1)
  {
    match cut
    case None =>
      var summary :- Lift(rd.summary(items));
      Ok((body, summary))
    case Some(t) =>
      var evs := t + UpdateNote(meta, lang, rd);
      var teaser :- Lift(rd.collect(evs));
      var summary :- Lift(rd.summary(evs));
      Ok((WithFront(teaser, front), summary))
  }

  /** `Body::load`: after the title, the markup of the first front image,
      the markup of all the events, the teaser and summary, the url of the
      front image (from its markup, or else from the first figure of the
      page), and whether the page draws a map. */
  function LoadBody(title: string, meta: ContentMeta, lang: MyLang.Lang, items: seq<Event>, rd: Renderers,
                    debug: Event -> string): (r: Result<Body, Html.Failure>)
    ensures r.Ok? ==> r.value.title == title && rd.collect(items) == Ok(r.value.body)
                      && (r.value.useLeaflet <==> Contains(r.value.body, "function initmap()"))
    ensures r.Ok? ==> FrontMarkup(items, rd).Ok? && FindTeaserAsWritten(items, debug).Ok?
    ensures r.Ok? && FindTeaserAsWritten(items, debug).value.None? ==>
              r.value.teaser == r.value.body && rd.summary(items) == Ok(r.value.summary)
    ensures r.Ok? && FindTeaserAsWritten(items, debug).value.Some? && FrontMarkup(items, rd).value.Some? ==>
              Contains(r.value.teaser, FrontMarkup(items, rd).value.value)
    ensures r.Ok? && FindTeaserAsWritten(items, debug).value.Some? ==>
              var evs := FindTeaserAsWritten(items, debug).value.value + UpdateNote(meta, lang, rd);
              rd.collect(evs).Ok? && EndsWith(r.value.teaser, rd.collect(evs).value)
              && rd.summary(evs) == Ok(r.value.summary)
    ensures r.Ok? ==> var front := FrontMarkup(items, rd).value;
              r.value.frontImage == FigureUrl(if front.Some? then front.value else r.value.body)
    ensures r.Ok? && r.value.frontImage.Some? ==>
              r.value.frontImage.value != [] && forall x :: 0 <= x < |r.value.frontImage.value| ==> !IsQuote(r.value.frontImage.value[x])
  {
    var front :- FrontMarkup(items, rd);
    var body :- Lift(rd.collect(items));
    var cut :- FindTeaserAsWritten(items, debug);
    var parts :- TeaserAndSummary(items, cut, front, body, meta, lang, rd);
    var url := FigureUrl(if front.Some? then front.value else body);
    Ok(Body(title, parts.0, body, parts.1, url, Contains(body, "function initmap()")))
  }

  /** A page without a more marker that opens with a section heading fails
      to load: the teaser's step back from its first event underflows. */
  lemma LoadBodyHeadingFirst(title: string, meta: ContentMeta, lang: MyLang.Lang, h: Tag, rest: seq<Event>,
                             rd: Renderers, debug: Event -> string)
    requires h.Heading? && MoreMarker !in rest
    ensures FrontMarkup([Start(h)] + rest, rd).Ok? && rd.collect([Start(h)] + rest).Ok? ==>
              LoadBody(title, meta, lang, [Start(h)] + rest, rd, debug) == Err(Html.Panic(Underflow))
  {
    HeadingFirst(h, rest, debug);
  }

  /** A page loaded without a cut is stored with its teaser equal to its
      content, so the teaser queries report that there is no more text. */
  lemma UncutPageHasNoMore(title: string, meta: ContentMeta, lang: MyLang.Lang, items: seq<Event>, rd: Renderers,
                           debug: Event -> string)
    requires LoadBody(title, meta, lang, items, rd, debug).Ok?
    requires FindTeaserAsWritten(items, debug) == Ok(None)
    ensures var b := LoadBody(title, meta, lang, items, rd, debug).value;
            !Teaser.IsMore(b.teaser, b.body)
  {
  }

  /** With a more marker the teaser is the text before it, as the corrected
      walk gives too. */
  lemma MarkerTeaserAsWritten(before: seq<Event>, after: seq<Event>, debug: Event -> string)
    requires MoreMarker !in before
    ensures FindTeaserAsWritten(before + [Start(HtmlBlock), MoreMarker] + after, debug) == Ok(Some(before))
  {
    var evs := before + [Start(HtmlBlock), MoreMarker] + after;
    var pos := |before| + 1;
    assert evs[pos] == MoreMarker;
    assert evs[..pos] == before + [Start(HtmlBlock)];
    assert ReadFiles.Position(evs, MoreMarker) == Some(pos);
    assert evs[..pos - 1] == before;
  }
}

=== FILE: csrf.dfy ===
/** Cross-site request forgery protection for the comment form: the server's
    secret key, and the check of a submitted token against its cookie.  The
    base64 decoding and the AES-GCM token scheme are not part of this model;
    they are the parameters of `Protection`. */
module Csrf {
  import opened Wrappers
  import opened Strings
  import ServerError

  /** The key length, in bytes, the token scheme needs. */
  const KeyLength: nat := 32

  /** The server secret: exactly `KeyLength` bytes. */
  datatype Secret = Secret(key: seq<nat>)

  /** A secret of the wrong length, and the length it had, in bytes. */
  datatype BadLengthSecret = BadLengthSecret(len: nat)

  /** The text of a bad-length error; it tells the length that was given. */
  function BadLengthMessage(e: BadLengthSecret): (r: string)
    ensures |r| > |"Bad CSRF secret, got "| + |" bytes, expected 32"|
    ensures StartsWith(r, "Bad CSRF secret, got ")
    ensures EndsWith(r, " bytes, expected 32")
    ensures var digits := r[|"Bad CSRF secret, got "|..|r| - |" bytes, expected 32"|];
            AllChars(digits, IsAsciiDigit) && DecimalValue(digits) == e.len
  {
    var digits := NatToString(e.len);
    var r := "Bad CSRF secret, got " + digits + " bytes, expected 32";
    assert r[..|"Bad CSRF secret, got "|] == "Bad CSRF secret, got ";
    assert r[|r| - |" bytes, expected 32"|..] == " bytes, expected 32";
    assert r[|"Bad CSRF secret, got "|..|r| - |" bytes, expected 32"|] == digits;
    DecimalOfNatToString(e.len);
    r
  }

  /** `Secret::from_str`: the UTF-8 bytes of the string are the key when there
      are exactly 32 of them. */
  function SecretFromStr(s: string): (r: Result<Secret, BadLengthSecret>)
    ensures r.Ok? <==> Utf8Len(s) == KeyLength
    ensures r.Ok? ==> |r.value.key| == KeyLength && r.value.key == Utf8Encode(s)
    ensures r.Ok? ==> forall i :: 0 <= i < |r.value.key| ==> r.value.key[i] < 0x100
    ensures r.Err? ==> r.error.len == Utf8Len(s) != KeyLength
  {
    var bytes := Utf8Encode(s);
    if |bytes| == KeyLength then Ok(Secret(bytes)) else Err(BadLengthSecret(|bytes|))
  }

  /** An ASCII secret is accepted exactly when it is 32 chars long, and each
      char is one byte of the key. */
  lemma AsciiSecret(s: string)
    requires forall i :: 0 <= i < |s| ==> (s[i] as int) < 0x80
    ensures SecretFromStr(s).Ok? <==> |s| == KeyLength
    ensures SecretFromStr(s).Ok? ==> forall i :: 0 <= i < |s| ==> SecretFromStr(s).value.key[i] == s[i] as nat
  {
    Utf8EncodeAscii(s);
  }

  /** A secret counts bytes, not chars: 16 copies of `ä`, two bytes each, make
      a key. */
  lemma WideCharsSecret()
    ensures var s := seq(16, _ => 'ä'); |s| == 16 && SecretFromStr(s).Ok?
  {
    var s := seq(16, _ => 'ä');
    assert Utf8Width('ä') == 2;
    Utf8LenConst(s, 'ä');
  }

  lemma {:induction false} Utf8LenConst(s: string, c: char)
    requires forall i :: 0 <= i < |s| ==> s[i] == c
    ensures Utf8Len(s) == |s| * Utf8Width(c)
  {
    if s != [] {
      Utf8LenConst(s[1..], c);
    }
  }

  /** The token scheme: base64 decoding, parsing a decoded token and cookie,
      and checking that they belong together.  Each step fails with a cause,
      which is only logged. */
  datatype Protection<!Tok, !Cookie> = Protection(
    decode: string -> Result<seq<nat>, string>,
    parseToken: seq<nat> -> Result<Tok, string>,
    parseCookie: seq<nat> -> Result<Cookie, string>,
    verifyPair: (Tok, Cookie) -> Result<(), string>)

  /** The one error every failed check ends in. */
  const VerificationFailed: ServerError.ViewError := ServerError.BadRequest("CSRF Verification Failed")

  /** Every step of the check succeeds. */
  predicate Accepts<Tok, Cookie>(p: Protection<Tok, Cookie>, token: string, cookie: string) {
    && p.decode(token).Ok?
    && p.decode(cookie).Ok?
    && p.parseToken(p.decode(token).value).Ok?
    && p.parseCookie(p.decode(cookie).value).Ok?
    && p.verifyPair(p.parseToken(p.decode(token).value).value, p.parseCookie(p.decode(cookie).value).value).Ok?
  }

  /** The cause that is logged: that of the first step to fail, the steps taken
      in the order token decoding, cookie decoding, token parsing, cookie
      parsing, pair check. */
  function Cause<Tok, Cookie>(p: Protection<Tok, Cookie>, token: string, cookie: string): (r: Option<string>)
    ensures r.None? <==> Accepts(p, token, cookie)
    ensures p.decode(token).Err? ==> r == Some(p.decode(token).error)
    ensures p.decode(token).Ok? && p.decode(cookie).Err? ==> r == Some(p.decode(cookie).error)
  {
    match p.decode(token)
    case Err(e) => Some(e)
    case Ok(t) =>
      match p.decode(cookie)
      case Err(e) => Some(e)
      case Ok(c) =>
        match p.parseToken(t)
        case Err(e) => Some(e)
        case Ok(tok) =>
          match p.parseCookie(c)
          case Err(e) => Some(e)
          case Ok(ck) =>
            match p.verifyPair(tok, ck)
            case Err(e) => Some(e)
            case Ok(_) => None
  }

  /** `Server::verify`: the token and cookie pass every step, or the request is
      a bad request, whichever step failed. */
  function Verify<Tok, Cookie>(p: Protection<Tok, Cookie>, token: string, cookie: string)
    : (r: Result<(), ServerError.ViewError>)
    ensures r.Ok? <==> Accepts(p, token, cookie)
    ensures r.Err? ==> r.error == VerificationFailed
  {
    match Cause(p, token, cookie)
    case Some(_) => Err(VerificationFailed)
    case None => Ok(())
  }

  /** A token that does not decode is refused whatever the cookie. */
  lemma UndecodableToken<Tok, Cookie>(p: Protection<Tok, Cookie>, token: string, c1: string, c2: string)
    requires p.decode(token).Err?
    ensures Verify(p, token, c1) == Verify(p, token, c2) == Err(VerificationFailed)
  {
  }

  /** The lifetime of a generated token pair, in seconds: four hours. */
  const TokenTtl: nat := 4 * 3600

  /** `Server::generate_pair`: a pair that lives `TokenTtl` seconds, from a
      generator given the lifetime; a failure to generate is an internal error. */
  function GeneratePair<Pair>(generate: nat -> Result<Pair, string>): (r: Result<Pair, ServerError.ViewError>)
    ensures r.Ok? <==> generate(14400).Ok?
    ensures r.Ok? ==> r.value == generate(14400).value
    ensures r.Err? ==> r.error.Internal?
  {
    ServerError.Ise(generate(TokenTtl))
  }
}

=== FILE: datetime.dfy ===
/** Instants in UTC, the age rule that closes old posts for comments, and the
    `%Y-%m-%d %H:%M` rendering used wherever a date is shown.  The clock is not
    read: operations that depend on "now" take it as a parameter. */
module DateTime {
  import opened Wrappers
  import opened Strings

  /** An instant, in nanoseconds since 1970-01-01 00:00 UTC. */
  datatype DateTime = DateTime(nanos: int)

  const NanosPerSecond: nat := 1_000_000_000
  const NanosPerMinute: nat := 60 * NanosPerSecond
  const NanosPerDay: nat := 86_400 * NanosPerSecond

  /** Integer division rounding toward zero, as Rust's `/` on signed integers. */
  function TruncDiv(a: int, b: int): int
    requires b > 0
  {
    if a >= 0 then a / b else -((-a) / b)
  }

  /** Whole days from `from` to `to`, rounded toward zero (`Duration::num_days`);
      negative when `to` is earlier. */
  function NumDays(from: DateTime, to: DateTime): int {
    TruncDiv(to.nanos - from.nanos, NanosPerDay)
  }

  /** Whole minutes from `from` to `to`, rounded toward zero. */
  function NumMinutes(from: DateTime, to: DateTime): int {
    TruncDiv(to.nanos - from.nanos, NanosPerMinute)
  }

  /** The age, in whole years of 365.24 days, of something last changed at `t`,
      when that is at least ten years; `None` for anything younger, including
      instants after `now`. */
  function OldAge(t: DateTime, now: DateTime): (r: Option<int>)
    ensures r.Some? <==> NumDays(t, now) >= 3653
    ensures r.Some? ==> r.value >= 10
    ensures r.Some? ==> r.value * 365_240 <= NumDays(t, now) * 1000 < (r.value + 1) * 365_240
  {
    var age := TruncDiv(NumDays(t, now) * 1000, 365_240);
    if age >= 10 then Some(age) else None
  }

  /** Once old, always old: a later clock never reopens a post. */
  lemma OldAgeStaysOld(t: DateTime, now: DateTime, later: DateTime)
    requires now.nanos <= later.nanos
    requires OldAge(t, now).Some?
    ensures OldAge(t, later).Some? && OldAge(t, now).value <= OldAge(t, later).value
  {
    assert NumDays(t, now) <= NumDays(t, later);
  }

  // ---------------------------------------------------------------------------
  // The proleptic Gregorian calendar

  predicate IsLeap(y: int) {
    y % 4 == 0 && (y % 100 != 0 || y % 400 == 0)
  }

  function DaysInYear(y: int): nat {
    if IsLeap(y) then 366 else 365
  }

  function DaysInMonth(y: int, m: nat): (n: nat)
    requires 1 <= m <= 12
    ensures 28 <= n <= 31
  {
    if m == 2 then (if IsLeap(y) then 29 else 28)
    else if m == 4 || m == 6 || m == 9 || m == 11 then 30
    else 31
  }

  /** Days in months `m` to December of year `y`. */
  function DaysFromMonth(y: int, m: nat): nat
    requires 1 <= m <= 12
    decreases 12 - m
  {
    if m == 12 then 31 else DaysInMonth(y, m) + DaysFromMonth(y, m + 1)
  }

  lemma DaysFromJanuary(y: int)
    ensures DaysFromMonth(y, 1) == DaysInYear(y)
  {
    assert DaysFromMonth(y, 10) == 92;
    assert DaysFromMonth(y, 7) == 184;
    assert DaysFromMonth(y, 4) == 275;
  }

  /** The year and the zero-based day of that year of the day `d` days after
      January 1 of year `y` (before it, for negative `d`). */
  function YearAndDay(y: int, d: int): (r: (int, nat))
    ensures r.1 < DaysInYear(r.0)
    decreases if d < 0 then 400 - d else d
  {
    if d < 0 then YearAndDay(y - 1, d + DaysInYear(y - 1))
    else if d < DaysInYear(y) then (y, d)
    else YearAndDay(y + 1, d - DaysInYear(y))
  }

  /** The month and day of month of the zero-based day `d`, counted from month `m`. */
  function MonthAndDay(y: int, m: nat, d: nat): (r: (nat, nat))
    requires 1 <= m <= 12 && d < DaysFromMonth(y, m)
    ensures 1 <= r.0 <= 12 && 1 <= r.1 <= DaysInMonth(y, r.0)
    decreases 12 - m
  {
    if d < DaysInMonth(y, m) then (m, d + 1)
    else MonthAndDay(y, m + 1, d - DaysInMonth(y, m))
  }

  /** The calendar fields of an instant that the site displays. */
  datatype Civil = Civil(year: int, month: nat, day: nat, hour: nat, minute: nat)

  predicate ValidCivil(c: Civil) {
    1 <= c.month <= 12 && 1 <= c.day <= DaysInMonth(c.year, c.month)
    && c.hour < 24 && c.minute < 60
  }

  function ToCivil(t: DateTime): (c: Civil)
    ensures ValidCivil(c)
  {
    var days := t.nanos / NanosPerDay;
    var second := (t.nanos % NanosPerDay) / NanosPerSecond;
    var (y, doy) := YearAndDay(1970, days);
    DaysFromJanuary(y);
    var (m, d) := MonthAndDay(y, 1, doy);
    Civil(y, m, d, second / 3600, second % 3600 / 60)
  }

  /** `year as i16`: the low sixteen bits of the year, as a signed number. */
  function WrapI16(y: int): (r: int)
    ensures -32768 <= r <= 32767
    ensures -32768 <= y <= 32767 ==> r == y
    ensures (r - y) % 65536 == 0
  {
    (y + 32768) % 65536 - 32768
  }

  /** The year of an instant, truncated to sixteen bits. */
  function Year(t: DateTime): (y: int)
    ensures -32768 <= y <= 32767
    ensures -32768 <= ToCivil(t).year <= 32767 ==> y == ToCivil(t).year
  {
    WrapI16(ToCivil(t).year)
  }

  /** `s` is a string of decimal digits worth `n`. */
  predicate DigitsWorth(s: string, n: int) {
    AllChars(s, IsAsciiDigit) && DecimalValue(s) == n
  }

  /** `n` in decimal, zero-padded to at least `w` digits. */
  function Pad(n: nat, w: nat): (r: string)
    ensures |r| >= w && DigitsWorth(r, n)
    ensures |NatToString(n)| <= w ==> |r| == w
  {
    var s := NatToString(n);
    DecimalOfNatToString(n);
    if |s| < w then
      LeadingZeros(w - |s|, s);
      Repeat("0", w - |s|) + s
    else s
  }

  /** `%Y`: four zero-padded digits in years 0 to 9999; outside them a sign,
      `-` before at least four digits or `+` before the digits. */
  function YearText(y: int): (r: string)
    ensures 0 <= y <= 9999 ==> |r| == 4 && DigitsWorth(r, y)
    ensures y < 0 ==> |r| >= 5 && r[0] == '-' && DigitsWorth(r[1..], -y)
    ensures y > 9999 ==> |r| >= 2 && r[0] == '+' && DigitsWorth(r[1..], y)
  {
    if y < 0 then
      var p := Pad(-y, 4);
      assert ("-" + p)[1..] == p;
      "-" + p
    else if y > 9999 then
      var p := NatToString(y);
      DecimalOfNatToString(y);
      assert ("+" + p)[1..] == p;
      "+" + p
    else
      assert |NatToString(y)| <= 4 by { NatToStringLength(y, 4); }
      Pad(y, 4)
  }

  lemma {:induction false} NatToStringLength(n: nat, w: nat)
    requires w >= 1 && n < Power10(w)
    ensures |NatToString(n)| <= w
  {
    if n >= 10 {
      NatToStringLength(n / 10, w - 1);
    }
  }

  /** `%H:%M`: the hour and the minute of the instant, two digits each. */
  function ClockText(t: DateTime): (r: string)
    ensures |r| == 5 && r[2] == ':'
    ensures DigitsWorth(r[..2], ToCivil(t).hour) && DigitsWorth(r[3..], ToCivil(t).minute)
  {
    var c := ToCivil(t);
    NatToStringLength(c.hour, 2);
    NatToStringLength(c.minute, 2);
    var h, m := Pad(c.hour, 2), Pad(c.minute, 2);
    assert (h + ":" + m)[..2] == h && (h + ":" + m)[3..] == m;
    h + ":" + m
  }

  /** `%Y-%m-%d %H:%M`: the `Display` of a date and its fluent rendering; in
      years 0 to 9999 every field sits at a fixed place. */
  function Display(t: DateTime): (r: string)
    ensures 0 <= ToCivil(t).year <= 9999 ==>
              |r| == 16 && r[4] == '-' && r[7] == '-' && r[10] == ' ' && r[13] == ':'
    ensures 0 <= ToCivil(t).year <= 9999 ==>
              var c := ToCivil(t);
              DigitsWorth(r[..4], c.year) && DigitsWorth(r[5..7], c.month) && DigitsWorth(r[8..10], c.day)
              && DigitsWorth(r[11..13], c.hour) && DigitsWorth(r[14..16], c.minute)
  {
    var c := ToCivil(t);
    NatToStringLength(c.month, 2);
    NatToStringLength(c.day, 2);
    var y, mo, d, clock := YearText(c.year), Pad(c.month, 2), Pad(c.day, 2), ClockText(t);
    var r := y + "-" + mo + "-" + d + " " + clock;
    if 0 <= c.year <= 9999 then
      DisplayFields(y, mo, d, clock);
      r
    else r
  }

  lemma DisplayFields(y: string, mo: string, d: string, clock: string)
    requires |y| == 4 && |mo| == 2 && |d| == 2 && |clock| == 5
    ensures var r := y + "-" + mo + "-" + d + " " + clock;
            && |r| == 16 && r[4] == '-' && r[7] == '-' && r[10] == ' ' && r[13] == clock[2]
            && r[..4] == y && r[5..7] == mo && r[8..10] == d && r[11..13] == clock[..2] && r[14..16] == clock[3..]
  {
    var r := y + "-" + mo + "-" + d + " " + clock;
    assert r == y + ("-" + mo + "-" + d + " " + clock);
    assert r[..4] == y;
    assert r[5..7] == mo;
    assert r[8..10] == d;
    assert r[11..16] == clock;
  }

  // ---------------------------------------------------------------------------
  // Back from the calendar

  /** Days from 1970-01-01 to January 1 of year `y` (negative before 1970). */
  function DaysBeforeYear(y: int): int
    decreases if y >= 1970 then y - 1970 else 1970 - y
  {
    if y == 1970 then 0
    else if y > 1970 then DaysBeforeYear(y - 1) + DaysInYear(y - 1)
    else DaysBeforeYear(y + 1) - DaysInYear(y)
  }

  /** Days in the months of year `y` before month `m`. */
  function DaysBeforeMonth(y: int, m: nat): nat
    requires 1 <= m <= 12
  {
    if m == 1 then 0 else DaysBeforeMonth(y, m - 1) + DaysInMonth(y, m - 1)
  }

  /** The days-since-epoch number of a calendar date. */
  function DayNumber(c: Civil): int
    requires ValidCivil(c)
  {
    DaysBeforeYear(c.year) + DaysBeforeMonth(c.year, c.month) + c.day - 1
  }

  lemma DaysBeforeYearStep(y: int)
    ensures DaysBeforeYear(y) == DaysBeforeYear(y - 1) + DaysInYear(y - 1)
  {
  }

  /** Walking years from `y` by `d` days lands on a year and day of it with
      the same day number. */
  lemma {:induction false} YearAndDayNumber(y: int, d: int)
    ensures DaysBeforeYear(YearAndDay(y, d).0) + YearAndDay(y, d).1 == DaysBeforeYear(y) + d
    decreases if d < 0 then 400 - d else d
  {
    if d < 0 {
      YearAndDayNumber(y - 1, d + DaysInYear(y - 1));
      DaysBeforeYearStep(y);
    } else if d >= DaysInYear(y) {
      YearAndDayNumber(y + 1, d - DaysInYear(y));
      DaysBeforeYearStep(y + 1);
    }
  }

  /** Walking months from `m` by `d` days lands on a month and day of month
      with the same day of the year. */
  lemma {:induction false} MonthAndDayNumber(y: int, m: nat, d: nat)
    requires 1 <= m <= 12 && d < DaysFromMonth(y, m)
    ensures DaysBeforeMonth(y, MonthAndDay(y, m, d).0) + MonthAndDay(y, m, d).1 - 1 == DaysBeforeMonth(y, m) + d
    decreases 12 - m
  {
    if d >= DaysInMonth(y, m) {
      MonthAndDayNumber(y, m + 1, d - DaysInMonth(y, m));
    }
  }

  /** The calendar breakdown names the minute holding the instant: its day
      number, hour and minute give back the instant to the minute. */
  lemma ToCivilInverse(t: DateTime)
    ensures var c := ToCivil(t);
            var start := ((DayNumber(c) * 86_400 + c.hour * 3600 + c.minute * 60) * NanosPerSecond);
            start <= t.nanos < start + NanosPerMinute
  {
    var c := ToCivil(t);
    var days := t.nanos / NanosPerDay;
    var (y, doy) := YearAndDay(1970, days);
    DaysFromJanuary(y);
    YearAndDayNumber(1970, days);
    MonthAndDayNumber(y, 1, doy);
    assert DayNumber(c) == days;
    var inDay := t.nanos % NanosPerDay;
    var second := inDay / NanosPerSecond;
    assert c.hour * 3600 + c.minute * 60 <= second < c.hour * 3600 + c.minute * 60 + 60;
    MinuteBounds(t.nanos, days, second, c.hour * 3600 + c.minute * 60);
  }

  lemma MinuteBounds(nanos: int, days: int, second: nat, m: nat)
    requires days == nanos / NanosPerDay && second == (nanos % NanosPerDay) / NanosPerSecond
    requires m <= second < m + 60
    ensures (days * 86_400 + m) * NanosPerSecond <= nanos < (days * 86_400 + m) * NanosPerSecond + NanosPerMinute
  {
    var inDay := nanos % NanosPerDay;
    assert nanos == days * NanosPerDay + inDay;
    assert second * NanosPerSecond <= inDay < second * NanosPerSecond + NanosPerSecond;
    assert days * NanosPerDay == days * 86_400 * NanosPerSecond;
    assert (days * 86_400 + m) * NanosPerSecond == days * 86_400 * NanosPerSecond + m * NanosPerSecond;
    assert m * NanosPerSecond <= second * NanosPerSecond;
    assert second * NanosPerSecond + NanosPerSecond <= m * NanosPerSecond + 60 * NanosPerSecond;
  }

  /** The calendar breakdown of the epoch. */
  lemma EpochIsNewYear1970()
    ensures ToCivil(DateTime(0)) == Civil(1970, 1, 1, 0, 0)
  {
    DaysFromJanuary(1970);
  }
}

=== FILE: escape.dfy ===
/** The two HTML escapers the blog's output passes through: the markdown
    library's `escape_html` (used by the HTML serialisers and the summary) and
    the template engine's `ToHtml` for plain strings (used by the comment
    excerpt and author link).  Both are inverted by `Unescape`. */
module Escape {
  import opened Strings

  /** The markdown library's escape table: `&`, `<`, `>` and `"`. */
  function HtmlEntity(c: char): string {
    if c == '&' then "&amp;"
    else if c == '<' then "&lt;"
    else if c == '>' then "&gt;"
    else if c == '"' then "&quot;"
    else [c]
  }

  /** The template engine's escape table: the markdown library's plus `'`. */
  function TemplateEntity(c: char): string {
    if c == '\'' then "&#39;" else HtmlEntity(c)
  }

  /** `escape_html`: no `<`, `>` or `"` survives, so escaped text can neither
      open a tag nor close an attribute. */
  function EscapeHtml(s: string): (r: string)
    ensures forall i :: 0 <= i < |r| ==> r[i] != '<' && r[i] != '>' && r[i] != '"'
    ensures |r| >= |s|
  {
    if s == [] then "" else HtmlEntity(s[0]) + EscapeHtml(s[1..])
  }

  /** Template escaping of a plain string: no `<`, `>`, `"` or `'` survives. */
  function EscapeTemplate(s: string): (r: string)
    ensures forall i :: 0 <= i < |r| ==> r[i] != '<' && r[i] != '>' && r[i] != '"' && r[i] != '\''
    ensures |r| >= |s|
  {
    if s == [] then "" else TemplateEntity(s[0]) + EscapeTemplate(s[1..])
  }

  /** Decodes the five entities the escapers write; every other char is kept. */
  function Unescape(s: string): string
    decreases |s|
  {
    if s == [] then ""
    else if StartsWith(s, "&amp;") then "&" + Unescape(s[5..])
    else if StartsWith(s, "&lt;") then "<" + Unescape(s[4..])
    else if StartsWith(s, "&gt;") then ">" + Unescape(s[4..])
    else if StartsWith(s, "&quot;") then "\"" + Unescape(s[6..])
    else if StartsWith(s, "&#39;") then "'" + Unescape(s[5..])
    else [s[0]] + Unescape(s[1..])
  }

  lemma NotPrefix(s: string, p: string, i: nat)
    requires i < |p| && i < |s| && s[i] != p[i]
    ensures !StartsWith(s, p)
  {
    if |p| <= |s| {
      assert s[..|p|][i] == s[i];
    }
  }

  lemma UnescapeEntity(c: char, rest: string)
    requires c != '\''
    ensures Unescape(HtmlEntity(c) + rest) == [c] + Unescape(rest)
  {
    var e := HtmlEntity(c) + rest;
    if c == '&' {
      assert StartsWith(e, "&amp;") && e[5..] == rest;
    } else if c == '<' {
      NotPrefix(e, "&amp;", 1);
      assert StartsWith(e, "&lt;") && e[4..] == rest;
    } else if c == '>' {
      NotPrefix(e, "&amp;", 1);
      NotPrefix(e, "&lt;", 1);
      assert StartsWith(e, "&gt;") && e[4..] == rest;
    } else if c == '"' {
      NotPrefix(e, "&amp;", 1);
      NotPrefix(e, "&lt;", 1);
      NotPrefix(e, "&gt;", 1);
      assert StartsWith(e, "&quot;") && e[6..] == rest;
    } else {
      assert e[0] == c && e[1..] == rest;
      NotPrefix(e, "&amp;", 0);
      NotPrefix(e, "&lt;", 0);
      NotPrefix(e, "&gt;", 0);
      NotPrefix(e, "&quot;", 0);
      NotPrefix(e, "&#39;", 0);
    }
  }

  lemma UnescapeApostrophe(rest: string)
    ensures Unescape("&#39;" + rest) == "'" + Unescape(rest)
  {
    var e := "&#39;" + rest;
    NotPrefix(e, "&amp;", 1);
    NotPrefix(e, "&lt;", 1);
    NotPrefix(e, "&gt;", 1);
    NotPrefix(e, "&quot;", 1);
    assert StartsWith(e, "&#39;") && e[5..] == rest;
  }

  lemma {:induction false} UnescapeEscapeHtml(s: string)
    ensures Unescape(EscapeHtml(s)) == s
  {
    if s != [] {
      UnescapeEscapeHtml(s[1..]);
      if s[0] == '\'' {
        var e := EscapeHtml(s);
        assert e[0] == '\'' && e[1..] == EscapeHtml(s[1..]);
        NotPrefix(e, "&amp;", 0);
        NotPrefix(e, "&lt;", 0);
        NotPrefix(e, "&gt;", 0);
        NotPrefix(e, "&quot;", 0);
        NotPrefix(e, "&#39;", 0);
      } else {
        UnescapeEntity(s[0], EscapeHtml(s[1..]));
      }
    }
  }

  lemma {:induction false} UnescapeEscapeTemplate(s: string)
    ensures Unescape(EscapeTemplate(s)) == s
  {
    if s != [] {
      UnescapeEscapeTemplate(s[1..]);
      if s[0] == '\'' {
        UnescapeApostrophe(EscapeTemplate(s[1..]));
      } else {
        assert EscapeTemplate(s) == HtmlEntity(s[0]) + EscapeTemplate(s[1..]);
        UnescapeEntity(s[0], EscapeTemplate(s[1..]));
      }
    }
  }

  lemma {:induction false} EscapeHtmlAppend(a: string, b: string)
    ensures EscapeHtml(a + b) == EscapeHtml(a) + EscapeHtml(b)
  {
    if a != [] {
      assert (a + b)[0] == a[0] && (a + b)[1..] == a[1..] + b;
      EscapeHtmlAppend(a[1..], b);
    } else {
      assert a + b == b;
    }
  }

  /** Text free of the four special chars is written unchanged. */
  lemma {:induction false} EscapeHtmlPlain(s: string)
    requires forall i :: 0 <= i < |s| ==> s[i] != '&' && s[i] != '<' && s[i] != '>' && s[i] != '"'
    ensures EscapeHtml(s) == s
  {
    if s != [] {
      EscapeHtmlPlain(s[1..]);
    }
  }
}

=== FILE: feeds.dfy ===
/** The Atom feeds (RFC 4287): the feed file names the server answers to, and
    the feed built from the latest teasers of a language or a tag.  Looking up
    the tag and the posts, the translated titles and the XML serialisation are
    not part of this model. */
module Feeds {
  import opened Wrappers
  import opened Strings
  import Slug
  import MyLang
  import Post
  import Teaser
  import DateTime
  import TagCloud
  import ServerError

  /** What a feed file name asks for: a language, and maybe a tag. */
  datatype FeedArgs = FeedArgs(lang: MyLang.Lang, tag: Option<Slug.Slug>)

  /** A char of the tag part of the pattern, `[\w-]`, on ASCII.  Every char a
      slug allows is one of these, so the Unicode word chars beyond ASCII,
      which the pattern also admits, are refused by the slug check anyway. */
  predicate TagChar(c: char) {
    IsWordChar(c) || c == '-'
  }

  /** Whether `s` matches `^atom-([a-z]{2})(-([\w-]+))?.xml$`: the fixed
      prefix, two lower-case letters, an optional dash and tag, then any one
      char but a newline (the dot is not escaped) and `xml`. */
  predicate FeedPattern(s: string) {
    && |s| >= 11
    && s[..5] == "atom-"
    && IsAsciiLower(s[5]) && IsAsciiLower(s[6])
    && s[|s| - 4] != '\n'
    && s[|s| - 3..] == "xml"
    && (|s| == 11 || (|s| >= 13 && s[7] == '-' && AllChars(s[8..|s| - 4], TagChar)))
  }

  /** The tag group of a match; empty when the optional part is absent. */
  function TagCapture(s: string): (t: string)
    requires FeedPattern(s)
    ensures |s| == 11 <==> t == []
  {
    if |s| == 11 then [] else s[8..|s| - 4]
  }

  /** `FeedArgs::from_str`: a name matching the pattern, whose language code is
      a site language and whose tag, when there is one, is a valid slug. */
  function ParseFeedArgs(s: string): (r: Result<FeedArgs, ()>)
    ensures r.Ok? <==> FeedPattern(s) && MyLang.Parse(s[5..7]).Ok?
                       && (TagCapture(s) == [] || Slug.Verify(TagCapture(s)))
    ensures r.Ok? ==> MyLang.Code(r.value.lang) == s[5..7]
    ensures r.Ok? ==> (r.value.tag.None? <==> |s| == 11)
    ensures r.Ok? && r.value.tag.Some? ==> r.value.tag.value.text == s[8..|s| - 4]
  {
    if !FeedPattern(s) then Err(())
    else
      match MyLang.Parse(s[5..7])
      case Err(_) => Err(())
      case Ok(lang) =>
        var tag := TagCapture(s);
        if tag == [] then Ok(FeedArgs(lang, None))
        else
          match Slug.Parse(tag)
          case Err(_) => Err(())
          case Ok(slug) => Ok(FeedArgs(lang, Some(slug)))
  }

  /** The file names of a feed: `atom-{lang}` and `-{tag}` when there is one,
      then `sep` and `xml`, where the server links with `.` as `sep`. */
  function FeedName(lang: MyLang.Lang, tag: Option<string>, sep: char): (r: string)
    ensures |r| == 11 + (if tag.Some? then 1 + |tag.value| else 0)
  {
    "atom-" + MyLang.Code(lang) + (if tag.Some? then "-" + tag.value else "") + [sep] + "xml"
  }

  /** A feed name parses to the language and tag it was made from, whatever
      char stands before `xml` as long as it is no newline. */
  lemma ParseFeedName(lang: MyLang.Lang, tag: Option<Slug.Slug>, sep: char)
    requires sep != '\n'
    requires tag.Some? ==> Slug.Verify(tag.value.text)
    ensures ParseFeedArgs(FeedName(lang, if tag.Some? then Some(tag.value.text) else None, sep))
            == Ok(FeedArgs(lang, tag))
  {
    var code := MyLang.Code(lang);
    var text := if tag.Some? then Some(tag.value.text) else None;
    var s := FeedName(lang, text, sep);
    var mid := if tag.Some? then "-" + tag.value.text else "";
    assert s == "atom-" + code + mid + [sep] + "xml";
    assert s[..5] == "atom-";
    assert s[5..7] == code;
    assert s[|s| - 4] == sep;
    assert s[|s| - 3..] == "xml";
    MyLang.ParseCode(lang);
    if tag.Some? {
      assert s[7] == '-';
      assert s[8..|s| - 4] == tag.value.text;
    }
  }

  lemma Pieces(s: string)
    requires |s| >= 11
    ensures s == s[..5] + s[5..7] + s[7..|s| - 4] + [s[|s| - 4]] + s[|s| - 3..]
  {
    var n := |s|;
    assert s == s[..7] + s[7..];
    assert s[..7] == s[..5] + s[5..7];
    assert s[7..] == s[7..n - 4] + s[n - 4..];
    assert s[n - 4..] == [s[n - 4]] + s[n - 3..];
  }

  /** The part between the language and the separator is the dash and tag, or
      nothing. */
  lemma ParsedMiddle(s: string)
    requires ParseFeedArgs(s).Ok?
    ensures var a := ParseFeedArgs(s).value;
            s[7..|s| - 4] == if a.tag.Some? then "-" + a.tag.value.text else ""
  {
    var n := |s|;
    if ParseFeedArgs(s).value.tag.Some? {
      assert s[7..n - 4] == [s[7]] + s[8..n - 4];
    }
  }

  /** Every name that parses is a feed name of what it parsed to, with the char
      it has before `xml`. */
  lemma FeedNameOfParse(s: string)
    requires ParseFeedArgs(s).Ok?
    ensures var a := ParseFeedArgs(s).value;
            s == FeedName(a.lang, if a.tag.Some? then Some(a.tag.value.text) else None, s[|s| - 4])
  {
    assert FeedPattern(s);
    Pieces(s);
    ParsedMiddle(s);
  }

  /** The feed linked from a tag page is that tag's feed. */
  lemma TagFeedParses(lang: MyLang.Lang, slug: Slug.Slug)
    requires Slug.Verify(slug.text)
    ensures ParseFeedArgs(TagCloud.TagFeedName(lang, slug.text)) == Ok(FeedArgs(lang, Some(slug)))
  {
    assert TagCloud.TagFeedName(lang, slug.text) == FeedName(lang, Some(slug.text), '.');
    ParseFeedName(lang, Some(slug), '.');
  }

  /** The unescaped dot: `atom-enxxml` is the English site feed, and
      `atom-sv-x-xml` the Swedish feed of tag `x`. */
  lemma AnySeparator()
    ensures ParseFeedArgs("atom-enxxml") == Ok(FeedArgs(MyLang.En, None))
    ensures ParseFeedArgs("atom-sv-x-xml") == Ok(FeedArgs(MyLang.Sv, Some(Slug.Slug("x"))))
  {
    assert FeedName(MyLang.En, None, 'x') == "atom-enxxml";
    ParseFeedName(MyLang.En, None, 'x');
    assert Slug.Verify("x");
    assert FeedName(MyLang.Sv, Some("x"), '-') == "atom-sv-x-xml";
    ParseFeedName(MyLang.Sv, Some(Slug.Slug("x")), '-');
  }

  /** Names the parse refuses: an unknown language, a tag that is no slug, and
      a dash with no tag. */
  lemma RefusedNames()
    ensures ParseFeedArgs("atom-fi.xml").Err?
    ensures ParseFeedArgs("atom-en-a_b.xml").Err?
    ensures ParseFeedArgs("atom-en-.xml").Err?
  {
    assert "atom-fi.xml"[5..7] == "fi";
    var s := "atom-en-a_b.xml";
    assert |s| == 15 && s[8..11] == "a_b";
    assert !Slug.Verify("a_b") by { assert "a_b"[1] == '_'; }
    assert |"atom-en-.xml"| == 12;
  }

  /** The feed's id: the page of the tag in the feed's language, or the site. */
  function FeedId(base: string, lang: MyLang.Lang, tag: Option<Post.Tag>): (r: string)
    ensures StartsWith(r, base + "/")
    ensures tag.None? <==> |r| == |base| + 1
    ensures tag.None? ==> r == base + "/"
    ensures tag.Some? ==> r == base + "/tag/" + tag.value.slug.text + "." + MyLang.Code(lang)
  {
    var r := if tag.Some? then base + "/tag/" + tag.value.slug.text + "." + MyLang.Code(lang) else base + "/";
    assert r[..|base| + 1] == base + "/";
    r
  }

  /** A tag feed's id is the absolute url of the tag page the site links to:
      the base followed by the href of `TagCloud.TagPageLink`. */
  lemma FeedIdIsTagPage(base: string, lang: MyLang.Lang, tag: Post.Tag, name: string)
    ensures var id := FeedId(base, lang, Some(tag));
            StartsWith(id, base)
            && StartsWith(TagCloud.TagPageLink(tag.slug.text, lang, name), "<a href='" + id[|base|..] + "'")
  {
    var id := FeedId(base, lang, Some(tag));
    var path := "/tag/" + tag.slug.text + "." + MyLang.Code(lang);
    assert id == base + path;
    assert id[|base|..] == path;
    assert "<a href='" + path + "'" == "<a href='/tag/" + tag.slug.text + "." + MyLang.Code(lang) + "'";
  }

  /** Different feeds have different ids. */
  lemma FeedIdInjective(base: string, l1: MyLang.Lang, t1: Option<Post.Tag>, l2: MyLang.Lang, t2: Option<Post.Tag>)
    requires FeedId(base, l1, t1) == FeedId(base, l2, t2)
    ensures t1.None? <==> t2.None?
    ensures t1.Some? ==> t1.value.slug == t2.value.slug && l1 == l2
  {
    if t1.Some? && t2.Some? {
      var a, b := FeedId(base, l1, t1), FeedId(base, l2, t2);
      var c1, c2 := MyLang.Code(l1), MyLang.Code(l2);
      var s1, s2 := t1.value.slug.text, t2.value.slug.text;
      assert a == (base + "/tag/" + s1 + ".") + c1;
      assert b == (base + "/tag/" + s2 + ".") + c2;
      assert c1 == a[|a| - 2..] == b[|b| - 2..] == c2;
      MyLang.CodeInjective(l1, l2);
      assert s1 == a[|base| + 5..|a| - 3] == b[|base| + 5..|b| - 3] == s2;
    }
  }

  /** The feed's `updated`: the latest update among its posts; a feed without
      posts is not found (RFC 4287, section 4.2.15, needs one). */
  function Updated(posts: seq<Teaser.Teaser>): (r: Result<DateTime.DateTime, ServerError.ViewError>)
    ensures r.Ok? <==> posts != []
    ensures r.Err? ==> r.error == ServerError.NotFound
    ensures r.Ok? ==> exists i :: 0 <= i < |posts| && posts[i].post.updatedAt == r.value
    ensures r.Ok? ==> forall i :: 0 <= i < |posts| ==> posts[i].post.updatedAt.nanos <= r.value.nanos
  {
    if posts == [] then Err(ServerError.NotFound)
    else
      var rest := Updated(posts[1..]);
      var first := posts[0].post.updatedAt;
      if rest.Err? || rest.value.nanos <= first.nanos then
        assert rest.Ok? ==> forall i :: 1 <= i < |posts| ==> posts[i].post.updatedAt.nanos <= first.nanos by {
          if rest.Ok? {
            forall i | 1 <= i < |posts| ensures posts[i].post.updatedAt.nanos <= first.nanos {
              assert posts[i] == posts[1..][i - 1];
            }
          }
        }
        Ok(first)
      else
        assert exists i :: 0 <= i < |posts| && posts[i].post.updatedAt == rest.value by {
          var j :| 0 <= j < |posts[1..]| && posts[1..][j].post.updatedAt == rest.value;
          assert posts[j + 1] == posts[1..][j];
        }
        assert forall i :: 1 <= i < |posts| ==> posts[i].post.updatedAt.nanos <= rest.value.nanos by {
          forall i | 1 <= i < |posts| ensures posts[i].post.updatedAt.nanos <= rest.value.nanos {
            assert posts[i] == posts[1..][i - 1];
          }
        }
        rest
  }

  /** The feed's author of every entry. */
  const AuthorName: string := "Rasmus Kaj"
  const AuthorUri: string := "https://rasmus.krats.se/rkaj"

  /** A feed entry; its category list holds each tag's slug and name. */
  datatype Entry = Entry(title: string, id: string, link: string, authorName: string,
                         authorUri: string, updated: DateTime.DateTime,
                         categories: seq<(string, string)>, summary: string,
                         published: DateTime.DateTime)

  /** The "read more" paragraph after the teaser text. */
  function Summary(content: string, url: string, readmore: string): (r: string)
    ensures StartsWith(r, content + "\n<p class='readmore'><a href='" + url + "'>")
    ensures EndsWith(r, readmore + "</a></p>")
  {
    var head := content + "\n<p class='readmore'><a href='" + url + "'>";
    var r := head + readmore + "</a></p>";
    assert r[..|head|] == head;
    assert r[|r| - |readmore + "</a></p>"|..] == readmore + "</a></p>";
    r
  }

  /** The entry of one teaser, `readmore` being its translated link text. */
  function MakeEntry(base: string, t: Teaser.Teaser, readmore: string): (e: Entry)
    ensures e.id == e.link == base + Post.Url(t.post)
    ensures e.title == t.post.title
    ensures e.updated == t.post.updatedAt && e.published == t.post.postedAt
    ensures |e.categories| == |t.tags|
    ensures forall i :: 0 <= i < |t.tags| ==> e.categories[i] == (t.tags[i].slug.text, t.tags[i].name)
    ensures e.authorName == AuthorName && e.authorUri == AuthorUri
    ensures StartsWith(e.summary, t.post.content + "\n<p class='readmore'><a href='" + e.link + "'>")
  {
    var url := base + Post.Url(t.post);
    Entry(t.post.title, url, url, AuthorName, AuthorUri, t.post.updatedAt,
          Post.SlugsAndNames(t.tags), Summary(t.post.content, url, readmore),
          t.post.postedAt)
  }

  /** A feed, without its translated title and subtitle. */
  datatype Feed = Feed(id: string, updated: DateTime.DateTime, entries: seq<Entry>)

  /** `do_feed` after the lookups: the tag asked for must exist, and the feed
      needs at least one post. */
  function BuildFeed(base: string, args: FeedArgs, tag: Option<Post.Tag>,
                     posts: seq<Teaser.Teaser>, readmore: Teaser.Teaser -> string)
    : (r: Result<Feed, ServerError.ViewError>)
    ensures args.tag.Some? && tag.None? ==> r == Err(ServerError.NotFound)
    ensures posts == [] ==> r == Err(ServerError.NotFound)
    ensures r.Ok? <==> (args.tag.None? || tag.Some?) && posts != []
    ensures r.Ok? ==> r.value.id == FeedId(base, args.lang, if args.tag.Some? then tag else None)
    ensures r.Ok? ==> |r.value.entries| == |posts|
    ensures r.Ok? ==> forall i :: 0 <= i < |posts| ==> r.value.entries[i] == MakeEntry(base, posts[i], readmore(posts[i]))
    ensures r.Ok? ==> forall i :: 0 <= i < |posts| ==> r.value.entries[i].updated.nanos <= r.value.updated.nanos
  {
    if args.tag.Some? && tag.None? then Err(ServerError.NotFound)
    else
      var tag := if args.tag.Some? then tag else None;
      match Updated(posts)
      case Err(e) => Err(e)
      case Ok(updated) =>
        var entries := seq(|posts|, i requires 0 <= i < |posts| => MakeEntry(base, posts[i], readmore(posts[i])));
        Ok(Feed(FeedId(base, args.lang, tag), updated, entries))
  }
}

=== FILE: fluent.dfy ===
/** Localised messages.  The message catalogue and its lookup are not part of
    this model: a lookup takes the language, the message id and the named
    arguments, and the operations that build text around messages take it as a
    parameter. */
module Fluent {
  import MyLang
  import DateTime

  datatype Arg = DateArg(date: DateTime.DateTime) | StrArg(str: string) | NumArg(num: int)

  /** `fl!(lang, id, name = value, ...)`. */
  type Lookup = (MyLang.Lang, string, seq<(string, Arg)>) -> string
}

=== FILE: html.dfy ===
/** Serialising a markdown event stream into the site's HTML: every heading
    opens a `<section>` nested by heading level, images become figures outside
    paragraphs, code blocks are framed, and everything else maps to a simple
    tag.  Two snapshots share this serialiser and differ only in their code
    blocks: the current one goes through `CodeBlocks`, the older one
    highlights each text event on its own and tolerates a stray block end.
    Image metadata, the `{:?}` text of events and `escape_href` are
    parameters. */
module Html {
  import opened Wrappers
  import opened Strings
  import opened Escape
  import opened CmarkOld
  import CodeBlocks

  /** How code blocks are written. */
  datatype Blocks =
    | Current(syn: CodeBlocks.Syntax)
    | Older(highlight: (string, string) -> Option<string>)

  /** What the serialiser needs from outside: the code-block flavour,
      `escape_href`, the `{:?}` text of an event, and the figure markup for an
      image (from its link type, reference, title and alt text; fetching image
      data can fail). */
  datatype Env = Env(blocks: Blocks, escapeHref: string -> string, debug: Event -> string,
                     figure: (LinkType, string, string, string) -> Result<string, string>)

  /** `bail!` and `?` give an error, `panic!` and `unreachable!` abort. */
  datatype Failure = Bail(msg: string) | Panic(msg: string)

  /** The serialiser's state: the output so far and the section depth, with a
      ledger of the section tags written so far and whether a section was ever
      closes that had not been opens. */
  datatype St = St(out: string, depth: nat, opens: nat, closes: nat, balanced: bool)

  /** The depth counts the sections open beyond the implicit outermost one. */
  predicate Inv(st: St) {
    st.depth >= 1 && st.depth + st.closes == st.opens + 1
  }

  const NoP: string := "<p><!--no-p-->"

  /** The start tag name of a heading, `h1` to `h6`. */
  function HName(level: HeadingLevel): (r: string)
    ensures |r| == 2 && r[0] == 'h' && (r[1] as int) - ('0' as int) == LevelNumber(level)
  {
    match level
    case H1 => "h1"
    case H2 => "h2"
    case H3 => "h3"
    case H4 => "h4"
    case H5 => "h5"
    case H6 => "h6"
  }

  // ---------------------------------------------------------------------------
  // remove_end and tag_name

  /** `remove_end`: strip `tail` off the end of `s` when `s` ends with it. */
  function RemoveEnd(s: string, tail: string): (r: (string, bool))
    ensures r.1 <==> EndsWith(s, tail)
    ensures r.1 ==> r.0 + tail == s
    ensures !r.1 ==> r.0 == s
  {
    if EndsWith(s, tail) then
      assert s == s[..|s| - |tail|] + s[|s| - |tail|..];
      (s[..|s| - |tail|], true)
    else (s, false)
  }

  /** `tag_name`: the HTML element of a simple tag; any other tag panics. */
  function TagName(tag: Tag): (r: Option<string>)
    ensures r.Some? <==> (tag.Paragraph? || tag.Emphasis? || tag.Strong? || tag.Link? || tag.Table?
                          || tag.TableRow? || tag.TableCell? || tag.List? || tag.Item? || tag.BlockQuote?)
    ensures tag.List? ==> r == Some(if tag.start.Some? then "ol" else "ul")
  {
    match tag
    case Paragraph => Some("p")
    case Emphasis => Some("em")
    case Strong => Some("strong")
    case Link(_, _, _) => Some("a")
    case Table(_) => Some("table")
    case TableRow => Some("tr")
    case TableCell => Some("td")
    case List(start) => Some(if start.Some? then "ol" else "ul")
    case Item => Some("li")
    case BlockQuote => Some("blockquote")
    case _ => None
  }

  /** The `{:?}` text of the tags that get a comment in their start tag. */
  function TagDebug(tag: Tag): string {
    match tag
    case Strong => "Strong"
    case BlockQuote => "BlockQuote"
    case Table(aligns) => "Table([" + AlignmentsDebug(aligns) + "])"
    case _ => ""
  }

  // ---------------------------------------------------------------------------
  // Sections

  /** Close sections down to below `level`. */
  function CloseSections(st: St, level: nat): (r: St)
    requires 1 <= level && st.depth + st.closes == st.opens + 1
    ensures r.depth == if st.depth < level then st.depth else level - 1
    ensures r.out == st.out + Repeat("</section>", st.depth - r.depth)
    ensures r.opens == st.opens && r.depth + r.closes == r.opens + 1
    ensures r.closes == st.closes + (st.depth - r.depth)
    ensures r.balanced == (st.balanced && (r.depth == st.depth || r.depth >= 1))
    decreases st.depth
  {
    if st.depth >= level then
      var st' := st.(out := st.out + "</section>", depth := st.depth - 1,
                     closes := st.closes + 1, balanced := st.balanced && st.closes < st.opens);
      var r := CloseSections(st', level);
      RepeatMore(st.out, "</section>", st.depth - r.depth, r.out);
      r
    else st
  }

  /** Open plain sections until the next one opens is at `level`. */
  function OpenSections(st: St, level: nat): (r: St)
    requires st.depth < level && st.depth + st.closes == st.opens + 1
    ensures r.depth == level - 1
    ensures r.out == st.out + Repeat("<section>", level - 1 - st.depth)
    ensures r.closes == st.closes && r.depth + r.closes == r.opens + 1 && r.balanced == st.balanced
    decreases level - st.depth
  {
    if st.depth + 1 < level then
      var st' := st.(out := st.out + "<section>", depth := st.depth + 1, opens := st.opens + 1);
      var r := OpenSections(st', level);
      RepeatMore(st.out, "<section>", level - 1 - st.depth, r.out);
      r
    else st
  }

  /** Writing one more copy after the output extends the output's run. */
  lemma RepeatMore(out: string, s: string, n: nat, r: string)
    requires n >= 1 && r == out + s + Repeat(s, n - 1)
    ensures r == out + Repeat(s, n)
  {
    assert Repeat(s, n) == s + Repeat(s, n - 1);
  }

  /** The `id` and `class` attributes of a heading's section: the escaped id
      first, then the escaped classes joined by spaces.  Neither can end the
      start tag early. */
  function SectionAttrs(id: Option<string>, classes: seq<string>): (r: string)
    ensures id.None? && classes == [] ==> r == ""
    ensures id.Some? ==> StartsWith(r, " id=\"" + EscapeHtml(id.value) + "\"")
    ensures classes != [] ==> EndsWith(r, " class=\"" + EscapeHtml(Join(classes, " ")) + "\"")
    ensures id.None? && classes != [] ==> StartsWith(r, " class=")
    ensures NoAngle(r)
  {
    var a := if id.Some? then " id=\"" + EscapeHtml(id.value) + "\"" else "";
    var b := if classes != [] then " class=\"" + EscapeHtml(Join(classes, " ")) + "\"" else "";
    Bracketing(a, "", b);
    assert a + "" + b == a + b;
    assert NoAngle(a) by {
      if id.Some? { NoAngleJoin(" id=\"", EscapeHtml(id.value), "\""); }
    }
    assert NoAngle(b) by {
      if classes != [] { NoAngleJoin(" class=\"", EscapeHtml(Join(classes, " ")), "\""); }
    }
    NoAngleJoin(a, b, "");
    assert a + b + "" == a + b;
    assert id.None? && classes != [] ==> (a + b)[..|" class="|] == " class=";
    a + b
  }

  /** Text holding neither `<` nor `>`. */
  predicate NoAngle(s: string) {
    forall x :: 0 <= x < |s| ==> s[x] != '<' && s[x] != '>'
  }

  lemma NoAngleJoin(a: string, b: string, c: string)
    requires NoAngle(a) && NoAngle(c)
    requires (forall x :: 0 <= x < |b| ==> b[x] != '<' && b[x] != '>')
    ensures NoAngle(a + b + c)
  {
    var s := a + b + c;
    forall x | 0 <= x < |s| ensures s[x] != '<' && s[x] != '>' {
      if x < |a| { assert s[x] == a[x]; }
      else if x < |a| + |b| { assert s[x] == b[x - |a|]; }
      else { assert s[x] == c[x - |a| - |b|]; }
    }
  }

  /** A heading start: close the sections at its level or deeper, open plain
      sections for skipped levels, then open its own section and the heading
      element.  Afterwards the depth is the heading's level. */
  function OpenHeading(st: St, level: HeadingLevel, id: Option<string>, classes: seq<string>): (r: St)
    requires Inv(st)
    ensures Inv(r) && r.depth == LevelNumber(level)
    ensures var l := LevelNumber(level);
            var kept := if st.depth < l then st.depth else l - 1;
            r.out == st.out + Repeat("</section>", st.depth - kept) + "\n"
                     + Repeat("<section>", l - 1 - kept) + SectionStart(level, id, classes)
    ensures var l := LevelNumber(level);
            var kept := if st.depth < l then st.depth else l - 1;
            r.opens == st.opens + (l - kept) && r.closes == st.closes + (st.depth - kept)
            && r.balanced == (st.balanced && (kept == st.depth || kept >= 1))
    ensures st.balanced && level != H1 ==> r.balanced
  {
    var l := LevelNumber(level);
    var kept := if st.depth < l then st.depth else l - 1;
    var c := CloseSections(st, l);
    assert c.depth == kept;
    var o := OpenSections(c.(out := c.out + "\n"), l);
    assert o.out == st.out + Repeat("</section>", st.depth - kept) + "\n" + Repeat("<section>", l - 1 - kept);
    o.(out := o.out + SectionStart(level, id, classes), depth := o.depth + 1, opens := o.opens + 1)
  }

  /** The heading's own section and the start tag of the heading element. */
  function SectionStart(level: HeadingLevel, id: Option<string>, classes: seq<string>): string {
    "<section" + SectionAttrs(id, classes) + "><" + HName(level) + ">"
  }

  /** A heading end: an empty heading loses its start tag, any other is closes. */
  function CloseHeading(out: string, level: HeadingLevel): (r: string)
    ensures EndsWith(out, "<" + HName(level) + ">") ==> r + "<" + HName(level) + ">" == out
    ensures !EndsWith(out, "<" + HName(level) + ">") ==> r == out + "</" + HName(level) + ">\n"
  {
    var (o, removed) := RemoveEnd(out, "<" + HName(level) + ">");
    if removed then o else out + "</" + HName(level) + ">\n"
  }

  // ---------------------------------------------------------------------------
  // Code blocks

  /** The language of a code block: a non-empty fence info string. */
  function BlockLang(kind: CodeBlockKind): (r: Option<string>)
    ensures r.Some? <==> kind.Fenced? && kind.info != ""
    ensures r.Some? ==> r.value == kind.info
  {
    match kind
    case Fenced(f) => if f != "" then Some(f) else None
    case Indented => None
  }

  /** The texts of a code block whose body starts at event `k`: the text
      events up to the block's end, and the index after that end (the end of
      the stream when the block is not closed); none when any other event
      comes first. */
  function BlockTexts(evs: seq<Event>, k: nat): (r: Option<(seq<string>, nat)>)
    requires k <= |evs|
    ensures r.Some? ==> k <= r.value.1 <= |evs|
    decreases |evs| - k
  {
    if k == |evs| then Some(([], k))
    else match evs[k]
      case End(CodeBlock(_)) => Some(([], k + 1))
      case Text(code) =>
        (match BlockTexts(evs, k + 1)
         case Some((ts, j)) => Some(([code] + ts, j))
         case None => None)
      case _ => None
  }

  /** The text events of the current code block, pushed into `h` up to the
      block's end (or the end of the stream): the same as pushing the
      block's texts all at once. */
  function PushCode(evs: seq<Event>, k: nat, out: string, h: CodeBlocks.Handler, env: Env)
    : (r: Result<(nat, string, CodeBlocks.Handler), Failure>)
    requires k <= |evs|
    requires h.Code? && h.highlighted ==> h.lang.Some?
    ensures r.Ok? <==> BlockTexts(evs, k).Some?
    ensures r.Ok? ==> var (texts, j) := BlockTexts(evs, k).value;
                      r.value.0 == j && (r.value.1, r.value.2) == CodeBlocks.PushAll(out, h, texts)
    ensures r.Ok? ==> k <= r.value.0 <= |evs| && (r.value.2.Code? && r.value.2.highlighted ==> r.value.2.lang.Some?)
    ensures r.Ok? ==> (h.Leaflet? <==> r.value.2.Leaflet?)
                      && (h.Code? ==> r.value.2.lang == h.lang && r.value.2.highlighted == h.highlighted)
    ensures r.Err? ==> r.error.Bail?
    decreases |evs| - k
  {
    if k == |evs| then Ok((k, out, h))
    else match evs[k]
      case End(CodeBlock(_)) => Ok((k + 1, out, h))
      case Text(code) =>
        var (o, h') := CodeBlocks.Push(out, h, code);
        var r := PushCode(evs, k + 1, o, h', env);
        assert r.Ok? ==> var ts := BlockTexts(evs, k + 1).value.0;
                         CodeBlocks.PushAll(out, h, [code] + ts) == CodeBlocks.PushAll(o, h', ts) by {
          if r.Ok? { assert ([code] + BlockTexts(evs, k + 1).value.0)[1..] == BlockTexts(evs, k + 1).value.0; }
        }
        r
      case _ => Err(Bail("Unexpeted in code: " + env.debug(evs[k])))
  }

  /** What the older snapshot writes for one text of a code block: the
      highlighter's markup when the block has a language it accepts,
      the escaped text otherwise. */
  function OlderPiece(code: string, lang: Option<string>, highlight: (string, string) -> Option<string>): string {
    if lang.Some? && highlight(lang.value, code).Some? then highlight(lang.value, code).value else EscapeHtml(code)
  }

  function OlderPieces(texts: seq<string>, lang: Option<string>, highlight: (string, string) -> Option<string>): string {
    if texts == [] then "" else OlderPiece(texts[0], lang, highlight) + OlderPieces(texts[1..], lang, highlight)
  }

  /** Without a language every piece is escaped on its own, which is the
      escaped text of the whole block. */
  lemma {:induction false} OlderPiecesPlain(texts: seq<string>, highlight: (string, string) -> Option<string>)
    ensures OlderPieces(texts, None, highlight) == EscapeHtml(CodeBlocks.Concat(texts))
    decreases |texts|
  {
    if texts != [] {
      OlderPiecesPlain(texts[1..], highlight);
      EscapeHtmlAppend(texts[0], CodeBlocks.Concat(texts[1..]));
    }
  }

  /** The older snapshot's code-block body: the pieces of the block's texts,
      appended in order; any other event aborts. */
  function OlderCode(evs: seq<Event>, k: nat, out: string, lang: Option<string>,
                     highlight: (string, string) -> Option<string>, env: Env)
    : (r: Result<(nat, string), Failure>)
    requires k <= |evs|
    ensures r.Ok? <==> BlockTexts(evs, k).Some?
    ensures r.Ok? ==> var (texts, j) := BlockTexts(evs, k).value;
                      r.value == (j, out + OlderPieces(texts, lang, highlight))
    ensures r.Err? ==> r.error.Panic?
    decreases |evs| - k
  {
    assert out + OlderPieces([], lang, highlight) == out;
    if k == |evs| then Ok((k, out))
    else match evs[k]
      case End(CodeBlock(_)) => Ok((k + 1, out))
      case Text(code) =>
        var piece := OlderPiece(code, lang, highlight);
        var r := OlderCode(evs, k + 1, out + piece, lang, highlight, env);
        if r.Ok? then
          OlderStep(out, code, BlockTexts(evs, k + 1).value.0, lang, highlight);
          r
        else r
      case _ => Err(Panic("Unexpeted in code: " + env.debug(evs[k])))
  }

  lemma OlderStep(out: string, code: string, ts: seq<string>, lang: Option<string>,
                  highlight: (string, string) -> Option<string>)
    ensures out + OlderPiece(code, lang, highlight) + OlderPieces(ts, lang, highlight)
            == out + OlderPieces([code] + ts, lang, highlight)
  {
    assert ([code] + ts)[1..] == ts;
  }

  /** A code block starting at event `i`: its HTML appended to `out`, and the
      index of the first event after it.  The current snapshot writes the
      block its texts make (`CodeBlocks.Block`); the older one writes the
      `<pre>` start tag, the pieces and the end tag. */
  function CodeBlockAt(evs: seq<Event>, i: nat, out: string, env: Env): (r: Result<(nat, string), Failure>)
    requires i < |evs| && evs[i].Start? && evs[i].tag.CodeBlock?
    ensures r.Ok? ==> i < r.value.0 <= |evs|
    ensures BlockTexts(evs, i + 1).None? ==> r.Err?
    ensures env.blocks.Current? && BlockTexts(evs, i + 1).Some? ==>
              var (texts, j) := BlockTexts(evs, i + 1).value;
              var block := CodeBlocks.Block(out, BlockLang(evs[i].tag.kind), texts, env.blocks.syn);
              (r.Ok? <==> block.Ok?) && (r.Ok? ==> r.value == (j, block.value))
    ensures env.blocks.Older? && BlockTexts(evs, i + 1).Some? ==>
              var (texts, j) := BlockTexts(evs, i + 1).value;
              var lang := BlockLang(evs[i].tag.kind);
              r == Ok((j, out + CodeBlocks.PreOpen(lang) + OlderPieces(texts, lang, env.blocks.highlight) + "</pre>\n"))
  {
    var lang := BlockLang(evs[i].tag.kind);
    match env.blocks
    case Current(syn) =>
      (match CodeBlocks.ForKind(out, lang, syn)
       case Err(e) => Err(Bail(e))
       case Ok((o, h)) =>
         var (j, o', h') :- PushCode(evs, i + 1, o, h, env);
         Ok((j, CodeBlocks.End(o', h', syn))))
    case Older(highlight) =>
      var (j, o) :- OlderCode(evs, i + 1, out + CodeBlocks.PreOpen(lang), lang, highlight, env);
      Ok((j, o + "</pre>\n"))
  }

  /** An indented or unlabelled block in the older snapshot is the `<pre>`
      start tag, the escaped code and the end tag. */
  lemma OlderPlainBlock(evs: seq<Event>, i: nat, out: string, env: Env)
    requires i < |evs| && evs[i].Start? && evs[i].tag.CodeBlock? && BlockLang(evs[i].tag.kind).None?
    requires env.blocks.Older? && BlockTexts(evs, i + 1).Some?
    ensures var (texts, j) := BlockTexts(evs, i + 1).value;
            CodeBlockAt(evs, i, out, env) == Ok((j, out + "<pre>" + EscapeHtml(CodeBlocks.Concat(texts)) + "</pre>\n"))
  {
    OlderPiecesPlain(BlockTexts(evs, i + 1).value.0, env.blocks.highlight);
  }

  // ---------------------------------------------------------------------------
  // Images

  /** Before a figure, drop a paragraph start it would otherwise sit in. */
  function StripP(out: string): (r: string)
    ensures EndsWith(out, "<p>") ==> r + "<p>" == out
    ensures !EndsWith(out, "<p>") && EndsWith(out, NoP) ==> r + NoP == out
    ensures !EndsWith(out, "<p>") && !EndsWith(out, NoP) && EndsWith(out, NoP + "\n") ==> r + NoP + "\n" == out
    ensures !EndsWith(out, "<p>") && !EndsWith(out, NoP) && !EndsWith(out, NoP + "\n") ==> r == out
  {
    var (a, ra) := RemoveEnd(out, "<p>");
    if ra then a
    else
      var (b, rb) := RemoveEnd(out, NoP);
      if rb then b
      else
        var (c, rc) := RemoveEnd(out, NoP + "\n");
        assert rc ==> c + NoP + "\n" == out by { assert c + NoP + "\n" == c + (NoP + "\n"); }
        c
  }

  /** One event's part of an image's alt text: text as it is, a soft break
      as a space, and the `{:?}` text of anything else on a line of its own. */
  function AltPiece(e: Event, env: Env): string {
    match e
    case Text(t) => t
    case SoftBreak => " "
    case _ => "\n" + env.debug(e)
  }

  function AltText(es: seq<Event>, env: Env): string {
    if es == [] then "" else AltPiece(es[0], env) + AltText(es[1..], env)
  }

  predicate IsImageEnd(e: Event) {
    e.End? && e.tag.Image?
  }

  /** Where an image's content starting at `k` stops: the first image end,
      or the end of the stream. */
  function AltStop(evs: seq<Event>, k: nat): (stop: nat)
    requires k <= |evs|
    ensures k <= stop <= |evs|
    ensures forall x :: k <= x < stop ==> !IsImageEnd(evs[x])
    ensures stop < |evs| ==> IsImageEnd(evs[stop])
    decreases |evs| - k
  {
    if k == |evs| || IsImageEnd(evs[k]) then k else AltStop(evs, k + 1)
  }

  /** The alt text of an image: the pieces of the events up to the image's
      end, which is consumed, or up to the end of the stream. */
  function ImageText(evs: seq<Event>, k: nat, inner: string, env: Env): (r: (nat, string))
    requires k <= |evs|
    ensures var stop := AltStop(evs, k);
            r.0 == (if stop < |evs| then stop + 1 else stop) && r.1 == inner + AltText(evs[k..stop], env)
    decreases |evs| - k
  {
    if k == |evs| || IsImageEnd(evs[k]) then
      assert inner + AltText(evs[k..k], env) == inner;
      (if k == |evs| then k else k + 1, inner)
    else
      AltStep(evs, k, AltStop(evs, k), inner, env);
      ImageText(evs, k + 1, inner + AltPiece(evs[k], env), env)
  }

  lemma AltStep(evs: seq<Event>, k: nat, stop: nat, inner: string, env: Env)
    requires k < stop <= |evs|
    ensures inner + AltPiece(evs[k], env) + AltText(evs[k + 1..stop], env) == inner + AltText(evs[k..stop], env)
  {
    assert evs[k..stop][1..] == evs[k + 1..stop];
  }

  /** An image whose content is only text has that text, concatenated, as
      its alt text. */
  lemma {:induction false} AltOfTexts(ts: seq<string>, env: Env)
    ensures AltText(seq(|ts|, x requires 0 <= x < |ts| => Text(ts[x])), env) == CodeBlocks.Concat(ts)
    decreases |ts|
  {
    var es := seq(|ts|, x requires 0 <= x < |ts| => Text(ts[x]));
    if ts != [] {
      AltOfTexts(ts[1..], env);
      assert es[1..] == seq(|ts[1..]|, x requires 0 <= x < |ts[1..]| => Text(ts[1..][x]));
    }
  }

  /** An image starting at event `i` becomes a figure, followed by a marker
      paragraph start `<p><!--no-p-->` so that the text after it is again in a
      paragraph. */
  function ImageAt(evs: seq<Event>, i: nat, out: string, env: Env): (r: Result<(nat, string), Failure>)
    requires i < |evs| && evs[i].Start? && evs[i].tag.Image?
    ensures r.Ok? ==> i < r.value.0 <= |evs|
    ensures r.Ok? ==> var (j, alt) := ImageText(evs, i + 1, "", env);
                      var t := evs[i].tag;
                      env.figure(t.linkType, t.dest, t.title, alt).Ok?
                      && r.value == (j, StripP(out) + env.figure(t.linkType, t.dest, t.title, alt).value + "\n" + NoP)
    ensures r.Err? <==> var t := evs[i].tag;
                        env.figure(t.linkType, t.dest, t.title, ImageText(evs, i + 1, "", env).1).Err?
  {
    var t := evs[i].tag;
    var (j, alt) := ImageText(evs, i + 1, "", env);
    match env.figure(t.linkType, t.dest, t.title, alt)
    case Err(e) => Err(Bail(e))
    case Ok(fig) => Ok((j, StripP(out) + fig + "\n" + NoP))
  }

  // ---------------------------------------------------------------------------
  // Single events

  /** The attributes of a simple start tag (after its name). */
  function StartAttrs(tag: Tag, env: Env): string {
    match tag
    case Paragraph => ""
    case Emphasis => ""
    case TableCell => ""
    case TableRow => ""
    case Item => ""
    case List(start) => if start.Some? then " start='" + NatToString(start.value) + "'" else ""
    case Link(lt, href, title) =>
      (if href != "" then " href=\"" + env.escapeHref(href) + "\"" else "")
      + (if title != "" then " title=\"" + EscapeHtml(title) + "\"" else "")
      + " data-type='" + LinkTypeDebug(lt) + "'"
    case _ => "><!-- " + TagDebug(tag) + " --"
  }

  /** Block-level ends are followed by a newline. */
  predicate EndsLine(tag: Tag) {
    tag.Paragraph? || tag.Table? || tag.Item? || tag.List?
  }

  function CheckBox(done: bool): string {
    "<input disabled type='checkbox'" + (if done then " checked=''" else "") + "/>\n"
  }

  /** Every event except heading starts, code-block starts and image starts,
      which need the rest of the stream or the section depth. */
  function Simple(e: Event, out: string, env: Env): (r: Result<string, Failure>)
    ensures e.Text? ==> r == Ok(out + EscapeHtml(e.text))
    ensures e.Code? ==> r == Ok(out + "<code>" + EscapeHtml(e.code) + "</code>")
    ensures e.Html? ==> r == Ok(out + e.html)
    ensures e.TaskListMarker? ==> r == Ok(out + CheckBox(e.checked))
    ensures e.End? && e.tag.Paragraph? && EndsWith(out, NoP) ==> r.Ok? && r.value + NoP == out
    ensures e.End? && e.tag.Paragraph? && !EndsWith(out, NoP) ==> r == Ok(out + "</p>\n")
    ensures e.Rule? || e.FootnoteReference? ==> r.Err? && r.error.Bail?
    ensures r.Ok? ==> e.End? || StartsWith(r.value, out)
  {
    match e
    case Text(t) => Ok(out + EscapeHtml(t))
    case End(Heading(level, _, _)) => Ok(CloseHeading(out, level))
    case End(CodeBlock(_)) =>
      if env.blocks.Current? then Err(Panic("internal error: entered unreachable code"))
      else Ok(out + "</code></pre>\n")
    case End(TableHead) => Ok(out + "</tr></thead>\n")
    case Start(TableHead) => Ok(out + "<thead><tr>")
    case TaskListMarker(done) => Ok(out + CheckBox(done))
    case Start(tag) => SimpleStart(tag, out, env)
    case End(Paragraph) => Ok(EndParagraph(out))
    case End(tag) => SimpleEnd(tag, out)
    case SoftBreak => Ok(out + "\n")
    case Html(code) => Ok(out + code)
    case Code(code) => Ok(out + "<code>" + EscapeHtml(code) + "</code>")
    case HardBreak => Ok(out + "<br/>\n")
    case _ => Err(Bail("Unhandled: " + env.debug(e)))
  }

  /** The start tag of a simple element. */
  function SimpleStart(tag: Tag, out: string, env: Env): (r: Result<string, Failure>)
    ensures r.Err? <==> TagName(tag).None?
    ensures r.Ok? ==> StartsWith(r.value, out)
  {
    match TagName(tag)
    case None => Err(Panic("Not a simple tag"))
    case Some(name) =>
      var t := "<" + name + StartAttrs(tag, env) + ">";
      assert (out + t)[..|out|] == out;
      Ok(out + t)
  }

  /** The end tag of a simple element, with a newline after block-level ones. */
  function SimpleEnd(tag: Tag, out: string): (r: Result<string, Failure>)
    ensures r.Err? <==> TagName(tag).None?
  {
    match TagName(tag)
    case None => Err(Panic("Not a simple tag"))
    case Some(name) => Ok(out + "</" + name + ">" + (if EndsLine(tag) then "\n" else ""))
  }

  /** A paragraph end: a paragraph that held only a figure loses its start
      tag, any other is closed. */
  function EndParagraph(out: string): (r: string)
    ensures EndsWith(out, NoP) ==> r + NoP == out
    ensures !EndsWith(out, NoP) ==> r == out + "</p>\n"
  {
    var (o, removed) := RemoveEnd(out, NoP);
    if removed then o else out + "</p>\n"
  }

  /** A level-1 heading start: the only event that can close a section that
      was never opens. */
  predicate TitleStart(e: Event) {
    e.Start? && e.tag.Heading? && e.tag.level == H1
  }

  predicate NoTitleFrom(evs: seq<Event>, i: nat) {
    forall k :: i <= k < |evs| ==> !TitleStart(evs[k])
  }

  /** The event at `i` and whatever it consumes after it. */
  function Step(evs: seq<Event>, i: nat, st: St, env: Env): (r: Result<(nat, St), Failure>)
    requires i < |evs| && Inv(st)
    ensures r.Ok? ==> i < r.value.0 <= |evs| && Inv(r.value.1)
    ensures r.Ok? && st.balanced && !TitleStart(evs[i]) ==> r.value.1.balanced
    ensures r.Ok? && !(evs[i].Start? && evs[i].tag.Heading?) ==> r.value.1.depth == st.depth
  {
    var e := evs[i];
    if e.Start? && e.tag.Heading? then
      Ok((i + 1, OpenHeading(st, e.tag.level, e.tag.id, e.tag.classes)))
    else if e.Start? && e.tag.CodeBlock? then
      var (j, o) :- CodeBlockAt(evs, i, st.out, env);
      Ok((j, st.(out := o)))
    else if e.Start? && e.tag.Image? then
      var (j, o) :- ImageAt(evs, i, st.out, env);
      Ok((j, st.(out := o)))
    else
      var o :- Simple(e, st.out, env);
      Ok((i + 1, st.(out := o)))
  }

  /** `collect`'s loop over the events from `i` on. */
  function Run(evs: seq<Event>, i: nat, st: St, env: Env): (r: Result<St, Failure>)
    requires i <= |evs| && Inv(st)
    ensures r.Ok? ==> Inv(r.value)
    ensures r.Ok? && st.balanced && NoTitleFrom(evs, i) ==> r.value.balanced
    decreases |evs| - i
  {
    if i == |evs| then Ok(st)
    else
      var (j, st') :- Step(evs, i, st, env);
      Run(evs, j, st', env)
  }

  /** After the loop: close every section still open. */
  function CloseAll(st: St): (r: St)
    requires Inv(st)
    ensures r.opens == r.closes && r.depth == 1 && (st.balanced ==> r.balanced)
    ensures r.out == st.out + Repeat("</section>", st.depth - 1)
  {
    var c := CloseSections(st, 2);
    c
  }

  /** `collect`, with its final state: every section opens is closes, and
      none is closes before it was opens unless the stream has a level-1
      heading. */
  function CollectState(evs: seq<Event>, env: Env): (r: Result<St, Failure>)
    ensures r.Ok? ==> r.value.opens == r.value.closes
    ensures r.Ok? && NoTitleFrom(evs, 0) ==> r.value.balanced
  {
    var st :- Run(evs, 0, St("", 1, 0, 0, true), env);
    Ok(CloseAll(st))
  }

  /** `collect` (and the older `collect_html`): the HTML of an event stream. */
  function Collect(evs: seq<Event>, env: Env): Result<string, Failure> {
    var st :- CollectState(evs, env);
    Ok(st.out)
  }

  // ---------------------------------------------------------------------------
  // Properties of whole streams

  /** The serialiser's state before the first event. */
  const Start0: St := St("", 1, 0, 0, true)

  lemma RunOn(evs: seq<Event>, i: nat, st: St, env: Env, j: nat, st': St)
    requires i < |evs| && Inv(st)
    ensures Step(evs, i, st, env) == Ok((j, st')) ==> Run(evs, i, st, env) == Run(evs, j, st', env)
  {
  }

  lemma StepSimple(evs: seq<Event>, i: nat, st: St, env: Env, o: string)
    requires i < |evs| && Inv(st)
    requires !(evs[i].Start? && (evs[i].tag.Heading? || evs[i].tag.CodeBlock? || evs[i].tag.Image?))
    requires Simple(evs[i], st.out, env) == Ok(o)
    ensures Run(evs, i, st, env) == Run(evs, i + 1, st.(out := o), env)
  {
  }

  lemma StepHeading(evs: seq<Event>, i: nat, st: St, env: Env, level: HeadingLevel)
    requires i < |evs| && Inv(st) && evs[i] == Start(Heading(level, None, []))
    ensures Run(evs, i, st, env) == Run(evs, i + 1, OpenHeading(st, level, None, []), env)
  {
  }

  lemma CollectOf(evs: seq<Event>, env: Env, st: St)
    ensures Run(evs, 0, Start0, env) == Ok(st) ==> Collect(evs, env) == Ok(CloseAll(st).out)
  {
  }

  /** Text is escaped. */
  lemma CollectText(t: string, env: Env)
    ensures Collect([Text(t)], env) == Ok(EscapeHtml(t))
    ensures Unescape(Collect([Text(t)], env).value) == t
  {
    var evs := [Text(t)];
    var st1 := Start0.(out := EscapeHtml(t));
    assert Step(evs, 0, Start0, env) == Ok((1, st1));
    RunOn(evs, 0, Start0, env, 1, st1);
    CollectOf(evs, env, st1);
    UnescapeEscapeHtml(t);
  }

  /** A level-2 heading with text is a section holding the `h2` element. */
  lemma HeadingSection(t: string, env: Env)
    requires t != ""
    ensures Collect([Start(Heading(H2, None, [])), Text(t), End(Heading(H2, None, []))], env)
            == Ok("\n<section><h2>" + EscapeHtml(t) + "</h2>\n</section>")
  {
    var evs := [Start(Heading(H2, None, [])), Text(t), End(Heading(H2, None, []))];
    var st := St("\n<section><h2>" + EscapeHtml(t) + "</h2>\n", 2, 1, 0, true);
    HeadingSectionRun(t, env);
    CollectOf(evs, env, st);
    CloseOne(st, EscapeHtml(t));
  }

  lemma CloseOne(st: St, e: string)
    requires st == St("\n<section><h2>" + e + "</h2>\n", 2, 1, 0, true)
    ensures CloseAll(st).out == "\n<section><h2>" + e + "</h2>\n</section>"
  {
    assert Repeat("</section>", 1) == "</section>";
    assert "\n<section><h2>" + e + "</h2>\n" + "</section>" == "\n<section><h2>" + e + "</h2>\n</section>";
  }

  lemma HeadingSectionRun(t: string, env: Env)
    requires t != ""
    ensures Run([Start(Heading(H2, None, [])), Text(t), End(Heading(H2, None, []))], 0, Start0, env)
            == Ok(St("\n<section><h2>" + EscapeHtml(t) + "</h2>\n", 2, 1, 0, true))
  {
    var evs := [Start(Heading(H2, None, [])), Text(t), End(Heading(H2, None, []))];
    var st1 := St("\n<section><h2>", 2, 1, 0, true);
    var e := EscapeHtml(t);
    var o2 := "\n<section><h2>" + e;
    var o3 := o2 + "</h2>\n";
    OpenH2();
    StepHeading(evs, 0, Start0, env, H2);
    StepSimple(evs, 1, st1, env, o2);
    CloseH2(e);
    StepSimple(evs, 2, st1.(out := o2), env, o3);
  }

  lemma OpenH2()
    ensures OpenHeading(Start0, H2, None, []) == St("\n<section><h2>", 2, 1, 0, true)
  {
    assert Repeat("</section>", 0) == "" && Repeat("<section>", 0) == "";
    PlainSection(H2, "h2");
    H2Text();
  }

  lemma H2Text()
    ensures "" + "" + "\n" + "" + ("<section><" + "h2" + ">") == "\n<section><h2>"
  {
  }

  lemma H3Text()
    ensures "" + "" + "\n" + "<section>" + ("<section><" + "h3" + ">") == "\n<section><section><h3>"
  {
  }

  lemma H1Text()
    ensures "" + "</section>" + "\n" + "" + ("<section><" + "h1" + ">") == "</section>\n<section><h1>"
  {
  }

  lemma PlainSection(level: HeadingLevel, name: string)
    requires name == HName(level)
    ensures SectionStart(level, None, []) == "<section><" + name + ">"
  {
    assert SectionAttrs(None, []) == "";
  }

  lemma CloseH2(e: string)
    requires e != [] && e[|e| - 1] != '>'
    ensures CloseHeading("\n<section><h2>" + e, H2) == "\n<section><h2>" + e + "</h2>\n"
  {
    var o2 := "\n<section><h2>" + e;
    assert !EndsWith(o2, "<h2>") by {
      assert o2[|o2| - 1] == e[|e| - 1];
    }
    assert "<" + HName(H2) + ">" == "<h2>" && o2 + "</" + HName(H2) + ">\n" == o2 + "</h2>\n";
  }

  /** An empty heading leaves its sections but no heading element; a level-3
      heading at the top also opens the level-2 section it skips. */
  lemma EmptyHeading(env: Env)
    ensures Collect([Start(Heading(H3, None, [])), End(Heading(H3, None, []))], env)
            == Ok("\n<section><section></section></section>")
  {
    var evs := [Start(Heading(H3, None, [])), End(Heading(H3, None, []))];
    var st := St("\n<section><section>", 3, 2, 0, true);
    EmptyHeadingRun(env);
    CollectOf(evs, env, st);
    CloseTwo(st);
  }

  lemma CloseTwo(st: St)
    requires st == St("\n<section><section>", 3, 2, 0, true)
    ensures CloseAll(st).out == "\n<section><section></section></section>"
  {
    assert Repeat("</section>", 2) == "</section></section>";
    assert "\n<section><section>" + "</section></section>" == "\n<section><section></section></section>";
  }

  lemma EmptyHeadingRun(env: Env)
    ensures Run([Start(Heading(H3, None, [])), End(Heading(H3, None, []))], 0, Start0, env)
            == Ok(St("\n<section><section>", 3, 2, 0, true))
  {
    var evs := [Start(Heading(H3, None, [])), End(Heading(H3, None, []))];
    var st1 := St("\n<section><section><h3>", 3, 2, 0, true);
    var o2 := "\n<section><section>";
    OpenH3();
    StepHeading(evs, 0, Start0, env, H3);
    CloseH3(st1.out, o2);
    StepSimple(evs, 1, st1, env, o2);
  }

  lemma CloseH3(o: string, o2: string)
    requires o == "\n<section><section><h3>" && o2 == "\n<section><section>"
    ensures CloseHeading(o, H3) == o2
  {
    assert "<" + HName(H3) + ">" == "<h3>";
    assert o[|o| - 4..] == "<h3>" && o[..|o| - 4] == o2;
    assert RemoveEnd(o, "<h3>") == (o2, true);
  }

  lemma OpenH3()
    ensures OpenHeading(Start0, H3, None, []) == St("\n<section><section><h3>", 3, 2, 0, true)
  {
    assert Repeat("</section>", 0) == "" && Repeat("<section>", 1) == "<section>";
    PlainSection(H3, "h3");
    H3Text();
  }

  /** A level-1 heading in the stream closes the implicit outermost section,
      which was never opened. */
  lemma TitleClosesUnopened(env: Env)
    ensures CollectState([Start(Heading(H1, None, []))], env)
            == Ok(St("</section>\n<section><h1>", 1, 1, 1, false))
  {
    var evs := [Start(Heading(H1, None, []))];
    var st1 := St("</section>\n<section><h1>", 1, 1, 1, false);
    OpenH1(st1);
    StepHeading(evs, 0, Start0, env, H1);
  }

  lemma OpenH1(st1: St)
    requires st1 == St("</section>\n<section><h1>", 1, 1, 1, false)
    ensures OpenHeading(Start0, H1, None, []) == st1
  {
    assert Repeat("</section>", 1) == "</section>" && Repeat("<section>", 0) == "";
    PlainSection(H1, "h1");
    H1Text();
  }

  /** An image alone in a paragraph becomes a figure outside any paragraph. */
  lemma FigureOutsideParagraph(lt: LinkType, dest: string, title: string, fig: string, env: Env)
    requires env.figure(lt, dest, title, "") == Ok(fig)
    ensures Collect([Start(Paragraph), Start(Image(lt, dest, title)), End(Image(lt, dest, title)), End(Paragraph)], env)
            == Ok(fig + "\n")
  {
    var evs := [Start(Paragraph), Start(Image(lt, dest, title)), End(Image(lt, dest, title)), End(Paragraph)];
    var st1 := Start0.(out := "<p>");
    var o := fig + "\n" + NoP;
    ParagraphStart(env);
    StepSimple(evs, 0, Start0, env, "<p>");
    FigureAt(evs, lt, dest, title, fig, env);
    assert Step(evs, 1, st1, env) == Ok((3, st1.(out := o)));
    RunOn(evs, 1, st1, env, 3, st1.(out := o));
    ParagraphEndAfterFigure(fig);
    StepSimple(evs, 3, st1.(out := o), env, fig + "\n");
    CollectOf(evs, env, st1.(out := fig + "\n"));
  }

  lemma ParagraphStart(env: Env)
    ensures Simple(Start(Paragraph), "", env) == Ok("<p>")
  {
    assert StartAttrs(Paragraph, env) == "";
    assert "" + ("<" + "p" + "" + ">") == "<p>";
  }

  lemma FigureAt(evs: seq<Event>, lt: LinkType, dest: string, title: string, fig: string, env: Env)
    requires evs == [Start(Paragraph), Start(Image(lt, dest, title)), End(Image(lt, dest, title)), End(Paragraph)]
    requires env.figure(lt, dest, title, "") == Ok(fig)
    ensures ImageAt(evs, 1, "<p>", env) == Ok((3, fig + "\n" + NoP))
  {
    assert ImageText(evs, 2, "", env) == (3, "");
    assert StripP("<p>") == "";
    assert "" + fig + "\n" + NoP == fig + "\n" + NoP;
  }

  lemma ParagraphEndAfterFigure(fig: string)
    ensures EndParagraph(fig + "\n" + NoP) == fig + "\n"
  {
    var o := fig + "\n" + NoP;
    assert RemoveEnd(o, NoP) == (fig + "\n", true) by {
      assert o[|o| - |NoP|..] == NoP;
      assert o[..|o| - |NoP|] == fig + "\n";
    }
  }

  /** A task-list marker is a disabled checkbox, checked when the item is done. */
  lemma TaskMarker(done: bool, env: Env)
    ensures Collect([TaskListMarker(done)], env)
            == Ok(if done then "<input disabled type='checkbox' checked=''/>\n"
                  else "<input disabled type='checkbox'/>\n")
  {
    var evs := [TaskListMarker(done)];
    var st1 := Start0.(out := CheckBox(done));
    if done {
      assert CheckBox(done) == "<input disabled type='checkbox' checked=''/>\n";
    } else {
      assert CheckBox(done) == "<input disabled type='checkbox'/>\n";
    }
    assert Step(evs, 0, Start0, env) == Ok((1, st1));
    RunOn(evs, 0, Start0, env, 1, st1);
    CollectOf(evs, env, st1);
  }

  /** A code block without a language is written alike by both snapshots: the
      escaped code in a `<pre>` element. */
  lemma PlainCodeBlock(code: string, env: Env)
    ensures Collect([Start(CodeBlock(Indented)), Text(code), End(CodeBlock(Indented))], env)
            == Ok("<pre>" + EscapeHtml(code) + "</pre>\n")
  {
    var evs := [Start(CodeBlock(Indented)), Text(code), End(CodeBlock(Indented))];
    var st1 := Start0.(out := "<pre>" + EscapeHtml(code) + "</pre>\n");
    match env.blocks {
      case Current(syn) =>
        var h := CodeBlocks.Code(None, false, "");
        assert "" + "<pre>" == "<pre>";
        assert CodeBlocks.ForKind("", None, syn) == Ok(("<pre>", h));
        assert PushCode(evs, 3, "<pre>" + EscapeHtml(code), h, env) == Ok((3, "<pre>" + EscapeHtml(code), h));
        assert PushCode(evs, 1, "<pre>", h, env) == Ok((3, "<pre>" + EscapeHtml(code), h));
        assert CodeBlockAt(evs, 0, "", env) == Ok((3, st1.out));
      case Older(hl) =>
        assert OlderCode(evs, 2, "<pre>" + EscapeHtml(code), None, hl, env) == Ok((3, "<pre>" + EscapeHtml(code)));
        assert "" + CodeBlocks.PreOpen(None) == "<pre>";
        assert OlderCode(evs, 1, "<pre>", None, hl, env) == Ok((3, "<pre>" + EscapeHtml(code)));
        assert CodeBlockAt(evs, 0, "", env) == Ok((3, st1.out));
    }
    assert Step(evs, 0, Start0, env) == Ok((3, st1));
    RunOn(evs, 0, Start0, env, 3, st1);
    CollectOf(evs, env, st1);
  }

  /** A block end with no block open aborts the current serialiser; the older
      one writes the end tags of a code block. */
  lemma StrayBlockEnd(kind: CodeBlockKind, env: Env)
    ensures env.blocks.Current? ==> Collect([End(CodeBlock(kind))], env).Err?
    ensures env.blocks.Older? ==> Collect([End(CodeBlock(kind))], env) == Ok("</code></pre>\n")
  {
    var evs := [End(CodeBlock(kind))];
    if env.blocks.Older? {
      var st1 := Start0.(out := "</code></pre>\n");
      assert "" + "</code></pre>\n" == st1.out;
      assert Step(evs, 0, Start0, env) == Ok((1, st1));
      RunOn(evs, 0, Start0, env, 1, st1);
      CollectOf(evs, env, st1);
    } else {
      assert Step(evs, 0, Start0, env).Err?;
    }
  }
}

=== FILE: img_cli.dfy ===
/** The image server's answer about one image, and the markup the blog writes
    for it: a small image linking to the medium one, or the medium image
    alone.  Logging in and fetching are network calls and are not modelled;
    what is kept is the data, the markup and the rebasing of the URLs the
    server returns. */
module ImgCli {
  import opened Wrappers
  import opened Strings
  import opened Ints

  /** One rendition of an image: its URL and its size in pixels. */
  datatype ImgLink = ImgLink(url: string, width: U32, height: U32)

  /** A small and a medium rendition, and whether the image is public. */
  datatype ImageInfo = ImageInfo(small: ImgLink, medium: ImgLink, public: bool)

  /** An image is portrait when its medium rendition is taller than wide. */
  predicate IsPortrait(info: ImageInfo) {
    info.medium.width < info.medium.height
  }

  predicate IsPublic(info: ImageInfo) {
    info.public
  }

  /** `<img src='..' alt='..' width='..' height='..'>` for one rendition. */
  function ImgTag(link: ImgLink, alt: string): string {
    "<img src='" + link.url + "' alt='" + alt + "' width='" + NatToString(link.width)
    + "' height='" + NatToString(link.height) + "'>"
  }

  /** The small image, as a link to the medium one. */
  function Markup(info: ImageInfo, alt: string): (r: string)
    ensures StartsWith(r, "<a href='" + info.medium.url + "'>")
    ensures EndsWith(r, "</a>")
  {
    var head := "<a href='" + info.medium.url + "'>";
    var r := head + ImgTag(info.small, alt) + "</a>";
    assert r[..|head|] == head;
    assert r[|r| - 4..] == "</a>";
    r
  }

  /** The medium image alone. */
  function MarkupLarge(info: ImageInfo, alt: string): (r: string)
    ensures StartsWith(r, "<img src='" + info.medium.url + "'")
  {
    var r := ImgTag(info.medium, alt);
    var head := "<img src='" + info.medium.url + "'";
    assert r[..|head|] == head;
    r
  }

  /** A rendition whose URL is taken relative to the server's base. */
  function RelativeLink(link: ImgLink, base: string): (r: ImgLink)
    ensures r.width == link.width && r.height == link.height
    ensures EndsWith(r.url, link.url) && StartsWith(r.url, base)
  {
    var u := base + link.url;
    assert u[..|base|] == base && u[|u| - |link.url|..] == link.url;
    link.(url := u)
  }

  /** Both renditions taken relative to the server's base. */
  function Relative(info: ImageInfo, base: string): (r: ImageInfo)
    ensures r.public == info.public
    ensures IsPortrait(r) <==> IsPortrait(info)
    ensures r.small == RelativeLink(info.small, base) && r.medium == RelativeLink(info.medium, base)
  {
    ImageInfo(RelativeLink(info.small, base), RelativeLink(info.medium, base), info.public)
  }

  /** Rebasing twice is rebasing once on the joined bases. */
  lemma RelativeTwice(info: ImageInfo, a: string, b: string)
    ensures Relative(Relative(info, a), b) == Relative(info, b + a)
  {
    assert b + (a + info.small.url) == b + a + info.small.url;
    assert b + (a + info.medium.url) == b + a + info.medium.url;
  }

  /** What an image tag says, as a reader of the markup sees it. */
  datatype Image = Image(src: string, alt: string, width: nat, height: nat)

  predicate Digits(s: string) {
    s != [] && AllChars(s, IsAsciiDigit)
  }

  /** Reads an image tag from the pieces between its single quotes. */
  function ReadImgParts(p: seq<string>): Option<Image> {
    if |p| == 9 && p[0] == "<img src=" && p[2] == " alt=" && p[4] == " width=" && p[6] == " height="
       && p[8] == ">" && Digits(p[5]) && Digits(p[7])
    then Some(Image(p[1], p[3], DecimalValue(p[5]), DecimalValue(p[7])))
    else None
  }

  /** Reads `<img src='..' alt='..' width='..' height='..'>`. */
  function ReadImg(s: string): Option<Image> {
    ReadImgParts(Split(s, '\''))
  }

  /** Reads `<a href='..'>` followed by an image tag and `</a>`: the link
      target and the image. */
  function ReadMarkup(s: string): Option<(string, Image)> {
    ReadMarkupParts(Split(s, '\''))
  }

  function ReadMarkupParts(p: seq<string>): Option<(string, Image)> {
    if |p| == 11 && p[0] == "<a href=" && p[2] == "><img src=" && p[10] == "></a>" then
      match ReadImgParts(["<img src="] + p[3..10] + [">"])
      case Some(img) => Some((p[1], img))
      case None => None
    else None
  }

  function ImgParts(link: ImgLink, alt: string): seq<string> {
    ["<img src=", link.url, " alt=", alt, " width=", NatToString(link.width), " height=",
     NatToString(link.height), ">"]
  }

  lemma JoinCons(a: string, rest: seq<string>, sep: string)
    requires rest != []
    ensures Join([a] + rest, sep) == a + sep + Join(rest, sep)
  {
    assert ([a] + rest)[1..] == rest;
  }

  lemma ImgTagJoin(link: ImgLink, alt: string)
    ensures ImgTag(link, alt) == Join(ImgParts(link, alt), "'")
  {
    var w := NatToString(link.width);
    var h := NatToString(link.height);
    var q := "'";
    var p := ImgParts(link, alt);
    var tail := w + q + " height=" + q + h + q + ">";
    var x := "<img src=" + q + link.url + q + " alt=" + q + alt + q + " width=" + q + tail;
    assert Join(p, q) == x by {
      assert p == ["<img src=", link.url, " alt=", alt, " width="] + [w, " height=", h, ">"];
      JoinFive("<img src=", link.url, " alt=", alt, " width=", [w, " height=", h, ">"], q);
      JoinFive(w, " height=", h, ">", "", [], q);
    }
    assert ImgTag(link, alt) == x by {
      ImgTagShape(link.url, alt, w, h);
    }
  }

  lemma ImgTagShape(u: string, a: string, w: string, h: string)
    ensures "<img src='" + u + "' alt='" + a + "' width='" + w + "' height='" + h + "'>"
            == "<img src=" + "'" + u + "'" + " alt=" + "'" + a + "'" + " width=" + "'"
               + (w + "'" + " height=" + "'" + h + "'" + ">")
  {
    var q := "'";
    assert "<img src='" == "<img src=" + q;
    assert "' alt='" == q + " alt=" + q;
    assert "' width='" == q + " width=" + q;
    assert "' height='" == q + " height=" + q;
    assert "'>" == q + ">";
  }

  /** Joining spelled out for the first elements of a list. */
  lemma JoinFive(a: string, b: string, c: string, d: string, e: string, rest: seq<string>, sep: string)
    ensures rest != [] ==> Join([a, b, c, d, e] + rest, sep) == a + sep + b + sep + c + sep + d + sep + e + sep + Join(rest, sep)
    ensures rest == [] ==> Join([a, b, c, d], sep) == a + sep + b + sep + c + sep + d
  {
    if rest != [] {
      var l := [a, b, c, d, e] + rest;
      JoinCons(a, l[1..], sep);
      assert l == [a] + l[1..];
      JoinCons(b, l[2..], sep);
      assert l[1..] == [b] + l[2..];
      JoinCons(c, l[3..], sep);
      assert l[2..] == [c] + l[3..];
      JoinCons(d, l[4..], sep);
      assert l[3..] == [d] + l[4..];
      JoinCons(e, l[5..], sep);
      assert l[4..] == [e] + l[5..];
      assert l[5..] == rest;
    } else {
      var l := [a, b, c, d];
      JoinCons(a, l[1..], sep);
      assert l == [a] + l[1..];
      JoinCons(b, l[2..], sep);
      assert l[1..] == [b] + l[2..];
      JoinCons(c, l[3..], sep);
      assert l[2..] == [c] + l[3..];
      assert Join(l[3..], sep) == d;
    }
  }

  lemma DigitsNoQuote(n: nat)
    ensures Digits(NatToString(n)) && '\'' !in NatToString(n)
  {
    var s := NatToString(n);
    assert forall i :: 0 <= i < |s| ==> s[i] != '\'' by {
      assert AllChars(s, IsAsciiDigit);
    }
  }

  lemma ImgPartsSplit(link: ImgLink, alt: string)
    requires '\'' !in link.url && '\'' !in alt
    ensures Split(ImgTag(link, alt), '\'') == ImgParts(link, alt)
  {
    ImgTagJoin(link, alt);
    DigitsNoQuote(link.width);
    DigitsNoQuote(link.height);
    var p := ImgParts(link, alt);
    assert forall i :: 0 <= i < |p| ==> '\'' !in p[i];
    SplitJoin(p, '\'');
  }

  /** With no single quote in the URL and the alternative text, the large
      markup reads back as the medium rendition and the text. */
  lemma ReadMarkupLarge(info: ImageInfo, alt: string)
    requires '\'' !in info.medium.url && '\'' !in alt
    ensures ReadImg(MarkupLarge(info, alt))
            == Some(Image(info.medium.url, alt, info.medium.width, info.medium.height))
  {
    ImgPartsSplit(info.medium, alt);
    ReadImgPartsOf(info.medium, alt);
  }

  /** With no single quote in the URLs and the alternative text, the markup
      reads back as a link to the medium rendition around the small one. */
  lemma ReadMarkupSmall(info: ImageInfo, alt: string)
    requires '\'' !in info.medium.url && '\'' !in info.small.url && '\'' !in alt
    ensures ReadMarkup(Markup(info, alt))
            == Some((info.medium.url, Image(info.small.url, alt, info.small.width, info.small.height)))
  {
    var ip := ImgParts(info.small, alt);
    var p := ["<a href=", info.medium.url, "><img src="] + ip[1..8] + ["></a>"];
    MarkupSplit(info, alt, ip, p);
    ReadMarkupPartsOf(info, alt, ip, p);
  }

  lemma ReadMarkupPartsOf(info: ImageInfo, alt: string, ip: seq<string>, p: seq<string>)
    requires ip == ImgParts(info.small, alt)
    requires p == ["<a href=", info.medium.url, "><img src="] + ip[1..8] + ["></a>"]
    ensures ReadMarkupParts(p) == Some((info.medium.url, Image(info.small.url, alt, info.small.width, info.small.height)))
  {
    Splice(info.medium.url, ip, p);
    ReadImgPartsOf(info.small, alt);
  }

  lemma Splice(href: string, ip: seq<string>, p: seq<string>)
    requires |ip| == 9 && ip[0] == "<img src=" && ip[8] == ">"
    requires p == ["<a href=", href, "><img src="] + ip[1..8] + ["></a>"]
    ensures |p| == 11 && ["<img src="] + p[3..10] + [">"] == ip
  {
    assert p[3..10] == ip[1..8];
    assert ip == [ip[0]] + ip[1..8] + [ip[8]];
  }

  /** The pieces of an image tag read back as its rendition. */
  lemma ReadImgPartsOf(link: ImgLink, alt: string)
    ensures ReadImgParts(ImgParts(link, alt)) == Some(Image(link.url, alt, link.width, link.height))
  {
    DigitsNoQuote(link.width);
    DigitsNoQuote(link.height);
    DecimalOfNatToString(link.width);
    DecimalOfNatToString(link.height);
  }

  lemma MarkupSplit(info: ImageInfo, alt: string, ip: seq<string>, p: seq<string>)
    requires '\'' !in info.medium.url && '\'' !in info.small.url && '\'' !in alt
    requires ip == ImgParts(info.small, alt)
    requires p == ["<a href=", info.medium.url, "><img src="] + ip[1..8] + ["></a>"]
    ensures Split(Markup(info, alt), '\'') == p
  {
    DigitsNoQuote(info.small.width);
    DigitsNoQuote(info.small.height);
    assert Markup(info, alt) == Join(p, "'") by {
      ImgTagJoin(info.small, alt);
      MarkupJoin(info.medium.url, ip, p);
    }
    assert forall k :: 0 <= k < |ip| ==> '\'' !in ip[k];
    forall i | 0 <= i < |p| ensures '\'' !in p[i] {
      if 3 <= i < 10 {
        assert p[i] == ip[i - 2];
      } else {
        assert p[i] in {"<a href=", info.medium.url, "><img src=", "></a>"};
      }
    }
    SplitJoin(p, '\'');
  }

  /** The link markup is the pieces of the image tag with the link's pieces
      spliced in front and the end tag behind. */
  lemma MarkupJoin(href: string, ip: seq<string>, p: seq<string>)
    requires |ip| == 9 && ip[0] == "<img src=" && ip[8] == ">"
    requires p == ["<a href=", href, "><img src="] + ip[1..8] + ["></a>"]
    ensures "<a href='" + href + "'>" + Join(ip, "'") + "</a>" == Join(p, "'")
  {
    var q := "'";
    var x := Join(ip[1..8], q);
    JoinImg(ip);
    JoinLink(href, ip[1..8], p);
    LinkShape(href, x);
  }

  lemma JoinImg(ip: seq<string>)
    requires |ip| == 9 && ip[0] == "<img src=" && ip[8] == ">"
    ensures Join(ip, "'") == "<img src=" + "'" + (Join(ip[1..8], "'") + "'" + ">")
  {
    var mid := ip[1..8];
    assert ip[1..] == mid + [">"];
    assert ip == [ip[0]] + ip[1..];
    JoinCons(ip[0], ip[1..], "'");
    JoinAppendLast(mid, ">", "'");
  }

  lemma JoinLink(href: string, mid: seq<string>, p: seq<string>)
    requires |mid| == 7 && p == ["<a href=", href, "><img src="] + mid + ["></a>"]
    ensures Join(p, "'") == "<a href=" + "'" + (href + "'" + ("><img src=" + "'" + (Join(mid, "'") + "'" + "></a>")))
  {
    var q := "'";
    assert p[3..] == mid + ["></a>"];
    JoinAppendLast(mid, "></a>", q);
    assert p[2..] == [p[2]] + p[3..];
    JoinCons(p[2], p[3..], q);
    assert p[1..] == [p[1]] + p[2..];
    JoinCons(p[1], p[2..], q);
    assert p == [p[0]] + p[1..];
    JoinCons(p[0], p[1..], q);
  }

  lemma LinkShape(href: string, x: string)
    ensures "<a href='" + href + "'>" + ("<img src=" + "'" + (x + "'" + ">")) + "</a>"
            == "<a href=" + "'" + (href + "'" + ("><img src=" + "'" + (x + "'" + "></a>")))
  {
  }

  lemma {:induction false} JoinAppendLast(parts: seq<string>, last: string, sep: string)
    requires parts != []
    ensures Join(parts + [last], sep) == Join(parts, sep) + sep + last
    decreases |parts|
  {
    if |parts| == 1 {
      assert parts + [last] == [parts[0], last];
    } else {
      assert (parts + [last])[1..] == parts[1..] + [last];
      JoinAppendLast(parts[1..], last, sep);
    }
  }
}

=== FILE: ints.dfy ===
/** The fixed-width integer types of the source, as ranges of `int`, and the
    truncating `as` casts between them. */
module Ints {

  type I16 = x: int | -0x8000 <= x < 0x8000
  type I32 = x: int | -0x8000_0000 <= x < 0x8000_0000
  type U32 = x: int | 0 <= x < 0x1_0000_0000

  /** `x as u32`: the low 32 bits. */
  function WrapU32(x: int): (r: U32)
    ensures 0 <= x < 0x1_0000_0000 ==> r == x
    ensures (r - x) % 0x1_0000_0000 == 0
  {
    x % 0x1_0000_0000
  }

  /** The bits of an `i32`, read as unsigned (what `{:x}` prints). */
  function BitsU32(x: I32): (r: U32)
    ensures x >= 0 ==> r == x
    ensures x < 0 ==> r == x + 0x1_0000_0000
  {
    if x >= 0 then x else x + 0x1_0000_0000
  }

  lemma BitsU32Injective(a: I32, b: I32)
    requires BitsU32(a) == BitsU32(b)
    ensures a == b
  {
  }
}

=== FILE: kratsbox.dfy ===
/** The image lightbox of the site's pages, as state transitions: its
    settings, whether it is enabled at all, which image it shows, and how the
    keyboard moves it and the focus between its buttons.  The DOM, the events
    and the resize polling are not part of this model. */
module Kratsbox {
  import opened Wrappers
  import opened Strings

  /** The settings; the three labels are the texts of the buttons. */
  datatype Settings = Settings(minsize: int, next: string, prev: string, close: string)

  const Defaults: Settings := Settings(500, "next →", "← prev", "close ×")

  /** The options a page passes; each one given replaces its default. */
  datatype Options = Options(minsize: Option<int>, next: Option<string>, prev: Option<string>,
                             close: Option<string>)

  /** The copy of every option over the defaults. */
  function Configure(options: Options): (s: Settings)
    ensures s.minsize == options.minsize.GetOr(500)
    ensures s.next == options.next.GetOr("next →")
    ensures s.prev == options.prev.GetOr("← prev")
    ensures s.close == options.close.GetOr("close ×")
  {
    Settings(options.minsize.GetOr(Defaults.minsize), options.next.GetOr(Defaults.next),
             options.prev.GetOr(Defaults.prev), options.close.GetOr(Defaults.close))
  }

  /** No options leave the defaults, and every option given is used. */
  lemma ConfigureOverrides(options: Options)
    ensures Configure(Options(None, None, None, None)) == Defaults
    ensures options.minsize.Some? ==> Configure(options).minsize == options.minsize.value
    ensures options.close.Some? ==> Configure(options).close == options.close.value
  {
  }

  /** The size guard: too small a window in either direction gets no
      lightbox at all. */
  predicate Disabled(width: int, height: int, s: Settings) {
    width < s.minsize || height < s.minsize
  }

  /** The guard only looks at the smaller side; growing the window never turns
      the lightbox off. */
  lemma DisabledBySmallerSide(width: int, height: int, w2: int, h2: int, s: Settings)
    requires width <= w2 && height <= h2
    ensures Disabled(width, height, s) <==> (if width < height then width else height) < s.minsize
    ensures !Disabled(width, height, s) ==> !Disabled(w2, h2, s)
  {
  }

  /** With the default limit, a 500 by 500 window is enough and 499 wide is not. */
  lemma DefaultLimit()
    ensures !Disabled(500, 500, Defaults)
    ensures Disabled(499, 1000, Defaults)
  {
  }

  /** A matched link: its `href`, its `title` (none when absent or empty) and
      the figure captions next to it. */
  datatype Link = Link(href: string, title: Option<string>, captions: seq<string>)

  /** The `data-krbxindex` attribute set on each link: its position. */
  function IndexAttributes(links: seq<Link>): (attrs: seq<string>)
    ensures |attrs| == |links|
    ensures forall i :: 0 <= i < |attrs| ==> AllChars(attrs[i], IsAsciiDigit)
  {
    seq(|links|, i requires 0 <= i < |links| => NatToString(i))
  }

  /** `parseInt` of an index attribute gives the position back. */
  lemma IndexAttributeParses(links: seq<Link>, i: nat)
    requires i < |links|
    ensures DecimalValue(IndexAttributes(links)[i]) == i
  {
    DecimalOfNatToString(i);
  }

  /** The image after the current one, wrapping around. */
  function Next(current: nat, n: nat): (r: nat)
    requires current < n
    ensures r < n
    ensures current + 1 < n ==> r == current + 1
    ensures current + 1 == n ==> r == 0
  {
    (current + 1) % n
  }

  /** The image before the current one, wrapping around. */
  function Prev(current: nat, n: nat): (r: nat)
    requires current < n
    ensures r < n
    ensures current > 0 ==> r == current - 1
    ensures current == 0 ==> r == n - 1
  {
    (current + n - 1) % n
  }

  /** Going forward and back, or back and forward, returns to the same image. */
  lemma PrevNext(current: nat, n: nat)
    requires current < n
    ensures Prev(Next(current, n), n) == current
    ensures Next(Prev(current, n), n) == current
  {
  }

  /** The focusable parts: the three buttons, one of the links, or anything
      else on the page. */
  datatype Focus = CloseButton | NextButton | PrevButton | OnLink(index: nat) | Elsewhere

  /** Tab, or Shift+Tab, on a button.  With several images the buttons form a
      ring close, prev, next; with one image the focus stays on close. */
  function Tab(group: bool, from: Focus, shift: bool): (r: Focus)
    requires from.CloseButton? || from.NextButton? || from.PrevButton?
    ensures !group ==> r == CloseButton
    ensures r.CloseButton? || r.NextButton? || r.PrevButton?
  {
    if !group then CloseButton
    else
      match from
      case CloseButton => if shift then NextButton else PrevButton
      case NextButton => if shift then PrevButton else CloseButton
      case PrevButton => if shift then CloseButton else NextButton
  }

  /** Shift+Tab undoes Tab, and three Tabs come back around. */
  lemma TabRing(from: Focus)
    requires from.CloseButton? || from.NextButton? || from.PrevButton?
    ensures Tab(true, Tab(true, from, false), true) == from
    ensures Tab(true, Tab(true, from, true), false) == from
    ensures Tab(true, Tab(true, Tab(true, from, false), false), false) == from
    ensures Tab(true, from, false) != from
  {
  }

  /** What a key pressed in the lightbox does. */
  datatype Action = FocusClose | DoClose | DoPrev | DoNext | Pass

  function KeyAction(key: int): (a: Action)
    ensures a == FocusClose <==> key == 9
    ensures a == DoClose <==> key == 27
    ensures a == DoPrev <==> key in {37, 38, 33, 80}
    ensures a == DoNext <==> key in {32, 39, 40, 34, 78}
  {
    if key == 9 then FocusClose
    else if key == 27 then DoClose
    else if key == 37 || key == 38 || key == 33 || key == 80 then DoPrev
    else if key == 32 || key == 39 || key == 40 || key == 34 || key == 78 then DoNext
    else Pass
  }

  /** The lightbox: the classes of its root element, the image shown, its
      caption and the focus. */
  datatype Box = Box(classes: set<string>, current: nat, src: string, caption: string, focus: Focus)

  /** The caption of a link: its title when it has one, else its figure
      captions, one per line. */
  function Caption(link: Link): (c: string)
    ensures link.title.Some? ==> c == link.title.value
    ensures link.title.None? && link.captions == [] ==> c == ""
    ensures link.title.None? && |link.captions| == 1 ==> c == link.captions[0]
    ensures link.title.None? && |link.captions| == 2 ==> c == link.captions[0] + "<br>" + link.captions[1]
    ensures link.title.None? ==> forall i :: 0 <= i < |link.captions| ==> Contains(c, link.captions[i])
  {
    match link.title
    case Some(t) => t
    case None =>
      JoinContainsAll(link.captions, "<br>");
      JoinTwo(link.captions, "<br>");
      Join(link.captions, "<br>")
  }

  /** `load`: show the image of link `i` and mark the box as loading. */
  function Load(box: Box, links: seq<Link>, i: nat): (r: Box)
    requires i < |links|
    ensures r.current == i && r.src == links[i].href && r.caption == Caption(links[i])
    ensures r.classes == box.classes + {"loading"}
    ensures r.focus == box.focus
  {
    Box(box.classes + {"loading"}, i, links[i].href, Caption(links[i]), box.focus)
  }

  /** The image has arrived. */
  function Loaded(box: Box): (r: Box)
    ensures r.classes == box.classes - {"loading"}
    ensures r.current == box.current && r.src == box.src && r.caption == box.caption
  {
    box.(classes := box.classes - {"loading"})
  }

  /** `open`, on a click on link `i`: load it, then show the box with the
      focus on the close button.  Setting the class list to `showing` drops
      the `loading` mark `load` has just set. */
  function Open(box: Box, links: seq<Link>, i: nat): (r: Box)
    requires i < |links|
    ensures r.classes == {"showing"} && r.focus == CloseButton
    ensures r.current == i && r.src == links[i].href
  {
    Load(box, links, i).(classes := {"showing"}, focus := CloseButton)
  }

  /** `close`: hide the box and give the focus back to the current link. */
  function Close(box: Box): (r: Box)
    ensures r.classes == {"hidden"} && r.focus == OnLink(box.current)
    ensures r.current == box.current
  {
    box.(classes := {"hidden"}, focus := OnLink(box.current))
  }

  /** A key pressed in the box: the new state, and whether the key goes on to
      the page (only keys the box does not handle do). */
  function OnKey(box: Box, links: seq<Link>, key: int): (r: (Box, bool))
    requires box.current < |links|
    ensures r.1 <==> KeyAction(key) == Pass
    ensures r.1 ==> r.0 == box
    ensures KeyAction(key) == DoNext ==> r.0 == Load(box, links, Next(box.current, |links|))
    ensures KeyAction(key) == DoPrev ==> r.0 == Load(box, links, Prev(box.current, |links|))
    ensures KeyAction(key) == DoClose ==> r.0 == Close(box)
    ensures KeyAction(key) == FocusClose ==> r.0 == box.(focus := CloseButton)
  {
    match KeyAction(key)
    case FocusClose => (box.(focus := CloseButton), false)
    case DoClose => (Close(box), false)
    case DoPrev => (Load(box, links, Prev(box.current, |links|)), false)
    case DoNext => (Load(box, links, Next(box.current, |links|)), false)
    case Pass => (box, true)
  }

  /** Right arrow then left arrow shows the same image again. */
  lemma RightThenLeft(box: Box, links: seq<Link>)
    requires box.current < |links|
    ensures var b1 := OnKey(box, links, 39).0;
            b1.current < |links| && OnKey(b1, links, 37).0.current == box.current
  {
    PrevNext(box.current, |links|);
  }

  /** Closing after moving on focuses the link of the image last shown. */
  lemma CloseFocusesShown(box: Box, links: seq<Link>)
    requires box.current < |links|
    ensures var b1 := OnKey(box, links, 78).0;
            OnKey(b1, links, 27).0.focus == OnLink(Next(box.current, |links|))
  {
  }
}

=== FILE: mod_comments.dfy ===
/** The comment moderation command: a status line counting public, spam and
    pending comments, then each pending comment shown (its age and a limited
    excerpt) and a prompt asking whether to allow it, mark it as spam, or quit.
    The database, the terminal and the clock are parameters: counts arrive as
    grouped rows, answers as the lines the user types, and "now" as an instant. */
module ModComments {
  import opened Wrappers
  import opened Strings
  import opened DateTime
  import opened Seqs

  /** Where the tally puts a comment. */
  datatype Status = Public | Spam | Pending

  /** The moderation flags of one comment. */
  datatype Flags = Flags(isPublic: bool, isSpam: bool)

  /** A public comment counts as public even when it is also marked as spam;
      otherwise spam is spam, and anything else is pending. */
  function StatusOf(f: Flags): Status {
    if f.isPublic then Public else if f.isSpam then Spam else Pending
  }

  /** One row of the grouped count: a combination of flags and its count. */
  datatype Group = Group(flags: Flags, count: nat)

  /** The number of comments with status `s` among the groups. */
  function CountOf(groups: seq<Group>, s: Status): nat {
    if groups == [] then 0
    else
      var g := groups[|groups| - 1];
      CountOf(groups[..|groups| - 1], s) + (if StatusOf(g.flags) == s then g.count else 0)
  }

  function Total(groups: seq<Group>): nat {
    if groups == [] then 0 else Total(groups[..|groups| - 1]) + groups[|groups| - 1].count
  }

  /** The three counts partition all comments. */
  lemma {:induction false} CountsPartition(groups: seq<Group>)
    ensures CountOf(groups, Public) + CountOf(groups, Spam) + CountOf(groups, Pending) == Total(groups)
    decreases |groups|
  {
    if groups != [] {
      CountsPartition(groups[..|groups| - 1]);
    }
  }

  /** The status tally, adding each group's count to one of three sums. */
  method Tally(groups: seq<Group>) returns (public: nat, spam: nat, pending: nat)
    ensures public == CountOf(groups, Public)
    ensures spam == CountOf(groups, Spam)
    ensures pending == CountOf(groups, Pending)
  {
    public, spam, pending := 0, 0, 0;
    var i := 0;
    while i < |groups|
      invariant 0 <= i <= |groups|
      invariant public == CountOf(groups[..i], Public)
      invariant spam == CountOf(groups[..i], Spam)
      invariant pending == CountOf(groups[..i], Pending)
    {
      var g := groups[i];
      assert groups[..i + 1][..i] == groups[..i];
      if g.flags.isPublic {
        public := public + g.count;
      } else if g.flags.isSpam {
        spam := spam + g.count;
      } else {
        pending := pending + g.count;
      }
      i := i + 1;
    }
    assert groups[..i] == groups;
  }

  /** No comment is pending exactly when every group of pending flags is empty. */
  lemma {:induction false} NoPending(groups: seq<Group>)
    ensures CountOf(groups, Pending) == 0
            <==> forall i :: 0 <= i < |groups| && StatusOf(groups[i].flags) == Pending ==> groups[i].count == 0
    decreases |groups|
  {
    if groups != [] {
      var init := groups[..|groups| - 1];
      NoPending(init);
      assert forall i :: 0 <= i < |init| ==> init[i] == groups[i];
    }
  }

  /** The status line, printed when something is pending or when not asked to
      be silent. */
  function StatusLine(groups: seq<Group>, silent: bool): (r: Option<string>)
    ensures r.None? <==>
              (silent && forall i :: 0 <= i < |groups| && StatusOf(groups[i].flags) == Pending ==> groups[i].count == 0)
  {
    NoPending(groups);
    var pending := CountOf(groups, Pending);
    if pending > 0 || !silent then
      Some("There are " + NatToString(pending) + " pending, " + NatToString(CountOf(groups, Public))
           + " public, and " + NatToString(CountOf(groups, Spam)) + " spam comments.")
    else None
  }

  // ---------------------------------------------------------------------------
  // Showing a comment

  const AgoSuffix: string := " min ago"

  /** How long ago a comment was posted: "Now" within the minute, minutes
      below 45, the clock time below 18 hours, and the full date after that.
      A comment from the future shows a negative minute count. */
  function Ago(posted: DateTime, now: DateTime): (r: string)
    ensures r == "Now" <==> NumMinutes(posted, now) == 0
    ensures var m := NumMinutes(posted, now);
            0 < m < 45 ==> (EndsWith(r, AgoSuffix) && AllChars(r[..|r| - |AgoSuffix|], IsAsciiDigit)
                            && DecimalValue(r[..|r| - |AgoSuffix|]) == m)
    ensures NumMinutes(posted, now) < 0 ==> StartsWith(r, "-") && EndsWith(r, AgoSuffix)
    ensures 45 <= NumMinutes(posted, now) < 60 * 18 ==> r == ClockText(posted)
    ensures NumMinutes(posted, now) >= 60 * 18 ==> r == Display(posted)
  {
    var m := NumMinutes(posted, now);
    if m == 0 then "Now"
    else if m < 45 then
      var n := IntToString(m);
      var r := n + AgoSuffix;
      assert r[..|r| - |AgoSuffix|] == n && r[|r| - |AgoSuffix|..] == AgoSuffix;
      assert m > 0 ==> DecimalValue(n) == m by { if m > 0 { DecimalOfNatToString(m); } }
      r
    else if m < 60 * 18 then ClockText(posted)
    else
      assert |Display(posted)| >= 12;
      Display(posted)
  }

  /** As time goes on, the age of a comment only gets coarser. */
  function Granularity(posted: DateTime, now: DateTime): nat {
    var m := NumMinutes(posted, now);
    if m == 0 then 0 else if m < 45 then 1 else if m < 60 * 18 then 2 else 3
  }

  lemma AgoCoarsens(posted: DateTime, now: DateTime, later: DateTime)
    requires posted.nanos <= now.nanos <= later.nanos
    ensures Granularity(posted, now) <= Granularity(posted, later)
  {
    assert NumMinutes(posted, now) <= NumMinutes(posted, later);
  }

  const LineLimit: nat := 72
  const ShownLines: nat := 6

  /** One line of a comment as shown: its first 72 characters after a quote
      mark, and an ellipsis when it was longer. */
  function ShowLine(line: string): (r: string)
    ensures StartsWith(r, " > ")
    ensures |line| > LineLimit <==> |r| > 3 + LineLimit
    ensures |line| <= LineLimit ==> r[3..] == line
    ensures |line| > LineLimit ==> r[3..3 + LineLimit] == line[..LineLimit] && EndsWith(r, " …")
  {
    if |line| <= LineLimit then " > " + line
    else
      var r := " > " + line[..LineLimit] + " …";
      assert r[3..3 + LineLimit] == line[..LineLimit];
      r
  }

  /** The first six lines of the trimmed comment, each limited. */
  method ShowLimited(content: string) returns (shown: seq<string>)
    ensures var ls := Lines(Trim(content));
            |shown| == (if |ls| < ShownLines then |ls| else ShownLines)
            && forall i :: 0 <= i < |shown| ==> shown[i] == ShowLine(ls[i])
  {
    shown := ShowLines(Lines(Trim(content)));
  }

  /** The loop of `ShowLimited` over the lines: each is shown, and after the
      sixth the rest are skipped. */
  method ShowLines(ls: seq<string>) returns (shown: seq<string>)
    ensures |shown| == (if |ls| < ShownLines then |ls| else ShownLines)
    ensures forall i :: 0 <= i < |shown| ==> shown[i] == ShowLine(ls[i])
  {
    shown := [];
    var i := 0;
    while i < |ls|
      invariant 0 <= i <= |ls| && i < ShownLines
      invariant |shown| == i
      invariant forall k :: 0 <= k < i ==> shown[k] == ShowLine(ls[k])
    {
      shown := shown + [ShowLine(ls[i])];
      if i > 4 {
        return;
      }
      i := i + 1;
    }
  }

  // ---------------------------------------------------------------------------
  // Asking the moderator

  /** The first alternative that starts with the answer. */
  function FirstPrefixed(alternatives: seq<string>, answer: string): (r: Option<nat>)
    ensures r.Some? ==> r.value < |alternatives| && StartsWith(alternatives[r.value], answer)
    ensures r.Some? ==> forall j :: 0 <= j < r.value ==> !StartsWith(alternatives[j], answer)
    ensures r.None? ==> forall j :: 0 <= j < |alternatives| ==> !StartsWith(alternatives[j], answer)
  {
    if alternatives == [] then None
    else if StartsWith(alternatives[0], answer) then Some(0)
    else
      match FirstPrefixed(alternatives[1..], answer)
      case None => None
      case Some(j) => Some(j + 1)
  }

  /** The alternative an input line selects: trimmed, it must not be empty,
      and the first alternative that starts with it is chosen. */
  function AnswerOf(alternatives: seq<string>, line: string): (r: Option<nat>)
    ensures r.Some? ==> r.value < |alternatives|
  {
    var answer := Trim(line);
    if answer == [] then None else FirstPrefixed(alternatives, answer)
  }

  /** Reads lines until one selects an alternative, giving its index and the
      lines not yet read; running out of input is an error.  Empty and
      unmatched lines are asked again. */
  function Prompt(alternatives: seq<string>, input: seq<string>): (r: Result<(nat, seq<string>), string>)
    ensures r.Err? ==> r.error == "Expected some input"
    ensures r.Ok? ==> r.value.0 < |alternatives| && |r.value.1| < |input| && EndsWith(input, r.value.1)
    decreases |input|
  {
    if input == [] then Err("Expected some input")
    else
      match AnswerOf(alternatives, input[0])
      case Some(i) => Ok((i, input[1..]))
      case None => Prompt(alternatives, input[1..])
  }

  /** The first input line that selects an alternative. */
  function FirstSelecting(alternatives: seq<string>, input: seq<string>): (r: Option<nat>)
  {
    FirstWhere(input, line => AnswerOf(alternatives, line).Some?)
  }

  /** The prompt answers with the first line that selects something and
      reads nothing after it; without such a line it fails. */
  lemma {:induction false} PromptSelects(alternatives: seq<string>, input: seq<string>)
    ensures FirstSelecting(alternatives, input).None? ==> Prompt(alternatives, input).Err?
    ensures FirstSelecting(alternatives, input).Some? ==>
              var k := FirstSelecting(alternatives, input).value;
              Prompt(alternatives, input) == Ok((AnswerOf(alternatives, input[k]).value, input[k + 1..]))
    decreases |input|
  {
    if input != [] && AnswerOf(alternatives, input[0]).None? {
      PromptSelects(alternatives, input[1..]);
      var f := FirstSelecting(alternatives, input[1..]);
      if f.Some? {
        assert input[1..][f.value + 1..] == input[f.value + 2..];
      }
    }
  }

  /** A word typed on a line of its own is read as the word. */
  lemma TrimWordLine(w: string)
    requires w != [] && forall i :: 0 <= i < |w| ==> !IsWhitespace(w[i])
    ensures Trim(w + "\n") == w
  {
    var s := w + "\n";
    assert TrimStart(s) == s;
    assert s[..|s| - 1] == w;
    assert TrimEnd(s) == TrimEnd(w) == w;
  }

  const Choices: seq<string> := ["ok", "spam", "quit"]

  lemma {:induction false} FirstPrefixedAt(alternatives: seq<string>, answer: string, i: nat)
    requires i < |alternatives| && StartsWith(alternatives[i], answer)
    requires forall j :: 0 <= j < i ==> !StartsWith(alternatives[j], answer)
    ensures FirstPrefixed(alternatives, answer) == Some(i)
  {
    var r := FirstPrefixed(alternatives, answer);
    assert r.Some? && r.value <= i;
  }

  /** A word typed on a line of its own picks the first choice it begins. */
  lemma AnswerOfWord(alternatives: seq<string>, w: string)
    requires w != [] && forall i :: 0 <= i < |w| ==> !IsWhitespace(w[i])
    ensures AnswerOf(alternatives, w + "\n") == FirstPrefixed(alternatives, w)
  {
    TrimWordLine(w);
  }

  lemma ChoiceOfS()
    ensures FirstPrefixed(Choices, "s") == Some(1)
  {
    assert "ok"[0] == 'o';
    assert "spam"[..1] == "s";
    FirstPrefixedAt(Choices, "s", 1);
  }

  lemma ChoiceOfO()
    ensures FirstPrefixed(Choices, "o") == Some(0)
  {
    assert "ok"[..1] == "o";
    FirstPrefixedAt(Choices, "o", 0);
  }

  lemma ChoiceOfOk()
    ensures FirstPrefixed(Choices, "ok") == Some(0)
  {
    FirstPrefixedAt(Choices, "ok", 0);
  }

  lemma ChoiceOfQuit()
    ensures FirstPrefixed(Choices, "quit") == Some(2)
  {
    assert "ok"[0] == 'o' && "spam"[0] == 's';
    FirstPrefixedAt(Choices, "quit", 2);
  }

  lemma NoChoiceOf(w: string)
    requires w == "okay" || w == "x"
    ensures FirstPrefixed(Choices, w) == None
  {
    assert "ok"[0] == 'o' && "spam"[0] == 's' && "quit"[0] == 'q';
    assert "spam"[..4] != "okay" && "quit"[..4] != "okay";
  }

  /** An empty line selects nothing. */
  lemma BlankLine(alternatives: seq<string>)
    ensures AnswerOf(alternatives, "\n") == None
  {
    TrimBlank();
  }

  lemma TrimBlank()
    ensures Trim("\n") == []
  {
    var s := "\n";
    assert IsWhitespace(s[0]) && s[1..] == [];
    assert TrimStart(s) == TrimStart([]) == [];
  }

  lemma AnswerOk()
    ensures AnswerOf(Choices, "ok\n") == Some(0)
  {
    assert "ok\n" == "ok" + "\n";
    AnswerOfWord(Choices, "ok");
    ChoiceOfOk();
  }

  /** An abbreviation selects its choice. */
  lemma PromptAbbreviation(rest: seq<string>)
    ensures Prompt(Choices, ["s\n"] + rest) == Ok((1, rest))
  {
    AnswerS();
    PromptFirst(Choices, "s\n", rest);
  }

  lemma AnswerS()
    ensures AnswerOf(Choices, "s\n") == Some(1)
  {
    assert "s\n" == "s" + "\n";
    AnswerOfWord(Choices, "s");
    ChoiceOfS();
  }

  /** An empty line is skipped: the prompt reads on. */
  lemma PromptEmptyLine(alternatives: seq<string>, rest: seq<string>)
    ensures Prompt(alternatives, ["\n"] + rest) == Prompt(alternatives, rest)
  {
    BlankLine(alternatives);
    PromptFirst(alternatives, "\n", rest);
  }

  /** A word longer than a choice does not select it: `okay` is asked again. */
  lemma PromptTooLong(rest: seq<string>)
    ensures Prompt(Choices, ["okay\n"] + rest) == Prompt(Choices, rest)
  {
    assert "okay\n" == "okay" + "\n";
    AnswerOfWord(Choices, "okay");
    NoChoiceOf("okay");
    PromptFirst(Choices, "okay\n", rest);
  }

  /** One step of the prompt: the first line answers, or is asked again. */
  lemma PromptFirst(alternatives: seq<string>, line: string, rest: seq<string>)
    ensures AnswerOf(alternatives, line).Some? ==>
              Prompt(alternatives, [line] + rest) == Ok((AnswerOf(alternatives, line).value, rest))
    ensures AnswerOf(alternatives, line).None? ==>
              Prompt(alternatives, [line] + rest) == Prompt(alternatives, rest)
  {
    var input := [line] + rest;
    assert input[0] == line && input[1..] == rest;
  }

  /** Running out of input is an error. */
  lemma PromptEndOfInput()
    ensures Prompt(Choices, ["x\n"]) == Err("Expected some input")
  {
    assert "x\n" == "x" + "\n";
    AnswerOfWord(Choices, "x");
    NoChoiceOf("x");
  }

  /** The flags a moderation decision writes: public exactly when not spam. */
  function DoModerate(spam: bool): (r: Flags)
    ensures StatusOf(r) == (if spam then Spam else Public)
    ensures r.isPublic != r.isSpam
  {
    Flags(!spam, spam)
  }

  /** What a moderation run leaves behind: the flags of the queued comments
      (each decision is written at once), how many of them were decided, and
      the error that stopped the run, if any. */
  datatype Outcome = Outcome(flags: seq<Flags>, decided: nat, error: Option<string>)

  /** Goes through the queue: "ok" allows a comment, "spam" disallows it and
      anything else gives up, leaving the rest as it was.  When only listing,
      nothing is asked and nothing changes. */
  function Moderate(queue: seq<Flags>, input: seq<string>, list: bool): (r: Outcome)
    ensures |r.flags| == |queue| && r.decided <= |queue|
    ensures list ==> r == Outcome(queue, 0, None)
    ensures r.flags[r.decided..] == queue[r.decided..]
    ensures forall i :: 0 <= i < r.decided ==> StatusOf(r.flags[i]) != Pending
    ensures r.error.Some? ==> r.error.value == "Expected some input"
    decreases |queue|
  {
    if list || queue == [] then
      Outcome(queue, 0, None)
    else
      match Prompt(Choices, input)
      case Err(e) => Outcome(queue, 0, Some(e))
      case Ok((choice, rest)) =>
        if choice == 0 || choice == 1 then
          var tail := Moderate(queue[1..], rest, list);
          Decided(DoModerate(choice == 1), tail, queue);
          Outcome([DoModerate(choice == 1)] + tail.flags, tail.decided + 1, tail.error)
        else
          Outcome(queue, 0, None)
  }

  /** A decision in front of the outcome for the rest of the queue. */
  lemma Decided(f: Flags, tail: Outcome, queue: seq<Flags>)
    requires queue != [] && StatusOf(f) != Pending
    requires |tail.flags| == |queue| - 1 && tail.decided <= |queue| - 1
    requires tail.flags[tail.decided..] == queue[1..][tail.decided..]
    requires forall i :: 0 <= i < tail.decided ==> StatusOf(tail.flags[i]) != Pending
    ensures var r := Outcome([f] + tail.flags, tail.decided + 1, tail.error);
            r.flags[r.decided..] == queue[r.decided..]
            && forall i :: 0 <= i < r.decided ==> StatusOf(r.flags[i]) != Pending
  {
    var r := Outcome([f] + tail.flags, tail.decided + 1, tail.error);
    assert r.flags[r.decided..] == tail.flags[tail.decided..];
    assert queue[1..][tail.decided..] == queue[r.decided..];
    assert forall i :: 1 <= i < r.decided ==> r.flags[i] == tail.flags[i - 1];
  }

  /** The answers of up to `n` prompts in a row, each reading on where the
      last stopped, and the error that cut them short, if any. */
  function Answers(input: seq<string>, n: nat): (r: (seq<nat>, Option<string>))
    ensures |r.0| <= n && (r.1.Some? ==> |r.0| < n)
    decreases n
  {
    if n == 0 then ([], None)
    else
      match Prompt(Choices, input)
      case Err(e) => ([], Some(e))
      case Ok((c, rest)) =>
        var t := Answers(rest, n - 1);
        ([c] + t.0, t.1)
  }

  /** Each decided comment gets the flags of its own answer, in queue order:
      the run stops at the first answer that is neither "ok" nor "spam",
      or with the prompt's error when the answers run out. */
  lemma {:induction false} ModerateFollowsAnswers(queue: seq<Flags>, input: seq<string>)
    ensures FollowsAnswers(Moderate(queue, input, false), Answers(input, |queue|))
    decreases |queue|, 1
  {
    if queue == [] {
      assert Moderate(queue, input, false) == Outcome(queue, 0, None);
      assert Answers(input, 0) == ([], None);
    } else {
      match Prompt(Choices, input)
      case Err(e) => FollowsError(queue, input, e);
      case Ok((c, rest)) =>
        if c > 1 {
          FollowsGiveUp(queue, input, c, rest);
        } else {
          FollowsDecided(queue, input, c, rest);
        }
    }
  }

  lemma FollowsError(queue: seq<Flags>, input: seq<string>, e: string)
    requires queue != []
    ensures Prompt(Choices, input) == Err(e) ==>
              FollowsAnswers(Moderate(queue, input, false), Answers(input, |queue|))
  {
    if Prompt(Choices, input) == Err(e) {
      assert Moderate(queue, input, false) == Outcome(queue, 0, Some(e));
      assert Answers(input, |queue|) == ([], Some(e));
    }
  }

  lemma FollowsGiveUp(queue: seq<Flags>, input: seq<string>, c: nat, rest: seq<string>)
    requires queue != [] && c > 1
    ensures Prompt(Choices, input) == Ok((c, rest)) ==>
              FollowsAnswers(Moderate(queue, input, false), Answers(input, |queue|))
  {
    if Prompt(Choices, input) == Ok((c, rest)) {
      assert Moderate(queue, input, false) == Outcome(queue, 0, None);
      AnswersOk(input, |queue|, c, rest);
    }
  }

  lemma {:induction false} FollowsDecided(queue: seq<Flags>, input: seq<string>, c: nat, rest: seq<string>)
    requires queue != [] && c <= 1
    ensures Prompt(Choices, input) == Ok((c, rest)) ==>
              FollowsAnswers(Moderate(queue, input, false), Answers(input, |queue|))
    decreases |queue|, 0
  {
    if Prompt(Choices, input) == Ok((c, rest)) {
      var q := queue[1..];
      ModerateFollowsAnswers(q, rest);
      var tail := Moderate(q, rest, false);
      var t := Answers(rest, |q|);
      ModerateDecides(queue, input, c, rest);
      AnswersOk(input, |queue|, c, rest);
      FollowsStep(c, tail, t, Moderate(queue, input, false), Answers(input, |queue|));
    }
  }

  /** An "ok" or "spam" answer decides the first comment and moderation goes
      on with the rest of the queue and of the input. */
  lemma ModerateDecides(queue: seq<Flags>, input: seq<string>, c: nat, rest: seq<string>)
    requires queue != [] && c <= 1
    ensures Prompt(Choices, input) == Ok((c, rest)) ==>
              var tail := Moderate(queue[1..], rest, false);
              Moderate(queue, input, false) == Outcome([DoModerate(c == 1)] + tail.flags, tail.decided + 1, tail.error)
  {
  }

  lemma AnswersOk(input: seq<string>, n: nat, c: nat, rest: seq<string>)
    requires n > 0
    ensures Prompt(Choices, input) == Ok((c, rest)) ==>
              var t := Answers(rest, n - 1); Answers(input, n) == ([c] + t.0, t.1)
  {
  }

  /** `r` took the answers `a` in order, stopping at the first that is
      neither "ok" nor "spam", or with the error `a.1` when they ran out. */
  predicate FollowsAnswers(r: Outcome, a: (seq<nat>, Option<string>)) {
    && |r.flags| >= r.decided && r.decided <= |a.0|
    && (forall i :: 0 <= i < r.decided ==> a.0[i] <= 1 && r.flags[i] == DoModerate(a.0[i] == 1))
    && (r.decided < |a.0| ==> a.0[r.decided] > 1 && r.error.None?)
    && (r.decided == |a.0| ==> r.error == a.1)
  }

  lemma FollowsStep(c: nat, tail: Outcome, t: (seq<nat>, Option<string>), r: Outcome, a: (seq<nat>, Option<string>))
    requires c <= 1 && FollowsAnswers(tail, t)
    requires r == Outcome([DoModerate(c == 1)] + tail.flags, tail.decided + 1, tail.error)
    requires a == ([c] + t.0, t.1)
    ensures FollowsAnswers(r, a)
  {
    forall i | 1 <= i < r.decided ensures a.0[i] <= 1 && r.flags[i] == DoModerate(a.0[i] == 1) {
      assert a.0[i] == t.0[i - 1] && r.flags[i] == tail.flags[i - 1];
    }
  }

  /** The flags of `n` allowed comments. */
  function Allowed(n: nat): (r: seq<Flags>)
    ensures |r| == n && forall i :: 0 <= i < n ==> StatusOf(r[i]) == Public
  {
    if n == 0 then [] else [DoModerate(false)] + Allowed(n - 1)
  }

  /** Answering "ok" to every comment of the queue allows them all. */
  lemma {:induction false} AllowAll(queue: seq<Flags>, input: seq<string>)
    requires |input| >= |queue|
    requires forall i :: 0 <= i < |input| ==> input[i] == OkLine
    ensures Moderate(queue, input, false) == Outcome(Allowed(|queue|), |queue|, None)
    decreases |queue|
  {
    if queue != [] {
      AllowFirst(queue, input);
      AllowAll(queue[1..], input[1..]);
    }
  }

  /** The line the moderator types to allow a comment. */
  const OkLine: string := "ok\n"

  /** An "ok" allows the first comment and moderation goes on with the rest
      of the queue and of the input. */
  lemma AllowFirst(queue: seq<Flags>, input: seq<string>)
    requires queue != [] && |input| >= |queue|
    requires forall i :: 0 <= i < |input| ==> input[i] == OkLine
    ensures forall i :: 0 <= i < |input[1..]| ==> input[1..][i] == OkLine
    ensures var tail := Moderate(queue[1..], input[1..], false);
            tail == Outcome(Allowed(|queue| - 1), |queue| - 1, None) ==>
            Moderate(queue, input, false) == Outcome(Allowed(|queue|), |queue|, None)
  {
    assert input[0] == OkLine;
    AllowStep(queue, input);
  }

  lemma AllowStep(queue: seq<Flags>, input: seq<string>)
    requires queue != [] && input != [] && input[0] == OkLine
    ensures var tail := Moderate(queue[1..], input[1..], false);
            tail == Outcome(Allowed(|queue| - 1), |queue| - 1, None) ==>
            Moderate(queue, input, false) == Outcome(Allowed(|queue|), |queue|, None)
  {
    PromptOk(input);
    ModerateDecides(queue, input, 0, input[1..]);
    var tail := Moderate(queue[1..], input[1..], false);
    if tail == Outcome(Allowed(|queue| - 1), |queue| - 1, None) {
      assert Allowed(|queue|) == [DoModerate(false)] + Allowed(|queue| - 1);
    }
  }

  lemma PromptOk(input: seq<string>)
    requires input != [] && input[0] == "ok\n"
    ensures Prompt(Choices, input) == Ok((0, input[1..]))
  {
    assert input == [input[0]] + input[1..];
    AnswerOk();
    PromptFirst(Choices, "ok\n", input[1..]);
  }
}

=== FILE: mylang.dfy ===
/** The two site languages.  English is the default. */
module MyLang {
  import opened Wrappers
  import opened Strings

  datatype Lang = En | Sv

  /** The language used when nothing else decides. */
  const Default: Lang := En

  /** The error of parsing anything but a known code; it keeps the input. */
  datatype BadLang = BadLang(value: string)

  /** The two-letter code of a language (`as_ref`, and `Display`). */
  function Code(l: Lang): (s: string)
    ensures |s| == 2 && AllChars(s, IsAsciiLower)
  {
    match l
    case En => "en"
    case Sv => "sv"
  }

  /** `MyLang::from_str`: exactly `"en"` and `"sv"` parse. */
  function Parse(value: string): (r: Result<Lang, BadLang>)
    ensures r.Ok? <==> value == "en" || value == "sv"
    ensures r.Ok? ==> Code(r.value) == value
    ensures r.Err? ==> r.error == BadLang(value)
  {
    if value == "en" then Ok(En)
    else if value == "sv" then Ok(Sv)
    else Err(BadLang(value))
  }

  /** The message of a `BadLang`. */
  function Message(e: BadLang): (m: string)
    ensures StartsWith(m, "Bad language \"") && m[|m| - 1] == '"'
    ensures Unquote(m[|"Bad language "|..]) == Some(e.value)
  {
    UnquoteDebug(e.value);
    "Bad language " + DebugString(e.value)
  }

  /** Loading a language column: parsing, with a failure reported by its message. */
  function FromSql(value: string): (r: Result<Lang, string>)
    ensures r.Ok? <==> Parse(value).Ok?
    ensures r.Ok? ==> Code(r.value) == value
    ensures r.Err? ==> r.error == Message(BadLang(value))
  {
    match Parse(value)
    case Ok(l) => Ok(l)
    case Err(e) => Err(Message(e))
  }

  /** Parsing the code of a language gives the language back. */
  lemma ParseCode(l: Lang)
    ensures Parse(Code(l)) == Ok(l)
  {
  }

  /** Distinct languages have distinct codes. */
  lemma CodeInjective(a: Lang, b: Lang)
    requires Code(a) == Code(b)
    ensures a == b
  {
  }
}

=== FILE: old_models.dfy ===
/** The older snapshot of the models, where slugs and languages were plain
    strings: the language filter of the post lists, links, the publication
    line, comment ids and the comment excerpt. */
module OldModels {
  import opened Wrappers
  import opened Strings
  import opened Ints
  import opened Fluent
  import MyLang
  import DateTime
  import P = Post
  import C = Comment

  datatype PostLink = PostLink(id: I32, year: I16, slug: string, lang: string, title: string)

  datatype Post = Post(id: I32, year: I16, slug: string, lang: string, title: string,
                       postedAt: DateTime.DateTime, updatedAt: DateTime.DateTime,
                       content: string)

  datatype Tag = Tag(id: I32, slug: string, name: string)

  datatype Comment = Comment(id: I32, postedAt: DateTime.DateTime, content: string,
                             name: string, email: string, url: Option<string>)

  datatype PostComment = PostComment(comment: Comment, post: PostLink)

  /** A row of the post lists: the post, and whether any version of it (same
      year and slug) is in the requested language. */
  datatype Row = Row(post: Post, langq: bool)

  /** A post is listed when it is in the requested language, or when no version
      of it is. */
  predicate Listed(r: Row, lang: string) {
    r.post.lang == lang || !r.langq
  }

  /** The language filter of `recent` and `tagged`, in row order. */
  function LangFilter(rows: seq<Row>, lang: string): (r: seq<Post>)
    ensures |r| <= |rows|
    ensures forall p :: p in r <==> exists i :: 0 <= i < |rows| && rows[i].post == p && Listed(rows[i], lang)
  {
    if rows == [] then []
    else
      var rest := LangFilter(rows[1..], lang);
      assert forall i :: 1 <= i < |rows| ==> rows[i] == rows[1..][i - 1];
      if Listed(rows[0], lang) then [rows[0].post] + rest else rest
  }

  /** The filter works row by row: filtering a concatenation concatenates
      the filtered parts. */
  lemma {:induction false} LangFilterAppend(a: seq<Row>, b: seq<Row>, lang: string)
    ensures LangFilter(a + b, lang) == LangFilter(a, lang) + LangFilter(b, lang)
  {
    if a == [] {
      assert a + b == b;
    } else {
      assert (a + b)[1..] == a[1..] + b;
      LangFilterAppend(a[1..], b, lang);
    }
  }

  /** A post in the requested language is always listed. */
  lemma SameLangListed(rows: seq<Row>, lang: string, i: nat)
    requires i < |rows| && rows[i].post.lang == lang
    ensures rows[i].post in LangFilter(rows, lang)
  {
  }

  /** `Post::recent`: the listed posts among the rows, at most `limit` of them,
      each with its tags (the tags of a post are looked up by its id). */
  function Recent(rows: seq<Row>, lang: string, limit: nat, tagsOf: I32 -> seq<Tag>): (r: seq<(Post, seq<Tag>)>)
    ensures |r| == if |LangFilter(rows, lang)| <= limit then |LangFilter(rows, lang)| else limit
    ensures forall i :: 0 <= i < |r| ==>
              r[i].0 == LangFilter(rows, lang)[i] && r[i].1 == tagsOf(r[i].0.id)
  {
    var kept := LangFilter(rows, lang);
    WithTags(if |kept| <= limit then kept else kept[..limit], tagsOf)
  }

  /** `Post::tagged`: the same filter, without a cut. */
  function Tagged(rows: seq<Row>, lang: string, tagsOf: I32 -> seq<Tag>): (r: seq<(Post, seq<Tag>)>)
    ensures |r| == |LangFilter(rows, lang)|
    ensures forall i :: 0 <= i < |r| ==>
              r[i].0 == LangFilter(rows, lang)[i] && r[i].1 == tagsOf(r[i].0.id)
  {
    WithTags(LangFilter(rows, lang), tagsOf)
  }

  function WithTags(posts: seq<Post>, tagsOf: I32 -> seq<Tag>): (r: seq<(Post, seq<Tag>)>)
    ensures |r| == |posts|
    ensures forall i :: 0 <= i < |r| ==> r[i] == (posts[i], tagsOf(posts[i].id))
  {
    if posts == [] then [] else [(posts[0], tagsOf(posts[0].id))] + WithTags(posts[1..], tagsOf)
  }

  /** `PostLink::url` and `Post::url`. */
  function LinkUrl(p: PostLink): string {
    P.PagePath(p.year, p.slug, p.lang)
  }

  function Url(p: Post): string {
    P.PagePath(p.year, p.slug, p.lang)
  }

  /** A post and its link point at the same page. */
  lemma UrlOfLink(p: Post)
    ensures Url(p) == LinkUrl(PostLink(p.id, p.year, p.slug, p.lang, p.title))
  {
  }

  function SlugsAndNames(tags: seq<Tag>): (r: seq<(string, string)>)
    ensures |r| == |tags|
    ensures forall i :: 0 <= i < |r| ==> r[i] == (tags[i].slug, tags[i].name)
  {
    if tags == [] then [] else [(tags[0].slug, tags[0].name)] + SlugsAndNames(tags[1..])
  }

  /** `Post::publine` of this snapshot: like the current one, but the tag links
      carry no `rel` attribute.  Loading the messages of a language that does
      not parse panics; that is `None` here. */
  function Publine(p: Post, tags: seq<Tag>, fl: Lookup): (line: Option<string>)
    ensures line.None? <==> MyLang.Parse(p.lang).Err?
    ensures line.Some? ==>
              var l := MyLang.Parse(p.lang).value;
              var posted := fl(l, "posted-at", [("date", DateArg(p.postedAt))]);
              var updated := if p.updatedAt.nanos > p.postedAt.nanos
                             then " " + fl(l, "updated-at", [("date", DateArg(p.updatedAt))])
                             else "";
              var links := P.TagLinks(SlugsAndNames(tags), p.lang, "");
              var tagged := if tags == [] then ""
                            else " " + fl(l, "tagged", []) + Join(links, ",") + ".";
              line.value == posted + updated + tagged
  {
    var l :- MyLang.Parse(p.lang).ToOption();
    var posted := fl(l, "posted-at", [("date", DateArg(p.postedAt))]);
    var updated := if p.updatedAt.nanos > p.postedAt.nanos
                   then " " + fl(l, "updated-at", [("date", DateArg(p.updatedAt))])
                   else "";
    if tags == [] then Some(posted + updated)
    else
      var names := SlugsAndNames(tags);
      P.TaggedLoopJoin(names, p.lang, "", fl(l, "tagged", []));
      Some(posted + updated + P.TaggedLoop(names, p.lang, "", fl(l, "tagged", [])))
  }

  /** `PostComment::url`; the fragment is `Comment::html_id`, unchanged in the
      current models. */
  function CommentUrl(pc: PostComment): (r: string)
    ensures var u := LinkUrl(pc.post);
            LastIndexOf(r, '#') == Some(|u|) && r[..|u|] == u && r[|u| + 1..] == C.HtmlId(pc.comment.id)
  {
    C.FragmentAt(LinkUrl(pc.post), C.HtmlId(pc.comment.id));
    LinkUrl(pc.post) + "#" + C.HtmlId(pc.comment.id)
  }

  /** `text_start` of this snapshot: text under 100 bytes as it is, longer text
      cut to its 90-byte excerpt and marked with " …", without escaping. */
  function TextStart(text: string): (r: string)
    ensures Utf8Len(text) < 100 ==> r == text
    ensures Utf8Len(text) >= 100 ==>
              EndsWith(r, " …") && StartsWith(text, r[..|r| - 2]) && Utf8Len(r[..|r| - 2]) <= 90
              && r[..|r| - 2] == C.Excerpt(text, 90)
  {
    if Utf8Len(text) < 100 then text
    else
      var e := C.Excerpt(text, 90);
      var r := e + " …";
      assert r[..|r| - 2] == e;
      r
  }
}

=== FILE: post.dfy ===
/** Posts, their tags and the links to them: the page path of a post and the
    "posted at ... updated at ... tagged ..." line shown under its title. */
module Post {
  import opened Wrappers
  import opened Strings
  import opened Ints
  import opened Fluent
  import Slug
  import MyLang
  import DateTime

  datatype Tag = Tag(id: I32, slug: Slug.Slug, name: string)

  datatype Post = Post(id: I32, slug: Slug.Slug, lang: MyLang.Lang, title: string,
                       postedAt: DateTime.DateTime, updatedAt: DateTime.DateTime,
                       content: string)

  /** The few columns of a post needed to link to it. */
  datatype PostLink = PostLink(id: I32, year: I16, slug: Slug.Slug, lang: MyLang.Lang, title: string)

  /** `/{year}/{slug}.{lang}`: where a post lives. */
  function PagePath(year: int, slug: string, lang: string): (r: string)
    ensures StartsWith(r, "/" + IntToString(year) + "/")
    ensures EndsWith(r, "." + lang)
    ensures |r| == |"/" + IntToString(year) + "/"| + |slug| + |"." + lang|
    ensures r[|"/" + IntToString(year) + "/"|..|r| - |"." + lang|] == slug
  {
    var head := "/" + IntToString(year) + "/";
    var tail := "." + lang;
    ThreeParts(head, slug, tail);
    head + slug + tail
  }

  lemma ThreeParts(a: string, b: string, c: string)
    ensures var s := a + b + c;
            |s| == |a| + |b| + |c| && s[..|a|] == a && s[|a|..|s| - |c|] == b && s[|s| - |c|..] == c
  {
    var s := a + b + c;
    assert s[..|a|] == a;
    assert s[|a|..|s| - |c|] == b;
    assert s[|s| - |c|..] == c;
  }

  /** Posts of the same year and language have the same path only when they
      have the same slug. */
  lemma PagePathInjective(year: int, s1: string, s2: string, lang: string)
    requires PagePath(year, s1, lang) == PagePath(year, s2, lang)
    ensures s1 == s2
  {
    var r := PagePath(year, s1, lang);
    assert |s1| == |s2|;
    assert s1 == r[|"/" + IntToString(year) + "/"|..|r| - |"." + lang|] == s2;
  }

  /** The year a post is filed under: that of its publication, as an `i16`. */
  function Year(p: Post): I16 {
    DateTime.Year(p.postedAt)
  }

  /** `Post::url`. */
  function Url(p: Post): string {
    PagePath(Year(p), p.slug.text, MyLang.Code(p.lang))
  }

  /** `PostLink::url`. */
  function LinkUrl(p: PostLink): string {
    PagePath(p.year, p.slug.text, MyLang.Code(p.lang))
  }

  /** One tag link; `attrs` are the extra attributes of the `<a>` element. */
  function TagLink(slug: string, name: string, lang: string, attrs: string): string {
    " <a href='/tag/" + slug + "." + lang + "'" + attrs + ">" + name + "</a>"
  }

  /** The slug and name of each tag, in order. */
  function SlugsAndNames(tags: seq<Tag>): (r: seq<(string, string)>)
    ensures |r| == |tags|
    ensures forall i :: 0 <= i < |r| ==> r[i] == (tags[i].slug.text, tags[i].name)
  {
    if tags == [] then [] else [(tags[0].slug.text, tags[0].name)] + SlugsAndNames(tags[1..])
  }

  /** The link of each tag, in order. */
  function TagLinks(tags: seq<(string, string)>, lang: string, attrs: string): (r: seq<string>)
    ensures |r| == |tags|
    ensures forall i :: 0 <= i < |r| ==> r[i] == TagLink(tags[i].0, tags[i].1, lang, attrs)
  {
    if tags == [] then [] else [TagLink(tags[0].0, tags[0].1, lang, attrs)] + TagLinks(tags[1..], lang, attrs)
  }

  /** The links of the tags after the first, each preceded by a comma, as the
      source's loop writes them. */
  function RestLinks(rest: seq<(string, string)>, lang: string, attrs: string): string {
    if rest == [] then ""
    else "," + TagLink(rest[0].0, rest[0].1, lang, attrs) + RestLinks(rest[1..], lang, attrs)
  }

  lemma {:induction false} RestLinksJoin(tags: seq<(string, string)>, lang: string, attrs: string)
    requires |tags| >= 1
    ensures TagLink(tags[0].0, tags[0].1, lang, attrs) + RestLinks(tags[1..], lang, attrs)
            == Join(TagLinks(tags, lang, attrs), ",")
  {
    if |tags| > 1 {
      RestLinksJoin(tags[1..], lang, attrs);
      assert tags[1..][1..] == tags[2..];
    }
  }

  /** The tag part of the line as the source's loop writes it: the "tagged"
      message, the first link, a comma before each later link, a full stop. */
  function TaggedLoop(tags: seq<(string, string)>, lang: string, attrs: string, tagged: string): string
    requires |tags| >= 1
  {
    " " + tagged + TagLink(tags[0].0, tags[0].1, lang, attrs) + RestLinks(tags[1..], lang, attrs) + "."
  }

  /** The loop writes the comma-separated join of the links. */
  lemma TaggedLoopJoin(tags: seq<(string, string)>, lang: string, attrs: string, tagged: string)
    requires |tags| >= 1
    ensures TaggedLoop(tags, lang, attrs, tagged) == " " + tagged + Join(TagLinks(tags, lang, attrs), ",") + "."
  {
    RestLinksJoin(tags, lang, attrs);
  }

  /** `Post::publine`: the publication message, then the update message when
      the post was changed after publication, then — only when there are tags —
      the "tagged" message and the tag links separated by commas, ending in a
      full stop. */
  function Publine(p: Post, tags: seq<Tag>, fl: Lookup): (line: string)
    ensures var posted := fl(p.lang, "posted-at", [("date", DateArg(p.postedAt))]);
            var updated := if p.updatedAt.nanos > p.postedAt.nanos
                           then " " + fl(p.lang, "updated-at", [("date", DateArg(p.updatedAt))])
                           else "";
            var links := TagLinks(SlugsAndNames(tags), MyLang.Code(p.lang), " rel='tag'");
            var tagged := if tags == [] then ""
                          else " " + fl(p.lang, "tagged", []) + Join(links, ",") + ".";
            line == posted + updated + tagged
  {
    var posted := fl(p.lang, "posted-at", [("date", DateArg(p.postedAt))]);
    var updated := if p.updatedAt.nanos > p.postedAt.nanos
                   then " " + fl(p.lang, "updated-at", [("date", DateArg(p.updatedAt))])
                   else "";
    if tags == [] then posted + updated
    else
      var names := SlugsAndNames(tags);
      TaggedLoopJoin(names, MyLang.Code(p.lang), " rel='tag'", fl(p.lang, "tagged", []));
      posted + updated + TaggedLoop(names, MyLang.Code(p.lang), " rel='tag'", fl(p.lang, "tagged", []))
  }
}

=== FILE: read_comments.dfy ===
/** Importing comments from a JSON dump: the post a comment belongs to is
    written as its path, `/{year}/{slug}.{lang}`, and each imported comment is
    rendered from its markdown and published.  JSON, the database and the
    markdown library are not modelled: the dump arrives as a sequence of
    records, the post lookup and the parser and writer are parameters. */
module ReadComments {
  import opened Wrappers
  import opened Strings
  import opened Ints
  import CmarkNew
  import SafeMarkdown
  import DateTime

  /** A post named by its year, slug and language. */
  datatype PostRef = PostRef(year: I16, slug: string, lang: string)

  /** A comment as dumped. */
  datatype Dumped = Dumped(byName: string, byEmail: string, byUrl: Option<string>,
                           byIp: string, comment: string, date: DateTime.DateTime,
                           on: PostRef)

  /** The columns inserted for an imported comment. */
  datatype Inserted = Inserted(postId: I32, content: string, postedAt: DateTime.DateTime,
                               name: string, email: string, url: Option<string>,
                               fromHost: string, rawMd: string, isPublic: bool)

  predicate IsSlugChar(c: char) {
    IsAsciiLower(c) || c == '-'
  }

  /** `[a-z-]+` */
  predicate IsSlugText(s: string) {
    |s| >= 1 && AllChars(s, IsSlugChar)
  }

  /** `[a-z]+` */
  predicate IsLangText(s: string) {
    |s| >= 1 && AllChars(s, IsAsciiLower)
  }

  /** The strings the path pattern `^/([0-9]{4})/([a-z-]+)\.([a-z]+)$` accepts. */
  predicate Matches(s: string) {
    |s| >= 9 && s[0] == '/' && AllChars(s[1..5], IsAsciiDigit) && s[5] == '/'
    && exists d :: 6 <= d < |s| && s[d] == '.' && IsSlugText(s[6..d]) && IsLangText(s[d + 1..])
  }

  /** `PostRef::from_str`: the four digits are the year (they always fit an
      `i16`), then the slug up to the dot and the language after it; anything
      the pattern rejects is the error "Bad post". */
  function Parse(s: string): (r: Result<PostRef, string>)
    ensures r.Ok? <==> Matches(s)
    ensures r.Err? ==> r.error == "Bad post"
    ensures r.Ok? ==> r.value.year == DecimalValue(s[1..5])
                      && s == "/" + s[1..5] + "/" + r.value.slug + "." + r.value.lang
                      && IsSlugText(r.value.slug) && IsLangText(r.value.lang)
  {
    if |s| >= 9 && s[0] == '/' && AllChars(s[1..5], IsAsciiDigit) && s[5] == '/' then
      var rest := s[6..];
      match IndexOf(rest, '.')
      case Some(i) =>
        var slug := rest[..i];
        var lang := rest[i + 1..];
        assert s[6..6 + i] == slug && s[6 + i + 1..] == lang;
        if IsSlugText(slug) && IsLangText(lang) then
          FourDigitsValue(s[1..5]);
          assert s == "/" + s[1..5] + "/" + slug + "." + lang;
          Ok(PostRef(DecimalValue(s[1..5]), slug, lang))
        else
          NoOtherDot(s, 6 + i);
          Err("Bad post")
      case None =>
        assert forall d :: 6 <= d < |s| ==> s[d] == rest[d - 6];
        Err("Bad post")
    else Err("Bad post")
  }

  /** The first dot after the year is the only place the pattern can split. */
  lemma NoOtherDot(s: string, d0: nat)
    requires 6 <= d0 < |s| && s[d0] == '.' && '.' !in s[6..d0]
    requires !(IsSlugText(s[6..d0]) && IsLangText(s[d0 + 1..]))
    ensures forall d :: 6 <= d < |s| && s[d] == '.' ==> !(IsSlugText(s[6..d]) && IsLangText(s[d + 1..]))
  {
    forall d | 6 <= d < |s| && s[d] == '.'
      ensures !(IsSlugText(s[6..d]) && IsLangText(s[d + 1..]))
    {
      if d > d0 {
        assert s[6..d][d0 - 6] == '.';
        assert !IsSlugChar('.');
      }
    }
  }

  lemma FourDigitsValue(s: string)
    requires |s| == 4 && AllChars(s, IsAsciiDigit)
    ensures DecimalValue(s) <= 9999
  {
    DecimalValueBound(s);
    assert Power10(4) == 10000;
  }

  /** `serde_post::serialize`: the post's path. */
  function Serialize(p: PostRef): string {
    "/" + IntToString(p.year) + "/" + p.slug + "." + p.lang
  }

  /** Parsing a serialised reference gives it back, for four-digit years and
      the slugs and languages the pattern admits. */
  lemma ParseSerialize(p: PostRef)
    requires 1000 <= p.year <= 9999 && IsSlugText(p.slug) && IsLangText(p.lang)
    ensures Parse(Serialize(p)) == Ok(p)
  {
    var s := Serialize(p);
    SerializeMatches(p);
    var r := Parse(s).value;
    ParsedNames(s, r, p);
    DecimalOfNatToString(p.year);
  }

  /** The slug and language parsed from a serialised reference are its own. */
  lemma ParsedNames(s: string, r: PostRef, p: PostRef)
    requires 1000 <= p.year <= 9999 && IsSlugText(p.slug) && IsLangText(p.lang)
    requires s == Serialize(p) && s == "/" + s[1..5] + "/" + r.slug + "." + r.lang
    requires IsSlugText(r.slug) && IsLangText(r.lang)
    ensures r.slug == p.slug && r.lang == p.lang
  {
    FourDigits(p.year);
    Tail6(s, s[1..5], r.slug + "." + r.lang);
    Tail6(s, IntToString(p.year), p.slug + "." + p.lang);
    SlugLangUnique(r.slug, r.lang, p.slug, p.lang);
  }

  lemma SerializeMatches(p: PostRef)
    requires 1000 <= p.year <= 9999 && IsSlugText(p.slug) && IsLangText(p.lang)
    ensures Matches(Serialize(p)) && Serialize(p)[1..5] == IntToString(p.year)
  {
    var y := IntToString(p.year);
    FourDigits(p.year);
    var s := Serialize(p);
    assert s[1..5] == y;
    var d := 6 + |p.slug|;
    assert s[d] == '.' && s[6..d] == p.slug && s[d + 1..] == p.lang;
  }

  lemma Tail6(s: string, a: string, b: string)
    requires |a| == 4 && s == "/" + a + "/" + b
    ensures s[6..] == b
  {
  }

  /** A slug and a language joined by a dot split back uniquely. */
  lemma SlugLangUnique(a: string, b: string, c: string, d: string)
    requires IsSlugText(a) && IsSlugText(c) && IsLangText(b) && IsLangText(d)
    requires a + "." + b == c + "." + d
    ensures a == c && b == d
  {
    var s := a + "." + b;
    DotAt(a, b);
    DotAt(c, d);
    assert a == s[..|a|] == c;
    assert b == s[|a| + 1..] == d;
  }

  lemma DotAt(a: string, b: string)
    requires IsSlugText(a)
    ensures IndexOf(a + "." + b, '.') == Some(|a|)
  {
    var s := a + "." + b;
    assert s[|a|] == '.' && s[..|a|] == a;
    assert '.' !in a;
  }

  /** Serialising a parsed reference gives the text back, unless the year was
      written with a leading zero. */
  lemma SerializeParse(s: string)
    requires Parse(s).Ok? && s[1] != '0'
    ensures Serialize(Parse(s).value) == s
  {
    var p := Parse(s).value;
    NatToStringOfDecimal(s[1..5]);
  }

  /** `Dumped::html`: the comment's markdown through the comment renderer,
      which renders the parsed events with raw HTML turned into text and
      headings pushed below the page's own. */
  function Html(d: Dumped, parse: string -> seq<CmarkNew.Event>, render: seq<CmarkNew.Event> -> string): (html: string)
    ensures html == render(SafeMarkdown.Rewrite(parse(d.comment), 0))
    ensures exists evs: seq<CmarkNew.Event> :: html == render(evs)
              && forall i :: 0 <= i < |evs| ==> !evs[i].Html? && !evs[i].InlineHtml?
  {
    SafeMarkdown.SafeMd2Html(d.comment, parse, render)
  }

  /** The row inserted for a dumped comment on the post with id `postId`:
      rendered, with its markdown kept, and public. */
  function ImportRow(d: Dumped, postId: I32, parse: string -> seq<CmarkNew.Event>,
                     render: seq<CmarkNew.Event> -> string): (r: Inserted)
    ensures r.isPublic && r.postId == postId && r.rawMd == d.comment
    ensures r.name == d.byName && r.email == d.byEmail && r.url == d.byUrl
            && r.fromHost == d.byIp && r.postedAt == d.date
    ensures r.content == render(SafeMarkdown.Rewrite(parse(d.comment), 0))
    ensures exists evs: seq<CmarkNew.Event> :: r.content == render(evs)
              && forall i :: 0 <= i < |evs| ==> !evs[i].Html? && !evs[i].InlineHtml?
  {
    Inserted(postId, Html(d, parse, render), d.date, d.byName, d.byEmail, d.byUrl, d.byIp, d.comment, true)
  }

  /** `row` is what importing `d` inserts: its post is found and the row is
      made from it. */
  predicate ImportedAs(d: Dumped, row: Inserted, lookup: PostRef -> Option<I32>,
                       parse: string -> seq<CmarkNew.Event>, render: seq<CmarkNew.Event> -> string) {
    lookup(d.on).Some? && row == ImportRow(d, lookup(d.on).value, parse, render)
  }

  lemma ImportStep(dumps: seq<Dumped>, row: Inserted, rest: seq<Inserted>, lookup: PostRef -> Option<I32>,
                   parse: string -> seq<CmarkNew.Event>, render: seq<CmarkNew.Event> -> string)
    requires |dumps| >= 1 && ImportedAs(dumps[0], row, lookup, parse, render)
    requires |rest| <= |dumps| - 1
    requires forall i :: 0 <= i < |rest| ==> ImportedAs(dumps[1..][i], rest[i], lookup, parse, render)
    ensures forall i :: 0 <= i < |rest| + 1 ==> ImportedAs(dumps[i], ([row] + rest)[i], lookup, parse, render)
  {
    forall i | 0 <= i < |rest| + 1
      ensures ImportedAs(dumps[i], ([row] + rest)[i], lookup, parse, render)
    {
      if i > 0 {
        ImportLater(dumps, row, rest, i, lookup, parse, render);
      }
    }
  }

  lemma ImportLater(dumps: seq<Dumped>, row: Inserted, rest: seq<Inserted>, i: nat, lookup: PostRef -> Option<I32>,
                    parse: string -> seq<CmarkNew.Event>, render: seq<CmarkNew.Event> -> string)
    requires 1 <= i <= |rest| && |rest| <= |dumps| - 1
    requires ImportedAs(dumps[1..][i - 1], rest[i - 1], lookup, parse, render)
    ensures ImportedAs(dumps[i], ([row] + rest)[i], lookup, parse, render)
  {
    assert dumps[i] == dumps[1..][i - 1] && ([row] + rest)[i] == rest[i - 1];
  }

  /** `Args::run` after reading the dump: the comments are inserted one by one,
      and the first whose post is not found stops the import with an error;
      those before it stay inserted.  The result is the inserted rows: fewer
      than the dumped comments exactly when the import stopped. */
  function Import(dumps: seq<Dumped>, lookup: PostRef -> Option<I32>,
                  parse: string -> seq<CmarkNew.Event>, render: seq<CmarkNew.Event> -> string)
    : (rows: seq<Inserted>)
    ensures |rows| <= |dumps|
    ensures forall i :: 0 <= i < |rows| ==> ImportedAs(dumps[i], rows[i], lookup, parse, render)
    ensures |rows| < |dumps| ==> lookup(dumps[|rows|].on).None?
  {
    if dumps == [] || lookup(dumps[0].on).None? then []
    else
      var row := ImportRow(dumps[0], lookup(dumps[0].on).value, parse, render);
      var rest := Import(dumps[1..], lookup, parse, render);
      ImportStep(dumps, row, rest, lookup, parse, render);
      [row] + rest
  }
}

=== FILE: read_files.dfy ===
/** The helpers of the markdown importer: the `key: value` header of a post
    file, the `update` line, splitting an event stream at a delimiter, the
    "Fa issue/year" references to the Phantom index, the `[text][kind:attr]`
    link extensions, the teaser cut and its anchor rewrite, and the conversion
    of a post to its title and body markup.  The older single-file importer
    holds the same helpers, line for line. */
module ReadFiles {
  import opened Wrappers
  import opened Strings
  import opened Fluent
  import MyLang
  import DateTime
  import opened Ints
  import CmarkOld
  import Html

  // ---------------------------------------------------------------------------
  // The `update` header value

  datatype UpdateInfo = UpdateInfo(date: DateTime.DateTime, info: string)

  /** `s` is `a`, a space and `b`, with no space in `a`: the first space
      of `s` is the one after `a`. */
  predicate SplitsAtSpace(s: string, a: string, b: string) {
    s == a + " " + b && ' ' !in a
  }

  /** `UpdateInfo::from_str`: the date is everything before the first space,
      the info everything after it (nothing when there is no space), both
      trimmed.  Date parsing is a parameter; its failure names the untrimmed
      date part. */
  function ParseUpdate(s: string, parseDate: string -> Option<DateTime.DateTime>): (r: Result<UpdateInfo, string>)
    ensures ' ' !in s ==> (r.Ok? <==> parseDate(Trim(s)).Some?)
    ensures ' ' !in s && r.Ok? ==> r.value == UpdateInfo(parseDate(Trim(s)).value, "")
    ensures ' ' !in s && r.Err? ==> r.error == "Bad date: " + DebugString(s)
    ensures forall a, b :: SplitsAtSpace(s, a, b) ==>
              (r.Ok? <==> parseDate(Trim(a)).Some?)
              && (r.Ok? ==> r.value == UpdateInfo(parseDate(Trim(a)).value, Trim(b)))
              && (r.Err? ==> r.error == "Bad date: " + DebugString(a))
  {
    var (date, info) := match SplitOnce(s, ' ') case Some(p) => p case None => (s, "");
    assert forall a, b :: SplitsAtSpace(s, a, b) ==> a == date && b == info by {
      forall a, b | SplitsAtSpace(s, a, b)
        ensures a == date && b == info
      {
        SplitUnique(s, ' ', a, b);
      }
    }
    match parseDate(Trim(date))
    case None => Err("Bad date: " + DebugString(date))
    case Some(d) => Ok(UpdateInfo(d, Trim(info)))
  }

  /** A string splits around the first occurrence of a char in only one way. */
  lemma SplitUnique(s: string, c: char, a: string, b: string)
    requires s == a + [c] + b && c !in a
    ensures SplitOnce(s, c) == Some((a, b))
  {
    assert s[|a|] == c && s[..|a|] == a;
    assert c !in s[..|a|];
    assert IndexOf(s, c).value == |a|;
    assert s[|a| + 1..] == b;
  }

  // ---------------------------------------------------------------------------
  // The metadata header

  /** The next header line, `key: value` and a newline, split at its first
      colon, and what follows it; `None` when the next line has no colon or
      there is no newline. */
  function MetaLine(src: string): (r: Option<(string, string, string)>)
    ensures r.Some? ==> src == HeaderLine(r.value.0, r.value.1) + r.value.2
                        && ':' !in r.value.0 && '\n' !in r.value.0 && '\n' !in r.value.1
    ensures r.None? <==> '\n' !in src || ':' !in src[..IndexOf(src, '\n').value]
  {
    match SplitOnce(src, '\n')
    case None => None
    case Some((line, rest)) =>
      assert line == src[..IndexOf(src, '\n').value];
      match SplitOnce(line, ':')
      case None => None
      case Some((k, v)) =>
        assert line == k + ":" + v;
        Some((k, v, rest))
  }

  function HeaderLine(k: string, v: string): string {
    k + ":" + v + "\n"
  }

  /** The header of a file: the raw key and value of each leading line with a
      colon, and the text after them. */
  function Header(src: string): (h: (seq<(string, string)>, string))
    ensures src == Unlines(h.0) + h.1
    decreases |src|
  {
    match MetaLine(src)
    case None => ([], src)
    case Some((k, v, rest)) =>
      var h := Header(rest);
      UnlinesCons(k, v, h.0, h.1);
      ([(k, v)] + h.0, h.1)
  }

  /** The header ends at the first line without a colon, or at a last line
      without a newline. */
  lemma {:induction false} HeaderStops(src: string)
    ensures MetaLine(Header(src).1).None?
    decreases |src|
  {
    match MetaLine(src)
    case None =>
    case Some((k, v, rest)) =>
      HeaderStops(rest);
  }

  lemma UnlinesCons(k: string, v: string, lines: seq<(string, string)>, tail: string)
    ensures Unlines([(k, v)] + lines) + tail == HeaderLine(k, v) + (Unlines(lines) + tail)
  {
    assert ([(k, v)] + lines)[1..] == lines;
  }

  function Unlines(lines: seq<(string, string)>): string {
    if lines == [] then "" else HeaderLine(lines[0].0, lines[0].1) + Unlines(lines[1..])
  }

  /** Each header line's key and value, trimmed. */
  function Entries(lines: seq<(string, string)>): (r: seq<(string, string)>)
    ensures |r| == |lines|
    ensures forall i :: 0 <= i < |r| ==> r[i] == (Trim(lines[i].0), Trim(lines[i].1))
  {
    if lines == [] then [] else [(Trim(lines[0].0), Trim(lines[0].1))] + Entries(lines[1..])
  }

  /** The map of the entries, where a later entry overwrites an earlier one
      with the same key. */
  predicate LastWins(meta: map<string, string>, entries: seq<(string, string)>) {
    (forall i :: 0 <= i < |entries| ==> entries[i].0 in meta)
    && forall k :: k in meta ==>
         exists i :: 0 <= i < |entries| && entries[i] == (k, meta[k])
                     && forall j :: i < j < |entries| ==> entries[j].0 != k
  }

  /** `extract_metadata`: the header as a map and the trimmed text after it. */
  method ExtractMetadata(src: string) returns (meta: map<string, string>, rest: string)
    ensures LastWins(meta, Entries(Header(src).0))
    ensures rest == Trim(Header(src).1)
  {
    meta := map[];
    var s := src;
    ghost var done: seq<(string, string)> := [];
    assert done + Header(s).0 == Header(s).0;
    while MetaLine(s).Some?
      invariant Header(src).0 == done + Header(s).0 && Header(src).1 == Header(s).1
      invariant LastWins(meta, Entries(done))
      decreases |s|
    {
      var line := MetaLine(s).value;
      var k, v, reminder := line.0, line.1, line.2;
      HeaderNext(s, k, v, reminder);
      var hs, hr := Header(s).0, Header(reminder).0;
      SeqAssoc(done, [(k, v)], hr);
      EntriesSnoc(done, k, v);
      LastWinsAdd(meta, Entries(done), Trim(k), Trim(v));
      meta := meta[Trim(k) := Trim(v)];
      done := done + [(k, v)];
      s := reminder;
    }
    assert Header(s) == ([], s);
    assert done + [] == done;
    rest := Trim(s);
  }

  lemma HeaderNext(s: string, k: string, v: string, rest: string)
    requires MetaLine(s) == Some((k, v, rest))
    ensures Header(s).0 == [(k, v)] + Header(rest).0 && Header(s).1 == Header(rest).1
  {
  }

  lemma SeqAssoc<T>(a: seq<T>, b: seq<T>, c: seq<T>)
    ensures a + (b + c) == (a + b) + c
  {
  }

  lemma EntriesSnoc(lines: seq<(string, string)>, k: string, v: string)
    ensures Entries(lines + [(k, v)]) == Entries(lines) + [(Trim(k), Trim(v))]
  {
  }

  lemma LastWinsAdd(meta: map<string, string>, entries: seq<(string, string)>, k: string, v: string)
    requires LastWins(meta, entries)
    ensures LastWins(meta[k := v], entries + [(k, v)])
  {
    var m := meta[k := v];
    var es := entries + [(k, v)];
    forall key | key in m
      ensures exists i :: 0 <= i < |es| && es[i] == (key, m[key])
                          && forall j :: i < j < |es| ==> es[j].0 != key
    {
      if key == k {
        assert es[|entries|] == (key, m[key]);
      } else {
        var i :| 0 <= i < |entries| && entries[i] == (key, meta[key])
                 && forall j :: i < j < |entries| ==> entries[j].0 != key;
        assert es[i] == entries[i];
        forall j | i < j < |es|
          ensures es[j].0 != key
        {
          if j < |entries| {
            assert es[j] == entries[j];
          }
        }
      }
    }
    forall i | 0 <= i < |es|
      ensures es[i].0 in m
    {
      if i < |entries| {
        assert es[i] == entries[i];
      }
    }
  }

  /** A header line whose key repeats an earlier one replaces its value. */
  lemma RepeatedKey(k: string, v: string, w: string, body: string)
    requires ':' !in k && '\n' !in k && '\n' !in v && '\n' !in w
    requires MetaLine(body).None?
    ensures Header(HeaderLine(k, v) + HeaderLine(k, w) + body) == ([(k, v), (k, w)], body)
  {
    var a, b := HeaderLine(k, v), HeaderLine(k, w);
    var tail := b + body;
    HeaderLast(k, w, body);
    HeaderCons(k, v, tail, [(k, w)], body);
    assert [(k, v)] + [(k, w)] == [(k, v), (k, w)];
    SeqAssoc(a, b, body);
    assert a + b + body == a + tail;
  }

  lemma HeaderCons(k: string, v: string, rest: string, hs: seq<(string, string)>, b: string)
    requires ':' !in k && '\n' !in k && '\n' !in v
    requires Header(rest) == (hs, b)
    ensures Header(HeaderLine(k, v) + rest) == ([(k, v)] + hs, b)
  {
    HeaderStep(k, v, rest);
  }

  lemma HeaderLast(k: string, w: string, body: string)
    requires ':' !in k && '\n' !in k && '\n' !in w
    requires MetaLine(body).None?
    ensures Header(HeaderLine(k, w) + body) == ([(k, w)], body)
  {
    assert Header(body) == ([], body);
    HeaderStep(k, w, body);
    assert [(k, w)] + [] == [(k, w)];
  }

  lemma HeaderStep(k: string, v: string, rest: string)
    requires ':' !in k && '\n' !in k && '\n' !in v
    ensures Header(HeaderLine(k, v) + rest) == ([(k, v)] + Header(rest).0, Header(rest).1)
  {
    var line := k + ":" + v;
    var src := HeaderLine(k, v) + rest;
    assert src == line + ['\n'] + rest;
    SplitUnique(src, '\n', line, rest);
    SplitUnique(line, ':', k, v);
    assert MetaLine(src) == Some((k, v, rest));
    HeaderNext(src, k, v, rest);
  }

  // ---------------------------------------------------------------------------
  // Splitting an event stream

  /** `items_until`: the items before the first occurrence of the delimiter,
      and the items after it; `None` when it does not occur. */
  function ItemsUntil<T(==)>(all: seq<T>, delimiter: T): (r: Option<(seq<T>, seq<T>)>)
    ensures r.None? <==> delimiter !in all
    ensures r.Some? ==> all == r.value.0 + [delimiter] + r.value.1 && delimiter !in r.value.0
  {
    match Position(all, delimiter)
    case None => None
    case Some(pos) =>
      assert all == all[..pos] + [delimiter] + all[pos + 1..];
      Some((all[..pos], all[pos + 1..]))
  }

  /** `Iterator::position` of an equal item. */
  function Position<T(==)>(all: seq<T>, x: T): (r: Option<nat>)
    ensures r.None? <==> x !in all
    ensures r.Some? ==> r.value < |all| && all[r.value] == x && x !in all[..r.value]
  {
    if all == [] then None
    else if all[0] == x then Some(0)
    else
      match Position(all[1..], x)
      case None => None
      case Some(i) =>
        assert all[..i + 1] == [all[0]] + all[1..][..i];
        Some(i + 1)
  }

  /** The split is at the first occurrence: any other decomposition with the
      delimiter absent before it is the one returned. */
  lemma ItemsUntilFirst<T>(all: seq<T>, delimiter: T, before: seq<T>, after: seq<T>)
    requires all == before + [delimiter] + after && delimiter !in before
    ensures ItemsUntil(all, delimiter) == Some((before, after))
  {
    var r := ItemsUntil(all, delimiter).value;
    var p := |r.0|;
    assert all[p] == delimiter && all[|before|] == delimiter;
    assert r.0 == all[..p] == before;
    assert r.1 == all[p + 1..] == after;
  }

  // ---------------------------------------------------------------------------
  // References to the Phantom index: `Fa 17/1984`, `fa 2-3 2019`

  datatype FaRef = FaRef(issue: nat, year: nat)

  /** `[1-9]\d?` at `i`, greedy: its value and the index after it. */
  function IssueNumber(s: string, i: nat): (r: Option<(nat, nat)>)
    ensures r.Some? ==> i < r.value.1 <= i + 2 && r.value.1 <= |s| && 1 <= r.value.0 <= 99
  {
    if i < |s| && '1' <= s[i] <= '9' then
      if i + 1 < |s| && IsAsciiDigit(s[i + 1]) then
        Some((DigitValue(s[i]) * 10 + DigitValue(s[i + 1]), i + 2))
      else Some((DigitValue(s[i]), i + 1))
    else None
  }

  /** The optional `-[1-9]\d?` of a range after the issue ending at `j`: the
      index after it.  A `-` not followed by a number fails the whole match. */
  function RangeEnd(s: string, j: nat): (r: Option<nat>)
    requires j <= |s|
    ensures r.Some? ==> j <= r.value <= |s|
  {
    if j < |s| && s[j] == '-' then
      match IssueNumber(s, j + 1)
      case None => None
      case Some((_, k)) => Some(k)
    else Some(j)
  }

  /** `\b[Ff]a (\d..)(-\d..)?[ /](19|20)\d{2}\b` matched at `p`.  Word
      characters are the ASCII ones.  After a greedy two-digit number the
      pattern needs a `-`, a space or a slash, never a digit, so giving a digit
      back never helps: the match, when there is one, is this one. */
  function MatchAt(s: string, p: nat): (r: Option<FaRef>)
    requires p <= |s|
    ensures r.Some? ==> 1 <= r.value.issue <= 99 && 1900 <= r.value.year <= 2099
  {
    if p + 3 <= |s| && (s[p] == 'F' || s[p] == 'f') && s[p + 1] == 'a' && s[p + 2] == ' '
       && (p == 0 || !IsWordChar(s[p - 1]))
    then
      match IssueNumber(s, p + 3)
      case None => None
      case Some((issue, j)) =>
        match RangeEnd(s, j)
        case None => None
        case Some(k) =>
          if k + 5 <= |s| && (s[k] == ' ' || s[k] == '/')
             && (s[k + 1..k + 3] == "19" || s[k + 1..k + 3] == "20")
             && IsAsciiDigit(s[k + 3]) && IsAsciiDigit(s[k + 4])
             && (k + 5 == |s| || !IsWordChar(s[k + 5]))
          then
            var y := s[k + 1..k + 5];
            assert y[0] == s[k + 1] && y[1] == s[k + 2] && y[2] == s[k + 3] && y[3] == s[k + 4];
            Some(FaRef(issue, Year4(y)))
          else None
    else None
  }

  /** The value of a four-digit year starting with 19 or 20. */
  function Year4(y: string): (n: nat)
    requires |y| == 4 && (y[..2] == "19" || y[..2] == "20") && IsAsciiDigit(y[2]) && IsAsciiDigit(y[3])
    ensures 1900 <= n <= 2099
  {
    (if y[..2] == "19" then 1900 else 2000) + DigitValue(y[2]) * 10 + DigitValue(y[3])
  }

  /** `FaRef::from_str`: the leftmost match. */
  function ParseFa(s: string): (r: Option<FaRef>)
    ensures r.Some? <==> exists p :: 0 <= p <= |s| && MatchAt(s, p).Some?
    ensures r.Some? ==> 1 <= r.value.issue <= 99 && 1900 <= r.value.year <= 2099
  {
    FirstMatch(s, 0)
  }

  function FirstMatch(s: string, p: nat): (r: Option<FaRef>)
    requires p <= |s|
    ensures r.Some? <==> exists q :: p <= q <= |s| && MatchAt(s, q).Some?
    ensures r.Some? ==> exists q :: (p <= q <= |s| && r == MatchAt(s, q)
                                     && forall q' :: p <= q' < q ==> MatchAt(s, q').None?)
    decreases |s| - p
  {
    if MatchAt(s, p).Some? then MatchAt(s, p)
    else if p == |s| then None
    else
      var r := FirstMatch(s, p + 1);
      var f := (q: nat) => if q <= |s| then MatchAt(s, q) else None;
      assert forall q: nat :: q <= |s| ==> f(q) == MatchAt(s, q);
      FirstHitStep(f, p, |s|, r);
      r
  }

  /** No hit at `p`: the first hit of `f` from `p` is the first from
      `p + 1`. */
  lemma FirstHitStep<T>(f: nat -> Option<T>, p: nat, n: nat, r: Option<T>)
    requires p < n && f(p).None?
    requires r.Some? <==> exists q :: p + 1 <= q <= n && f(q).Some?
    requires r.Some? ==> exists q :: (p + 1 <= q <= n && r == f(q)
                                      && forall q' :: p + 1 <= q' < q ==> f(q').None?)
    ensures r.Some? <==> exists q :: p <= q <= n && f(q).Some?
    ensures r.Some? ==> exists q :: (p <= q <= n && r == f(q)
                                     && forall q' :: p <= q' < q ==> f(q').None?)
  {
    if r.Some? {
      var q :| p + 1 <= q <= n && r == f(q) && forall q' :: p + 1 <= q' < q ==> f(q').None?;
      assert forall q' :: p <= q' < q ==> f(q').None?;
    }
  }

  const IndexBase: string := "https://fantomenindex.krats.se/"

  /** `FaRef::url`: the index page of the issue. */
  function FaUrl(f: FaRef): string {
    IndexBase + NatToString(f.year) + "/" + NatToString(f.issue)
  }

  /** `FaRef::cover`: the cover image of the issue. */
  function FaCover(f: FaRef): string {
    IndexBase + "c/f" + NatToString(f.year) + "-" + NatToString(f.issue) + ".jpg"
  }

  /** `fa_link`: the index page of the first reference in `s`. */
  function FaLink(s: string): (r: Option<string>)
    ensures r.None? <==> forall p :: 0 <= p <= |s| ==> MatchAt(s, p).None?
    ensures r.Some? ==> StartsWith(r.value, IndexBase)
  {
    match ParseFa(s)
    case None => None
    case Some(f) =>
      assert FaUrl(f)[..|IndexBase|] == IndexBase;
      Some(FaUrl(f))
  }

  /** Writing an issue and year as a reference and reading it back gives
      them again, with either separator and with any range end. */
  lemma FaRoundTrip(issue: nat, year: nat, sep: char, rangeEnd: Option<nat>)
    requires 1 <= issue <= 99 && 1900 <= year <= 2099 && (sep == ' ' || sep == '/')
    requires rangeEnd.Some? ==> 1 <= rangeEnd.value <= 99
    ensures ParseFa(FaText(issue, year, sep, rangeEnd)) == Some(FaRef(issue, year))
  {
    var mid := match rangeEnd case None => "" case Some(e) => "-" + NatToString(e);
    FaPartsRoundTrip(FaText(issue, year, sep, rangeEnd), issue, year, sep, rangeEnd, mid);
  }

  lemma FaPartsRoundTrip(s: string, issue: nat, year: nat, sep: char, rangeEnd: Option<nat>, mid: string)
    requires 1 <= issue <= 99 && 1900 <= year <= 2099 && (sep == ' ' || sep == '/')
    requires rangeEnd.Some? ==> 1 <= rangeEnd.value <= 99
    requires mid == match rangeEnd case None => "" case Some(e) => "-" + NatToString(e)
    requires s == "Fa " + NatToString(issue) + mid + [sep] + NatToString(year)
    ensures ParseFa(s) == Some(FaRef(issue, year))
  {
    FaLayout(s, NatToString(issue), mid, sep, NatToString(year));
    assert mid != "" ==> mid[0] == '-';
    FaFromLayout(s, issue, year, sep, rangeEnd, mid);
  }

  /** Where the parts of `Fa <issue><mid><sep><year>` lie. */
  lemma FaLayout(s: string, i: string, mid: string, sep: char, y: string)
    requires s == "Fa " + i + mid + [sep] + y
    ensures var k := 3 + |i|; var k' := k + |mid|;
            k' < |s| && s[..3] == "Fa " && s[3..k] == i && s[k..k'] == mid
            && s[k] == (if mid == "" then sep else mid[0]) && s[k'] == sep && s[k' + 1..] == y
  {
    var k := 3 + |i|;
    var k' := k + |mid|;
    assert s == "Fa " + i + mid + ([sep] + y);
    Parts(s, "Fa ", i, mid, [sep] + y);
    FaYearPart(s, k', sep, y);
    assert s[k..k'] == mid;
  }

  /** The same, from where each part of the text lies. */
  lemma FaFromLayout(s: string, issue: nat, year: nat, sep: char, rangeEnd: Option<nat>, mid: string)
    requires 1 <= issue <= 99 && 1900 <= year <= 2099 && (sep == ' ' || sep == '/')
    requires rangeEnd.Some? ==> 1 <= rangeEnd.value <= 99
    requires mid == match rangeEnd case None => "" case Some(e) => "-" + NatToString(e)
    requires var k := 3 + |NatToString(issue)|; var k' := k + |mid|;
             k' < |s| && s[..3] == "Fa " && s[3..k] == NatToString(issue) && s[k..k'] == mid
             && s[k] == (if mid == "" then sep else '-') && s[k'] == sep && s[k' + 1..] == NatToString(year)
    ensures ParseFa(s) == Some(FaRef(issue, year))
  {
    var k := 3 + |NatToString(issue)|;
    var k' := k + |mid|;
    FaIssuePart(s, issue);
    FaRangePart(s, k, k', rangeEnd, mid);
    FaYearMatch(s, issue, k, k', year);
  }

  lemma FaIssuePart(s: string, issue: nat)
    requires 1 <= issue <= 99 && 3 + |NatToString(issue)| < |s|
    requires s[..3] == "Fa " && s[3..3 + |NatToString(issue)|] == NatToString(issue)
    requires !IsAsciiDigit(s[3 + |NatToString(issue)|])
    ensures s[0] == 'F' && s[1] == 'a' && s[2] == ' '
    ensures IssueNumber(s, 3) == Some((issue, 3 + |NatToString(issue)|))
  {
    assert s[..3][0] == 'F' && s[..3][1] == 'a' && s[..3][2] == ' ';
    IssueAt(s, 3, issue);
  }

  lemma FaYearMatch(s: string, issue: nat, k: nat, k': nat, year: nat)
    requires 1900 <= year <= 2099
    requires |s| >= 3 && s[0] == 'F' && s[1] == 'a' && s[2] == ' '
    requires IssueNumber(s, 3) == Some((issue, k)) && k <= |s| && RangeEnd(s, k) == Some(k')
    requires k' < |s| && (s[k'] == ' ' || s[k'] == '/') && s[k' + 1..] == NatToString(year)
    ensures ParseFa(s) == Some(FaRef(issue, year))
  {
    var y := NatToString(year);
    YearText(year);
    YearAt(s, k', y);
    MatchFromParts(s, issue, k, k', y);
  }

  lemma FaYearPart(s: string, k': nat, sep: char, y: string)
    requires k' <= |s| && s[k'..] == [sep] + y
    ensures k' + 1 + |y| == |s| && s[k'] == sep && s[k' + 1..] == y
  {
    assert s[k' + 1..] == s[k'..][1..];
  }

  lemma FaRangePart(s: string, k: nat, k': nat, rangeEnd: Option<nat>, mid: string)
    requires rangeEnd.Some? ==> 1 <= rangeEnd.value <= 99
    requires mid == match rangeEnd case None => "" case Some(e) => "-" + NatToString(e)
    requires k <= k' < |s| && k' == k + |mid| && s[k..k'] == mid && (s[k'] == ' ' || s[k'] == '/')
    ensures RangeEnd(s, k) == Some(k')
  {
    if rangeEnd.Some? {
      var e := NatToString(rangeEnd.value);
      assert mid == "-" + e;
      assert s[k] == mid[0] == '-';
      assert s[k + 1..k'] == s[k..k'][1..] == e;
      IssueAt(s, k + 1, rangeEnd.value);
    }
  }

  lemma Parts(s: string, a: string, b: string, c: string, d: string)
    requires s == a + b + c + d
    ensures s[..|a|] == a && s[|a|..|a| + |b|] == b && s[|a| + |b|..|a| + |b| + |c|] == c
    ensures s[|a| + |b| + |c|..] == d
  {
  }

  lemma MatchFromParts(s: string, issue: nat, k: nat, k': nat, y: string)
    requires |s| >= 3 && s[0] == 'F' && s[1] == 'a' && s[2] == ' '
    requires IssueNumber(s, 3) == Some((issue, k)) && k <= |s| && RangeEnd(s, k) == Some(k')
    requires k' + 5 == |s| && (s[k'] == ' ' || s[k'] == '/') && s[k' + 1..k' + 5] == y
    requires |y| == 4 && (y[..2] == "19" || y[..2] == "20") && IsAsciiDigit(y[2]) && IsAsciiDigit(y[3])
    requires s[k' + 1..k' + 3] == y[..2] && IsAsciiDigit(s[k' + 3]) && IsAsciiDigit(s[k' + 4])
    ensures ParseFa(s) == Some(FaRef(issue, Year4(y)))
  {
    assert MatchAt(s, 0) == Some(FaRef(issue, Year4(y)));
  }

  lemma IssueAt(s: string, at: nat, n: nat)
    requires 1 <= n <= 99
    requires at + |NatToString(n)| < |s| && s[at..at + |NatToString(n)|] == NatToString(n)
    requires !IsAsciiDigit(s[at + |NatToString(n)|])
    ensures IssueNumber(s, at) == Some((n, at + |NatToString(n)|))
  {
    var t := NatToString(n);
    IssueText(n);
    assert s[at] == t[0];
    assert |t| == 2 ==> s[at + 1] == t[1];
  }

  lemma YearAt(s: string, k: nat, y: string)
    requires |y| == 4 && (y[..2] == "19" || y[..2] == "20") && IsAsciiDigit(y[2]) && IsAsciiDigit(y[3])
    requires k < |s| && s[k + 1..] == y
    ensures k + 5 == |s| && s[k + 1..k + 5] == y && s[k + 1..k + 3] == y[..2]
    ensures IsAsciiDigit(s[k + 3]) && IsAsciiDigit(s[k + 4])
  {
    assert s[k + 3] == y[2] && s[k + 4] == y[3];
  }

  function FaText(issue: nat, year: nat, sep: char, rangeEnd: Option<nat>): string {
    "Fa " + NatToString(issue)
    + (match rangeEnd case None => "" case Some(e) => "-" + NatToString(e))
    + [sep] + NatToString(year)
  }

  /** One or two digits, the first not a zero, worth the issue. */
  lemma IssueText(n: nat)
    requires 1 <= n <= 99
    ensures var t := NatToString(n);
            1 <= |t| <= 2 && '1' <= t[0] <= '9'
            && (|t| == 1 ==> DigitValue(t[0]) == n)
            && (|t| == 2 ==> IsAsciiDigit(t[1]) && DigitValue(t[0]) * 10 + DigitValue(t[1]) == n)
  {
    if n >= 10 {
      assert NatToString(n) == NatToString(n / 10) + [DigitChar(n % 10)];
    }
  }

  lemma YearText(y: nat)
    requires 1900 <= y <= 2099
    ensures var t := NatToString(y);
            |t| == 4 && (t[..2] == "19" || t[..2] == "20") && IsAsciiDigit(t[2]) && IsAsciiDigit(t[3])
            && Year4(t) == y
  {
    var t := NatToString(y);
    assert t == NatToString(y / 10) + [DigitChar(y % 10)];
    assert NatToString(y / 10) == NatToString(y / 100) + [DigitChar(y / 10 % 10)];
    assert NatToString(y / 100) == NatToString(y / 1000) + [DigitChar(y / 100 % 10)];
    assert NatToString(y / 1000) == [DigitChar(y / 1000)];
  }

  /** The examples of `fa_link`'s tests: no reference in "Hello", issue 17 of
      1984, and the first issue of the range 1-2 of 2021. */
  lemma FaLinkHello()
    ensures FaLink("Hello") == None
  {
    var hello := "Hello";
    forall p | 0 <= p <= |hello|
      ensures MatchAt(hello, p).None?
    {
    }
  }

  lemma FaLinkSlash(s: string)
    requires s == "Fa 17/1984"
    ensures FaLink(s) == Some("https://fantomenindex.krats.se/1984/17")
  {
    assert s == FaText(17, 1984, '/', None) by { SlashText(); }
    assert FaLink(s) == Some(FaUrl(FaRef(17, 1984))) by {
      FaRoundTrip(17, 1984, '/', None);
      FaLinkOf(s, FaRef(17, 1984));
    }
    SlashUrl();
  }

  lemma SlashText()
    ensures FaText(17, 1984, '/', None) == "Fa 17/1984"
  {
    Digits4(1984);
    Digits2(17);
    assert FaText(17, 1984, '/', None) == "Fa " + "17" + "" + ['/'] + "1984";
  }

  lemma SlashUrl()
    ensures FaUrl(FaRef(17, 1984)) == "https://fantomenindex.krats.se/1984/17"
  {
    Digits4(1984);
    Digits2(17);
  }

  lemma FaLinkRange(s: string)
    requires s == "Fa 1-2/2021"
    ensures FaLink(s) == Some("https://fantomenindex.krats.se/2021/1")
  {
    assert s == FaText(1, 2021, '/', Some(2)) by { RangeText(); }
    assert FaLink(s) == Some(FaUrl(FaRef(1, 2021))) by {
      FaRoundTrip(1, 2021, '/', Some(2));
      FaLinkOf(s, FaRef(1, 2021));
    }
    RangeUrl();
  }

  lemma RangeUrl()
    ensures FaUrl(FaRef(1, 2021)) == "https://fantomenindex.krats.se/2021/1"
  {
    assert NatToString(2021) == "2021" by { Digits4(2021); }
    assert NatToString(1) == "1";
  }

  lemma FaLinkOf(s: string, f: FaRef)
    ensures ParseFa(s) == Some(f) ==> FaLink(s) == Some(FaUrl(f))
  {
  }

  lemma RangeText()
    ensures FaText(1, 2021, '/', Some(2)) == "Fa 1-2/2021"
  {
    Digits4(2021);
    assert NatToString(1) == "1" && NatToString(2) == "2";
    assert FaText(1, 2021, '/', Some(2)) == "Fa " + "1" + ("-" + "2") + ['/'] + "2021";
  }

  lemma Digits2(n: nat)
    requires 10 <= n <= 99
    ensures NatToString(n) == [DigitChar(n / 10), DigitChar(n % 10)]
  {
  }

  lemma Digits4(n: nat)
    requires 1000 <= n <= 9999
    ensures NatToString(n) == [DigitChar(n / 1000), DigitChar(n / 100 % 10), DigitChar(n / 10 % 10), DigitChar(n % 10)]
  {
    var a, b, c := n / 10, n / 100, n / 1000;
    assert a / 10 == b && b / 10 == c && a % 10 == n / 10 % 10 && b % 10 == n / 100 % 10 && c < 10;
    NatToStringStep(n);
    NatToStringStep(a);
    NatToStringStep(b);
  }

  lemma NatToStringStep(n: nat)
    requires n >= 10
    ensures NatToString(n) == NatToString(n / 10) + [DigitChar(n % 10)]
  {
  }

  // ---------------------------------------------------------------------------
  // Link extensions: `[text][kind]`, `[text][kind:attr]`, `[text][kind, more]`

  /** The parts of `^\[(.*)\]\[(\w+)(:(\w+))?([,\s]+(.*))?\]$`: the link text,
      the kind, its attribute and the rest; absent groups are empty. */
  datatype LinkRef = LinkRef(text: string, kind: string, attr: string, attrs: string)

  predicate IsSep(c: char) {
    c == ',' || IsWhitespace(c)
  }

  /** The end of the run of ASCII word characters from `i`. */
  function WordRun(s: string, i: nat): (j: nat)
    requires i <= |s|
    ensures i <= j <= |s| && (j == |s| || !IsWordChar(s[j]))
    ensures forall x :: i <= x < j ==> IsWordChar(s[x])
    decreases |s| - i
  {
    if i < |s| && IsWordChar(s[i]) then WordRun(s, i + 1) else i
  }

  /** The end of the run of commas and whitespace from `i`. */
  function SepRun(s: string, i: nat): (j: nat)
    requires i <= |s|
    ensures i <= j <= |s| && (j == |s| || !IsSep(s[j]))
    ensures forall x :: i <= x < j ==> IsSep(s[x])
    decreases |s| - i
  {
    if i < |s| && IsSep(s[i]) then SepRun(s, i + 1) else i
  }

  /** `(\w+)(:(\w+))?([,\s]+(.*))?` matching all of `r`: the kind, the
      attribute and the rest.  Each group is greedy, and giving a character
      back never lets the following part match, so this is the only match.
      With `dotAll` (the `s` flag) the rest may hold newlines. */
  function LinkTail(r: string, dotAll: bool): (t: Option<(string, string, string)>)
    ensures t.Some? ==> |t.value.0| >= 1 && StartsWith(r, t.value.0)
                        && (forall x :: 0 <= x < |t.value.0| ==> IsWordChar(t.value.0[x]))
                        && (forall x :: 0 <= x < |t.value.1| ==> IsWordChar(t.value.1[x]))
                        && (!dotAll ==> '\n' !in t.value.2) && EndsWith(r, t.value.2)
  {
    var k := WordRun(r, 0);
    if k == 0 then None
    else
      var j := AttrEnd(r, k);
      var attr := if j > k then r[k + 1..j] else "";
      assert forall x :: 0 <= x < |attr| ==> attr[x] == r[k + 1 + x];
      if j == |r| then Some((r[..k], attr, ""))
      else
        var m := SepRun(r, j);
        if m == j || (!dotAll && '\n' in r[m..]) then None
        else Some((r[..k], attr, r[m..]))
  }

  /** The end of the optional `:(\w+)` after the kind ending at `k`. */
  function AttrEnd(r: string, k: nat): (j: nat)
    requires k <= |r|
    ensures k <= j <= |r|
    ensures j > k ==> j >= k + 2 && r[k] == ':' && forall x :: k + 1 <= x < j ==> IsWordChar(r[x])
  {
    if k < |r| && r[k] == ':' && WordRun(r, k + 1) > k + 1 then WordRun(r, k + 1) else k
  }

  /** Greedy `(.*)`: the link text ends at the last `][` at or before `t`
      after which the rest of the link matches; without `dotAll` the text
      holds no newline. */
  function TextEnd(span: string, t: nat, dotAll: bool): (r: Option<LinkRef>)
    requires 2 <= |span| && t + 3 <= |span|
    ensures GreedyEnd(span, t, dotAll, r)
    decreases t
  {
    if t < 1 then None
    else if SplitsAt(span, t, dotAll) then
      var (kind, attr, attrs) := LinkTail(span[t + 2..|span| - 1], dotAll).value;
      var r := Some(LinkRef(span[1..t], kind, attr, attrs));
      assert |span[1..t]| + 1 == t;
      r
    else
      var r := TextEnd(span, t - 1, dotAll);
      GreedyStep(span, t, dotAll, r);
      r
  }

  /** `r` is the link at the last place at or before `t` where the text may
      end, or `None` when there is no such place. */
  predicate GreedyEnd(span: string, t: nat, dotAll: bool, r: Option<LinkRef>) {
    && (r.None? ==> forall u :: 1 <= u <= t ==> !SplitsAt(span, u, dotAll))
    && (r.Some? ==>
          var u := |r.value.text| + 1;
          && u <= t && SplitsAt(span, u, dotAll) && span[1..u] == r.value.text
          && LinkTail(span[u + 2..|span| - 1], dotAll) == Some((r.value.kind, r.value.attr, r.value.attrs))
          && forall v :: u < v <= t ==> !SplitsAt(span, v, dotAll))
  }

  lemma GreedyStep(span: string, t: nat, dotAll: bool, r: Option<LinkRef>)
    requires 1 <= t && !SplitsAt(span, t, dotAll) && GreedyEnd(span, t - 1, dotAll, r)
    ensures GreedyEnd(span, t, dotAll, r)
  {
  }

  /** The link text may end at `u`: a `][` stands there, the text before it
      is on one line unless `dotAll`, and the rest matches the link's tail. */
  predicate SplitsAt(span: string, u: int, dotAll: bool) {
    && 1 <= u && u + 3 <= |span|
    && span[u] == ']' && span[u + 1] == '['
    && (dotAll || '\n' !in span[1..u])
    && LinkTail(span[u + 2..|span| - 1], dotAll).Some?
  }

  /** The parts of a link's source text, when it has the extension form. */
  function ParseLinkRef(span: string, dotAll: bool): (r: Option<LinkRef>)
    ensures r.Some? ==> |span| >= 5 && span[0] == '[' && span[|span| - 1] == ']'
  {
    if |span| >= 5 && span[0] == '[' && span[|span| - 1] == ']' then TextEnd(span, |span| - 3, dotAll)
    else None
  }

  const WikipediaHost: string := ".wikipedia.org/wiki/"

  /** `wikilink`: the Wikipedia page of the text, with the attributes in
      parentheses after it when there are any; the page name has underscores
      for spaces and no soft hyphens, the title keeps the text as it is. */
  function Wikilink(text: string, lang: string, attrs: string): (r: (string, string))
    ensures exists page :: r.0 == "https://" + lang + WikipediaHost + page && ' ' !in page && '\U{00AD}' !in page
    ensures r.0 == "https://" + lang + WikipediaHost + PageName(if attrs == "" then text else text + " (" + attrs + ")")
    ensures attrs == "" ==> r.1 == "Se " + text + " på wikipedia"
    ensures attrs != "" ==> r.1 == "Se " + text + " (" + attrs + ") på wikipedia"
  {
    var t := if attrs == "" then text else text + " (" + attrs + ")";
    var page := PageName(t);
    ("https://" + lang + WikipediaHost + page, "Se " + t + " på wikipedia")
  }

  /** A Wikipedia page name: underscores for spaces, and no soft hyphens. */
  function PageName(t: string): (page: string)
    ensures ' ' !in page && '\U{00AD}' !in page
    ensures ' ' !in t && '\U{00AD}' !in t ==> page == t
    ensures '\U{00AD}' !in t ==>
              |page| == |t| && forall i :: 0 <= i < |t| ==> page[i] == (if t[i] == ' ' then '_' else t[i])
  {
    var under := ReplaceChar(t, ' ', "_");
    ReplaceCharAbsent(under, '\U{00AD}', "", ' ');
    ReplaceCharOne(t, ' ', '_');
    if '\U{00AD}' in t then ReplaceChar(under, '\U{00AD}', "")
    else
      ReplaceCharAbsent(t, ' ', "_", '\U{00AD}');
      ReplaceChar(under, '\U{00AD}', "")
  }

  /** Replacing a char by one char keeps the length and changes only that char. */
  lemma {:induction false} ReplaceCharOne(s: string, c: char, d: char)
    ensures |ReplaceChar(s, c, [d])| == |s|
    ensures forall i :: 0 <= i < |s| ==> ReplaceChar(s, c, [d])[i] == (if s[i] == c then d else s[i])
    decreases |s|
  {
    if s != [] {
      ReplaceCharOne(s[1..], c, d);
      var r := ReplaceChar(s, c, [d]);
      assert r == [if s[0] == c then d else s[0]] + ReplaceChar(s[1..], c, [d]);
      forall i | 0 <= i < |s|
        ensures r[i] == (if s[i] == c then d else s[i])
      {
        if i > 0 {
          assert r[i] == ReplaceChar(s[1..], c, [d])[i - 1];
          assert s[i] == s[1..][i - 1];
        }
      }
    }
  }

  /** The page name of two texts one after the other is their page names one
      after the other, so the name is made char by char. */
  lemma PageNameAppend(a: string, b: string)
    ensures PageName(a + b) == PageName(a) + PageName(b)
  {
    ReplaceCharAppend(a, b, ' ', "_");
    ReplaceCharAppend(ReplaceChar(a, ' ', "_"), ReplaceChar(b, ' ', "_"), '\U{00AD}', "");
  }

  /** A soft hyphen is dropped, a space becomes `_`, any other char is kept. */
  lemma PageNameChar(x: char)
    ensures PageName([x]) == (if x == '\U{00AD}' then "" else if x == ' ' then "_" else [x])
  {
    assert [x][1..] == [];
    if x == ' ' {
      assert ReplaceChar([x], ' ', "_") == "_";
      assert "_"[1..] == [];
    } else {
      assert ReplaceChar([x], ' ', "_") == [x];
    }
  }

  /** `str::replace` with a char works on each part of a text on its own. */
  lemma {:induction false} ReplaceCharAppend(a: string, b: string, c: char, t: string)
    ensures ReplaceChar(a + b, c, t) == ReplaceChar(a, c, t) + ReplaceChar(b, c, t)
    decreases |a|
  {
    if a != [] {
      var head := if a[0] == c then t else [a[0]];
      ReplaceCharAppend(a[1..], b, c, t);
      assert (a + b)[0] == a[0] && (a + b)[1..] == a[1..] + b;
      assert ReplaceChar(a + b, c, t) == head + ReplaceChar(a[1..] + b, c, t);
      assert ReplaceChar(a, c, t) == head + ReplaceChar(a[1..], c, t);
    } else {
      assert a + b == b;
    }
  }

  /** Replacing one char keeps any other char absent that was absent before
      and is not in the replacement. */
  lemma {:induction false} ReplaceCharAbsent(s: string, c: char, t: string, d: char)
    requires d != c && d !in s && d !in t
    ensures d !in ReplaceChar(s, c, t)
    decreases |s|
  {
    if s != [] {
      ReplaceCharAbsent(s[1..], c, t, d);
    }
  }

  /** A plain one-word text is its own page name. */
  lemma WikilinkPlain(text: string, lang: string)
    requires ' ' !in text && '\U{00AD}' !in text
    ensures Wikilink(text, lang, "").0 == "https://" + lang + WikipediaHost + text
  {
  }

  const SeriewikiBase: string := "https://seriewikin.serieframjandet.se/index.php/"

  /** `link_ext`: the target and title of a link whose source text has the
      extension form, by its kind; `None` for any other kind or form. */
  function LinkExt(span: string, lang: string): (r: Option<(string, string)>)
    ensures r.Some? <==> ParseLinkRef(span, false).Some?
                         && ParseLinkRef(span, false).value.kind in {"personname", "wp", "sw", "cargo", "foldoc", "rfc"}
    ensures r.Some? && ParseLinkRef(span, false).value.kind in {"personname", "wp"} ==>
              var l := ParseLinkRef(span, false).value;
              StartsWith(r.value.0, "https://" + (if l.attr == "" then lang else l.attr) + WikipediaHost)
  {
    match ParseLinkRef(span, false)
    case None => None
    case Some(l) =>
      if l.kind == "personname" || l.kind == "wp" then
        var w := Wikilink(l.text, if l.attr == "" then lang else l.attr, l.attrs);
        Some(w)
      else if l.kind == "sw" then
        Some((SeriewikiBase + ReplaceChar(l.text, ' ', "_"), "Se " + l.text + " på seriewikin"))
      else if l.kind == "cargo" then
        Some(("https://lib.rs/crates/" + l.text, ""))
      else if l.kind == "foldoc" then
        Some(("https://foldoc.org/" + l.text, "Se " + l.text + " i free online dictionary of computing"))
      else if l.kind == "rfc" then
        Some(("http://www.faqs.org/rfcs/rfc" + l.attr + ".html", "RFC " + l.attr))
      else None
  }

  /** The source text of a link with the extension form: `[text][kind]`, with
      `:attr` after the kind when there is one and `, attrs` after that. */
  function LinkSource(l: LinkRef): string {
    "[" + l.text + "][" + LinkTailText(l) + "]"
  }

  function LinkTailText(l: LinkRef): string {
    l.kind + (if l.attr == "" then "" else ":" + l.attr) + (if l.attrs == "" then "" else ", " + l.attrs)
  }

  /** The link references that have a source text: the kind and the
      attribute are words, and nothing holds a newline or a `]`. */
  predicate Writable(l: LinkRef) {
    |l.kind| >= 1 && (forall x :: 0 <= x < |l.kind| ==> IsWordChar(l.kind[x]))
    && (forall x :: 0 <= x < |l.attr| ==> IsWordChar(l.attr[x]))
    && '\n' !in l.text && ']' !in l.text && '\n' !in l.attrs && ']' !in l.attrs
    && (l.attrs == "" || !IsSep(l.attrs[0]))
  }

  lemma {:induction false} WordRunAt(s: string, i: nat, j: nat)
    requires i <= j <= |s| && (j == |s| || !IsWordChar(s[j]))
    requires forall x :: i <= x < j ==> IsWordChar(s[x])
    ensures WordRun(s, i) == j
    decreases j - i
  {
    if i < j {
      WordRunAt(s, i + 1, j);
    }
  }

  lemma {:induction false} SepRunAt(s: string, i: nat, j: nat)
    requires i <= j <= |s| && (j == |s| || !IsSep(s[j]))
    requires forall x :: i <= x < j ==> IsSep(s[x])
    ensures SepRun(s, i) == j
    decreases j - i
  {
    if i < j {
      SepRunAt(s, i + 1, j);
    }
  }

  /** The tail of a written link reads back as its kind, attribute and rest. */
  lemma LinkTailRoundTrip(l: LinkRef, dotAll: bool)
    requires Writable(l)
    ensures LinkTail(LinkTailText(l), dotAll) == Some((l.kind, l.attr, l.attrs))
  {
    var r := LinkTailText(l);
    var k := |l.kind|;
    TailKind(l);
    TailAttr(l);
    var j := AttrEnd(r, k);
    var attr := if j > k then r[k + 1..j] else "";
    assert attr == l.attr;
    if l.attrs != "" {
      TailRest(l);
      assert j < |r| && SepRun(r, j) == j + 2 && r[j + 2..] == l.attrs;
    } else {
      assert j == |r|;
    }
  }

  lemma TailKind(l: LinkRef)
    requires Writable(l)
    ensures WordRun(LinkTailText(l), 0) == |l.kind| && LinkTailText(l)[..|l.kind|] == l.kind
  {
    var r := LinkTailText(l);
    var k := |l.kind|;
    assert r == l.kind + ((if l.attr == "" then "" else ":" + l.attr) + (if l.attrs == "" then "" else ", " + l.attrs));
    assert r[..k] == l.kind;
    assert !IsWordChar(':') && !IsWordChar(',');
    WordRunAt(r, 0, k);
  }

  lemma TailAttr(l: LinkRef)
    requires Writable(l)
    ensures var mid := l.kind + (if l.attr == "" then "" else ":" + l.attr);
            AttrEnd(LinkTailText(l), |l.kind|) == |mid|
            && (l.attr != "" ==> LinkTailText(l)[|l.kind| + 1..|mid|] == l.attr)
            && LinkTailText(l)[|mid|..] == (if l.attrs == "" then "" else ", " + l.attrs)
  {
    var r := LinkTailText(l);
    var k := |l.kind|;
    var mid := l.kind + (if l.attr == "" then "" else ":" + l.attr);
    var rest := if l.attrs == "" then "" else ", " + l.attrs;
    assert r == mid + rest;
    assert r[|mid|..] == rest;
    assert !IsWordChar(',');
    if l.attr != "" {
      assert r[k] == ':';
      assert forall x :: k + 1 <= x < |mid| ==> r[x] == l.attr[x - k - 1];
      WordRunAt(r, k + 1, |mid|);
      assert r[k + 1..|mid|] == l.attr;
    } else {
      assert k == |r| || r[k] == ',';
    }
  }

  lemma TailRest(l: LinkRef)
    requires Writable(l) && l.attrs != ""
    ensures var j := |l.kind + (if l.attr == "" then "" else ":" + l.attr)|;
            j + 2 <= |LinkTailText(l)| && SepRun(LinkTailText(l), j) == j + 2 && LinkTailText(l)[j + 2..] == l.attrs
  {
    var r := LinkTailText(l);
    var mid := l.kind + (if l.attr == "" then "" else ":" + l.attr);
    var j := |mid|;
    assert r == mid + (", " + l.attrs);
    assert r[j] == ',' && r[j + 1] == ' ' && r[j + 2] == l.attrs[0];
    assert IsSep(',') && IsSep(' ') by { assert IsWhitespace(' '); }
    SepRunAt(r, j, j + 2);
    assert r[j + 2..] == l.attrs;
  }

  lemma {:induction false} TextEndSkip(span: string, t: nat, u: nat, dotAll: bool)
    requires 2 <= |span| && u <= t && t + 3 <= |span|
    requires forall x :: u < x <= t ==> !ClosesAt(span, x)
    ensures TextEnd(span, t, dotAll) == TextEnd(span, u, dotAll)
    decreases t
  {
    if t > u {
      assert !ClosesAt(span, t);
      TextEndPast(span, t, dotAll);
      TextEndSkip(span, t - 1, u, dotAll);
    }
  }

  /** A `]` stands at position `x`. */
  predicate ClosesAt(span: string, x: int) {
    0 <= x < |span| && span[x] == ']'
  }

  lemma TextEndPast(span: string, t: nat, dotAll: bool)
    requires 2 <= |span| && 1 <= t && t + 3 <= |span| && span[t] != ']'
    ensures TextEnd(span, t, dotAll) == TextEnd(span, t - 1, dotAll)
  {
  }

  /** A link written in the extension form parses back to its parts. */
  lemma ParseLinkSource(l: LinkRef, dotAll: bool)
    requires Writable(l)
    ensures ParseLinkRef(LinkSource(l), dotAll) == Some(l)
  {
    SourceShape(l);
    LinkTailRoundTrip(l, dotAll);
    ParseAt(LinkSource(l), |l.text| + 1, l, dotAll);
  }

  lemma ParseAt(span: string, u: nat, l: LinkRef, dotAll: bool)
    requires |span| >= 5 && span[0] == '[' && span[|span| - 1] == ']' && 1 <= u && u + 3 <= |span|
    requires span[u] == ']' && span[u + 1] == '[' && span[1..u] == l.text && '\n' !in l.text
    requires forall x :: u < x <= |span| - 3 ==> span[x] != ']'
    requires LinkTail(span[u + 2..|span| - 1], dotAll) == Some((l.kind, l.attr, l.attrs))
    ensures ParseLinkRef(span, dotAll) == Some(l)
  {
    assert forall x :: u < x <= |span| - 3 ==> !ClosesAt(span, x);
    TextEndSkip(span, |span| - 3, u, dotAll);
    TextEndAt(span, u, dotAll);
  }

  lemma SourceShape(l: LinkRef)
    requires Writable(l)
    ensures var span := LinkSource(l);
            var u := |l.text| + 1;
            |span| >= 5 && span[0] == '[' && span[|span| - 1] == ']' && u + 3 <= |span|
            && span[u] == ']' && span[u + 1] == '[' && span[1..u] == l.text
            && span[u + 2..|span| - 1] == LinkTailText(l)
            && forall x :: u < x <= |span| - 3 ==> span[x] != ']'
  {
    TailNoBracket(l);
    Bracketed(l.text, LinkTailText(l));
  }

  lemma TailNoBracket(l: LinkRef)
    requires Writable(l)
    ensures |LinkTailText(l)| >= 1 && ']' !in LinkTailText(l)
  {
    var tail := LinkTailText(l);
    assert tail == l.kind + ((if l.attr == "" then "" else ":" + l.attr) + (if l.attrs == "" then "" else ", " + l.attrs));
    assert !IsWordChar(']');
  }

  lemma Bracketed(text: string, tail: string)
    requires ']' !in text && ']' !in tail && |tail| >= 1
    ensures var span := "[" + text + "][" + tail + "]";
            var u := |text| + 1;
            |span| >= 5 && span[0] == '[' && span[|span| - 1] == ']' && u + 3 <= |span|
            && span[u] == ']' && span[u + 1] == '[' && span[1..u] == text
            && span[u + 2..|span| - 1] == tail
            && forall x :: u < x <= |span| - 3 ==> span[x] != ']'
  {
    var span := "[" + text + "][" + tail + "]";
    var u := |text| + 1;
    assert span[1..u] == text;
    assert span[u + 2..|span| - 1] == tail;
    assert forall x :: u + 2 <= x < |span| - 1 ==> span[x] == tail[x - u - 2];
  }

  lemma TextEndAt(span: string, u: nat, dotAll: bool)
    requires 2 <= |span| && 1 <= u && u + 3 <= |span|
    requires span[u] == ']' && span[u + 1] == '[' && '\n' !in span[1..u]
    requires LinkTail(span[u + 2..|span| - 1], dotAll).Some?
    ensures TextEnd(span, u, dotAll) == Some(LinkRef(span[1..u], LinkTail(span[u + 2..|span| - 1], dotAll).value.0,
                                            LinkTail(span[u + 2..|span| - 1], dotAll).value.1,
                                            LinkTail(span[u + 2..|span| - 1], dotAll).value.2))
  {
  }

  /** `[Rust][wp:en]`: a Wikipedia link in the language named in the link. */
  lemma WikipediaLink(text: string, wiki: string, lang: string)
    requires ' ' !in text && '\U{00AD}' !in text && '\n' !in text && ']' !in text
    requires |wiki| >= 1 && forall x :: 0 <= x < |wiki| ==> IsWordChar(wiki[x])
    ensures LinkExt("[" + text + "][wp:" + wiki + "]", lang)
            == Some(("https://" + wiki + WikipediaHost + text, "Se " + text + " på wikipedia"))
  {
    var l := LinkRef(text, "wp", wiki, "");
    assert IsWordChar('w') && IsWordChar('p');
    assert LinkSource(l) == "[" + text + "][wp:" + wiki + "]";
    ParseLinkSource(l, false);
    WikilinkPlain(text, wiki);
  }

  /** `[822][rfc:822]`: a link to the numbered RFC, whatever the text. */
  lemma RfcLink(text: string, n: string, lang: string)
    requires '\n' !in text && ']' !in text
    requires |n| >= 1 && forall x :: 0 <= x < |n| ==> IsWordChar(n[x])
    ensures LinkExt("[" + text + "][rfc:" + n + "]", lang)
            == Some(("http://www.faqs.org/rfcs/rfc" + n + ".html", "RFC " + n))
  {
    var l := LinkRef(text, "rfc", n, "");
    assert ParseLinkRef("[" + text + "][rfc:" + n + "]", false) == Some(l) by {
      assert IsWordChar('r') && IsWordChar('f') && IsWordChar('c');
      assert LinkSource(l) == "[" + text + "][rfc:" + n + "]";
      ParseLinkSource(l, false);
    }
    assert "rfc" != "personname" && "rfc" != "wp" && "rfc" != "sw" && "rfc" != "cargo" && "rfc" != "foldoc";
  }

  /** A kind the site does not know leaves the link unresolved. */
  lemma UnknownKind(l: LinkRef, lang: string)
    requires Writable(l) && l.kind !in {"personname", "wp", "sw", "cargo", "foldoc", "rfc"}
    ensures LinkExt(LinkSource(l), lang).None?
  {
    ParseLinkSource(l, false);
  }

  // ---------------------------------------------------------------------------
  // The teaser: where it ends, its front image, the update note, local anchors

  const MoreMarker: string := "<!-- more -->"

  /** Counting chars up to a byte offset that some prefix has gives that
      prefix back. */
  lemma PrefixWithinExact(s: string, k: nat)
    requires k <= |s|
    ensures PrefixWithin(s, Utf8Len(s[..k])) == k
  {
    var r := PrefixWithin(s, Utf8Len(s[..k]));
    PrefixWithinNotBelow(s, k, r);
    PrefixWithinNotAbove(s, k, r);
  }

  lemma PrefixWithinNotBelow(s: string, k: nat, r: nat)
    requires k <= |s| && r <= |s|
    requires r < |s| ==> Utf8Len(s[..r + 1]) > Utf8Len(s[..k])
    ensures r >= k
  {
    if r < k {
      Utf8LenPrefix(s, r + 1, k);
    }
  }

  lemma PrefixWithinNotAbove(s: string, k: nat, r: nat)
    requires k <= |s| && r <= |s| && Utf8Len(s[..r]) <= Utf8Len(s[..k])
    ensures r <= k
  {
    if r > k {
      Utf8LenStep(s, k);
      Utf8LenPrefix(s, k + 1, r);
    }
  }

  lemma Utf8LenStep(s: string, k: nat)
    requires k < |s|
    ensures Utf8Len(s[..k + 1]) == Utf8Len(s[..k]) + Utf8Width(s[k])
  {
    assert s[..k + 1] == s[..k] + [s[k]];
    Utf8LenAppend(s[..k], [s[k]]);
    assert Utf8Len([s[k]]) == Utf8Width(s[k]);
  }

  /** Two bytes past a blank line's start is a char boundary. */
  lemma AfterBlankLine(m: string, p: nat)
    requires OccursAt(m, "\n\n", p)
    ensures CharIndexOfByte(m, Utf8Len(m[..p]) + 2) == Some(p + 2)
  {
    assert m[..p + 2] == m[..p] + "\n\n";
    Utf8LenAppend(m[..p], "\n\n");
    assert Utf8Len("\n\n") == 2;
    PrefixWithinExact(m, p + 2);
  }

  lemma OccursInPrefix(m: string, k: nat, pat: string, i: nat)
    requires k <= |m| && OccursAt(m[..k], pat, i)
    ensures OccursAt(m, pat, i) && i + |pat| <= k
  {
    assert m[..k][i..i + |pat|] == m[i..i + |pat|];
  }

  /** Where the teaser of a post ends, as a char index into its markdown: at
      the `<!-- more -->` marker when there is one; for texts shorter than 900
      bytes, nowhere (the teaser is the whole post); otherwise within the
      last blank line in the first 700 bytes — at the last `## ` heading
      before it, else at that blank line when it lies more than 50 bytes in,
      else at the next blank line after it.  The error is the panic of
      slicing the text inside a char, which only happens when the first 700
      bytes have no blank line. */
  function TeaserEnd(m: string): (r: Result<Option<nat>, string>)
    ensures Contains(m, MoreMarker) ==> r == Ok(Find(m, MoreMarker))
    ensures !Contains(m, MoreMarker) && Utf8Len(m) < 900 ==> r == Ok(None)
    ensures !Contains(m, MoreMarker) && Utf8Len(m) >= 900 && r.Ok? ==>
              r.value.Some? && r.value.value <= |m|
              && (OccursAt(m, "\n## ", r.value.value) || OccursAt(m, "\n\n", r.value.value)
                  || Utf8Len(m[..r.value.value]) <= 52)
    ensures r.Err? ==> !Contains(m[..PrefixWithin(m, 700)], "\n\n")
  {
    match Find(m, MoreMarker)
    case Some(i) => Ok(Some(i))
    case None =>
      if Utf8Len(m) < 900 then Ok(None)
      else
        var k := PrefixWithin(m, 700);
        var found := RFind(m[..k], "\n\n");
        var e := if found.Some? then found.value else 0;
        assert found.Some? ==> OccursAt(m, "\n\n", e) by {
          if found.Some? { OccursInPrefix(m, k, "\n\n", e); }
        }
        TeaserFrom(m, e, found.Some?)
  }

  /** The teaser's end once the last blank line `e` in the first 700 bytes is
      known (`blank` is false when there is none and `e` is 0). */
  function TeaserFrom(m: string, e: nat, blank: bool): (r: Result<Option<nat>, string>)
    requires e <= |m| && (blank ==> OccursAt(m, "\n\n", e)) && (!blank ==> e == 0)
    ensures r.Err? ==> !blank
    ensures r.Ok? ==> r.value.Some? && r.value.value <= |m|
                      && (OccursAt(m, "\n## ", r.value.value) || OccursAt(m, "\n\n", r.value.value)
                          || Utf8Len(m[..r.value.value]) <= 52)
  {
    match RFind(m[..e], "\n## ")
    case Some(h) =>
      OccursInPrefix(m, e, "\n## ", h);
      Ok(Some(h))
    case None =>
      if Utf8Len(m[..e]) > 50 then Ok(Some(e))
      else
        assert blank ==> CharIndexOfByte(m, Utf8Len(m[..e]) + 2) == Some(e + 2) by {
          if blank { AfterBlankLine(m, e); }
        }
        match CharIndexOfByte(m, Utf8Len(m[..e]) + 2)
        case None => Err("byte index " + NatToString(Utf8Len(m[..e]) + 2) + " is not a char boundary")
        case Some(c) =>
          assert Utf8Len(m[..c]) <= 52;
          Ok(Some(NextBlank(m, c)))
  }

  /** The next blank line from `c` on, or `c` itself when there is none. */
  function NextBlank(m: string, c: nat): (r: nat)
    requires c <= |m|
    ensures r <= |m| && (OccursAt(m, "\n\n", r) || r == c)
  {
    match Find(m[c..], "\n\n")
    case Some(f) =>
      assert m[c..][f..f + 2] == m[c + f..c + f + 2];
      c + f
    case None => c
  }

  /** The end of a text with the marker is the marker, however long it is. */
  lemma MarkerEndsTeaser(a: string, b: string)
    requires !Contains(a, MoreMarker)
    ensures TeaserEnd(a + MoreMarker + b) == Ok(Some(|a|))
  {
    var m := a + MoreMarker + b;
    assert OccursAt(m, MoreMarker, |a|);
    forall j | 0 <= j < |a| ensures !OccursAt(m, MoreMarker, j) {
      if j + |MoreMarker| <= |a| {
        assert a[j..j + |MoreMarker|] == m[j..j + |MoreMarker|];
        assert !OccursAt(a, MoreMarker, j);
      } else {
        assert m[|a|] == '<';
        assert m[j..j + |MoreMarker|][|a| - j] == m[|a|];
        assert MoreMarker[|a| - j] != '<';
      }
    }
  }

  /** The first index at or after `i` holding `c` or `d`, or `|s|`. */
  function NextStop(s: string, i: nat, c: char, d: char): (j: nat)
    requires i <= |s|
    ensures i <= j <= |s| && (j < |s| ==> s[j] == c || s[j] == d)
    decreases |s| - i
  {
    if i == |s| || s[i] == c || s[i] == d then i else NextStop(s, i + 1, c, d)
  }

  /** The word `front` at `x` in `b`, not inside a longer word. */
  predicate FrontWordAt(b: string, x: nat) {
    OccursAt(b, "front", x)
    && (x == 0 || !IsWordChar(b[x - 1])) && (x + 5 == |b| || !IsWordChar(b[x + 5]))
  }

  /** `\bfront\b` at or after `x` in `b`. */
  predicate HasFrontWord(b: string, x: nat)
    decreases |b| - x
  {
    x + 5 <= |b| && (FrontWordAt(b, x) || HasFrontWord(b, x + 1))
  }

  lemma {:induction false} HasFrontWordExists(b: string, x: nat)
    ensures HasFrontWord(b, x) <==> exists y :: x <= y && FrontWordAt(b, y)
    decreases |b| - x
  {
    if x + 5 <= |b| {
      HasFrontWordExists(b, x + 1);
      if exists y :: x <= y && FrontWordAt(b, y) {
        var y :| x <= y && FrontWordAt(b, y);
        assert y == x || (x + 1 <= y && FrontWordAt(b, y));
      }
    }
  }

  /** The end of a match of
      `!\[[^\]]*\]\[[^\]\{]*\{[^\}]*\bfront\b[^\}]*\}[^\]]*\]` starting at `p`:
      an image reference whose attribute braces hold the word `front`.  Each
      part stops at the first char it excludes, so a match, when there is
      one, is unique. */
  function FrontAt(m: string, p: nat): (r: Option<nat>)
    requires p <= |m|
    ensures r.Some? ==> p + 2 <= r.value <= |m| && OccursAt(m, "![", p) && m[r.value - 1] == ']'
  {
    if !OccursAt(m, "![", p) then None
    else
      var a := NextStop(m, p + 2, ']', ']');
      if !OccursAt(m, "][", a) then None
      else
        var b := NextStop(m, a + 2, ']', '{');
        if b == |m| || m[b] != '{' then None
        else
          var c := NextStop(m, b + 1, '}', '}');
          if c == |m| || !HasFrontWord(m[b + 1..c], 0) then None
          else
            var d := NextStop(m, c + 1, ']', ']');
            if d == |m| then None else Some(d + 1)
  }

  /** The leftmost front image at or after `p`: its start and end. */
  function FirstFront(m: string, p: nat): (r: Option<(nat, nat)>)
    requires p <= |m|
    ensures r.Some? ==> p <= r.value.0 <= |m| && FrontAt(m, r.value.0) == Some(r.value.1)
    decreases |m| - p
  {
    match FrontAt(m, p)
    case Some(e) => Some((p, e))
    case None => if p == |m| then None else FirstFront(m, p + 1)
  }

  /** The front image found is the leftmost one. */
  lemma {:induction false} FirstFrontLeftmost(m: string, p: nat)
    requires p <= |m|
    ensures FirstFront(m, p).Some? ==> forall q :: p <= q < FirstFront(m, p).value.0 ==> FrontAt(m, q).None?
    ensures FirstFront(m, p).None? ==> forall q :: p <= q <= |m| ==> FrontAt(m, q).None?
    decreases |m| - p
  {
    if FrontAt(m, p).None? && p < |m| {
      FirstFrontLeftmost(m, p + 1);
    }
  }

  /** The source text of the post's front image, when it has one. */
  function FrontImage(m: string): (r: Option<string>)
    ensures r.Some? ==> StartsWith(r.value, "![") && EndsWith(r.value, "]")
                        && exists p :: 0 <= p <= |m| - |r.value| && OccursAt(m, r.value, p)
  {
    match FirstFront(m, 0)
    case None => None
    case Some((p, e)) =>
      var img := m[p..e];
      assert OccursAt(m, img, p);
      assert img[..2] == m[p..p + 2];
      Some(img)
  }

  lemma {:induction false} NextStopAt(s: string, i: nat, j: nat, c: char, d: char)
    requires i <= j < |s| && (s[j] == c || s[j] == d)
    requires forall x :: i <= x < j ==> s[x] != c && s[x] != d
    ensures NextStop(s, i, c, d) == j
    decreases j - i
  {
    if i < j {
      NextStopAt(s, i + 1, j, c, d);
    }
  }

  /** `![alt][file{front}]` on its own is a front image. */
  lemma FrontAlone(alt: string, file: string)
    requires ']' !in alt && ']' !in file && '{' !in file
    ensures FrontImage("![" + alt + "][" + file + "{front}]") == Some("![" + alt + "][" + file + "{front}]")
  {
    var m := "![" + alt + "][" + file + "{front}]";
    var a := 2 + |alt|;
    var b := a + 2 + |file|;
    assert m == "![" + alt + "][" + file + "{" + "front" + "}" + "]";
    assert NextStop(m, 2, ']', ']') == a by {
      assert forall x :: 2 <= x < a ==> m[x] == alt[x - 2];
      NextStopAt(m, 2, a, ']', ']');
    }
    assert NextStop(m, a + 2, ']', '{') == b by {
      assert forall x :: a + 2 <= x < b ==> m[x] == file[x - a - 2];
      NextStopAt(m, a + 2, b, ']', '{');
    }
    assert NextStop(m, b + 1, '}', '}') == b + 6 by {
      NextStopAt(m, b + 1, b + 6, '}', '}');
    }
    assert HasFrontWord(m[b + 1..b + 6], 0) by {
      assert m[b + 1..b + 6] == "front";
      assert FrontWordAt(m[b + 1..b + 6], 0);
    }
    NextStopAt(m, b + 7, b + 7, ']', ']');
    FrontAtParts(m, a, b);
  }

  lemma FrontAtParts(m: string, a: nat, b: nat)
    requires 2 <= a && a + 2 <= b && b + 8 == |m| && OccursAt(m, "![", 0)
    requires NextStop(m, 2, ']', ']') == a && OccursAt(m, "][", a)
    requires NextStop(m, a + 2, ']', '{') == b && m[b] == '{'
    requires NextStop(m, b + 1, '}', '}') == b + 6 && HasFrontWord(m[b + 1..b + 6], 0)
    requires NextStop(m, b + 7, ']', ']') == b + 7
    ensures FrontImage(m) == Some(m)
  {
    assert FrontAt(m, 0) == Some(|m|);
    assert m[0..|m|] == m;
  }

  /** A teaser without an image of its own gets the front image, as a
      sidebar rather than a gallery, right after the first blank line's
      first newline (or at the very start).  Only the insertion changes. */
  function WithFrontImage(teaser: string, m: string): (r: string)
    ensures Contains(teaser, "\n![") || FrontImage(m).None? ==> r == teaser
    ensures !Contains(teaser, "\n![") && FrontImage(m).Some? ==>
              exists s :: SidebarAt(teaser, s, FrontImage(m).value, r)
  {
    if Contains(teaser, "\n![") then teaser
    else
      match FrontImage(m)
      case None => teaser
      case Some(img) =>
        var s := match Find(teaser, "\n\n") case Some(i) => i + 1 case None => 0;
        var r := teaser[..s] + "\n" + ReplaceAll(img, "gallery", "sidebar") + "\n" + teaser[s..];
        assert SidebarAt(teaser, s, img, r);
        r
  }

  /** `r` is `teaser` with the image `img`, as a sidebar, on a line of its
      own at `s`: the very start or just after the first newline of a blank
      line. */
  predicate SidebarAt(teaser: string, s: int, img: string, r: string) {
    0 <= s <= |teaser| && (s == 0 || OccursAt(teaser, "\n\n", s - 1))
    && r == teaser[..s] + "\n" + ReplaceAll(img, "gallery", "sidebar") + "\n" + teaser[s..]
  }

  /** After the teaser of an updated post comes the update note: the date in
      bold, then the information.  Without information nothing is added. */
  function WithUpdate(teaser: string, update: Option<UpdateInfo>, fl: Lookup, l: MyLang.Lang): (r: string)
    ensures update.None? || update.value.info == "" ==> r == teaser
    ensures update.Some? && update.value.info != "" ==>
              StartsWith(r, teaser + "\n\n**") && EndsWith(r, "** " + update.value.info)
              && r == teaser + "\n\n**" + fl(l, "update-at", [("date", DateArg(update.value.date))]) + "** " + update.value.info
  {
    match update
    case Some(u) =>
      if u.info == "" then teaser
      else
        var note := fl(l, "update-at", [("date", DateArg(u.date))]);
        var r := teaser + "\n\n**" + note + "** " + u.info;
        assert r == (teaser + "\n\n**") + (note + "** " + u.info);
        assert r == (teaser + "\n\n**" + note) + ("** " + u.info);
        r
    case None => teaser
  }

  /** The chars an anchor target may hold: `[a-z0-0_]` as the rewrite is
      written, or `[a-z0-9_]`, evidently what was meant. */
  datatype AnchorClass = AsWritten | Intended

  predicate InClass(k: AnchorClass, c: char) {
    IsAsciiLower(c) || c == '_' || (if k.AsWritten? then c == '0' else IsAsciiDigit(c))
  }

  /** The end of the run of class chars from `i`. */
  function ClassRun(s: string, i: nat, k: AnchorClass): (j: nat)
    requires i <= |s|
    ensures i <= j <= |s| && (j == |s| || !InClass(k, s[j]))
    decreases |s| - i
  {
    if i < |s| && InClass(k, s[i]) then ClassRun(s, i + 1, k) else i
  }

  lemma {:induction false} ClassRunAt(s: string, i: nat, j: nat, k: AnchorClass)
    requires i <= j <= |s| && (j == |s| || !InClass(k, s[j]))
    requires forall x :: i <= x < j ==> InClass(k, s[x])
    ensures ClassRun(s, i, k) == j
    decreases j - i
  {
    if i < j {
      ClassRunAt(s, i + 1, j, k);
    }
  }

  /** The path of a post, which its local anchors are made relative to. */
  function PostPath(year: I16, slug: string, lang: string): string {
    "/" + IntToString(year) + "/" + slug + "." + lang
  }

  /** Every `](#target)` in the teaser, a link to an anchor in the same
      page, points into the post's own page instead, as `](path#target)`:
      left to right, without overlaps, the target a non-empty run of class
      chars. */
  function Anchors(s: string, k: AnchorClass, path: string): (r: string)
    decreases |s|
  {
    if |s| < 3 then s
    else if s[..3] == "](#" then
      var j := ClassRun(s, 3, k);
      if j > 3 && j < |s| && s[j] == ')' then
        "](" + path + "#" + s[3..j] + ")" + Anchors(s[j + 1..], k, path)
      else [s[0]] + Anchors(s[1..], k, path)
    else [s[0]] + Anchors(s[1..], k, path)
  }

  /** A text without any `](#` is left as it is. */
  lemma {:induction false} AnchorsNone(s: string, k: AnchorClass, path: string)
    requires !Contains(s, "](#")
    ensures Anchors(s, k, path) == s
    decreases |s|
  {
    if |s| >= 3 {
      assert s[..3] != "](#" by { assert !OccursAt(s, "](#", 0); }
      assert !Contains(s[1..], "](#") by {
        forall j | 0 <= j <= |s[1..]| ensures !OccursAt(s[1..], "](#", j) {
          if OccursAt(s[1..], "](#", j) {
            assert s[1..][j..j + 3] == s[j + 1..j + 4];
            assert OccursAt(s, "](#", j + 1);
          }
        }
      }
      AnchorsNone(s[1..], k, path);
    }
  }

  /** A local link whose target is made of class chars points into the
      post's page, and the rewrite goes on after it. */
  lemma AnchorRewritten(t: string, rest: string, k: AnchorClass, path: string)
    requires |t| >= 1 && forall x :: 0 <= x < |t| ==> InClass(k, t[x])
    ensures Anchors("](#" + t + ")" + rest, k, path) == "](" + path + "#" + t + ")" + Anchors(rest, k, path)
  {
    var s := "](#" + t + ")" + rest;
    var j := 3 + |t|;
    assert s[..3] == "](#";
    assert s[j] == ')' && !InClass(k, ')');
    assert forall x :: 3 <= x < j ==> s[x] == t[x - 3];
    ClassRunAt(s, 3, j, k);
    assert s[3..j] == t;
    assert s[j + 1..] == rest;
  }

  /** The rewrite as written skips targets with a digit other than `0`: the
      link to the heading `h1` keeps pointing into whatever page shows the
      teaser. */
  lemma AsWrittenSkipsDigits(path: string)
    ensures Anchors("](#h1)", AsWritten, path) == "](#h1)"
  {
    var s := "](#h1)";
    assert ClassRun(s, 3, AsWritten) == 4 by {
      assert InClass(AsWritten, 'h') && !InClass(AsWritten, '1');
      ClassRunAt(s, 3, 4, AsWritten);
    }
    assert Anchors(s, AsWritten, path) == [s[0]] + Anchors(s[1..], AsWritten, path);
    assert s[1..] == "(#h1)";
    assert Anchors("(#h1)", AsWritten, path) == "(#h1)" by {
      NoLocalLink("(#h1)", AsWritten, path);
    }
  }

  /** The same link followed by more text: the link is kept, the rest is
      rewritten. */
  lemma AsWrittenKeepsDigitLink(rest: string, path: string)
    ensures Anchors("](#h1)" + rest, AsWritten, path) == "](#h1)" + Anchors(rest, AsWritten, path)
  {
    var s := "](#h1)" + rest;
    assert s[..3] == "](#" && s[3] == 'h' && s[4] == '1';
    assert ClassRun(s, 3, AsWritten) == 4 by {
      assert InClass(AsWritten, 'h') && !InClass(AsWritten, '1');
      ClassRunAt(s, 3, 4, AsWritten);
    }
    AnchorsSkip(s, AsWritten, path);
    assert s[1..] == "(#h1)" + rest;
    AnchorsPlainPrefix("(#h1)", rest, AsWritten, path);
  }

  /** A `](#` not followed by a target and `)` is copied one char at a time. */
  lemma AnchorsSkip(s: string, k: AnchorClass, path: string)
    requires |s| >= 3 && s[..3] == "](#"
    requires var j := ClassRun(s, 3, k); !(j > 3 && j < |s| && s[j] == ')')
    ensures Anchors(s, k, path) == [s[0]] + Anchors(s[1..], k, path)
  {
  }

  /** Text without `]` before the rest is copied as it is. */
  lemma {:induction false} AnchorsPlainPrefix(pre: string, rest: string, k: AnchorClass, path: string)
    requires ']' !in pre
    ensures Anchors(pre + rest, k, path) == pre + Anchors(rest, k, path)
    decreases |pre|
  {
    if pre != [] {
      var s := pre + rest;
      assert s[0] == pre[0] && pre[0] != ']';
      if |s| >= 3 {
        assert s[..3] != "](#" by { assert s[..3][0] == s[0]; }
        assert Anchors(s, k, path) == [s[0]] + Anchors(s[1..], k, path);
        assert s[1..] == pre[1..] + rest;
        AnchorsPlainPrefix(pre[1..], rest, k, path);
        SeqAssoc([pre[0]], pre[1..], Anchors(rest, k, path));
        assert pre == [pre[0]] + pre[1..];
      } else {
        assert Anchors(rest, k, path) == rest;
      }
    } else {
      assert pre + rest == rest;
    }
  }

  lemma NoLocalLink(s: string, k: AnchorClass, path: string)
    requires ']' !in s
    ensures Anchors(s, k, path) == s
  {
    assert !Contains(s, "](#") by {
      forall j | 0 <= j <= |s| ensures !OccursAt(s, "](#", j) {
        assert j < |s| ==> s[j] != ']';
      }
    }
    AnchorsNone(s, k, path);
  }

  /** With the intended class the same link is rewritten. */
  lemma IntendedRewritesDigits(path: string)
    ensures Anchors("](#h1)", Intended, path) == "](" + path + "#h1)"
  {
    assert InClass(Intended, 'h') && InClass(Intended, '1');
    AnchorRewritten("h1", "", Intended, path);
    assert "](#" + "h1" + ")" + "" == "](#h1)";
    assert "](" + path + "#" + "h1" + ")" + "" == "](" + path + "#h1)";
  }

  // ---------------------------------------------------------------------------
  // From markdown to markup

  /** The target and title of a reference-style link that has no
      definition: the Phantom index page for an issue reference, else the
      link extension's target, else the reference itself. */
  function FixLink(reference: string, span: string, lang: string): (r: (string, string))
    ensures FaLink(reference).Some? ==> r == (FaLink(reference).value, "")
    ensures FaLink(reference).None? && LinkExt(span, lang).Some? ==> r == LinkExt(span, lang).value
    ensures FaLink(reference).None? && LinkExt(span, lang).None? ==> r == (reference, "")
  {
    match ParseFa(reference)
    case Some(fa) => (FaUrl(fa), "")
    case None =>
      match LinkExt(span, lang)
      case Some(target) => target
      case None => (reference, "")
  }

  /** An issue reference wins over a link extension in the same link. */
  lemma FaBeforeExtension(issue: nat, year: nat, lang: string)
    requires 1 <= issue <= 99 && 1900 <= year <= 2099
    ensures FixLink(FaText(issue, year, ' ', None), "[" + FaText(issue, year, ' ', None) + "][wp]", lang)
            == (FaUrl(FaRef(issue, year)), "")
  {
    FaRoundTrip(issue, year, ' ', None);
  }

  /** A link that is neither an issue reference nor an extension points at
      its own reference text. */
  lemma UnresolvedLink(l: LinkRef, lang: string)
    requires Writable(l) && l.kind !in {"personname", "wp", "sw", "cargo", "foldoc", "rfc"}
    requires ParseFa(l.text).None?
    ensures FixLink(l.text, LinkSource(l), lang) == (l.text, "")
  {
    UnknownKind(l, lang);
  }

  const H1Start: CmarkOld.Event := CmarkOld.Start(CmarkOld.Heading(CmarkOld.H1, None, []))
  const H1End: CmarkOld.Event := CmarkOld.End(CmarkOld.Heading(CmarkOld.H1, None, []))

  /** The `{:?}` text of a list of events. */
  function DebugEvents(evs: seq<CmarkOld.Event>, debug: CmarkOld.Event -> string): string {
    "[" + DebugItems(evs, debug) + "]"
  }

  function DebugItems(evs: seq<CmarkOld.Event>, debug: CmarkOld.Event -> string): string
    decreases |evs|
  {
    if evs == [] then ""
    else if |evs| == 1 then debug(evs[0])
    else debug(evs[0]) + ", " + DebugItems(evs[1..], debug)
  }

  /** `md_to_html`: a post's events are its level-1 heading first, then the
      body; the heading's content is the title.  Both are serialised.  The
      markdown parser, which resolves broken links with `FixLink`, is left
      to the caller. */
  function MdToHtml(evs: seq<CmarkOld.Event>, env: Html.Env): (r: Result<(string, string), Html.Failure>)
    ensures r.Ok? ==> evs != [] && evs[0] == H1Start
                      && exists n :: 0 <= n < |evs[1..]| && evs[1..][n] == H1End
                                     && H1End !in evs[1..][..n]
                                     && Html.Collect(evs[1..][..n], env) == Ok(r.value.0)
                                     && Html.Collect(evs[1..][n + 1..], env) == Ok(r.value.1)
    ensures H1Start !in evs ==> r == Err(Html.Bail("No start of h1"))
    ensures H1Start in evs && evs[0] != H1Start ==> r.Err? && StartsWith(r.error.msg, "Unexpected prefix: ")
    ensures evs != [] && evs[0] == H1Start && H1End !in evs ==> r == Err(Html.Bail("No end of h1"))
  {
    match ItemsUntil(evs, H1Start)
    case None => Err(Html.Bail("No start of h1"))
    case Some((prefix, rest)) =>
      if prefix != [] then
        assert evs[0] != H1Start by { assert evs[0] == prefix[0]; }
        Err(Html.Bail("Unexpected prefix: " + DebugEvents(prefix, env.debug)))
      else
        assert evs == [H1Start] + rest;
        assert H1End !in evs ==> H1End !in rest;
        TitleAndBody(rest, env)
  }

  /** The events after the opening of the level-1 heading: its content up to
      its end is the title, everything after it the body. */
  function TitleAndBody(rest: seq<CmarkOld.Event>, env: Html.Env): (r: Result<(string, string), Html.Failure>)
    ensures r.Ok? ==> exists n :: 0 <= n < |rest| && rest[n] == H1End && H1End !in rest[..n]
                                  && Html.Collect(rest[..n], env) == Ok(r.value.0)
                                  && Html.Collect(rest[n + 1..], env) == Ok(r.value.1)
    ensures H1End !in rest ==> r == Err(Html.Bail("No end of h1"))
  {
    match ItemsUntil(rest, H1End)
    case None => Err(Html.Bail("No end of h1"))
    case Some((title, body)) =>
      var t :- Html.Collect(title, env);
      var b :- Html.Collect(body, env);
      var n := |title|;
      assert rest[..n] == title && rest[n] == H1End && rest[n + 1..] == body;
      Ok((t, b))
  }

  /** A post made of its heading, title events and body converts to the
      two serialised parts. */
  lemma MdToHtmlParts(title: seq<CmarkOld.Event>, body: seq<CmarkOld.Event>, env: Html.Env)
    requires H1End !in title
    ensures Html.Collect(title, env).Ok? && Html.Collect(body, env).Ok? ==>
              MdToHtml([H1Start] + title + [H1End] + body, env)
              == Ok((Html.Collect(title, env).value, Html.Collect(body, env).value))
  {
    var rest := title + [H1End] + body;
    SeqAssoc([H1Start], title + [H1End], body);
    SeqAssoc([H1Start], title, [H1End]);
    MdToHtmlOpen(rest, env);
    TitleAndBodyParts(title, body, env);
  }

  lemma MdToHtmlOpen(rest: seq<CmarkOld.Event>, env: Html.Env)
    ensures MdToHtml([H1Start] + rest, env) == TitleAndBody(rest, env)
  {
    ItemsUntilFirst([H1Start] + rest, H1Start, [], rest);
  }

  lemma TitleAndBodyParts(title: seq<CmarkOld.Event>, body: seq<CmarkOld.Event>, env: Html.Env)
    requires H1End !in title
    ensures Html.Collect(title, env).Ok? && Html.Collect(body, env).Ok? ==>
              TitleAndBody(title + [H1End] + body, env)
              == Ok((Html.Collect(title, env).value, Html.Collect(body, env).value))
  {
    ItemsUntilFirst(title + [H1End] + body, H1End, title, body);
  }

  /** The title, the teaser and the body of a post, as markup. */
  datatype PostParts = PostParts(title: string, teaser: string, body: string)

  /** `extract_parts`: the title and body of the whole post, and the teaser:
      the post's start up to `TeaserEnd`, with the front image, the update
      note and the anchor rewrite, converted in turn; the whole body when
      there is no teaser end.  Loading the language is modelled by the
      site's own languages; failing that, and the slicing panic, abort. */
  function ExtractParts(year: I16, slug: string, lang: string, m: string, update: Option<UpdateInfo>,
                        parse: string -> seq<CmarkOld.Event>, env: Html.Env, fl: Lookup)
    : (r: Result<PostParts, Html.Failure>)
    ensures r.Ok? ==> MdToHtml(parse(m), env) == Ok((r.value.title, r.value.body))
    ensures MdToHtml(parse(m), env).Err? ==> r == Err(MdToHtml(parse(m), env).error)
    ensures r.Ok? && TeaserEnd(m) == Ok(None) ==> r.value.teaser == r.value.body
    ensures r.Ok? && TeaserEnd(m).Ok? && TeaserEnd(m).value.Some? ==>
              var e := TeaserEnd(m).value.value;
              e <= |m| && MyLang.Parse(lang).Ok?
              && MdToHtml(parse(TeaserSource(m[..e], m, update, fl, MyLang.Parse(lang).value, PostPath(year, slug, lang))), env).Ok?
              && r.value.teaser == MdToHtml(parse(TeaserSource(m[..e], m, update, fl, MyLang.Parse(lang).value, PostPath(year, slug, lang))), env).value.1
    ensures TeaserEnd(m).Err? && MdToHtml(parse(m), env).Ok? ==> r.Err? && r.error.Panic?
  {
    var (title, body) :- MdToHtml(parse(m), env);
    match TeaserEnd(m)
    case Err(msg) => Err(Html.Panic(msg))
    case Ok(None) => Ok(PostParts(title, body, body))
    case Ok(Some(e)) =>
      match MyLang.Parse(lang)
      case Err(bad) => Err(Html.Panic(MyLang.Message(bad)))
      case Ok(l) =>
        var src := TeaserSource(m[..e], m, update, fl, l, PostPath(year, slug, lang));
        var (_, teaser) :- MdToHtml(parse(src), env);
        Ok(PostParts(title, teaser, body))
  }

  /** The markdown of a teaser: the cut-off start of the post with the front
      image, the update note and the anchor rewrite. */
  function TeaserSource(cut: string, m: string, update: Option<UpdateInfo>, fl: Lookup, l: MyLang.Lang, path: string)
    : (r: string)
    ensures !Contains(WithUpdate(WithFrontImage(cut, m), update, fl, l), "](#") ==>
              r == WithUpdate(WithFrontImage(cut, m), update, fl, l)
  {
    var t := WithUpdate(WithFrontImage(cut, m), update, fl, l);
    assert !Contains(t, "](#") ==> Anchors(t, AsWritten, path) == t by {
      if !Contains(t, "](#") { AnchorsNone(t, AsWritten, path); }
    }
    Anchors(t, AsWritten, path)
  }

  /** As written, a teaser's link to the heading `h1` is left pointing into
      whatever page shows the teaser, while the rewrite goes on after it. */
  lemma TeaserSourceKeepsDigitLink(cut: string, m: string, update: Option<UpdateInfo>, fl: Lookup, l: MyLang.Lang,
                                   path: string, pre: string, rest: string)
    requires ']' !in pre
    ensures WithUpdate(WithFrontImage(cut, m), update, fl, l) == pre + "](#h1)" + rest ==>
              TeaserSource(cut, m, update, fl, l, path) == pre + "](#h1)" + Anchors(rest, AsWritten, path)
  {
    if WithUpdate(WithFrontImage(cut, m), update, fl, l) == pre + "](#h1)" + rest {
      SeqAssoc(pre, "](#h1)", rest);
      AnchorsPlainPrefix(pre, "](#h1)" + rest, AsWritten, path);
      AsWrittenKeepsDigitLink(rest, path);
      SeqAssoc(pre, "](#h1)", Anchors(rest, AsWritten, path));
    }
  }

  /** The figure for an image whose reference is `cover`: the cover of the
      Phantom issue the image text names, linked to itself, with the text,
      the caption and the title under it.  A text that names no issue is the
      panic of `unwrap`. */
  function CoverFigure(classes: string, inner: string, caption: string, title: string): (r: Result<string, string>)
    ensures r.Err? <==> ParseFa(inner).None?
    ensures r.Ok? ==> StartsWith(r.value, "<figure class='fa-cover " + classes + "'><a href='"
                                          + FaCover(ParseFa(inner).value) + "'>")
                      && EndsWith(r.value, "<figcaption>" + inner + " " + caption + " " + title + "</figcaption></figure>")
  {
    match ParseFa(inner)
    case None => Err("called `Result::unwrap()` on an `Err` value: ()")
    case Some(fa) =>
      var url := FaCover(fa);
      var head := "<figure class='fa-cover " + classes + "'><a href='" + url + "'>";
      var tail := "<figcaption>" + inner + " " + caption + " " + title + "</figcaption></figure>";
      var img := "<img alt='Omslagsbild " + inner + "' src='" + url + "' width='150'/></a>";
      Bracketing(head, img, tail);
      Ok(head + img + tail)
  }

  /** The cover of an issue reference is the index's cover image of that
      issue. */
  lemma CoverOfIssue(classes: string, issue: nat, year: nat, caption: string, title: string)
    requires 1 <= issue <= 99 && 1900 <= year <= 2099
    ensures CoverFigure(classes, FaText(issue, year, ' ', None), caption, title).Ok?
    ensures StartsWith(CoverFigure(classes, FaText(issue, year, ' ', None), caption, title).value,
                       "<figure class='fa-cover " + classes + "'><a href='" + FaCover(FaRef(issue, year)) + "'>")
  {
    FaRoundTrip(issue, year, ' ', None);
  }
}

=== FILE: safe_markdown.dfy ===
/** Rendering of visitor-supplied markdown (comments).  Raw HTML is neutralised
    into plain text, and headings are pushed down so that the topmost one lands
    on level 3, below the page's own headings.  The markdown parser and the HTML
    writer of the library are parameters: what is modelled is the rewrite of the
    event stream between them. */
module SafeMarkdown {
  import opened CmarkNew

  /** Comment headings are pushed to this level or deeper. */
  const BelowLevel: int := 3

  /** `hl`: the heading level of a number, clamped to 1..6. */
  function Hl(i: int): (l: HeadingLevel)
    ensures LevelNumber(l) == if i <= 1 then 1 else if i >= 6 then 6 else i
  {
    if i <= 1 then H1
    else if i == 2 then H2
    else if i == 3 then H3
    else if i == 4 then H4
    else if i == 5 then H5
    else H6
  }

  /** `hl` undoes `lh`. */
  lemma HlOfLevel(l: HeadingLevel)
    ensures Hl(LevelNumber(l)) == l
  {
  }

  function Max(a: int, b: int): int {
    if a >= b then a else b
  }

  /** One event of the rewrite, and the shift after it. */
  function Step(e: Event, hdiff: int): (Event, int) {
    match e
    case Html(s) => (Text(s), hdiff)
    case InlineHtml(s) => (Text(s), hdiff)
    case Start(Heading(level, id, classes, attrs)) =>
      var h := Max(hdiff, BelowLevel - LevelNumber(level));
      (Start(Heading(Hl(LevelNumber(level) + h), id, classes, attrs)), h)
    case End(HeadingEnd(level)) =>
      (End(HeadingEnd(Hl(LevelNumber(level) + hdiff))), hdiff)
    case _ => (e, hdiff)
  }

  /** The shift in force after the events `events`, starting from `hdiff`. */
  function ShiftAfter(events: seq<Event>, hdiff: int): int
    decreases |events|
  {
    if events == [] then hdiff else ShiftAfter(events[1..], Step(events[0], hdiff).1)
  }

  /** The rewritten event stream. */
  function Rewrite(events: seq<Event>, hdiff: int): (r: seq<Event>)
    ensures |r| == |events|
    ensures forall i :: 0 <= i < |r| ==> !r[i].Html? && !r[i].InlineHtml?
    ensures forall i :: 0 <= i < |r| && (events[i].Html? || events[i].InlineHtml?) ==>
              r[i] == Text(if events[i].Html? then events[i].html else events[i].inlineHtml)
    ensures forall i :: 0 <= i < |r| && r[i].Start? && r[i].tag.Heading? ==>
              LevelNumber(r[i].tag.level) >= BelowLevel
    ensures forall i :: (0 <= i < |r| && !events[i].Html? && !events[i].InlineHtml?
                         && !(events[i].Start? && events[i].tag.Heading?)
                         && !(events[i].End? && events[i].tagEnd.HeadingEnd?)) ==> r[i] == events[i]
    ensures forall i :: 0 <= i < |r| && events[i].Start? && events[i].tag.Heading? ==>
              r[i].Start? && r[i].tag.Heading? && r[i].tag.id == events[i].tag.id
              && r[i].tag.classes == events[i].tag.classes && r[i].tag.attrs == events[i].tag.attrs
    decreases |events|
  {
    if events == [] then []
    else
      var (e, h) := Step(events[0], hdiff);
      [e] + Rewrite(events[1..], h)
  }

  /** `safe_md2html`: parse, rewrite with no shift yet, and write HTML. */
  function SafeMd2Html(raw: string, parse: string -> seq<Event>, render: seq<Event> -> string): (html: string)
    ensures exists evs: seq<Event> :: |evs| == |parse(raw)| && html == render(evs)
              && forall i :: 0 <= i < |evs| ==> !evs[i].Html? && !evs[i].InlineHtml?
  {
    render(Rewrite(parse(raw), 0))
  }

  // ---------------------------------------------------------------------------
  // How the shift evolves

  /** Event `i` of the output is the step of event `i` under the shift left by
      the events before it. */
  lemma {:induction false} RewriteAt(events: seq<Event>, hdiff: int, i: nat)
    requires i < |events|
    ensures Rewrite(events, hdiff)[i] == Step(events[i], ShiftAfter(events[..i], hdiff)).0
    ensures ShiftAfter(events[..i + 1], hdiff) == Step(events[i], ShiftAfter(events[..i], hdiff)).1
    decreases i
  {
    var h := Step(events[0], hdiff).1;
    assert events[..i + 1][1..] == events[1..][..i];
    if i > 0 {
      RewriteAt(events[1..], h, i - 1);
      assert events[..i][1..] == events[1..][..i - 1];
    }
  }

  /** The shift never decreases. */
  lemma {:induction false} ShiftGrows(events: seq<Event>, hdiff: int)
    ensures ShiftAfter(events, hdiff) >= hdiff
    decreases |events|
  {
    if events != [] {
      ShiftGrows(events[1..], Step(events[0], hdiff).1);
    }
  }

  /** Starting without a shift, the shift stays within 0..2. */
  lemma {:induction false} ShiftBounded(events: seq<Event>, hdiff: int)
    requires 0 <= hdiff <= 2
    ensures 0 <= ShiftAfter(events, hdiff) <= 2
    decreases |events|
  {
    if events != [] {
      ShiftBounded(events[1..], Step(events[0], hdiff).1);
    }
  }

  /** Only heading starts change the shift. */
  lemma {:induction false} ShiftUnchanged(events: seq<Event>, hdiff: int)
    requires forall k :: 0 <= k < |events| ==> !(events[k].Start? && events[k].tag.Heading?)
    ensures ShiftAfter(events, hdiff) == hdiff
    decreases |events|
  {
    if events != [] {
      ShiftUnchanged(events[1..], hdiff);
    }
  }

  lemma {:induction false} ShiftAfterAppend(a: seq<Event>, b: seq<Event>, hdiff: int)
    ensures ShiftAfter(a + b, hdiff) == ShiftAfter(b, ShiftAfter(a, hdiff))
    decreases |a|
  {
    if a != [] {
      assert (a + b)[0] == a[0] && (a + b)[1..] == a[1..] + b;
      ShiftAfterAppend(a[1..], b, Step(a[0], hdiff).1);
    } else {
      assert a + b == b;
    }
  }

  lemma ShiftKept(events: seq<Event>, i: nat, j: nat)
    requires i < j <= |events|
    requires forall k :: i < k < j ==> !(events[k].Start? && events[k].tag.Heading?)
    ensures ShiftAfter(events[..j], 0) == ShiftAfter(events[..i + 1], 0)
  {
    var between := events[i + 1..j];
    assert events[..j] == events[..i + 1] + between;
    ShiftAfterAppend(events[..i + 1], between, 0);
    ShiftUnchanged(between, ShiftAfter(events[..i + 1], 0));
  }

  lemma StepHeadingEnd(l: HeadingLevel, hdiff: int)
    ensures Step(End(HeadingEnd(l)), hdiff).0 == End(HeadingEnd(Hl(LevelNumber(l) + hdiff)))
  {
  }

  /** A heading's end gets the same level as its start, when no other heading
      starts in between (headings do not nest). */
  lemma EndLevelMatchesStart(events: seq<Event>, i: nat, j: nat)
    requires i < j < |events|
    requires events[i].Start? && events[i].tag.Heading?
    requires events[j] == End(HeadingEnd(events[i].tag.level))
    requires forall k :: i < k < j ==> !(events[k].Start? && events[k].tag.Heading?)
    ensures Rewrite(events, 0)[j] == End(HeadingEnd(Rewrite(events, 0)[i].tag.level))
  {
    RewriteAt(events, 0, i);
    RewriteAt(events, 0, j);
    StepHeading(events[i], ShiftAfter(events[..i], 0));
    ShiftKept(events, i, j);
    StepHeadingEnd(events[i].tag.level, ShiftAfter(events[..j], 0));
  }

  lemma StepHeading(e: Event, hdiff: int)
    requires e.Start? && e.tag.Heading?
    ensures var h := Max(hdiff, BelowLevel - LevelNumber(e.tag.level));
            Step(e, hdiff).1 == h && Step(e, hdiff).0.Start? && Step(e, hdiff).0.tag.Heading?
            && Step(e, hdiff).0.tag.level == Hl(LevelNumber(e.tag.level) + h)
  {
  }

  lemma ShiftOrder(events: seq<Event>, i: nat, j: nat)
    requires i < j <= |events|
    ensures ShiftAfter(events[..j], 0) >= ShiftAfter(events[..i + 1], 0)
  {
    assert events[..j] == events[..i + 1] + events[i + 1..j];
    ShiftAfterAppend(events[..i + 1], events[i + 1..j], 0);
    ShiftGrows(events[i + 1..j], ShiftAfter(events[..i + 1], 0));
  }

  lemma LevelOrder(li: int, lj: int, hi: int, hj: int)
    requires li <= lj && hi <= hj
    ensures LevelNumber(Hl(li + hi)) <= LevelNumber(Hl(lj + Max(hj, BelowLevel - lj)))
  {
  }

  /** Headings keep their relative order: a deeper heading later in a comment is
      never rendered above an earlier, shallower one. */
  lemma DeeperStaysDeeper(events: seq<Event>, i: nat, j: nat)
    requires i < j < |events|
    requires events[i].Start? && events[i].tag.Heading?
    requires events[j].Start? && events[j].tag.Heading?
    requires LevelNumber(events[i].tag.level) <= LevelNumber(events[j].tag.level)
    ensures LevelNumber(Rewrite(events, 0)[i].tag.level) <= LevelNumber(Rewrite(events, 0)[j].tag.level)
  {
    RewriteAt(events, 0, i);
    RewriteAt(events, 0, j);
    var hi := ShiftAfter(events[..i + 1], 0);
    var hj := ShiftAfter(events[..j], 0);
    StepHeading(events[i], ShiftAfter(events[..i], 0));
    StepHeading(events[j], hj);
    ShiftOrder(events, i, j);
    LevelOrder(LevelNumber(events[i].tag.level), LevelNumber(events[j].tag.level), hi, hj);
  }

  // ---------------------------------------------------------------------------
  // The source's examples, on the events the parser produces for them

  function H(level: HeadingLevel): Tag {
    Heading(level, Wrappers.None, [], [])
  }

  /** A level-1 and a level-2 heading become levels 3 and 4. */
  lemma TopHeadingsPushedDown()
    ensures Rewrite([Start(H(H1)), Text("Rubrik"), End(HeadingEnd(H1)),
                     Start(H(H2)), Text("Underrubrik"), End(HeadingEnd(H2))], 0)
         == [Start(H(H3)), Text("Rubrik"), End(HeadingEnd(H3)),
             Start(H(H4)), Text("Underrubrik"), End(HeadingEnd(H4))]
  {
  }

  /** Headings already at levels 3 and 4 stay there. */
  lemma DeepHeadingsKept()
    ensures Rewrite([Start(H(H3)), Text("Rubrik"), End(HeadingEnd(H3)),
                     Start(H(H4)), Text("Underrubrik"), End(HeadingEnd(H4))], 0)
         == [Start(H(H3)), Text("Rubrik"), End(HeadingEnd(H3)),
             Start(H(H4)), Text("Underrubrik"), End(HeadingEnd(H4))]
  {
    var evs := [Start(H(H3)), Text("Rubrik"), End(HeadingEnd(H3)),
                Start(H(H4)), Text("Underrubrik"), End(HeadingEnd(H4))];
    assert Step(evs[0], 0) == (evs[0], 0);
    assert Step(evs[3], 0) == (evs[3], 0);
    assert forall i :: 0 <= i < |evs| ==> Step(evs[i], 0) == (evs[i], 0);
    Unshifted(evs);
  }

  /** Events that a zero shift leaves alone, and that keep it zero, pass
      through the rewrite unchanged. */
  lemma {:induction false} Unshifted(events: seq<Event>)
    requires forall i :: 0 <= i < |events| ==> Step(events[i], 0) == (events[i], 0)
    ensures Rewrite(events, 0) == events
    decreases |events|
  {
    if events != [] {
      assert Step(events[0], 0) == (events[0], 0);
      assert forall i :: 0 <= i < |events[1..]| ==> events[1..][i] == events[i + 1];
      Unshifted(events[1..]);
      assert [events[0]] + events[1..] == events;
    }
  }

  /** An inline tag and a script block come out as text. */
  lemma RawHtmlBecomesText()
    ensures Rewrite([InlineHtml("<em>"), Text("en"), InlineHtml("</em>"),
                     Html("<script>evil</script>")], 0)
         == [Text("<em>"), Text("en"), Text("</em>"), Text("<script>evil</script>")]
  {
  }
}

=== FILE: seqs.dfy ===
/** Searching sequences, shared by the modules that pick the first element
    with some property. */
module Seqs {
  import opened Wrappers

  /** The position of the first element satisfying `p`. */
  function FirstWhere<T>(xs: seq<T>, p: T -> bool): (r: Option<nat>)
    ensures r.Some? ==> r.value < |xs| && p(xs[r.value])
    ensures r.Some? ==> forall k :: 0 <= k < r.value ==> !p(xs[k])
    ensures r.None? ==> forall k :: 0 <= k < |xs| ==> !p(xs[k])
  {
    if xs == [] then None
    else if p(xs[0]) then Some(0)
    else
      match FirstWhere(xs[1..], p)
      case None => None
      case Some(k) =>
        assert forall j :: 1 <= j <= k ==> xs[j] == xs[1..][j - 1];
        Some(k + 1)
  }
}

=== FILE: server.dfy ===
/** The page handlers' own decisions: parsing `slug.lang` path segments, the
    redirects of paths that lack a language, what to do with the comment id
    in a page's query, and which language version a fallback sends to.  The
    queries behind them are not part of this model; their results are
    inputs. */
module Server {
  import opened Wrappers
  import opened Strings
  import opened Ints
  import opened Seqs
  import Slug
  import MyLang
  import Post
  import Comment
  import ServerError

  /** A redirect reply: `found` answers 302, `see_other` 303. */
  datatype Redirect = Found(location: string) | SeeOther(location: string)

  function Status(r: Redirect): (code: nat)
    ensures code == 302 <==> r.Found?
    ensures code == 303 <==> r.SeeOther?
  {
    match r
    case Found(_) => 302
    case SeeOther(_) => 303
  }

  /** A path segment `slug.lang`. */
  datatype SlugAndLang = SlugAndLang(slug: Slug.Slug, lang: MyLang.Lang)

  /** `SlugAndLang::from_str`: split at the first `.`; the part before must be
      a slug and the part after a site language code. */
  function ParseSlugAndLang(s: string): (r: Result<SlugAndLang, ()>)
    ensures '.' !in s ==> r.Err?
    ensures r.Ok? ==> s == r.value.slug.text + "." + MyLang.Code(r.value.lang)
    ensures r.Ok? ==> Slug.Verify(r.value.slug.text)
  {
    match SplitOnce(s, '.')
    case None => Err(())
    case Some((slug, lang)) =>
      match Slug.Parse(slug)
      case Err(_) => Err(())
      case Ok(sl) =>
        match MyLang.Parse(lang)
        case Err(_) => Err(())
        case Ok(l) => Ok(SlugAndLang(sl, l))
  }

  /** Every slug and language make a segment that parses back to them. */
  lemma ParseSlugAndLangDisplay(x: SlugAndLang)
    requires Slug.Verify(x.slug.text)
    ensures ParseSlugAndLang(x.slug.text + "." + MyLang.Code(x.lang)) == Ok(x)
  {
    Slug.VerifiedIsPathSafe(x.slug.text);
    SplitOnceOf(x.slug.text, MyLang.Code(x.lang), '.');
    assert x.slug.text + "." + MyLang.Code(x.lang) == x.slug.text + ['.'] + MyLang.Code(x.lang);
  }

  /** Segments the parse refuses: no dot, a language after the second dot, and
      a slug that starts with a dash. */
  lemma RefusedSegments()
    ensures ParseSlugAndLang("post").Err?
    ensures ParseSlugAndLang("post.en.sv").Err?
    ensures ParseSlugAndLang("-post.en").Err?
  {
    assert '.' !in "post";
    RefusedTwoDots();
    RefusedDash();
  }

  lemma RefusedTwoDots()
    ensures ParseSlugAndLang("post.en.sv").Err?
  {
    assert "post.en.sv" == "post" + ['.'] + "en.sv";
    SplitOnceOf("post", "en.sv", '.');
    assert MyLang.Parse("en.sv").Err?;
  }

  lemma RefusedDash()
    ensures ParseSlugAndLang("-post.en").Err?
  {
    assert "-post.en" == "-post" + ['.'] + "en";
    SplitOnceOf("-post", "en", '.');
    assert !Slug.Verify("-post") by { assert "-post"[0] == '-'; }
    assert Slug.Parse("-post").Err?;
  }

  /** The site root sends to the front page of the visitor's language. */
  function RootRedirect(lang: MyLang.Lang): (r: Redirect)
    ensures r.SeeOther? && |r.location| == 3
    ensures r.location[0] == '/' && MyLang.Parse(r.location[1..]) == Ok(lang)
  {
    MyLang.ParseCode(lang);
    var loc := "/" + MyLang.Code(lang);
    assert loc[1..] == MyLang.Code(lang);
    SeeOther(loc)
  }

  /** A bare year sends to that year's page in the visitor's language. */
  function YearRedirect(year: I16, lang: MyLang.Lang): (r: Redirect)
    ensures r.SeeOther?
    ensures var y := IntToString(year);
            StartsWith(r.location, "/" + y + "/")
            && MyLang.Parse(r.location[|y| + 2..]) == Ok(lang)
  {
    MyLang.ParseCode(lang);
    var y := IntToString(year);
    var loc := "/" + y + "/" + MyLang.Code(lang);
    assert loc[..|y| + 2] == "/" + y + "/";
    assert loc[|y| + 2..] == MyLang.Code(lang);
    SeeOther(loc)
  }

  /** The year page: a year without posts in the language does not exist. */
  function YearPage<T>(posts: seq<T>): (r: Result<seq<T>, ServerError.ViewError>)
    ensures r.Err? <==> posts == []
    ensures r.Err? ==> r.error == ServerError.NotFound
    ensures r.Ok? ==> r.value == posts
  {
    if posts == [] then Err(ServerError.NotFound) else Ok(posts)
  }

  /** What a post page does with its `c` query parameter. */
  datatype CommentQuery = GoTo(target: Redirect) | Show(badComment: bool)

  /** `bad_comment`: a comment id that is among the post's public comments
      sends to that comment's anchor; any other id shows the page with the
      note that the comment is not (yet) public; no id shows the page as is. */
  function BadComment(year: I16, slug: SlugAndLang, query: Option<I32>, publicIds: seq<I32>)
    : (r: CommentQuery)
    ensures query.None? ==> r == Show(false)
    ensures query.Some? && query.value !in publicIds ==> r == Show(true)
    ensures query.Some? && query.value in publicIds ==>
              r.GoTo? && r.target.Found?
              && r.target.location == Post.PagePath(year, slug.slug.text, MyLang.Code(slug.lang))
                                      + "#" + Comment.HtmlId(query.value)
  {
    match query
    case None => Show(false)
    case Some(qc) =>
      if qc in publicIds then
        GoTo(Found(Post.PagePath(year, slug.slug.text, MyLang.Code(slug.lang)) + "#" + Comment.HtmlId(qc)))
      else Show(true)
  }

  /** The redirect for a published comment is that comment's URL. */
  lemma BadCommentIsCommentUrl(year: I16, slug: SlugAndLang, c: Comment.Comment, post: Post.PostLink,
                               publicIds: seq<I32>)
    requires c.id in publicIds
    requires post.year == year && post.slug == slug.slug && post.lang == slug.lang
    ensures BadComment(year, slug, Some(c.id), publicIds)
            == GoTo(Found(Comment.Url(Comment.PostComment(c, post))))
  {
  }

  /** The language a fallback picks among the existing versions: the
      preferred one when it exists, otherwise the first one listed. */
  function Prefer(langs: seq<string>, pref: string): (r: Option<string>)
    ensures r.None? <==> langs == []
    ensures pref in langs ==> r == Some(pref)
    ensures pref !in langs && langs != [] ==> r == Some(langs[0])
  {
    match FirstWhere(langs, l => l == pref)
    case Some(i) => Some(langs[i])
    case None => if langs == [] then None else Some(langs[0])
  }

  /** Whatever is picked is one of the existing versions. */
  lemma PreferExists(langs: seq<string>, pref: string)
    requires langs != []
    ensures Prefer(langs, pref).value in langs
  {
  }

  /** `page_fallback`: a post asked for without a language goes to its
      version in the preferred language, else to another one; without any
      version it does not exist. */
  function PageFallback(year: I16, slug: Slug.Slug, pref: MyLang.Lang, langs: seq<string>)
    : (r: Result<Redirect, ServerError.ViewError>)
    ensures r.Err? <==> langs == []
    ensures r.Err? ==> r.error == ServerError.NotFound
    ensures r.Ok? ==> r.value.Found?
    ensures MyLang.Code(pref) in langs ==> r == Ok(Found(Post.PagePath(year, slug.text, MyLang.Code(pref))))
    ensures r.Ok? ==> exists l :: l in langs && r.value.location == Post.PagePath(year, slug.text, l)
  {
    match Prefer(langs, MyLang.Code(pref))
    case None => Err(ServerError.NotFound)
    case Some(l) => Ok(Found(Post.PagePath(year, slug.text, l)))
  }

  /** `metafallback`: two old names have fixed places; any other meta page
      asked for without a language goes to its version in the preferred
      language, else to the first one there is. */
  function MetaFallback(slug: string, pref: MyLang.Lang, langs: seq<string>)
    : (r: Result<Redirect, ServerError.ViewError>)
    ensures slug == "about" ==> r == Ok(Found("/site.en"))
    ensures slug == "RasmusKaj" ==> r == Ok(Found("/rkaj.en"))
    ensures slug != "about" && slug != "RasmusKaj" ==>
              (r.Err? <==> langs == [])
              && (r.Err? ==> r.error == ServerError.NotFound)
              && (r.Ok? ==> exists l :: l in langs && r.value == Found("/" + slug + "." + l))
              && (MyLang.Code(pref) in langs ==> r == Ok(Found("/" + slug + "." + MyLang.Code(pref))))
              && (MyLang.Code(pref) !in langs && langs != [] ==> r == Ok(Found("/" + slug + "." + langs[0])))
  {
    if slug == "about" then Ok(Found("/site.en"))
    else if slug == "RasmusKaj" then Ok(Found("/rkaj.en"))
    else
      match Prefer(langs, MyLang.Code(pref))
      case None => Err(ServerError.NotFound)
      case Some(l) => Ok(Found("/" + slug + "." + l))
  }

  /** A meta page fallback lands on a segment the meta page route accepts,
      when the slug is valid and the version found is in a site language. */
  lemma MetaFallbackParses(slug: Slug.Slug, pref: MyLang.Lang, langs: seq<string>)
    requires Slug.Verify(slug.text) && slug.text != "about" && slug.text != "RasmusKaj"
    requires forall i :: 0 <= i < |langs| ==> MyLang.Parse(langs[i]).Ok?
    requires langs != []
    ensures var r := MetaFallback(slug.text, pref, langs);
            r.Ok? && ParseSlugAndLang(r.value.location[1..]).Ok?
            && ParseSlugAndLang(r.value.location[1..]).value.slug == slug
  {
    var r := MetaFallback(slug.text, pref, langs);
    var l := Prefer(langs, MyLang.Code(pref)).value;
    PreferExists(langs, MyLang.Code(pref));
    var i :| 0 <= i < |langs| && langs[i] == l;
    var lang := MyLang.Parse(l).value;
    assert r.value.location[1..] == slug.text + "." + MyLang.Code(lang);
    ParseSlugAndLangDisplay(SlugAndLang(slug, lang));
  }

  /** The robots file: robots may go everywhere but `/tmp/`. */
  const RobotsTxt: string := "User-agent: *\nDisallow: /tmp/\n"
}

=== FILE: server_comment.dfy ===
/** Posting a comment: the checks a submitted comment passes before it is
    stored, whether it is published at once, and where the commenter is sent
    afterwards.  The database reads and the insert are not part of this model:
    the post's update time, the counts of the commenter's earlier comments and
    the id the insert returns are inputs, as is the URL parser. */
module ServerComment {
  import opened Wrappers
  import opened Strings
  import opened Ints
  import DateTime
  import Post
  import Comment
  import ServerError

  /** The earlier comments of the same name and email, counted per
      `(is_public, is_spam)` pair. */
  datatype Group = Group(isPublic: bool, isSpam: bool, count: nat)

  /** Total count of the groups that satisfy `p`: the reference for the tally. */
  function CountWhere(groups: seq<Group>, p: Group -> bool): nat {
    if groups == [] then 0
    else
      var last := |groups| - 1;
      CountWhere(groups[..last], p) + (if p(groups[last]) then groups[last].count else 0)
  }

  /** Groups counted as spam: every spam group, public or not. */
  predicate SpamGroup(g: Group) {
    g.isSpam
  }

  /** Groups counted as public: public ones that are not spam. */
  predicate CleanPublic(g: Group) {
    g.isPublic && !g.isSpam
  }

  /** The two totals of the tally. */
  datatype Totals = Totals(public: nat, spam: nat)

  /** The loop over the counts: a spam group counts as spam even when it is
      public too; a public group counts as public only when it is not spam. */
  method Tally(groups: seq<Group>) returns (t: Totals)
    ensures t.spam == CountWhere(groups, SpamGroup)
    ensures t.public == CountWhere(groups, CleanPublic)
  {
    var public, spam := 0, 0;
    for i := 0 to |groups|
      invariant spam == CountWhere(groups[..i], SpamGroup)
      invariant public == CountWhere(groups[..i], CleanPublic)
    {
      assert groups[..i + 1][..i] == groups[..i];
      var g := groups[i];
      if g.isSpam {
        spam := spam + g.count;
      } else if g.isPublic {
        public := public + g.count;
      }
    }
    assert groups[..|groups|] == groups;
    t := Totals(public, spam);
  }

  /** No spam total unless some spam group has comments. */
  lemma {:induction false} CountWhereZero(groups: seq<Group>, p: Group -> bool)
    ensures CountWhere(groups, p) == 0 <==> forall i :: 0 <= i < |groups| && p(groups[i]) ==> groups[i].count == 0
  {
    if groups != [] {
      var last := |groups| - 1;
      CountWhereZero(groups[..last], p);
      assert forall i :: 0 <= i < last ==> groups[..last][i] == groups[i];
    }
  }

  /** The answer to a `url` field: absent, or all white space, means no url;
      anything else must parse, and then its parsed form is stored. */
  function UrlField(url: Option<string>, parse: string -> Option<string>)
    : (r: Result<Option<string>, ServerError.ViewError>)
    ensures url.None? ==> r == Ok(None)
    ensures url.Some? && Trim(url.value) == [] ==> r == Ok(None)
    ensures url.Some? && Trim(url.value) != [] && parse(url.value).None? ==> r == Err(ServerError.BadRequest("Bad url"))
    ensures r.Ok? && r.value.Some? ==> url.Some? && parse(url.value) == r.value
  {
    match url
    case None => Ok(None)
    case Some(u) =>
      if Trim(u) == [] then Ok(None)
      else
        match parse(u)
        case None => Err(ServerError.BadRequest("Bad url"))
        case Some(parsed) => Ok(Some(parsed))
  }

  /** A string of white space only is no url, however long. */
  lemma BlankUrl(n: nat)
    ensures UrlField(Some(seq(n, _ => ' ')), _ => None) == Ok(None)
  {
    var s := seq(n, _ => ' ');
    TrimSpaces(s);
  }

  lemma {:induction false} TrimSpaces(s: string)
    requires forall i :: 0 <= i < |s| ==> s[i] == ' '
    ensures Trim(s) == []
  {
  }

  /** What gets stored: the url, and whether the comment is public at once. */
  datatype Accepted = Accepted(url: Option<string>, isPublic: bool)

  /** `postcomment` up to the insert, its checks in order: the CSRF token, the
      age of the post, the url, and earlier spam from the same commenter.  A
      commenter with an earlier public comment that is not spam gets published
      at once; everything else waits for moderation. */
  method Accept(csrf: Result<(), ServerError.ViewError>, updated: DateTime.DateTime,
                now: DateTime.DateTime, url: Option<string>,
                parse: string -> Option<string>, groups: seq<Group>)
    returns (r: Result<Accepted, ServerError.ViewError>)
    ensures csrf.Err? ==> r == Err(csrf.error)
    ensures csrf.Ok? && DateTime.OldAge(updated, now).Some? ==>
              r == Err(ServerError.BadRequest("This post is too old to comment."))
    ensures r.Ok? <==> csrf.Ok? && DateTime.OldAge(updated, now).None? && UrlField(url, parse).Ok?
                       && forall i :: 0 <= i < |groups| && groups[i].isSpam ==> groups[i].count == 0
    ensures (csrf.Ok? && DateTime.OldAge(updated, now).None? && UrlField(url, parse).Ok?
             && CountWhere(groups, SpamGroup) > 0) ==> r == Err(ServerError.BadRequest("This seems like spam"))
    ensures r.Ok? ==> r.value.url == UrlField(url, parse).value
    ensures r.Ok? ==> (r.value.isPublic <==> exists i :: 0 <= i < |groups| && groups[i].isPublic && groups[i].count > 0)
  {
    if csrf.Err? {
      return Err(csrf.error);
    }
    if DateTime.OldAge(updated, now).Some? {
      return Err(ServerError.BadRequest("This post is too old to comment."));
    }
    var u := UrlField(url, parse);
    if u.Err? {
      return Err(u.error);
    }
    var t := Tally(groups);
    CountWhereZero(groups, SpamGroup);
    if t.spam > 0 {
      return Err(ServerError.BadRequest("This seems like spam"));
    }
    CountWhereZero(groups, CleanPublic);
    r := Ok(Accepted(u.value, t.public > 0));
  }

  /** `my_found`: where the commenter lands.  A published comment is shown at
      its anchor; one held for moderation gets the post with a notice. */
  function MyFound(post: Post.PostLink, public: bool, id: I32): (r: string)
    ensures var u := Post.LinkUrl(post);
            var tail := if public then "#" + Comment.HtmlId(id) else "?c=" + IntToString(id) + "#cxmod";
            |u| <= |r| && r[..|u|] == u && r[|u|..] == tail
  {
    var url := Post.LinkUrl(post);
    if public then
      UrlThenTail(url, "#" + Comment.HtmlId(id));
      url + ("#" + Comment.HtmlId(id))
    else
      UrlThenTail(url, "?c=" + IntToString(id) + "#cxmod");
      url + ("?c=" + IntToString(id) + "#cxmod")
  }

  /** A url followed by a tail starts with the url, and the tail is what follows it. */
  lemma UrlThenTail(url: string, tail: string)
    ensures StartsWith(url + tail, url) && (url + tail)[|url|..] == tail
  {
    assert (url + tail)[..|url|] == url;
  }

  /** A published comment's landing place is the comment's own URL. */
  lemma MyFoundPublic(post: Post.PostLink, c: Comment.Comment)
    ensures MyFound(post, true, c.id) == Comment.Url(Comment.PostComment(c, post))
  {
    var u, h := Post.LinkUrl(post), Comment.HtmlId(c.id);
    var b := Comment.Url(Comment.PostComment(c, post));
    SameSplit(MyFound(post, true, c.id), b, u, h);
  }

  /** Two strings that are both `u`, a `#` and `h` are equal. */
  lemma SameSplit(a: string, b: string, u: string, h: string)
    requires |a| >= |u| && a[..|u|] == u && a[|u|..] == "#" + h
    requires |u| < |b| && b[..|u|] == u && b[|u|] == '#' && b[|u| + 1..] == h
    ensures a == b
  {
    assert a == a[..|u|] + a[|u|..];
    assert b == b[..|u|] + [b[|u|]] + b[|u| + 1..];
  }

  /** The next-to-last char of a published comment's landing place is the
      `c` of its anchor or a hex digit. */
  lemma PublicTail(post: Post.PostLink, id: I32)
    ensures var a := MyFound(post, true, id);
            |a| >= 2 && (a[|a| - 2] == 'c' || IsHexDigit(a[|a| - 2]))
  {
    AnchorTail(MyFound(post, true, id), |Post.LinkUrl(post)|, Comment.HtmlId(id));
  }

  /** A string that goes on with `#` and a fragment id after its first `k`
      chars has the `c` or a hex digit next to last. */
  lemma AnchorTail(a: string, k: nat, h: string)
    requires k <= |a| && a[k..] == "#" + h
    requires |h| >= 2 && h[0] == 'c' && AllChars(h[1..], IsHexDigit)
    ensures |a| >= 2 && (a[|a| - 2] == 'c' || IsHexDigit(a[|a| - 2]))
  {
    var t := a[k..];
    assert a[|a| - 2] == t[|t| - 2] == h[|h| - 2];
    if |h| > 2 {
      assert h[|h| - 2] == h[1..][|h| - 3];
    }
  }

  /** A held comment's landing place ends in `od`. */
  lemma HeldTail(post: Post.PostLink, id: I32)
    ensures var b := MyFound(post, false, id);
            |b| >= 2 && b[|b| - 2] == 'o'
  {
    var b := MyFound(post, false, id);
    var u := Post.LinkUrl(post);
    assert b[|u|..] == "?c=" + IntToString(id) + "#cxmod";
    assert b[|b| - 6..] == "#cxmod";
  }

  /** The two landing places never coincide: the held one ends in `#cxmod`,
      which no comment anchor does. */
  lemma MyFoundDistinct(post: Post.PostLink, id: I32, other: Post.PostLink, held: I32)
    ensures MyFound(post, true, id) != MyFound(other, false, held)
  {
    PublicTail(post, id);
    HeldTail(other, held);
  }
}

=== FILE: server_error.dfy ===
/** The errors a page handler can end in, the HTTP response each becomes, and
    the conversions from lower-level failures.  Logging is not modelled. */
module ServerError {
  import opened Wrappers

  /** `ViewError`; its `Err` variant, a 500 with a message, is `Internal` here. */
  datatype ViewError =
    | NotFound
    | BadRequest(msg: string)
    | ServiceUnavailable
    | Internal(msg: string)

  /** An error page: the status code, a headline and an explanation. */
  datatype Response = Response(status: nat, message: string, detail: string)

  const NotFoundDetail: string :=
    "The page you tried to view does not exist. If you typed the url manually, maybe you did not type it "
    + "correcly — or maybe you corrected a spelling error of mine?"
  const ExhaustedDetail: string :=
    "The server is exhausted and can't handle your request right now. Sorry. Please try again later."
  const InternalDetail: string :=
    "This is an error in the server code or configuration. Sorry. The error has been logged and I will try to fix it."

  /** `into_response`: each kind of error has its own status, and the errors
      that carry a message show it as the headline. */
  function IntoResponse(e: ViewError): (r: Response)
    ensures r.status == 404 <==> e.NotFound?
    ensures r.status == 400 <==> e.BadRequest?
    ensures r.status == 503 <==> e.ServiceUnavailable?
    ensures r.status == 500 <==> e.Internal?
    ensures 400 <= r.status < 500 <==> e.NotFound? || e.BadRequest?
    ensures e.BadRequest? || e.Internal? ==> r.message == e.msg
  {
    match e
    case NotFound => Response(404, "Not found", NotFoundDetail)
    case BadRequest(msg) => Response(400, msg, "Sorry.")
    case ServiceUnavailable => Response(503, "Server exhausted", ExhaustedDetail)
    case Internal(msg) => Response(500, msg, InternalDetail)
  }

  /** Different errors make different pages: the response tells the error. */
  lemma IntoResponseInjective(a: ViewError, b: ViewError)
    requires IntoResponse(a) == IntoResponse(b)
    ensures a == b
  {
  }

  /** `ise`: a failure becomes an internal error with a fixed message. */
  function Ise<T>(r: Result<T, string>): (v: Result<T, ViewError>)
    ensures v.Ok? <==> r.Ok?
    ensures r.Ok? ==> v.value == r.value
    ensures v.Err? ==> IntoResponse(v.error).status == 500
  {
    match r
    case Ok(x) => Ok(x)
    case Err(_) => Err(Internal("Something went wrong"))
  }

  /** Whatever went wrong, the visitor sees the same page. */
  lemma IseHidesCause<T>(a: string, b: string)
    ensures Ise<T>(Err(a)) == Ise<T>(Err(b))
  {
  }

  /** A database query failure. */
  function FromDiesel(cause: string): (e: ViewError)
    ensures IntoResponse(e) == Response(500, "Database error", InternalDetail)
  {
    Internal("Database error")
  }

  /** Failing to get a connection from the pool: timing out, or anything else. */
  datatype PoolError = Timeout | OtherPoolError(cause: string)

  /** Only a timeout tells the visitor to come back later. */
  function FromPool(e: PoolError): (v: ViewError)
    ensures IntoResponse(v).status == 503 <==> e.Timeout?
    ensures e.OtherPoolError? ==> v == FromDiesel(e.cause)
  {
    match e
    case Timeout => ServiceUnavailable
    case OtherPoolError(_) => Internal("Database error")
  }

  /** A database interaction that panicked or was aborted. */
  datatype InteractError = Panic(payload: string) | Aborted

  function FromInteract(e: InteractError): (v: ViewError)
    ensures v.Internal?
    ensures v.msg == (if e.Panic? then "Internal panic" else "Interaction aborted")
  {
    match e
    case Panic(_) => Internal("Internal panic")
    case Aborted => Internal("Interaction aborted")
  }

  /** A request no route accepted: whether it was for lack of a matching path,
      and the rest of the rejection, which is passed on untouched. */
  datatype Rejection = Rejection(notFound: bool, cause: string)

  /** `for_rejection`: a path nobody serves becomes the not-found page; every
      other rejection is left to the default handling. */
  function ForRejection(rej: Rejection): (r: Result<Response, Rejection>)
    ensures r.Ok? <==> rej.notFound
    ensures r.Ok? ==> r.value.status == 404
    ensures r.Err? ==> r.error == rej
  {
    if rej.notFound then Ok(IntoResponse(NotFound)) else Err(rej)
  }
}

=== FILE: server_language.dfy ===
/** Choosing and loading the site language on the server side: the language a
    browser asks for, the links to the other languages, and the loading of the
    translations.  The Accept-Language header (section 12.5.4 of RFC 9110) is
    split into language ranges and ordered by quality by a parser that is not
    part of this model: its result is the input here.  Which language tags
    parse, and which have translations, are parameters too. */
module ServerLanguage {
  import opened Wrappers
  import opened Strings
  import opened Seqs
  import opened MyLang
  import ServerError

  /** The site languages, in the order their links are listed. */
  const MyLangs: seq<Lang> := [En, Sv]

  /** The primary subtag of a language range: whatever precedes the first `-`. */
  function Primary(range: string): (r: string)
    ensures '-' !in r && StartsWith(range, r)
    ensures '-' in range ==> range[|r|] == '-'
  {
    match SplitOnce(range, '-')
    case Some((l, _)) =>
      assert range[..|l|] == l;
      l
    case None => range
  }

  /** Whether a language range names one of the site languages. */
  predicate Recognized(range: string) {
    Parse(Primary(range)).Ok?
  }

  /** `AcceptLang::from_str`: the first range, in the order given, whose
      primary subtag is a site language; English when none is. */
  function AcceptLang(ranges: seq<string>): (r: Lang)
    ensures (forall i :: 0 <= i < |ranges| ==> !Recognized(ranges[i])) ==> r == Default
  {
    if ranges == [] then Default
    else
      match Parse(Primary(ranges[0]))
      case Ok(l) => l
      case Err(_) => AcceptLang(ranges[1..])
  }

  /** The language chosen is that of the first recognised range. */
  lemma {:induction false} AcceptLangFirst(ranges: seq<string>)
    ensures var k := FirstWhere(ranges, Recognized);
            k.Some? ==> Ok(AcceptLang(ranges)) == Parse(Primary(ranges[k.value]))
    decreases |ranges|
  {
    if ranges != [] && !Recognized(ranges[0]) {
      AcceptLangFirst(ranges[1..]);
      var k := FirstWhere(ranges, Recognized);
      var k' := FirstWhere(ranges[1..], Recognized);
      if k.Some? {
        assert k'.Some? && k.value == k'.value + 1 by {
          assert Recognized(ranges[1..][k.value - 1]);
          if k'.None? {
            assert false;
          }
          assert k'.value + 1 >= k.value by {
            assert !Recognized(ranges[0]);
          }
          assert k'.value + 1 <= k.value;
        }
      }
    }
  }

  lemma PrimaryOfCode(s: string)
    requires '-' !in s
    ensures Primary(s) == s
  {
  }

  lemma PrimaryOfRegion(l: string, region: string)
    requires '-' !in l
    ensures Primary(l + "-" + region) == l
  {
    var s := l + "-" + region;
    var p := Primary(s);
    assert s[|l|] == '-';
    assert forall i :: 0 <= i < |l| ==> s[i] == l[i];
    assert forall i :: 0 <= i < |p| ==> s[i] == p[i];
    assert p == s[..|p|] && s[..|l|] == l;
  }

  /** Swedish first, English later: Swedish (`sv,en;q=0.7,en-US;q=0.3`). */
  lemma AcceptSwedishFirst()
    ensures AcceptLang(["sv", "en", "en-US"]) == Sv
  {
    PrimaryOfCode("sv");
  }

  /** An unknown language first, then English: English (`fi,en;q=0.7,en-US;q=0.3`). */
  lemma AcceptFinnishFirst()
    ensures AcceptLang(["fi", "en", "en-US"]) == En
  {
    PrimaryOfCode("fi");
    PrimaryOfCode("en");
    assert ["fi", "en", "en-US"][1..] == ["en", "en-US"];
  }

  /** A region is ignored: `sv-SE` is Swedish, `en-GB` is English. */
  lemma AcceptRegions()
    ensures AcceptLang(["sv-SE"]) == Sv
    ensures AcceptLang(["en-GB"]) == En
  {
    PrimaryOfRegion("sv", "SE");
    assert "sv" + "-" + "SE" == "sv-SE";
    PrimaryOfRegion("en", "GB");
    assert "en" + "-" + "GB" == "en-GB";
  }

  /** Nothing recognised gives the default: `fi-FI` is English. */
  lemma AcceptUnknownRegion()
    ensures AcceptLang(["fi-FI"]) == En
  {
    PrimaryOfRegion("fi", "FI");
    assert "fi" + "-" + "FI" == "fi-FI";
  }

  /** The language of a request: from its Accept-Language header when it has
      one, given as the ranges the header parser made of it, and the default
      otherwise. */
  function RequestLang(header: Option<seq<string>>): (r: Lang)
    ensures header.None? ==> r == Default
    ensures header.Some? ==> r == AcceptLang(header.value)
  {
    match header
    case None => Default
    case Some(ranges) => AcceptLang(ranges)
  }

  /** The site languages other than `self`, in the site's order. */
  function OtherLangs(self: Lang): (r: seq<Lang>)
    ensures self !in r
    ensures forall i :: 0 <= i < |MyLangs| && MyLangs[i] != self ==> MyLangs[i] in r
    ensures |r| == |MyLangs| - 1
  {
    assert MyLangs[0] == En && MyLangs[1] == Sv;
    if self == En then [Sv] else [En]
  }

  /** `MyLang::other`: one rendered link per other language, `fmt` being the
      rendering (it gets the language's translations and name). */
  function Other<T>(self: Lang, fmt: Lang -> T): (r: seq<T>)
    ensures |r| == |OtherLangs(self)|
    ensures forall i :: 0 <= i < |r| ==> r[i] == fmt(OtherLangs(self)[i])
  {
    seq(|OtherLangs(self)|, i requires 0 <= i < |OtherLangs(self)| => fmt(OtherLangs(self)[i]))
  }

  /** A language and its others are all the site languages, each once. */
  lemma OtherCompletes(self: Lang)
    ensures multiset([self] + OtherLangs(self)) == multiset(MyLangs)
  {
  }

  /** `load`: a language that is not a well-formed tag is a bad request, as is
      one without translations; otherwise the loaded language. */
  function Load(lang: string, wellFormed: string -> bool, translated: string -> bool)
    : (r: Result<string, ServerError.ViewError>)
    ensures r.Ok? <==> wellFormed(lang) && translated(lang)
    ensures r.Ok? ==> r.value == lang
    ensures !wellFormed(lang) ==> r == Err(ServerError.BadRequest("Bad language"))
    ensures wellFormed(lang) && !translated(lang) ==> r == Err(ServerError.BadRequest("Unknown language"))
  {
    if !wellFormed(lang) then Err(ServerError.BadRequest("Bad language"))
    else if !translated(lang) then Err(ServerError.BadRequest("Unknown language"))
    else Ok(lang)
  }
}

=== FILE: site.dfy ===
/** The site-wide page script: the stored colour theme and its switch, the
    labels in the page's language, and the "share on fediverse" dialog, which
    checks the instance name and composes the post it opens.  The DOM, the
    local storage and the popup window are not part of this model; their
    contents are inputs and results. */
module Site {
  import opened Wrappers
  import opened Strings
  import opened Seqs

  // ---------------------------------------------------------------------------
  // Theme

  datatype Theme = Dark | Light | Default

  /** The theme the page's classes select: a `theme-dark` class wins over
      `theme-light`, and anything else is the default theme. */
  function ThemeOf(classes: set<string>): Theme {
    if "theme-dark" in classes then Dark
    else if "theme-light" in classes then Light
    else Default
  }

  /** The switch goes dark, light, default, and round again. */
  function NextTheme(t: Theme): Theme {
    match t
    case Dark => Light
    case Light => Default
    case Default => Dark
  }

  /** What local storage keeps for a theme: nothing for the default one. */
  function StoredFor(t: Theme): Option<string> {
    match t
    case Dark => Some("dark")
    case Light => Some("light")
    case Default => None
  }

  const ThemeClasses: set<string> := {"theme-dark", "theme-light", "theme-default"}

  /** At most one theme class on the page. */
  predicate WellThemed(classes: set<string>) {
    |classes * ThemeClasses| <= 1
  }

  /** On load: a stored (non-empty) theme adds its class to the page. */
  function LoadTheme(classes: set<string>, stored: Option<string>): (r: set<string>)
    ensures stored.Some? && stored.value != "" ==> r == classes + {"theme-" + stored.value}
    ensures stored.None? || stored.value == "" ==> r == classes
  {
    if stored.Some? && stored.value != "" then classes + {"theme-" + stored.value} else classes
  }

  /** The theme switch: the new classes of the page and the new stored value. */
  function Toggle(classes: set<string>): (r: (set<string>, Option<string>))
    ensures ThemeOf(r.0) == NextTheme(ThemeOf(classes))
    ensures r.1 == StoredFor(ThemeOf(r.0))
    ensures WellThemed(classes) ==> WellThemed(r.0)
    ensures r.0 - ThemeClasses == classes - ThemeClasses
  {
    if "theme-dark" in classes then
      var c := classes - {"theme-dark"} + {"theme-light"};
      assert c * ThemeClasses <= {"theme-light", "theme-default"};
      assert WellThemed(classes) ==> c * ThemeClasses == {"theme-light"} by {
        if WellThemed(classes) {
          OnlyThemeClass(classes, "theme-dark");
        }
      }
      (c, Some("light"))
    else if "theme-light" in classes then
      var c := classes - {"theme-light"} + {"theme-default"};
      assert WellThemed(classes) ==> c * ThemeClasses == {"theme-default"} by {
        if WellThemed(classes) {
          OnlyThemeClass(classes, "theme-light");
        }
      }
      (c, None)
    else
      var c := classes - {"theme-default"} + {"theme-dark"};
      assert c * ThemeClasses == {"theme-dark"};
      (c, Some("dark"))
  }

  /** A page with exactly theme class `t` has no other one. */
  lemma OnlyThemeClass(classes: set<string>, t: string)
    requires WellThemed(classes) && t in classes && t in ThemeClasses
    ensures classes * ThemeClasses == {t}
  {
    var both := classes * ThemeClasses;
    assert t in both;
    if exists u :: u in both && u != t {
      var u :| u in both && u != t;
      assert {t, u} <= both;
      assert |{t, u}| == 2;
      SubsetCard({t, u}, both);
    }
  }

  lemma SubsetCard<T>(a: set<T>, b: set<T>)
    requires a <= b
    ensures |a| <= |b|
  {
    assert b == a + (b - a);
  }

  /** Three presses of the switch bring the theme back. */
  lemma ThreeToggles(classes: set<string>)
    ensures ThemeOf(Toggle(Toggle(Toggle(classes).0).0).0) == ThemeOf(classes)
  {
  }

  /** The stored value brings the chosen theme back on the next page. */
  lemma ThemeSurvivesReload(page: set<string>, classes: set<string>)
    requires page * ThemeClasses == {}
    ensures ThemeOf(LoadTheme(page, Toggle(classes).1)) == ThemeOf(Toggle(classes).0)
  {
    assert "theme-dark" in ThemeClasses && "theme-light" in ThemeClasses;
    assert "theme-dark" in page ==> "theme-dark" in page * ThemeClasses;
    assert "theme-light" in page ==> "theme-light" in page * ThemeClasses;
    assert "theme-" + "dark" == "theme-dark" && "theme-" + "light" == "theme-light";
  }

  // ---------------------------------------------------------------------------
  // Labels

  /** The texts the script adds to the page. */
  datatype Labels = Labels(theme: string, fedi: string, info: string, byMe: string,
                           instance: string, cancel: string, ok: string, invalidInstance: string)

  const English: Labels := Labels(
    "theme", "Share on fediverse",
    "Enter your instance and <i>Share</i>.  A window will open where you can edit and send your toot.",
    "by @rkaj@mastodon.nu", "Instance", "Cancel", "Share",
    "Use the fully qualified hostname of your instance (no slashes).")

  const Swedish: Labels := Labels(
    "tema", "Dela i fediversum",
    "Ange din instans och <i>Dela</i>, så öppnas ett fönster där du kan redigera och skicka din toot.",
    "av @rkaj@mastodon.nu", "Instans", "Avbryt", "Dela",
    "Använd det fullständiga hostnamnet för din instans (inga snedstreck).")

  /** The labels for a page: Swedish exactly when the page's `lang` is `sv`;
      every other language gets English. */
  function LabelsFor(lang: string): (l: Labels)
    ensures l == Swedish <==> lang == "sv"
    ensures l == English <==> lang != "sv"
  {
    assert English.theme != Swedish.theme;
    if lang == "sv" then Swedish else English
  }

  // ---------------------------------------------------------------------------
  // The instance field

  /** Characters of the host part before the last dot. */
  predicate IsWordOrDot(c: char) {
    IsWordChar(c) || c == '.'
  }

  /** The field's pattern `^[\w.]+\.\w+$`, as its regex reads: some nonempty
      run of word characters and dots, a dot, and a nonempty run of word
      characters to the end. */
  predicate InstancePattern(s: string) {
    exists k :: 1 <= k < |s| - 1 && s[k] == '.' && AllChars(s[..k], IsWordOrDot)
                && AllChars(s[k + 1..], IsWordChar)
  }

  /** The same test without a search: only word characters and dots, and a
      last dot that is neither first nor last. */
  predicate ValidInstance(s: string) {
    AllChars(s, IsWordOrDot)
    && match LastIndexOf(s, '.')
       case None => false
       case Some(k) => 0 < k < |s| - 1
  }

  /** The direct test accepts exactly what the pattern matches. */
  lemma InstanceMatch(s: string)
    ensures ValidInstance(s) <==> InstancePattern(s)
  {
    if ValidInstance(s) {
      var k := LastIndexOf(s, '.').value;
      var t := s[k + 1..];
      forall i | 0 <= i < |t| ensures IsWordChar(t[i]) {
        assert t[i] == s[k + 1 + i];
        assert t[i] != '.';
      }
      assert AllChars(s[..k], IsWordOrDot);
    }
    if InstancePattern(s) {
      var k :| 1 <= k < |s| - 1 && s[k] == '.' && AllChars(s[..k], IsWordOrDot)
               && AllChars(s[k + 1..], IsWordChar);
      var t := s[k + 1..];
      forall i | 0 <= i < |t| ensures t[i] != '.' {
        assert IsWordChar(t[i]);
      }
      forall i | 0 <= i < |s| ensures IsWordOrDot(s[i]) {
        if i < k {
          assert s[i] == s[..k][i];
        } else if i > k {
          assert s[i] == t[i - k - 1];
        }
      }
      var j := LastIndexOf(s, '.').value;
      assert j == k;
    }
  }

  /** Names the field takes, and names it refuses: a single label, a leading
      dot, a trailing dot, and a URL. */
  lemma InstanceExamples()
    ensures ValidInstance("mastodon.nu")
    ensures !ValidInstance("localhost")
    ensures !ValidInstance(".nu")
    ensures !ValidInstance("mastodon.")
    ensures !ValidInstance("https://mastodon.nu")
  {
    assert LastIndexOf("mastodon.nu", '.') == Some(8) by {
      assert "mastodon.nu"[8] == '.' && '.' !in "mastodon.nu"[9..];
    }
    assert !IsWordOrDot("https://mastodon.nu"[5]);
  }

  // ---------------------------------------------------------------------------
  // Hashtags

  /** The regex class `\s` of JavaScript: the white space and line terminator
      characters. */
  predicate IsJsSpace(c: char) {
    c == ' ' || ('\t' <= c <= '\r') || c == '\U{A0}' || c == '\U{1680}'
    || ('\U{2000}' <= c <= '\U{200A}') || c == '\U{2028}' || c == '\U{2029}'
    || c == '\U{202F}' || c == '\U{205F}' || c == '\U{3000}' || c == '\U{FEFF}'
  }

  /** The end of the run of spaces from `i`. */
  function RunEnd(s: string, i: nat): (j: nat)
    requires i <= |s|
    ensures i <= j <= |s|
    ensures forall k :: i <= k < j ==> IsJsSpace(s[k])
    ensures j == |s| || !IsJsSpace(s[j])
    decreases |s| - i
  {
    if i < |s| && IsJsSpace(s[i]) then RunEnd(s, i + 1) else i
  }

  /** `replace(/\s+/, '-')`: the first run of spaces, and only the first,
      becomes one dash. */
  function DashFirstSpaces(s: string): (r: string)
    ensures (forall i :: 0 <= i < |s| ==> !IsJsSpace(s[i])) ==> r == s
  {
    match FirstWhere(s, IsJsSpace)
    case None => s
    case Some(i) => s[..i] + "-" + s[RunEnd(s, i + 1)..]
  }

  /** Splitting a text into the part before its first run of spaces, the run,
      and the rest, the run becomes the dash and the rest is kept as it is. */
  lemma DashFirstSpacesOf(a: string, w: string, rest: string)
    requires forall i :: 0 <= i < |a| ==> !IsJsSpace(a[i])
    requires |w| > 0 && forall i :: 0 <= i < |w| ==> IsJsSpace(w[i])
    requires rest == [] || !IsJsSpace(rest[0])
    ensures DashFirstSpaces(a + w + rest) == a + "-" + rest
  {
    var s := a + w + rest;
    assert forall i :: 0 <= i < |a| ==> s[i] == a[i];
    assert forall i :: |a| <= i < |a| + |w| ==> s[i] == w[i - |a|];
    assert IsJsSpace(s[|a|]);
    var i := FirstWhere(s, IsJsSpace).value;
    assert i == |a|;
    var j := RunEnd(s, i + 1);
    assert |a| + |w| < |s| ==> s[|a| + |w|] == rest[0];
    assert j == |a| + |w|;
    assert s[..i] == a && s[j..] == rest;
  }

  /** A tag with several words keeps every space but the first. */
  lemma DashFirstOnly()
    ensures DashFirstSpaces("New York") == "New-York"
    ensures DashFirstSpaces("a  b c") == "a-b c"
  {
    DashOneSpace();
    DashTwoSpaces();
  }

  lemma DashOneSpace()
    ensures DashFirstSpaces("New York") == "New-York"
  {
    DashFirstSpacesOf("New", " ", "York");
    assert "New York" == "New" + " " + "York";
    assert "New" + "-" + "York" == "New-York";
  }

  lemma DashTwoSpaces()
    ensures DashFirstSpaces("a  b c") == "a-b c"
  {
    assert !IsJsSpace('b');
    DashFirstSpacesOf("a", "  ", "b c");
    assert "a  b c" == "a" + "  " + "b c";
    assert "a" + "-" + "b c" == "a-b c";
  }

  function Hashtag(tag: string): (h: string)
    ensures |h| >= 1 && h[0] == '#'
    ensures (forall i :: 0 <= i < |tag| ==> !IsJsSpace(tag[i])) ==> h == "#" + tag
  {
    "#" + DashFirstSpaces(tag)
  }

  /** The hashtags of the post's tags, separated by spaces. */
  function Hashtags(tags: seq<string>): (line: string)
    ensures tags == [] ==> line == ""
  {
    Join(seq(|tags|, i requires 0 <= i < |tags| => Hashtag(tags[i])), " ")
  }

  /** Tags of one word each can be read back from the hashtag line. */
  lemma HashtagsSplit(tags: seq<string>)
    requires |tags| >= 1
    requires forall t, i :: t in tags && 0 <= i < |t| ==> !IsJsSpace(t[i])
    ensures Split(Hashtags(tags), ' ') == seq(|tags|, i requires 0 <= i < |tags| => "#" + tags[i])
  {
    var hs := seq(|tags|, i requires 0 <= i < |tags| => Hashtag(tags[i]));
    HashtagsPlain(tags, hs);
    SplitJoin(hs, ' ');
  }

  /** Each hashtag of a one-word tag is `#` and the tag, without a space. */
  lemma HashtagsPlain(tags: seq<string>, hs: seq<string>)
    requires forall t, i :: t in tags && 0 <= i < |t| ==> !IsJsSpace(t[i])
    requires hs == seq(|tags|, i requires 0 <= i < |tags| => Hashtag(tags[i]))
    ensures hs == seq(|tags|, i requires 0 <= i < |tags| => "#" + tags[i])
    ensures forall i :: 0 <= i < |hs| ==> ' ' !in hs[i]
  {
    forall i | 0 <= i < |hs| ensures hs[i] == "#" + tags[i] && ' ' !in hs[i] {
      assert tags[i] in tags;
      forall k | 0 <= k < |hs[i]| ensures hs[i][k] != ' ' {
        if k > 0 {
          assert hs[i][k] == tags[i][k - 1];
        }
      }
    }
  }

  // ---------------------------------------------------------------------------
  // Sharing

  /** The popup the dialog opens: the instance's `/share` page, with the text
      of the post and the page's address as its query. */
  datatype ShareRequest = ShareRequest(host: string, text: string, url: string)

  /** The text of the post: the page heading and the author, a blank line,
      and the hashtags. */
  function ShareText(heading: string, labels: Labels, tags: seq<string>): (text: string)
    ensures StartsWith(text, heading + ", " + labels.byMe + "\n\n")
    ensures text[|heading| + 4 + |labels.byMe|..] == Hashtags(tags) + "\n"
  {
    var head := heading + ", " + labels.byMe + "\n\n";
    var text := head + Hashtags(tags) + "\n";
    assert text[..|head|] == head && text[|head|..] == Hashtags(tags) + "\n";
    text
  }

  /** What the share button does: open the share page, or mark the field
      invalid with the message why. */
  datatype ShareOutcome = OpenShare(request: ShareRequest) | MarkInvalid(message: string)

  /** The share button: a custom message left by an earlier press is cleared
      first, so only the pattern decides. */
  function Share(instance: string, heading: string, tags: seq<string>, location: string,
                 labels: Labels): (o: ShareOutcome)
    ensures o.OpenShare? <==> InstancePattern(instance)
    ensures o.OpenShare? ==> o.request == ShareRequest(instance, ShareText(heading, labels, tags), location)
    ensures o.MarkInvalid? ==> o.message == labels.invalidInstance
  {
    InstanceMatch(instance);
    if ValidInstance(instance) then OpenShare(ShareRequest(instance, ShareText(heading, labels, tags), location))
    else MarkInvalid(labels.invalidInstance)
  }

  /** A Swedish page shares in Swedish, whatever the instance. */
  lemma SwedishShare(instance: string, heading: string, tags: seq<string>, location: string)
    requires InstancePattern(instance)
    ensures var o := Share(instance, heading, tags, location, LabelsFor("sv"));
            StartsWith(o.request.text, heading + ", " + "av @rkaj@mastodon.nu" + "\n\n")
  {
    var l := LabelsFor("sv");
    assert l.byMe == "av @rkaj@mastodon.nu";
    ShareStarts(instance, heading, tags, location, l);
  }

  /** A valid instance opens a share whose text starts with the heading and
      the author, as the labels write it. */
  lemma ShareStarts(instance: string, heading: string, tags: seq<string>, location: string, l: Labels)
    requires InstancePattern(instance)
    ensures var o := Share(instance, heading, tags, location, l);
            o.OpenShare? && StartsWith(o.request.text, heading + ", " + l.byMe + "\n\n")
  {
  }
}

=== FILE: slug.dfy ===
/** A URL-safe slug: the identifier of a post or tag inside its year and
    language.  It can only be obtained by parsing, so every slug the rest of the
    model handles satisfies `Verify`. */
module Slug {
  import opened Wrappers
  import opened Strings

  datatype Slug = Slug(text: string)

  /** Every char of `s` is an ASCII alphanumeric or a `-`. */
  function RestOk(s: string): (ok: bool)
    ensures ok <==> forall i :: 0 <= i < |s| ==> IsAsciiAlnum(s[i]) || s[i] == '-'
  {
    s == [] || ((IsAsciiAlnum(s[0]) || s[0] == '-') && RestOk(s[1..]))
  }

  /** The slug rule, byte by byte: a first byte that is ASCII alphanumeric and
      every later one ASCII alphanumeric or `-` (non-ASCII chars fail both). */
  function Verify(s: string): (ok: bool)
    ensures ok <==> |s| >= 1 && IsAsciiAlnum(s[0])
                    && forall i :: 1 <= i < |s| ==> IsAsciiAlnum(s[i]) || s[i] == '-'
  {
    |s| >= 1 && IsAsciiAlnum(s[0]) && RestOk(s[1..])
  }

  /** A valid slug is safe inside a path and before a `.lang` suffix. */
  lemma VerifiedIsPathSafe(s: string)
    requires Verify(s)
    ensures '.' !in s && '/' !in s && '#' !in s && '?' !in s && ' ' !in s && '\'' !in s
    ensures forall i :: 0 <= i < |s| ==> !IsWhitespace(s[i])
  {
  }

  /** `Slug::from_str`: the string itself when it verifies, an empty error otherwise. */
  function Parse(s: string): (r: Result<Slug, ()>)
    ensures r.Ok? <==> Verify(s)
    ensures r.Ok? ==> r.value.text == s
  {
    if Verify(s) then Ok(Slug(s)) else Err(())
  }

  /** Loading a slug column: the same rule, with the offending value quoted in
      the error. */
  function FromSql(s: string): (r: Result<Slug, string>)
    ensures r.Ok? <==> Verify(s)
    ensures r.Ok? ==> r.value.text == s
    ensures r.Err? ==> r.error == "Bad slug " + DebugString(s)
  {
    if Verify(s) then Ok(Slug(s)) else Err("Bad slug " + DebugString(s))
  }

  /** Displaying a slug gives back exactly the string it was parsed from. */
  lemma ParseDisplay(x: Slug)
    requires Verify(x.text)
    ensures Parse(x.text) == Ok(x)
  {
  }
}

=== FILE: strings.dfy ===
/** String helpers shared by the model.  Strings are sequences of Unicode scalar
    values; where the source measures a string in UTF-8 bytes (`str::len`, char
    boundaries) the byte count is `Utf8Len`. */
module Strings {
  import opened Wrappers

  // ---------------------------------------------------------------------------
  // Character classes

  predicate IsAsciiDigit(c: char) {
    '0' <= c <= '9'
  }

  predicate IsAsciiLower(c: char) {
    'a' <= c <= 'z'
  }

  predicate IsAsciiAlnum(c: char) {
    IsAsciiDigit(c) || IsAsciiLower(c) || 'A' <= c <= 'Z'
  }

  /** A regex word character `\w`, restricted to ASCII. */
  predicate IsWordChar(c: char) {
    IsAsciiAlnum(c) || c == '_'
  }

  /** Unicode `White_Space`: Rust's `char::is_whitespace` and the regex class `\s`. */
  predicate IsWhitespace(c: char) {
    c == ' ' || ('\t' <= c <= '\r') || c == '\U{85}' || c == '\U{A0}' || c == '\U{1680}'
    || ('\U{2000}' <= c <= '\U{200A}') || c == '\U{2028}' || c == '\U{2029}'
    || c == '\U{202F}' || c == '\U{205F}' || c == '\U{3000}'
  }

  predicate AllChars(s: string, p: char -> bool) {
    forall i :: 0 <= i < |s| ==> p(s[i])
  }

  // ---------------------------------------------------------------------------
  // Prefixes, suffixes and searching

  predicate StartsWith(s: string, p: string) {
    |p| <= |s| && s[..|p|] == p
  }

  /** `t` is a suffix of `s`: of a string, or of a sequence of input lines. */
  predicate EndsWith<T(==)>(s: seq<T>, t: seq<T>) {
    |t| <= |s| && s[|s| - |t|..] == t
  }

  /** A string put together from three parts starts with the first and ends
      with the last. */
  lemma Bracketing(head: string, mid: string, tail: string)
    ensures StartsWith(head + mid + tail, head) && EndsWith(head + mid + tail, tail)
  {
    var s := head + mid + tail;
    assert s[..|head|] == head;
    assert s[|s| - |tail|..] == tail;
  }

  /** `pat` occurs in `s` starting at position `i`. */
  predicate OccursAt(s: string, pat: string, i: int) {
    0 <= i && i + |pat| <= |s| && s[i..i + |pat|] == pat
  }

  predicate Contains(s: string, pat: string) {
    exists i | 0 <= i <= |s| :: OccursAt(s, pat, i)
  }

  /** First position at or after `k` where `pat` occurs. */
  function FindFrom(s: string, pat: string, k: nat): (r: Option<nat>)
    requires k <= |s|
    decreases |s| - k
    ensures r.Some? ==> k <= r.value && OccursAt(s, pat, r.value)
    ensures r.Some? ==> forall j :: k <= j < r.value ==> !OccursAt(s, pat, j)
    ensures r.None? ==> forall j :: k <= j ==> !OccursAt(s, pat, j)
  {
    if OccursAt(s, pat, k) then Some(k)
    else if k == |s| then None
    else FindFrom(s, pat, k + 1)
  }

  /** Rust's `str::find` with a string pattern: the first occurrence. */
  function Find(s: string, pat: string): (r: Option<nat>)
    ensures r.Some? ==> OccursAt(s, pat, r.value)
    ensures r.Some? ==> forall j :: 0 <= j < r.value ==> !OccursAt(s, pat, j)
    ensures r.None? <==> !Contains(s, pat)
  {
    FindFrom(s, pat, 0)
  }

  /** Last position at or before `k` where `pat` occurs. */
  function RFindUpTo(s: string, pat: string, k: nat): (r: Option<nat>)
    requires k <= |s|
    decreases k
    ensures r.Some? ==> r.value <= k && OccursAt(s, pat, r.value)
    ensures r.Some? ==> forall j :: r.value < j <= k ==> !OccursAt(s, pat, j)
    ensures r.None? ==> forall j :: 0 <= j <= k ==> !OccursAt(s, pat, j)
  {
    if OccursAt(s, pat, k) then Some(k)
    else if k == 0 then None
    else RFindUpTo(s, pat, k - 1)
  }

  /** Rust's `str::rfind` with a string pattern: the last occurrence. */
  function RFind(s: string, pat: string): (r: Option<nat>)
    ensures r.Some? ==> OccursAt(s, pat, r.value)
    ensures r.Some? ==> forall j :: r.value < j ==> !OccursAt(s, pat, j)
    ensures r.None? <==> !Contains(s, pat)
  {
    RFindUpTo(s, pat, |s|)
  }

  /** Position of the first `c` in `s`. */
  function IndexOf(s: string, c: char): (r: Option<nat>)
    ensures r.Some? ==> r.value < |s| && s[r.value] == c && c !in s[..r.value]
    ensures r.None? <==> c !in s
  {
    if |s| == 0 then None
    else if s[0] == c then Some(0)
    else
      match IndexOf(s[1..], c)
      case None => None
      case Some(i) =>
        assert s[..i + 1] == [s[0]] + s[1..][..i];
        Some(i + 1)
  }

  /** Position of the last `c` in `s` (Rust's `rfind` with a char). */
  function LastIndexOf(s: string, c: char): (r: Option<nat>)
    ensures r.Some? ==> r.value < |s| && s[r.value] == c && c !in s[r.value + 1..]
    ensures r.None? <==> c !in s
  {
    if |s| == 0 then None
    else if s[|s| - 1] == c then Some(|s| - 1)
    else
      match LastIndexOf(s[..|s| - 1], c)
      case None => None
      case Some(i) =>
        assert s[i + 1..] == s[..|s| - 1][i + 1..] + [s[|s| - 1]];
        Some(i)
  }

  /** Rust's `str::split_once` with a char pattern: the parts around the first `c`. */
  function SplitOnce(s: string, c: char): (r: Option<(string, string)>)
    ensures r.None? <==> c !in s
    ensures r.Some? ==> s == r.value.0 + [c] + r.value.1 && c !in r.value.0
  {
    match IndexOf(s, c)
    case None => None
    case Some(i) =>
      assert s == s[..i] + [c] + s[i + 1..];
      Some((s[..i], s[i + 1..]))
  }

  /** Splitting at a `c` that is the first one gives back the two sides. */
  lemma SplitOnceOf(a: string, b: string, c: char)
    requires c !in a
    ensures SplitOnce(a + [c] + b, c) == Some((a, b))
  {
    var s := a + [c] + b;
    var r := SplitOnce(s, c);
    assert s[|a|] == c;
    var x := r.value.0;
    assert |x| < |s| && s[|x|] == c;
    assert |x| == |a|;
    assert x == s[..|a|] == a;
    assert r.value.1 == s[|a| + 1..] == b;
  }

  // ---------------------------------------------------------------------------
  // Trimming

  /** Rust's `str::trim_start`. */
  function TrimStart(s: string): (r: string)
    ensures EndsWith(s, r)
    ensures forall i :: 0 <= i < |s| - |r| ==> IsWhitespace(s[i])
    ensures r == [] || !IsWhitespace(r[0])
  {
    if |s| > 0 && IsWhitespace(s[0]) then TrimStart(s[1..]) else s
  }

  /** Rust's `str::trim_end`. */
  function TrimEnd(s: string): (r: string)
    ensures StartsWith(s, r)
    ensures forall i :: |r| <= i < |s| ==> IsWhitespace(s[i])
    ensures r == [] || !IsWhitespace(r[|r| - 1])
  {
    if |s| > 0 && IsWhitespace(s[|s| - 1]) then TrimEnd(s[..|s| - 1]) else s
  }

  /** `r` occurs in `s` starting at position `k`. */
  predicate InfixAt(s: string, r: string, k: int) {
    0 <= k && k + |r| <= |s| && s[k..k + |r|] == r
  }

  /** Rust's `str::trim`: whitespace removed from both ends. */
  function Trim(s: string): (r: string)
    ensures exists k :: InfixAt(s, r, k)
    ensures r == [] || (!IsWhitespace(r[0]) && !IsWhitespace(r[|r| - 1]))
  {
    var t := TrimStart(s);
    var r := TrimEnd(t);
    assert InfixAt(s, r, |s| - |t|) by {
      assert r == s[|s| - |t|..][..|r|] == s[|s| - |t|..|s| - |t| + |r|];
    }
    r
  }

  /** Rust's `str::trim_matches` with a char: every leading and trailing `c` removed. */
  function TrimChar(s: string, c: char): (r: string)
    ensures exists k :: InfixAt(s, r, k)
    ensures r == [] || (r[0] != c && r[|r| - 1] != c)
    decreases |s|
  {
    if |s| > 0 && s[0] == c then
      var r := TrimChar(s[1..], c);
      InfixOfTail(s, s[1..], r);
      r
    else if |s| > 0 && s[|s| - 1] == c then
      var r := TrimChar(s[..|s| - 1], c);
      InfixOfInit(s, s[..|s| - 1], r);
      r
    else
      assert InfixAt(s, s, 0);
      s
  }

  lemma InfixOfTail(s: string, t: string, r: string)
    requires |s| > 0 && t == s[1..] && exists k :: InfixAt(t, r, k)
    ensures exists k :: InfixAt(s, r, k)
  {
    var k :| InfixAt(t, r, k);
    assert t[k..k + |r|] == s[k + 1..k + 1 + |r|];
    assert InfixAt(s, r, k + 1);
  }

  lemma InfixOfInit(s: string, t: string, r: string)
    requires |s| > 0 && t == s[..|s| - 1] && exists k :: InfixAt(t, r, k)
    ensures exists k :: InfixAt(s, r, k)
  {
    var k :| InfixAt(t, r, k);
    assert t[k..k + |r|] == s[k..k + |r|];
    assert InfixAt(s, r, k);
  }

  // ---------------------------------------------------------------------------
  // Splitting, joining, replacing

  /** Rust's `str::split` with a char pattern: never empty, keeps empty pieces. */
  function Split(s: string, c: char): (r: seq<string>)
    ensures |r| >= 1
    ensures forall i :: 0 <= i < |r| ==> c !in r[i]
    decreases |s|
  {
    match IndexOf(s, c)
    case None => [s]
    case Some(i) => [s[..i]] + Split(s[i + 1..], c)
  }

  /** The pieces with `sep` between each two of them (Rust's `join`). */
  function Join(parts: seq<string>, sep: string): string {
    if |parts| == 0 then ""
    else if |parts| == 1 then parts[0]
    else parts[0] + sep + Join(parts[1..], sep)
  }

  /** What occurs in the middle part occurs in the whole. */
  lemma ContainsInside(a: string, b: string, c: string, x: string)
    requires Contains(b, x)
    ensures Contains(a + b + c, x)
  {
    var i :| 0 <= i <= |b| && OccursAt(b, x, i);
    var s := a + b + c;
    assert s[|a| + i..|a| + i + |x|] == b[i..i + |x|];
    assert OccursAt(s, x, |a| + i);
  }

  /** Every piece occurs in the join. */
  lemma {:induction false} JoinContains(parts: seq<string>, sep: string, i: nat)
    requires i < |parts|
    ensures Contains(Join(parts, sep), parts[i])
    decreases |parts|
  {
    var whole := Join(parts, sep);
    if |parts| == 1 {
      assert whole[0..|parts[0]|] == parts[0];
      assert OccursAt(whole, parts[0], 0);
    } else if i == 0 {
      assert whole[0..|parts[0]|] == parts[0];
      assert OccursAt(whole, parts[0], 0);
    } else {
      var tail := Join(parts[1..], sep);
      JoinContains(parts[1..], sep, i - 1);
      ContainsInside(parts[0] + sep, tail, "", parts[i]);
      assert whole == parts[0] + sep + tail + "";
    }
  }

  /** Two pieces are joined by one separator. */
  lemma JoinTwo(parts: seq<string>, sep: string)
    ensures |parts| == 2 ==> Join(parts, sep) == parts[0] + sep + parts[1]
  {
    if |parts| == 2 {
      var tail := parts[1..];
      assert |tail| == 1 && tail[0] == parts[1];
      assert Join(tail, sep) == parts[1];
    }
  }

  /** The join contains each of its pieces. */
  lemma JoinContainsAll(parts: seq<string>, sep: string)
    ensures forall i :: 0 <= i < |parts| ==> Contains(Join(parts, sep), parts[i])
  {
    forall i | 0 <= i < |parts|
      ensures Contains(Join(parts, sep), parts[i])
    {
      JoinContains(parts, sep, i);
    }
  }

  /** Joining pieces free of `c` with `c` and splitting at `c` gives the pieces back. */
  lemma {:induction false} SplitJoin(parts: seq<string>, c: char)
    requires |parts| >= 1 && forall i :: 0 <= i < |parts| ==> c !in parts[i]
    ensures Split(Join(parts, [c]), c) == parts
    decreases |parts|
  {
    if |parts| > 1 {
      var rest := Join(parts[1..], [c]);
      var s := parts[0] + [c] + rest;
      assert Join(parts, [c]) == s;
      SplitAtFirst(parts[0], c, rest);
      SplitJoin(parts[1..], c);
      assert parts == [parts[0]] + parts[1..];
    }
  }

  /** Splitting `a`, `c`, `rest` with no `c` in `a` gives `a` first. */
  lemma SplitAtFirst(a: string, c: char, rest: string)
    requires c !in a
    ensures Split(a + [c] + rest, c) == [a] + Split(rest, c)
  {
    var s := a + [c] + rest;
    IndexOfFirst(s, c, |a|);
    assert s[..|a|] == a && s[|a| + 1..] == rest;
  }

  /** The first `c` of `s` is at `i` when `s[i]` is one and none comes before. */
  lemma IndexOfFirst(s: string, c: char, i: nat)
    requires i < |s| && s[i] == c && c !in s[..i]
    ensures IndexOf(s, c) == Some(i)
  {
    var r := IndexOf(s, c);
    assert s[..i + 1][i] == c;
  }

  lemma {:induction false} JoinSplit(s: string, c: char)
    ensures Join(Split(s, c), [c]) == s
    decreases |s|
  {
    match IndexOf(s, c)
    case None =>
    case Some(i) =>
      JoinSplit(s[i + 1..], c);
      JoinSplitAt(s, c, i);
  }

  lemma JoinSplitAt(s: string, c: char, i: nat)
    requires IndexOf(s, c) == Some(i)
    requires Join(Split(s[i + 1..], c), [c]) == s[i + 1..]
    ensures Join(Split(s, c), [c]) == s
  {
    var rest := Split(s[i + 1..], c);
    var parts := [s[..i]] + rest;
    assert Split(s, c) == parts;
    assert parts[1..] == rest;
    assert Join(parts, [c]) == s[..i] + [c] + Join(rest, [c]);
    assert s == s[..i] + [c] + s[i + 1..];
  }

  function StripCr(line: string): string {
    if |line| > 0 && line[|line| - 1] == '\r' then line[..|line| - 1] else line
  }

  /** Rust's `str::lines`: split at each `\n`, a `\r` before it dropped, and no
      final empty line after a trailing `\n`. */
  function Lines(s: string): (r: seq<string>)
    ensures s == [] <==> r == []
    ensures forall i :: 0 <= i < |r| ==> '\n' !in r[i]
    decreases |s|
  {
    if s == [] then []
    else
      match IndexOf(s, '\n')
      case None => [s]
      case Some(i) =>
        assert forall j :: 0 <= j < i - 1 ==> StripCr(s[..i])[j] == s[j];
        [StripCr(s[..i])] + Lines(s[i + 1..])
  }

  /** Rust's `str::replace` with a char pattern: every `c` becomes `t`. */
  function ReplaceChar(s: string, c: char, t: string): (r: string)
    ensures c !in t ==> c !in r
    ensures c !in s ==> r == s
  {
    if s == [] then ""
    else (if s[0] == c then t else [s[0]]) + ReplaceChar(s[1..], c, t)
  }

  /** Rust's `str::replace` with a string pattern: non-overlapping occurrences,
      left to right. */
  function ReplaceAll(s: string, from: string, to: string): (r: string)
    requires |from| > 0
    ensures !Contains(s, from) ==> r == s
    decreases |s|
  {
    if |s| < |from| then s
    else if s[..|from|] == from then
      assert OccursAt(s, from, 0);
      to + ReplaceAll(s[|from|..], from, to)
    else
      assert forall j :: 0 <= j <= |s| - 1 && OccursAt(s[1..], from, j) ==> OccursAt(s, from, j + 1);
      [s[0]] + ReplaceAll(s[1..], from, to)
  }

  function Repeat(s: string, n: nat): (r: string)
    ensures |r| == n * |s|
    ensures |s| == 1 ==> forall i :: 0 <= i < |r| ==> r[i] == s[0]
  {
    if n == 0 then "" else s + Repeat(s, n - 1)
  }

  // ---------------------------------------------------------------------------
  // Numbers

  function DigitChar(d: nat): (c: char)
    requires d < 10
    ensures IsAsciiDigit(c) && (c as int) - ('0' as int) == d
  {
    (('0' as int) + d) as char
  }

  function DigitValue(c: char): nat
    requires IsAsciiDigit(c)
  {
    (c as int) - ('0' as int)
  }

  /** Decimal rendering of a natural number (Rust's `{}`). */
  function NatToString(n: nat): (r: string)
    ensures |r| >= 1 && AllChars(r, IsAsciiDigit)
    ensures r[0] == '0' <==> n == 0
    ensures n < 10 <==> |r| == 1
  {
    if n < 10 then [DigitChar(n)]
    else NatToString(n / 10) + [DigitChar(n % 10)]
  }

  /** Decimal rendering of an integer: a `-` before a negative magnitude. */
  function IntToString(i: int): (r: string)
    ensures |r| >= 1
    ensures r[0] == '-' <==> i < 0
  {
    if i < 0 then "-" + NatToString(-i) else NatToString(i)
  }

  /** The value of a string of decimal digits. */
  function DecimalValue(s: string): nat
    requires AllChars(s, IsAsciiDigit)
  {
    if s == [] then 0 else DecimalValue(s[..|s| - 1]) * 10 + DigitValue(s[|s| - 1])
  }

  lemma {:induction false} DecimalOfNatToString(n: nat)
    ensures DecimalValue(NatToString(n)) == n
  {
    if n >= 10 {
      var s := NatToString(n);
      assert s[..|s| - 1] == NatToString(n / 10);
      DecimalOfNatToString(n / 10);
    }
  }

  /** A run of zeros is worth nothing. */
  lemma {:induction false} ZerosValue(k: nat)
    ensures AllChars(Repeat("0", k), IsAsciiDigit) && DecimalValue(Repeat("0", k)) == 0
    decreases k
  {
    var z := Repeat("0", k);
    if k > 0 {
      ZerosValue(k - 1);
      assert z[..k - 1] == Repeat("0", k - 1);
    }
  }

  /** Leading zeros do not change a digit string's value. */
  lemma {:induction false} LeadingZeros(k: nat, s: string)
    requires AllChars(s, IsAsciiDigit)
    ensures AllChars(Repeat("0", k) + s, IsAsciiDigit)
    ensures DecimalValue(Repeat("0", k) + s) == DecimalValue(s)
    decreases |s|
  {
    var z := Repeat("0", k);
    var t := z + s;
    ZerosValue(k);
    assert forall i :: 0 <= i < |t| ==> IsAsciiDigit(t[i]) by {
      forall i | 0 <= i < |t| ensures IsAsciiDigit(t[i]) {
        if i < |z| { assert t[i] == z[i]; } else { assert t[i] == s[i - |z|]; }
      }
    }
    if s == [] {
      assert t == z;
    } else {
      assert t[..|t| - 1] == z + s[..|s| - 1];
      assert t[|t| - 1] == s[|s| - 1];
      LeadingZeros(k, s[..|s| - 1]);
    }
  }

  function Power10(w: nat): (p: nat)
    ensures p >= 1
  {
    if w == 0 then 1 else 10 * Power10(w - 1)
  }

  /** A string of `w` digits is worth less than `10^w`. */
  lemma {:induction false} DecimalValueBound(s: string)
    requires AllChars(s, IsAsciiDigit)
    ensures DecimalValue(s) < Power10(|s|)
  {
    if s != [] {
      DecimalValueBound(s[..|s| - 1]);
    }
  }

  lemma {:induction false} DecimalValuePositive(s: string)
    requires |s| >= 1 && AllChars(s, IsAsciiDigit) && s[0] != '0'
    ensures DecimalValue(s) >= 1
  {
    if |s| > 1 {
      DecimalValuePositive(s[..|s| - 1]);
    }
  }

  /** A digit string without a leading zero is the rendering of its value. */
  lemma {:induction false} NatToStringOfDecimal(s: string)
    requires |s| >= 1 && AllChars(s, IsAsciiDigit) && s[0] != '0'
    ensures NatToString(DecimalValue(s)) == s
  {
    if |s| > 1 {
      var p := s[..|s| - 1];
      DecimalValuePositive(p);
      NatToStringOfDecimal(p);
      assert s == p + [s[|s| - 1]];
    }
  }

  lemma FourDigits(n: nat)
    requires 1000 <= n <= 9999
    ensures |NatToString(n)| == 4
  {
    assert NatToString(n) == NatToString(n / 10) + [DigitChar(n % 10)];
    assert NatToString(n / 10) == NatToString(n / 100) + [DigitChar(n / 10 % 10)];
    assert NatToString(n / 100) == NatToString(n / 1000) + [DigitChar(n / 100 % 10)];
  }

  function HexDigit(d: nat): char
    requires d < 16
  {
    "0123456789abcdef"[d]
  }

  predicate IsHexDigit(c: char) {
    IsAsciiDigit(c) || 'a' <= c <= 'f'
  }

  function HexDigitValue(c: char): nat
    requires IsHexDigit(c)
  {
    if IsAsciiDigit(c) then (c as int) - ('0' as int) else (c as int) - ('a' as int) + 10
  }

  /** Lower-case hexadecimal rendering (Rust's `{:x}`). */
  function Hex(n: nat): (r: string)
    ensures |r| >= 1 && AllChars(r, IsHexDigit)
    ensures r[0] == '0' <==> n == 0
    ensures n < 16 <==> |r| == 1
  {
    if n < 16 then [HexDigit(n)] else Hex(n / 16) + [HexDigit(n % 16)]
  }

  function HexValue(s: string): nat
    requires AllChars(s, IsHexDigit)
  {
    if s == [] then 0 else HexValue(s[..|s| - 1]) * 16 + HexDigitValue(s[|s| - 1])
  }

  lemma {:induction false} HexValueOfHex(n: nat)
    ensures HexValue(Hex(n)) == n
  {
    if n >= 16 {
      var s := Hex(n);
      assert s[..|s| - 1] == Hex(n / 16);
      HexValueOfHex(n / 16);
      HexDigitRound(n % 16);
    }
  }

  lemma HexDigitRound(d: nat)
    requires d < 16
    ensures IsHexDigit(HexDigit(d)) && HexDigitValue(HexDigit(d)) == d
  {
  }

  /** One char as Rust's `{:?}` writes it inside a quoted string, for the
      chars that are printable and not grapheme-extending; Rust also writes
      those others as `\u{..}`, which needs a Unicode table not modelled here. */
  function DebugChar(c: char): string {
    if c == '"' then "\\\""
    else if c == '\\' then "\\\\"
    else if c == '\n' then "\\n"
    else if c == '\r' then "\\r"
    else if c == '\t' then "\\t"
    else if c == '\0' then "\\0"
    else if (c as int) < 0x20 || c as int == 0x7f then "\\u{" + Hex(c as int) + "}"
    else [c]
  }

  /** Rust's `{:?}` of a string: quoted, with quotes, backslashes and control
      chars escaped. */
  function DebugString(s: string): (r: string)
    ensures |r| >= |s| + 2 && r[0] == '"' && r[|r| - 1] == '"'
  {
    "\"" + DebugBody(s) + "\""
  }

  function DebugBody(s: string): (r: string)
    ensures |r| >= |s|
  {
    if s == [] then "" else DebugChar(s[0]) + DebugBody(s[1..])
  }

  /** The end of the run of hexadecimal digits of `t` from `k`. */
  function HexRun(t: string, k: nat): (r: nat)
    requires k <= |t|
    ensures k <= r <= |t| && AllChars(t[k..r], IsHexDigit)
    ensures r < |t| ==> !IsHexDigit(t[r])
    decreases |t| - k
  {
    if k < |t| && IsHexDigit(t[k]) then HexRun(t, k + 1) else k
  }

  /** Reads back the escapes `DebugChar` writes; `None` for text it could
      not have written. */
  function DebugUnescape(t: string): (r: Option<string>)
    decreases |t|
  {
    if t == [] then Some([])
    else if t[0] != '\\' then DebugCons(t[0], DebugUnescape(t[1..]))
    else if |t| < 2 then None
    else if t[1] == '"' then DebugCons('"', DebugUnescape(t[2..]))
    else if t[1] == '\\' then DebugCons('\\', DebugUnescape(t[2..]))
    else if t[1] == 'n' then DebugCons('\n', DebugUnescape(t[2..]))
    else if t[1] == 'r' then DebugCons('\r', DebugUnescape(t[2..]))
    else if t[1] == 't' then DebugCons('\t', DebugUnescape(t[2..]))
    else if t[1] == '0' then DebugCons('\0', DebugUnescape(t[2..]))
    else if t[1] == 'u' && |t| >= 3 && t[2] == '{' then
      var k := HexRun(t, 3);
      if k < |t| && t[k] == '}' && k > 3 && HexValue(t[3..k]) < 0xD800 then
        DebugCons(HexValue(t[3..k]) as char, DebugUnescape(t[k + 1..]))
      else None
    else None
  }

  function DebugCons(c: char, rest: Option<string>): Option<string> {
    if rest.Some? then Some([c] + rest.value) else None
  }

  /** Reads back a quoted `{:?}` string. */
  function Unquote(t: string): (r: Option<string>) {
    if |t| >= 2 && t[0] == '"' && t[|t| - 1] == '"' then DebugUnescape(t[1..|t| - 1]) else None
  }

  /** `Unquote` inverts `DebugString`: the quoted text names its string
      exactly. */
  lemma UnquoteDebug(s: string)
    ensures Unquote(DebugString(s)) == Some(s)
  {
    var r := DebugString(s);
    assert r[1..|r| - 1] == DebugBody(s);
    DebugUnescapeBody(s);
  }

  lemma {:induction false} DebugUnescapeBody(s: string)
    ensures DebugUnescape(DebugBody(s)) == Some(s)
  {
    if s != [] {
      DebugUnescapeBody(s[1..]);
      DebugUnescapeChar(s[0], DebugBody(s[1..]));
      assert [s[0]] + s[1..] == s;
    }
  }

  /** One escaped char, then the rest. */
  lemma DebugUnescapeChar(c: char, rest: string)
    ensures DebugUnescape(DebugChar(c) + rest) == DebugCons(c, DebugUnescape(rest))
  {
    if c == '"' || c == '\\' || c == '\n' || c == '\r' || c == '\t' || c == '\0' {
      DebugUnescapeShort(c, rest);
    } else if (c as int) < 0x20 || c as int == 0x7f {
      DebugUnescapeHex(c, rest);
    } else {
      var t := DebugChar(c) + rest;
      assert t[0] == c && t[1..] == rest;
    }
  }

  lemma DebugUnescapeShort(c: char, rest: string)
    requires c == '"' || c == '\\' || c == '\n' || c == '\r' || c == '\t' || c == '\0'
    ensures DebugUnescape(DebugChar(c) + rest) == DebugCons(c, DebugUnescape(rest))
  {
    var t := DebugChar(c) + rest;
    assert |DebugChar(c)| == 2 && t[0] == '\\';
    assert t[2..] == rest;
  }

  lemma DebugUnescapeHex(c: char, rest: string)
    requires (c as int) < 0x20 || c as int == 0x7f
    requires !(c == '\n' || c == '\r' || c == '\t' || c == '\0')
    ensures DebugUnescape(DebugChar(c) + rest) == DebugCons(c, DebugUnescape(rest))
  {
    var h := Hex(c as int);
    var t := "\\u{" + h + "}" + rest;
    DebugCharHex(c);
    assert DebugChar(c) + rest == t;
    HexRunOver(h, rest);
    var k := 3 + |h|;
    assert t[3..k] == h;
    HexValueOfHex(c as int);
    assert t[k + 1..] == rest;
    assert t[0] == '\\' && t[1] == 'u' && t[2] == '{' && t[k] == '}';
    DebugUnescapeCode(t, k);
  }

  lemma DebugCharHex(c: char)
    requires (c as int) < 0x20 || c as int == 0x7f
    requires !(c == '\n' || c == '\r' || c == '\t' || c == '\0')
    ensures DebugChar(c) == "\\u{" + Hex(c as int) + "}"
  {
  }

  /** A `\u{...}` escape is read as the char of its hexadecimal code. */
  lemma DebugUnescapeCode(t: string, k: nat)
    requires 3 < k < |t| && t[0] == '\\' && t[1] == 'u' && t[2] == '{' && t[k] == '}'
    requires HexRun(t, 3) == k && HexValue(t[3..k]) < 0xD800
    ensures DebugUnescape(t) == DebugCons(HexValue(t[3..k]) as char, DebugUnescape(t[k + 1..]))
  {
  }

  lemma HexRunOver(h: string, rest: string)
    requires AllChars(h, IsHexDigit)
    ensures var t := "\\u{" + h + "}" + rest;
            HexRun(t, 3) == 3 + |h| && t[3 + |h|] == '}'
  {
    var t := "\\u{" + h + "}" + rest;
    HexRunFrom(t, 3, 3 + |h|);
  }

  lemma {:induction false} HexRunFrom(t: string, k: nat, e: nat)
    requires k <= e < |t| && !IsHexDigit(t[e])
    requires forall i :: k <= i < e ==> IsHexDigit(t[i])
    ensures HexRun(t, k) == e
    decreases e - k
  {
    if k < e {
      HexRunFrom(t, k + 1, e);
    }
  }

  /** Text without a char that needs escaping reads the same under `{:?}`,
      between the quotes. */
  lemma {:induction false} DebugPlain(s: string)
    requires forall i :: 0 <= i < |s| ==> DebugChar(s[i]) == [s[i]]
    ensures DebugString(s) == "\"" + s + "\""
  {
    DebugBodyPlain(s);
  }

  lemma {:induction false} DebugBodyPlain(s: string)
    requires forall i :: 0 <= i < |s| ==> DebugChar(s[i]) == [s[i]]
    ensures DebugBody(s) == s
  {
    if s != [] {
      assert DebugChar(s[0]) == [s[0]];
      DebugBodyPlain(s[1..]);
      assert [s[0]] + s[1..] == s;
    }
  }

  // ---------------------------------------------------------------------------
  // UTF-8 byte lengths

  /** Bytes the UTF-8 encoding of `c` takes. */
  function Utf8Width(c: char): nat {
    if (c as int) < 0x80 then 1
    else if (c as int) < 0x800 then 2
    else if (c as int) < 0x1_0000 then 3
    else 4
  }

  /** Rust's `str::len`: the UTF-8 byte count. */
  function Utf8Len(s: string): nat {
    if s == [] then 0 else Utf8Width(s[0]) + Utf8Len(s[1..])
  }

  lemma {:induction false} Utf8LenAppend(a: string, b: string)
    ensures Utf8Len(a + b) == Utf8Len(a) + Utf8Len(b)
  {
    if a != [] {
      assert a + b != [];
      assert (a + b)[0] == a[0];
      assert (a + b)[1..] == a[1..] + b;
      Utf8LenAppend(a[1..], b);
      assert Utf8Len(a + b) == Utf8Width(a[0]) + Utf8Len(a[1..] + b);
    } else {
      assert a + b == b;
    }
  }

  lemma Utf8LenPrefix(s: string, a: nat, b: nat)
    requires a <= b <= |s|
    ensures Utf8Len(s[..a]) <= Utf8Len(s[..b])
  {
    assert s[..b] == s[..a] + s[a..b];
    Utf8LenAppend(s[..a], s[a..b]);
  }

  lemma Utf8LenAtLeastLength(s: string)
    ensures Utf8Len(s) >= |s|
  {
  }

  /** The UTF-8 encoding of one char, as byte values. */
  function Utf8Char(c: char): (r: seq<nat>)
    ensures |r| == Utf8Width(c)
    ensures forall i :: 0 <= i < |r| ==> r[i] < 0x100
    ensures (c as int) < 0x80 ==> r == [c as nat]
  {
    var n := c as int;
    if n < 0x80 then [n]
    else if n < 0x800 then [0xC0 + n / 0x40, 0x80 + n % 0x40]
    else if n < 0x1_0000 then [0xE0 + n / 0x1000, 0x80 + (n / 0x40) % 0x40, 0x80 + n % 0x40]
    else [0xF0 + n / 0x4_0000, 0x80 + (n / 0x1000) % 0x40, 0x80 + (n / 0x40) % 0x40, 0x80 + n % 0x40]
  }

  /** `str::as_bytes`: the UTF-8 encoding of a string, as byte values. */
  function Utf8Encode(s: string): (r: seq<nat>)
    ensures |r| == Utf8Len(s)
    ensures forall i :: 0 <= i < |r| ==> r[i] < 0x100
  {
    if s == [] then [] else Utf8Char(s[0]) + Utf8Encode(s[1..])
  }

  /** A string of ASCII chars encodes as one byte per char, the char's code. */
  lemma {:induction false} Utf8EncodeAscii(s: string)
    requires forall i :: 0 <= i < |s| ==> (s[i] as int) < 0x80
    ensures Utf8Encode(s) == seq(|s|, i requires 0 <= i < |s| => s[i] as nat)
  {
    if s != [] {
      Utf8EncodeAscii(s[1..]);
    }
  }

  /** The longest prefix, in chars, whose UTF-8 encoding fits in `limit` bytes:
      what a byte index moved back to the nearest char boundary cuts off. */
  function PrefixWithin(s: string, limit: nat): (k: nat)
    ensures k <= |s| && Utf8Len(s[..k]) <= limit
    ensures k < |s| ==> Utf8Len(s[..k + 1]) > limit
  {
    if s == [] || Utf8Width(s[0]) > limit then
      assert s != [] ==> s[..1] == [s[0]] && s[..1][1..] == [];
      0
    else
      var k := 1 + PrefixWithin(s[1..], limit - Utf8Width(s[0]));
      assert s[..k][1..] == s[1..][..k - 1];
      assert k < |s| ==> s[..k + 1][1..] == s[1..][..k];
      k
  }

  /** The char index at byte offset `b`, when `b` is a char boundary. */
  function CharIndexOfByte(s: string, b: nat): (r: Option<nat>)
    ensures r.Some? ==> r.value <= |s| && Utf8Len(s[..r.value]) == b
  {
    var k := PrefixWithin(s, b);
    if Utf8Len(s[..k]) == b then Some(k) else None
  }
}

=== FILE: summary.dfy ===
/** The plain-text summary of a post: the text of its markdown events, escaped,
    with headings ended by ": ", list items marked " * ", images and raw HTML
    dropped, and every run of whitespace collapsed to a single space. */
module Summary {
  import opened Wrappers
  import opened Strings
  import opened Escape
  import opened CmarkOld
  import Html

  // ---------------------------------------------------------------------------
  // Whitespace collapsing

  /** The characters of `s` that are not whitespace, in order. */
  function NonSpace(s: string): string {
    if s == [] then "" else (if IsWhitespace(s[0]) then "" else [s[0]]) + NonSpace(s[1..])
  }

  /** No whitespace but single plain spaces, each followed by a non-space. */
  predicate Collapsed(s: string) {
    forall i :: 0 <= i < |s| && IsWhitespace(s[i]) ==> s[i] == ' ' && (i + 1 < |s| ==> !IsWhitespace(s[i + 1]))
  }

  /** Every run of whitespace replaced by one space (`\s+` to " "). */
  function Collapse(s: string): (r: string)
    ensures s != [] ==> r != [] && (!IsWhitespace(s[0]) ==> r[0] == s[0])
  {
    Squeeze(s, false)
  }

  /** The scan behind `Collapse`: `inSpace` says whether a space has just been
      written for a run of whitespace that has not ended yet. */
  function Squeeze(s: string, inSpace: bool): (r: string)
    ensures s != [] && !IsWhitespace(s[0]) ==> r != [] && r[0] == s[0]
    ensures s != [] && IsWhitespace(s[0]) && !inSpace ==> r != [] && r[0] == ' '
    ensures |r| <= |s|
  {
    if s == [] then ""
    else if IsWhitespace(s[0]) then
      if inSpace then Squeeze(s[1..], true) else " " + Squeeze(s[1..], true)
    else [s[0]] + Squeeze(s[1..], false)
  }

  /** Inside a run of whitespace the scan writes nothing until the run ends. */
  lemma {:induction false} SqueezeAfterSpace(s: string)
    ensures Squeeze(s, true) == [] || !IsWhitespace(Squeeze(s, true)[0])
    decreases |s|
  {
    if s != [] && IsWhitespace(s[0]) {
      SqueezeAfterSpace(s[1..]);
    }
  }

  /** The result of a collapse is collapsed. */
  lemma {:induction false} SqueezeIsCollapsed(s: string, inSpace: bool)
    ensures Collapsed(Squeeze(s, inSpace))
    decreases |s|
  {
    if s == [] {
    } else if IsWhitespace(s[0]) {
      SqueezeIsCollapsed(s[1..], true);
      SqueezeAfterSpace(s[1..]);
      var c := Squeeze(s[1..], true);
      if !inSpace {
        var r := " " + c;
        forall i | 0 <= i < |r| && IsWhitespace(r[i])
          ensures r[i] == ' ' && (i + 1 < |r| ==> !IsWhitespace(r[i + 1]))
        {
          if i > 0 {
            assert r[i] == c[i - 1];
          } else if i + 1 < |r| {
            assert r[1] == c[0];
          }
        }
      }
    } else {
      SqueezeIsCollapsed(s[1..], false);
      var c := Squeeze(s[1..], false);
      var r := [s[0]] + c;
      forall i | 0 <= i < |r| && IsWhitespace(r[i])
        ensures r[i] == ' ' && (i + 1 < |r| ==> !IsWhitespace(r[i + 1]))
      {
        assert r[i] == c[i - 1];
      }
    }
  }

  lemma CollapseIsCollapsed(s: string)
    ensures Collapsed(Collapse(s))
  {
    SqueezeIsCollapsed(s, false);
  }

  /** A collapse only writes spaces and characters of its input. */
  lemma {:induction false} SqueezeChars(s: string, inSpace: bool, x: char)
    requires x != ' ' && x in Squeeze(s, inSpace)
    ensures x in s
    decreases |s|
  {
    if s == [] {
    } else if IsWhitespace(s[0]) {
      var c := Squeeze(s[1..], true);
      assert x in c by {
        if !inSpace {
          var k :| 0 <= k < |" " + c| && (" " + c)[k] == x;
          assert c[k - 1] == x;
        }
      }
      SqueezeChars(s[1..], true, x);
      assert s == [s[0]] + s[1..];
    } else if x != s[0] {
      var c := Squeeze(s[1..], false);
      assert x in c by {
        var k :| 0 <= k < |[s[0]] + c| && ([s[0]] + c)[k] == x;
        assert c[k - 1] == x;
      }
      SqueezeChars(s[1..], false, x);
      assert s == [s[0]] + s[1..];
    }
  }

  lemma CollapseChars(s: string, x: char)
    requires x != ' ' && x in Collapse(s)
    ensures x in s
  {
    SqueezeChars(s, false, x);
  }

  /** A collapse of text that ends in a non-space ends in a non-space. */
  lemma {:induction false} SqueezeLast(s: string, inSpace: bool)
    requires s != [] && !IsWhitespace(s[|s| - 1])
    ensures Squeeze(s, inSpace) != [] && !IsWhitespace(Squeeze(s, inSpace)[|Squeeze(s, inSpace)| - 1])
    decreases |s|
  {
    if |s| > 1 {
      assert s[1..][|s| - 2] == s[|s| - 1];
      SqueezeLast(s[1..], IsWhitespace(s[0]));
    }
  }

  lemma CollapseLast(s: string)
    requires s != [] && !IsWhitespace(s[|s| - 1])
    ensures !IsWhitespace(Collapse(s)[|Collapse(s)| - 1])
  {
    SqueezeLast(s, false);
  }

  lemma {:induction false} NonSpaceAppend(a: string, b: string)
    ensures NonSpace(a + b) == NonSpace(a) + NonSpace(b)
    decreases |a|
  {
    if a == [] {
      assert a + b == b;
    } else {
      assert (a + b)[1..] == a[1..] + b;
      NonSpaceAppend(a[1..], b);
    }
  }

  /** Collapsing keeps every character that is not whitespace, in order. */
  lemma {:induction false} SqueezeKeepsText(s: string, inSpace: bool)
    ensures NonSpace(Squeeze(s, inSpace)) == NonSpace(s)
    decreases |s|
  {
    if s != [] {
      SqueezeKeepsText(s[1..], IsWhitespace(s[0]));
      var c := Squeeze(s[1..], IsWhitespace(s[0]));
      if IsWhitespace(s[0]) {
        if !inSpace {
          NonSpaceAppend(" ", c);
        }
      } else {
        NonSpaceAppend([s[0]], c);
      }
    }
  }

  lemma CollapseKeepsText(s: string)
    ensures NonSpace(Collapse(s)) == NonSpace(s)
  {
    SqueezeKeepsText(s, false);
  }

  /** Collapsed text is left as it is; in particular collapsing twice is
      collapsing once. */
  lemma {:induction false} SqueezeCollapsed(s: string, inSpace: bool)
    requires Collapsed(s) && (inSpace ==> s == [] || !IsWhitespace(s[0]))
    ensures Squeeze(s, inSpace) == s
    decreases |s|
  {
    if s != [] {
      assert Collapsed(s[1..]) by {
        forall i | 0 <= i < |s[1..]| && IsWhitespace(s[1..][i])
          ensures s[1..][i] == ' ' && (i + 1 < |s[1..]| ==> !IsWhitespace(s[1..][i + 1]))
        {
          assert s[1..][i] == s[i + 1];
        }
      }
      SqueezeCollapsed(s[1..], IsWhitespace(s[0]));
      assert s == [s[0]] + s[1..];
    }
  }

  lemma CollapseCollapsed(s: string)
    requires Collapsed(s)
    ensures Collapse(s) == s
  {
    SqueezeCollapsed(s, false);
  }

  lemma CollapseIdempotent(s: string)
    ensures Collapse(Collapse(s)) == Collapse(s)
  {
    CollapseIsCollapsed(s);
    CollapseCollapsed(Collapse(s));
  }

  // ---------------------------------------------------------------------------
  // The event loop

  predicate SpacedStart(tag: Tag) {
    tag.Paragraph? || tag.TableHead? || tag.TableCell? || tag.TableRow?
  }

  /** What may be written before the final collapse: never a tag. */
  predicate NoMarkup(s: string) {
    '<' !in s && '>' !in s
  }

  /** The text of a code block, escaped, up to its end; anything else in it is
      an error. */
  function CodeText(evs: seq<Event>, k: nat, out: string, debug: Event -> string)
    : (r: Result<(nat, string), Html.Failure>)
    requires k <= |evs|
    ensures r.Ok? ==> k <= r.value.0 <= |evs|
    ensures r.Ok? && NoMarkup(out) ==> NoMarkup(r.value.1)
    ensures r.Err? ==> r.error.Bail?
    decreases |evs| - k
  {
    if k == |evs| then Ok((k, out))
    else match evs[k]
      case End(CodeBlock(_)) => Ok((k + 1, out))
      case Text(code) => CodeText(evs, k + 1, out + EscapeHtml(code), debug)
      case _ => Err(Html.Bail("Unexpeted in code: " + debug(evs[k])))
  }

  /** The index just after the image that starts before `k`. */
  function SkipImage(evs: seq<Event>, k: nat): (r: nat)
    requires k <= |evs|
    ensures k <= r <= |evs|
    ensures forall j :: k <= j < r - 1 ==> !(evs[j].End? && evs[j].tag.Image?)
    ensures r < |evs| ==> r > k && evs[r - 1].End? && evs[r - 1].tag.Image?
    decreases |evs| - k
  {
    if k == |evs| then k
    else if evs[k].End? && evs[k].tag.Image? then k + 1
    else SkipImage(evs, k + 1)
  }

  /** What a single event adds, for events that do not consume others. */
  function Piece(e: Event, debug: Event -> string): (r: Result<string, Html.Failure>)
    requires !(e.Start? && (e.tag.CodeBlock? || e.tag.Image?))
    ensures e.Text? ==> r == Ok(EscapeHtml(e.text))
    ensures e.Code? ==> r == Ok(EscapeHtml(e.code))
    ensures e.Start? && e.tag.Heading? ==> r == Ok("")
    ensures e.End? && e.tag.Heading? ==> r == Ok(": ")
    ensures e.Html? ==> r == Ok(" ")
    ensures e.TaskListMarker? ==> r == Ok(if e.checked then "☑" else "☐")
    ensures e.FootnoteReference? ==> r.Err? && r.error.Bail?
    ensures e.End? && e.tag.CodeBlock? ==> r.Err? && r.error.Panic?
    ensures r.Ok? ==> NoMarkup(r.value)
  {
    match e
    case Text(t) => Ok(EscapeHtml(t))
    case Start(Heading(_, _, _)) => Ok("")
    case End(Heading(_, _, _)) => Ok(": ")
    case End(CodeBlock(_)) => Err(Html.Panic("internal error: entered unreachable code"))
    case TaskListMarker(done) => Ok(if done then "☑" else "☐")
    case Start(tag) => Ok(if SpacedStart(tag) then " " else if tag.Item? then " * " else "")
    case End(tag) => Ok(if SpacedStart(tag) || tag.Item? then " " else "")
    case Rule => Ok(" -- ")
    case SoftBreak => Ok(" ")
    case Html(_) => Ok(" ")
    case Code(code) => Ok(EscapeHtml(code))
    case HardBreak => Ok(" ")
    case FootnoteReference(_) => Err(Html.Bail("Unhandled: " + debug(e)))
  }

  /** The text gathered from event `i` on, before the collapse. */
  function Gather(evs: seq<Event>, i: nat, out: string, debug: Event -> string)
    : (r: Result<string, Html.Failure>)
    requires i <= |evs|
    ensures r.Ok? && NoMarkup(out) ==> NoMarkup(r.value)
    decreases |evs| - i
  {
    if i == |evs| then Ok(out)
    else
      var e := evs[i];
      if e.Start? && e.tag.CodeBlock? then
        var (j, o) :- CodeText(evs, i + 1, out, debug);
        Gather(evs, j, o, debug)
      else if e.Start? && e.tag.Image? then
        Gather(evs, SkipImage(evs, i + 1), out, debug)
      else
        var p :- Piece(e, debug);
        Gather(evs, i + 1, out + p, debug)
  }

  /** `collect`: the gathered text, trimmed and collapsed.  It is plain text:
      no tag survives, raw HTML included. */
  function Collect(evs: seq<Event>, debug: Event -> string): (r: Result<string, Html.Failure>)
    ensures r.Ok? <==> Gather(evs, 0, "", debug).Ok?
    ensures r.Ok? ==> r.value == Collapse(Trim(Gather(evs, 0, "", debug).value))
    ensures r.Ok? ==> NonSpace(r.value) == NonSpace(Gather(evs, 0, "", debug).value)
    ensures r.Ok? ==> Collapsed(r.value) && NoMarkup(r.value)
    ensures r.Ok? ==> r.value == [] || (!IsWhitespace(r.value[0]) && !IsWhitespace(r.value[|r.value| - 1]))
  {
    match Gather(evs, 0, "", debug)
    case Err(e) => Err(e)
    case Ok(raw) =>
      CollectedText(raw);
      Ok(Collapse(Trim(raw)))
  }

  /** Trimmed and collapsed markup-free text: collapsed, still free of
      markup, with the same text, and no white space at either end. */
  lemma CollectedText(raw: string)
    requires NoMarkup(raw)
    ensures var r := Collapse(Trim(raw));
            && NonSpace(r) == NonSpace(raw) && Collapsed(r) && NoMarkup(r)
            && (r == [] || (!IsWhitespace(r[0]) && !IsWhitespace(r[|r| - 1])))
  {
    var t := Trim(raw);
    TrimKeepsText(raw);
    CollapseKeepsText(t);
    assert NoMarkup(t) by {
      var k :| InfixAt(raw, t, k);
      assert forall i :: 0 <= i < |t| ==> t[i] == raw[k + i];
    }
    CollapseIsCollapsed(t);
    assert NoMarkup(Collapse(t)) by {
      if '<' in Collapse(t) { CollapseChars(t, '<'); }
      if '>' in Collapse(t) { CollapseChars(t, '>'); }
    }
    if t != [] { CollapseLast(t); }
  }

  /** White space only: nothing is kept. */
  lemma {:induction false} NonSpaceBlank(w: string)
    requires forall i :: 0 <= i < |w| ==> IsWhitespace(w[i])
    ensures NonSpace(w) == ""
    decreases |w|
  {
    if w != [] {
      NonSpaceBlank(w[1..]);
    }
  }

  /** Trimming removes only white space: the text is kept. */
  lemma TrimKeepsText(s: string)
    ensures NonSpace(Trim(s)) == NonSpace(s)
  {
    TrimStartKeepsText(s);
    TrimEndKeepsText(TrimStart(s));
  }

  lemma TrimStartKeepsText(s: string)
    ensures NonSpace(TrimStart(s)) == NonSpace(s)
  {
    var t := TrimStart(s);
    var k := |s| - |t|;
    assert s == s[..k] + t;
    NonSpaceBlank(s[..k]);
    NonSpaceAppend(s[..k], t);
  }

  lemma TrimEndKeepsText(t: string)
    ensures NonSpace(TrimEnd(t)) == NonSpace(t)
  {
    var r := TrimEnd(t);
    assert t == r + t[|r|..];
    NonSpaceBlank(t[|r|..]);
    NonSpaceAppend(r, t[|r|..]);
  }

  // ---------------------------------------------------------------------------
  // Whole streams

  lemma GatherOn(evs: seq<Event>, i: nat, out: string, debug: Event -> string, p: string)
    requires i < |evs| && !(evs[i].Start? && (evs[i].tag.CodeBlock? || evs[i].tag.Image?))
    requires Piece(evs[i], debug) == Ok(p)
    ensures Gather(evs, i, out, debug) == Gather(evs, i + 1, out + p, debug)
  {
  }

  /** An image, alt text included, adds nothing. */
  lemma ImageDropped(lt: LinkType, dest: string, title: string, alt: string, debug: Event -> string)
    ensures Collect([Start(Image(lt, dest, title)), Text(alt), End(Image(lt, dest, title))], debug) == Ok("")
  {
    var evs := [Start(Image(lt, dest, title)), Text(alt), End(Image(lt, dest, title))];
    assert SkipImage(evs, 1) == 3;
    assert Gather(evs, 0, "", debug) == Ok("");
  }

  /** Raw HTML is replaced by a space, which the trim then removes. */
  lemma HtmlDropped(h: string, debug: Event -> string)
    ensures Collect([Html(h)], debug) == Ok("")
  {
    GatherOn([Html(h)], 0, "", debug, " ");
    assert " "[1..] == [] && TrimStart(" ") == [];
    assert Trim(" ") == "";
  }

  /** A heading followed by a paragraph reads "heading: text". */
  lemma HeadingThenParagraph(a: string, b: string, debug: Event -> string)
    requires a != [] && b != []
    requires forall i :: 0 <= i < |a| ==> IsAsciiLower(a[i])
    requires forall i :: 0 <= i < |b| ==> IsAsciiLower(b[i])
    ensures Collect([Start(Heading(H2, None, [])), Text(a), End(Heading(H2, None, [])),
                     Start(Paragraph), Text(b), End(Paragraph)], debug) == Ok(a + ": " + b)
  {
    HeadingThenParagraphGather(a, b, debug);
    TrimWords(a, b);
    CollapseWords(a, b);
  }

  lemma HeadingThenParagraphGather(a: string, b: string, debug: Event -> string)
    requires forall i :: 0 <= i < |a| ==> IsAsciiLower(a[i])
    requires forall i :: 0 <= i < |b| ==> IsAsciiLower(b[i])
    ensures Gather([Start(Heading(H2, None, [])), Text(a), End(Heading(H2, None, [])),
                    Start(Paragraph), Text(b), End(Paragraph)], 0, "", debug) == Ok(a + ":  " + b + " ")
  {
    var evs := [Start(Heading(H2, None, [])), Text(a), End(Heading(H2, None, [])),
                Start(Paragraph), Text(b), End(Paragraph)];
    HeadingPart(evs, a, debug);
    ParagraphPart(evs, a + ": ", b, debug);
    assert a + ": " + " " + b + " " == a + ":  " + b + " ";
  }

  lemma HeadingPart(evs: seq<Event>, a: string, debug: Event -> string)
    requires |evs| >= 3 && evs[..3] == [Start(Heading(H2, None, [])), Text(a), End(Heading(H2, None, []))]
    requires forall i :: 0 <= i < |a| ==> IsAsciiLower(a[i])
    ensures Gather(evs, 0, "", debug) == Gather(evs, 3, a + ": ", debug)
  {
    assert evs[0] == Start(Heading(H2, None, [])) && evs[1] == Text(a) && evs[2] == End(Heading(H2, None, []));
    assert Gather(evs, 0, "", debug) == Gather(evs, 1, "", debug) by {
      assert "" + "" == "";
      GatherOn(evs, 0, "", debug, "");
    }
    assert Gather(evs, 1, "", debug) == Gather(evs, 2, a, debug) by {
      EscapeHtmlPlain(a);
      assert "" + a == a;
      GatherOn(evs, 1, "", debug, a);
    }
    GatherOn(evs, 2, a, debug, ": ");
  }

  lemma ParagraphPart(evs: seq<Event>, o: string, b: string, debug: Event -> string)
    requires |evs| == 6 && evs[3..] == [Start(Paragraph), Text(b), End(Paragraph)]
    requires forall i :: 0 <= i < |b| ==> IsAsciiLower(b[i])
    ensures Gather(evs, 3, o, debug) == Ok(o + " " + b + " ")
  {
    EscapeHtmlPlain(b);
    assert evs[3] == Start(Paragraph) && evs[4] == Text(b) && evs[5] == End(Paragraph);
    GatherOn(evs, 3, o, debug, " ");
    GatherOn(evs, 4, o + " ", debug, b);
    GatherOn(evs, 5, o + " " + b, debug, " ");
  }

  lemma TrimWords(a: string, b: string)
    requires a != [] && b != []
    requires forall i :: 0 <= i < |a| ==> IsAsciiLower(a[i])
    requires forall i :: 0 <= i < |b| ==> IsAsciiLower(b[i])
    ensures Trim(a + ":  " + b + " ") == a + ":  " + b
  {
    var raw := a + ":  " + b + " ";
    assert !IsWhitespace(raw[0]) by { assert raw[0] == a[0]; }
    assert TrimStart(raw) == raw;
    assert raw[..|raw| - 1] == a + ":  " + b;
    var u := a + ":  " + b;
    assert !IsWhitespace(u[|u| - 1]) by { assert u[|u| - 1] == b[|b| - 1]; }
    assert TrimEnd(raw) == TrimEnd(u);
  }

  lemma CollapseWords(a: string, b: string)
    requires a != [] && b != []
    requires forall i :: 0 <= i < |a| ==> IsAsciiLower(a[i])
    requires forall i :: 0 <= i < |b| ==> IsAsciiLower(b[i])
    ensures Collapse(a + ":  " + b) == a + ": " + b
  {
    SqueezeWord(a, ":  " + b, false);
    assert a + ":  " + b == a + (":  " + b);
    var t := "  " + b;
    assert (":  " + b)[1..] == t && t[1..] == " " + b && (" " + b)[1..] == b;
    assert !IsWhitespace(':') && IsWhitespace(' ');
    assert Squeeze(" " + b, true) == Squeeze(b, true);
    assert Squeeze(t, false) == " " + Squeeze(b, true);
    SqueezeWord(b, "", true);
    assert b + "" == b;
  }

  /** A word of lower-case letters passes a collapse as it is. */
  lemma {:induction false} SqueezeWord(a: string, rest: string, inSpace: bool)
    requires a != [] && forall i :: 0 <= i < |a| ==> IsAsciiLower(a[i])
    ensures Squeeze(a + rest, inSpace) == a + Squeeze(rest, false)
    decreases |a|
  {
    assert (a + rest)[0] == a[0] && (a + rest)[1..] == a[1..] + rest;
    assert !IsWhitespace(a[0]);
    if |a| > 1 {
      SqueezeWord(a[1..], rest, false);
    } else {
      assert a[1..] + rest == rest;
    }
  }
}

=== FILE: tag_cloud.dfy ===
/** The tag cloud and the tag pages: each tag gets one of six CSS weight
    classes from its number of posts, and a tag page links to the tag's feed.
    The tags and their post counts, one count per tag in the order the query
    lists them, are the input; the query and the page template are not part of
    this model. */
module TagCloud {
  import opened Strings
  import MyLang

  /** The number of weight classes, `.w0` to `.w5` in the style sheet. */
  const WeightClasses: nat := 6

  /** The number of distinct counts that share a class, for `k` distinct counts. */
  function Bin(k: nat): (b: nat)
    ensures b >= 1
    ensures (WeightClasses - 1) * b >= k + 2
  {
    (k + WeightClasses) / (WeightClasses - 1)
  }

  /** `usize::div_ceil`: the quotient rounded up. */
  function DivCeil(a: nat, b: nat): (q: nat)
    requires b >= 1
    ensures q * b >= a
    ensures q > 0 ==> (q - 1) * b < a
    ensures a == 0 ==> q == 0
    ensures b == 1 ==> q == a
  {
    a / b + (if a % b > 0 then 1 else 0)
  }

  /** Rounding up keeps the order of the dividends. */
  lemma DivCeilMonotone(a: nat, c: nat, b: nat)
    requires b >= 1 && a <= c
    ensures DivCeil(a, b) <= DivCeil(c, b)
  {
    var qa := DivCeil(a, b);
    var qc := DivCeil(c, b);
    if qa > qc {
      MulMonotone(qc, qa - 1, b);
      assert false;
    }
  }

  lemma MulMonotone(x: nat, y: nat, b: nat)
    requires x <= y
    ensures x * b <= y * b
  {
    assert y * b == x * b + (y - x) * b;
  }

  /** The distinct post counts. */
  function Distinct(counts: seq<int>): set<int> {
    set x | x in counts
  }

  predicate Increasing(keys: seq<int>) {
    forall i, j :: 0 <= i < j < |keys| ==> keys[i] < keys[j]
  }

  /** `entry(n).or_default()` on an ordered map, as its keys in iteration
      order: `n` inserted in place, unless it is a key already. */
  function Insert(keys: seq<int>, n: int): (r: seq<int>)
    requires Increasing(keys)
    ensures Increasing(r)
    ensures forall x :: x in r <==> x in keys || x == n
  {
    if keys == [] then [n]
    else if n < keys[0] then [n] + keys
    else if n == keys[0] then keys
    else
      var rest := Insert(keys[1..], n);
      assert forall j :: 0 <= j < |rest| ==> keys[0] < rest[j] by {
        forall j | 0 <= j < |rest| ensures keys[0] < rest[j] {
          assert rest[j] in rest;
          assert rest[j] == n || rest[j] in keys[1..];
        }
      }
      [keys[0]] + rest
  }

  /** The keys of the count map after the first loop, in ascending order. */
  function Keys(counts: seq<int>): (r: seq<int>)
    ensures Increasing(r)
    ensures forall x :: x in r <==> x in counts
  {
    if counts == [] then []
    else
      var last := |counts| - 1;
      var r := Insert(Keys(counts[..last]), counts[last]);
      assert counts == counts[..last] + [counts[last]];
      r
  }

  /** The reference for a key's position in ascending order: how many distinct
      counts are smaller. */
  function Rank(n: int, counts: seq<int>): nat {
    |set x | x in counts && x < n|
  }

  lemma {:induction false} DistinctCard(keys: seq<int>)
    requires Increasing(keys)
    ensures |set x | x in keys| == |keys|
  {
    if keys != [] {
      var last := |keys| - 1;
      var front := keys[..last];
      DistinctCard(front);
      assert keys == front + [keys[last]];
      assert (set x | x in keys) == (set x | x in front) + {keys[last]};
      assert keys[last] !in front;
    }
  }

  /** There are as many distinct counts as keys. */
  lemma KeysCount(counts: seq<int>)
    ensures |Distinct(counts)| == |Keys(counts)|
  {
    var keys := Keys(counts);
    assert Distinct(counts) == set x | x in keys;
    DistinctCard(keys);
  }

  /** The key at position `i` has exactly `i` smaller distinct counts. */
  lemma RankOfPosition(counts: seq<int>, i: nat)
    requires i < |Keys(counts)|
    ensures Rank(Keys(counts)[i], counts) == i
  {
    var keys := Keys(counts);
    var front := keys[..i];
    SmallerAreFront(counts, keys, i);
    DistinctCard(front);
  }

  /** The counts below the key at `i` are the keys before it. */
  lemma SmallerAreFront(counts: seq<int>, keys: seq<int>, i: nat)
    requires keys == Keys(counts) && i < |keys|
    ensures (set x | x in counts && x < keys[i]) == set x | x in keys[..i]
  {
    forall x | x in counts && x < keys[i] ensures x in keys[..i] {
      SmallerIsFront(keys, i, x);
    }
    forall x | x in keys[..i] ensures x in counts && x < keys[i] {
      FrontIsSmaller(keys, i, x);
    }
  }

  lemma SmallerIsFront(keys: seq<int>, i: nat, x: int)
    requires Increasing(keys) && i < |keys| && x in keys && x < keys[i]
    ensures x in keys[..i]
  {
    var j :| 0 <= j < |keys| && keys[j] == x;
    assert j < i;
    assert keys[..i][j] == x;
  }

  lemma FrontIsSmaller(keys: seq<int>, i: nat, x: int)
    requires Increasing(keys) && i < |keys| && x in keys[..i]
    ensures x in keys && x < keys[i]
  {
    var j :| 0 <= j < i && keys[..i][j] == x;
    assert keys[j] == x;
  }

  /** Where `n` is among the keys. */
  function IndexOf(keys: seq<int>, n: int): (i: nat)
    requires n in keys
    ensures i < |keys| && keys[i] == n
  {
    if keys[0] == n then 0 else 1 + IndexOf(keys[1..], n)
  }

  /** `counts` after the second loop: each distinct count maps to its position
      in ascending order, rounded up to a whole number of bins. */
  function ClassMap(counts: seq<int>): (r: map<int, nat>)
    ensures r.Keys == Distinct(counts)
    ensures forall n :: n in r ==> r[n] == DivCeil(Rank(n, counts), Bin(|Distinct(counts)|))
  {
    var keys := Keys(counts);
    KeysCount(counts);
    var bin := Bin(|keys|);
    var r := map n | n in keys :: DivCeil(IndexOf(keys, n), bin);
    assert forall n :: n in r ==> r[n] == DivCeil(Rank(n, counts), bin) by {
      forall n | n in r
        ensures r[n] == DivCeil(Rank(n, counts), bin)
      {
        RankOfPosition(counts, IndexOf(keys, n));
      }
    }
    r
  }

  /** The class looked up for a count; one that is not a key gets the default 0. */
  function Weight(counts: seq<int>, n: int): nat {
    var m := ClassMap(counts);
    if n in m then m[n] else 0
  }

  lemma SubsetCard(a: set<int>, b: set<int>)
    requires a <= b
    ensures |a| <= |b|
    ensures a < b ==> |a| < |b|
  {
    assert b == a + (b - a);
    assert a * (b - a) == {};
    if a < b {
      assert b - a != {};
    }
  }

  /** There are fewer smaller counts than distinct counts. */
  lemma RankBelowCard(n: int, counts: seq<int>)
    requires n in counts
    ensures Rank(n, counts) < |Distinct(counts)|
  {
    var smaller := set x | x in counts && x < n;
    assert n in Distinct(counts) && n !in smaller;
    SubsetCard(smaller, Distinct(counts));
  }

  /** A larger count has at least as many smaller counts. */
  lemma RankMonotone(a: int, b: int, counts: seq<int>)
    requires a <= b
    ensures Rank(a, counts) <= Rank(b, counts)
  {
    SubsetCard((set x | x in counts && x < a), (set x | x in counts && x < b));
  }

  lemma MulCancel(x: nat, y: nat, b: nat)
    requires b >= 1 && x * b < y * b
    ensures x < y
  {
  }

  /** A count below the number of distinct counts is binned into one of the six
      classes. */
  lemma ClassBelowSix(rank: nat, k: nat)
    requires rank < k
    ensures DivCeil(rank, Bin(k)) < WeightClasses
  {
    var b := Bin(k);
    var q := DivCeil(rank, b);
    if q > 0 {
      assert (q - 1) * b < 5 * b;
      MulCancel(q - 1, 5, b);
    }
  }

  /** The class of a count that some tag has. */
  lemma WeightOfCount(counts: seq<int>, n: int)
    requires n in counts
    ensures Weight(counts, n) == DivCeil(Rank(n, counts), Bin(|Distinct(counts)|))
    ensures Weight(counts, n) < WeightClasses
  {
    assert n in ClassMap(counts).Keys;
    RankBelowCard(n, counts);
    ClassBelowSix(Rank(n, counts), |Distinct(counts)|);
  }

  /** Classes follow the order of the counts. */
  lemma WeightMonotone(counts: seq<int>, a: int, b: int)
    requires a in counts && b in counts && a <= b
    ensures Weight(counts, a) <= Weight(counts, b)
  {
    WeightOfCount(counts, a);
    WeightOfCount(counts, b);
    RankMonotone(a, b, counts);
    DivCeilMonotone(Rank(a, counts), Rank(b, counts), Bin(|Distinct(counts)|));
  }

  /** The smallest count has no smaller count, so it is in class 0. */
  lemma WeightOfSmallest(counts: seq<int>, n: int)
    requires n in counts && forall j :: 0 <= j < |counts| ==> n <= counts[j]
    ensures Weight(counts, n) == 0
  {
    WeightOfCount(counts, n);
    forall x | x in counts ensures n <= x {
      var j :| 0 <= j < |counts| && counts[j] == x;
    }
    assert (set x | x in counts && x < n) == {};
    assert Rank(n, counts) == 0;
  }

  /** `tagcloud`: the weight class of each tag, in the order of the tags. */
  function Weights(counts: seq<int>): (r: seq<nat>)
    ensures |r| == |counts|
    ensures forall i :: 0 <= i < |r| ==> r[i] == Weight(counts, counts[i])
  {
    seq(|counts|, i requires 0 <= i < |counts| => Weight(counts, counts[i]))
  }

  /** Every class is one of the six. */
  lemma WeightsBounded(counts: seq<int>, i: nat)
    requires i < |counts|
    ensures Weights(counts)[i] < WeightClasses
  {
    WeightOfCount(counts, counts[i]);
  }

  /** Tags with as many posts get the same class, and a tag with more posts
      never gets a lower class. */
  lemma WeightsOrdered(counts: seq<int>, i: nat, j: nat)
    requires i < |counts| && j < |counts|
    ensures counts[i] == counts[j] ==> Weights(counts)[i] == Weights(counts)[j]
    ensures counts[i] <= counts[j] ==> Weights(counts)[i] <= Weights(counts)[j]
  {
    if counts[i] <= counts[j] {
      WeightMonotone(counts, counts[i], counts[j]);
    }
  }

  /** The tags with the fewest posts are in class 0. */
  lemma WeightsSmallestZero(counts: seq<int>, i: nat)
    requires i < |counts|
    requires forall j :: 0 <= j < |counts| ==> counts[i] <= counts[j]
    ensures Weights(counts)[i] == 0
  {
    WeightOfSmallest(counts, counts[i]);
  }

  lemma SmallBin(k: nat)
    requires k <= 3
    ensures Bin(k) == 1
  {
    assert k == 0 || k == 1 || k == 2 || k == 3;
  }

  /** With at most three distinct counts each bin is one wide, so the class is
      the number of distinct smaller counts. */
  lemma FewCountsRankOnly(counts: seq<int>, i: nat)
    requires |Distinct(counts)| <= 3 && i < |counts|
    ensures Weights(counts)[i] == Rank(counts[i], counts)
  {
    WeightOfCount(counts, counts[i]);
    SmallBin(|Distinct(counts)|);
  }

  /** The largest count has every other distinct count below it. */
  lemma RankOfLargest(counts: seq<int>, n: int)
    requires n in counts
    requires forall j :: 0 <= j < |counts| ==> counts[j] <= n
    ensures Rank(n, counts) == |Distinct(counts)| - 1
  {
    var s := Distinct(counts);
    var smaller := set x | x in counts && x < n;
    assert n in s;
    forall x | x in s - {n} ensures x in smaller {
      assert x in counts && x != n;
      var j :| 0 <= j < |counts| && counts[j] == x;
      assert counts[j] <= n;
    }
    forall x | x in smaller ensures x in s - {n} {
    }
    assert smaller == s - {n};
    assert s == smaller + {n} && n !in smaller;
  }

  /** The tags with the most posts are in the class of the last distinct
      count. */
  lemma WeightsLargest(counts: seq<int>, i: nat)
    requires i < |counts|
    requires forall j :: 0 <= j < |counts| ==> counts[j] <= counts[i]
    ensures Rank(counts[i], counts) == |Distinct(counts)| - 1
    ensures Weights(counts)[i] == DivCeil(Rank(counts[i], counts), Bin(|Distinct(counts)|))
  {
    WeightOfCount(counts, counts[i]);
    RankOfLargest(counts, counts[i]);
  }

  /** Whether the top class is used depends on the number of distinct counts:
      with 18 the largest count gets class 5, with 24 only class 4. */
  lemma TopClassUse(counts: seq<int>, i: nat)
    requires i < |counts|
    requires forall j :: 0 <= j < |counts| ==> counts[j] <= counts[i]
    ensures |Distinct(counts)| == 18 ==> Weights(counts)[i] == 5
    ensures |Distinct(counts)| == 24 ==> Weights(counts)[i] == 4
  {
    WeightsLargest(counts, i);
    assert Bin(18) == 4 && DivCeil(17, 4) == 5;
    assert Bin(24) == 6 && DivCeil(23, 6) == 4;
  }

  /** The link to the cloud in another language. */
  function CloudLink(lang: MyLang.Lang, name: string): (r: string)
    ensures StartsWith(r, "<a href='/tag/" + MyLang.Code(lang) + "'")
    ensures EndsWith(r, name + "</a>")
  {
    var code := MyLang.Code(lang);
    var r := "<a href='/tag/" + code + "' hreflang='" + code + "' lang='" + code + "' rel='alternate'>" + name + "</a>";
    assert r[..|"<a href='/tag/" + code + "'"|] == "<a href='/tag/" + code + "'";
    assert r[|r| - |name + "</a>"|..] == name + "</a>";
    r
  }

  /** The link to a tag page in another language. */
  function TagPageLink(slug: string, lang: MyLang.Lang, name: string): (r: string)
    ensures StartsWith(r, "<a href='/tag/" + slug + "." + MyLang.Code(lang) + "'")
    ensures EndsWith(r, name + "</a>")
  {
    var code := MyLang.Code(lang);
    var r := "<a href='/tag/" + slug + "." + code + "' hreflang='" + code + "' lang='" + code + "' rel='alternate'>" + name + "</a>";
    assert r[..|"<a href='/tag/" + slug + "." + code + "'"|] == "<a href='/tag/" + slug + "." + code + "'";
    assert r[|r| - |name + "</a>"|..] == name + "</a>";
    r
  }

  /** The file name of a tag's feed, under the site base. */
  function TagFeedName(lang: MyLang.Lang, slug: string): (r: string)
    ensures |r| == 12 + |slug|
    ensures StartsWith(r, "atom-") && EndsWith(r, ".xml")
    ensures r[5..7] == MyLang.Code(lang) && r[7] == '-' && r[8..|r| - 4] == slug
  {
    var r := "atom-" + MyLang.Code(lang) + "-" + slug + ".xml";
    assert r[..5] == "atom-";
    assert r[|r| - 4..] == ".xml";
    r
  }

  /** The feed of a tag page: `{base}/atom-{lang}-{slug}.xml`. */
  function TagFeed(base: string, lang: MyLang.Lang, slug: string): (r: string)
    ensures StartsWith(r, base + "/")
    ensures r[|base| + 1..] == TagFeedName(lang, slug)
  {
    var r := base + "/" + TagFeedName(lang, slug);
    assert r[..|base| + 1] == base + "/";
    r
  }
}

=== FILE: teaser.dfy ===
/** Teasers: the opening of a post shown in lists, with its tags, whether the
    post goes on beyond it, and how many public comments it has.  The queries
    that fetch the rows are not modelled; their results are the inputs. */
module Teaser {
  import opened Ints
  import opened Fluent
  import opened Strings
  import Post
  import MyLang

  /** The post's columns, with the stored teaser in place of the content. */
  datatype Teaser = Teaser(post: Post.Post, tags: seq<Post.Tag>, isMore: bool, nComments: U32)

  /** One row of a teaser query: the post, whether its teaser differs from its
      full content, and its number of public comments. */
  datatype Row = Row(post: Post.Post, isMore: bool, nComments: int)

  /** What the query computes for `is_more`. */
  predicate IsMore(teaser: string, content: string) {
    teaser != content
  }

  /** `with_tags`: the tag groups of the posts, in post order, zipped with the
      rows; the comment count is cast down to 32 bits. */
  function WithTags(rows: seq<Row>, groups: seq<seq<Post.Tag>>): (r: seq<Teaser>)
    ensures |r| == if |rows| <= |groups| then |rows| else |groups|
    ensures forall i :: 0 <= i < |r| ==>
              r[i].post == rows[i].post && r[i].tags == groups[i] && r[i].isMore == rows[i].isMore
              && (r[i].nComments - rows[i].nComments) % 0x1_0000_0000 == 0
    ensures forall i :: 0 <= i < |r| && 0 <= rows[i].nComments < 0x1_0000_0000 ==>
              r[i].nComments == rows[i].nComments
  {
    if rows == [] || groups == [] then []
    else
      [Teaser(rows[0].post, groups[0], rows[0].isMore, WrapU32(rows[0].nComments))]
      + WithTags(rows[1..], groups[1..])
  }

  /** The publication line of a teaser is that of its post, with its own
      tags: it opens with the posted message and holds the link of every one
      of the teaser's tags. */
  function Publine(t: Teaser, fl: Lookup): (line: string)
    ensures StartsWith(line, fl(t.post.lang, "posted-at", [("date", DateArg(t.post.postedAt))]))
    ensures forall i :: 0 <= i < |t.tags| ==>
              Contains(line, Post.TagLink(t.tags[i].slug.text, t.tags[i].name, MyLang.Code(t.post.lang), " rel='tag'"))
    ensures t.tags != [] ==> EndsWith(line, ".")
  {
    PublineHasLinks(t, fl);
    Post.Publine(t.post, t.tags, fl)
  }

  lemma PublineHasLinks(t: Teaser, fl: Lookup)
    ensures var line := Post.Publine(t.post, t.tags, fl);
            && StartsWith(line, fl(t.post.lang, "posted-at", [("date", DateArg(t.post.postedAt))]))
            && (forall i :: 0 <= i < |t.tags| ==>
                  Contains(line, Post.TagLink(t.tags[i].slug.text, t.tags[i].name, MyLang.Code(t.post.lang), " rel='tag'")))
            && (t.tags != [] ==> EndsWith(line, "."))
  {
    var p := t.post;
    var posted := fl(p.lang, "posted-at", [("date", DateArg(p.postedAt))]);
    var updated := if p.updatedAt.nanos > p.postedAt.nanos
                   then " " + fl(p.lang, "updated-at", [("date", DateArg(p.updatedAt))])
                   else "";
    var code := MyLang.Code(p.lang);
    var joined := Join(Post.TagLinks(Post.SlugsAndNames(t.tags), code, " rel='tag'"), ",");
    PublineSplit(t, fl, posted, updated, joined);
  }

  /** The line in its parts: the posted and updated messages, then the tagged
      part when there are tags. */
  lemma PublineSplit(t: Teaser, fl: Lookup, posted: string, updated: string, joined: string)
    requires posted == fl(t.post.lang, "posted-at", [("date", DateArg(t.post.postedAt))])
    requires updated == if t.post.updatedAt.nanos > t.post.postedAt.nanos
                        then " " + fl(t.post.lang, "updated-at", [("date", DateArg(t.post.updatedAt))])
                        else ""
    requires joined == Join(Post.TagLinks(Post.SlugsAndNames(t.tags), MyLang.Code(t.post.lang), " rel='tag'"), ",")
    ensures var line := Post.Publine(t.post, t.tags, fl);
            && StartsWith(line, posted)
            && (forall i :: 0 <= i < |t.tags| ==>
                  Contains(line, Post.TagLink(t.tags[i].slug.text, t.tags[i].name, MyLang.Code(t.post.lang), " rel='tag'")))
            && (t.tags != [] ==> EndsWith(line, "."))
  {
    var line := Post.Publine(t.post, t.tags, fl);
    if t.tags == [] {
      assert line == posted + updated + "";
      Bracketing(posted, updated, "");
    } else {
      var mid := updated + " " + fl(t.post.lang, "tagged", []);
      var tagged := " " + fl(t.post.lang, "tagged", []) + joined + ".";
      assert line == posted + updated + tagged;
      TaggedRegroup(posted, updated, fl(t.post.lang, "tagged", []), joined);
      TaggedLine(t.tags, MyLang.Code(t.post.lang), posted, mid);
    }
  }

  lemma TaggedRegroup(posted: string, updated: string, tagged: string, joined: string)
    ensures posted + updated + (" " + tagged + joined + ".") == posted + (updated + " " + tagged) + joined + "."
  {
  }

  /** A line ending in the tagged part: it starts with its first part, ends
      with a full stop and holds every tag's link. */
  lemma TaggedLine(tags: seq<Post.Tag>, code: string, first: string, mid: string)
    ensures var joined := Join(Post.TagLinks(Post.SlugsAndNames(tags), code, " rel='tag'"), ",");
            var line := first + mid + joined + ".";
            && StartsWith(line, first) && EndsWith(line, ".")
            && (forall i :: 0 <= i < |tags| ==>
                  Contains(line, Post.TagLink(tags[i].slug.text, tags[i].name, code, " rel='tag'")))
  {
    var joined := Join(Post.TagLinks(Post.SlugsAndNames(tags), code, " rel='tag'"), ",");
    assert first + mid + joined + "." == first + (mid + joined) + ".";
    Bracketing(first, mid + joined, ".");
    forall i | 0 <= i < |tags|
      ensures Contains(first + mid + joined + ".", Post.TagLink(tags[i].slug.text, tags[i].name, code, " rel='tag'"))
    {
      TaggedHasLink(first + mid, tags, code, i);
    }
  }

  /** The tagged part holds the link of each tag. */
  lemma TaggedHasLink(head: string, tags: seq<Post.Tag>, code: string, i: nat)
    requires i < |tags|
    ensures Contains(head + Join(Post.TagLinks(Post.SlugsAndNames(tags), code, " rel='tag'"), ",") + ".",
                     Post.TagLink(tags[i].slug.text, tags[i].name, code, " rel='tag'"))
  {
    var links := Post.TagLinks(Post.SlugsAndNames(tags), code, " rel='tag'");
    JoinContains(links, ",", i);
    ContainsInside(head, Join(links, ","), ".", links[i]);
  }

  /** `tags`. */
  function Tags(t: Teaser): seq<Post.Tag> {
    t.tags
  }

  /** The message id and arguments of the "read more" link. */
  function ReadmoreMessage(t: Teaser): (m: (string, seq<(string, Arg)>))
    ensures m.0 in {"read-more-comments", "read-more", "read-comments", "comment-first"}
    ensures HasArg(m.1, "title") <==> t.isMore
    ensures HasArg(m.1, "n") <==> t.nComments > 0
    ensures forall i :: 0 <= i < |m.1| && m.1[i].0 == "title" ==> m.1[i].1 == StrArg(t.post.title)
    ensures forall i :: 0 <= i < |m.1| && m.1[i].0 == "n" ==> m.1[i].1 == NumArg(t.nComments)
  {
    var title := ("title", StrArg(t.post.title));
    var n := ("n", NumArg(t.nComments));
    assert "n" != "title" by { assert |"n"| != |"title"|; }
    if t.isMore && t.nComments > 0 then
      assert [title, n][0].0 == "title" && [title, n][1].0 == "n";
      ("read-more-comments", [title, n])
    else if t.isMore then ("read-more", [title])
    else if t.nComments > 0 then
      assert [n][0].0 == "n";
      ("read-comments", [n])
    else ("comment-first", [])
  }

  predicate HasArg(args: seq<(string, Arg)>, name: string) {
    exists i :: 0 <= i < |args| && args[i].0 == name
  }

  /** `readmore`: the "read more" link text in the post's language, by
      whether there is more text and whether there are comments. */
  function Readmore(t: Teaser, fl: Lookup): (r: string)
    ensures var (lang, title, n) := (t.post.lang, StrArg(t.post.title), NumArg(t.nComments));
            && (t.isMore && t.nComments > 0 ==> r == fl(lang, "read-more-comments", [("title", title), ("n", n)]))
            && (t.isMore && t.nComments == 0 ==> r == fl(lang, "read-more", [("title", title)]))
            && (!t.isMore && t.nComments > 0 ==> r == fl(lang, "read-comments", [("n", n)]))
            && (!t.isMore && t.nComments == 0 ==> r == fl(lang, "comment-first", []))
  {
    var (id, args) := ReadmoreMessage(t);
    fl(t.post.lang, id, args)
  }

  /** Each of the four combinations of "more text" and "has comments" gets its
      own message. */
  lemma ReadmoreKeyDecides(a: Teaser, b: Teaser)
    requires ReadmoreMessage(a).0 == ReadmoreMessage(b).0
    ensures a.isMore == b.isMore && (a.nComments > 0 <==> b.nComments > 0)
  {
  }
}

=== FILE: wrappers.dfy ===
/** Failure-compatible wrappers shared by every module of the model: `Option`
    for the source's `Option<T>` and `Result` for its `Result<T, E>`.  Both can
    be used with `:-`. */
module Wrappers {

  datatype Option<+T> = None | Some(value: T) {

    predicate IsFailure() {
      None?
    }

    function PropagateFailure<U>(): Option<U>
      requires None?
    {
      None
    }

    function Extract(): T
      requires Some?
    {
      value
    }

    /** The value, or `default` when there is none (Rust's `unwrap_or`). */
    function GetOr(default: T): T {
      match this
      case Some(v) => v
      case None => default
    }
  }

  datatype Result<+T, +E> = Ok(value: T) | Err(error: E) {

    predicate IsFailure() {
      Err?
    }

    function PropagateFailure<U>(): Result<U, E>
      requires Err?
    {
      Err(error)
    }

    function Extract(): T
      requires Ok?
    {
      value
    }

    /** The value, dropping the error (Rust's `ok()`). */
    function ToOption(): Option<T> {
      match this
      case Ok(v) => Some(v)
      case Err(_) => None
    }
  }
}
